=== FILE: README.md ===
# Specmatic core, modelled in Dafny

Specmatic turns API specifications (OpenAPI, Gherkin-style contracts) into
executable contracts. It checks that requests, responses and stubs conform to a
contract, generates test data from it, and compares two versions of a contract
for backward compatibility. This project models the engine that does this as
pure functions over immutable data, and proves properties of it:

- **Patterns** (`patterns.dfy`, `number_patterns.dfy`, `any_patterns.dfy`, `matching.dfy`,
  `parsing.dfy`, `generation.dfy`, `new_patterns.dfy`, `encompassing.dfy`, `resolution.dfy`):
  - a `NumberPattern` with length bounds and an inclusive or exclusive minimum;
  - the `AnyPattern` union, which covers nullable types and the discriminated `oneOf`
    with its probe-based routing;
  - type-name rendering, parsing, generation, and positive and negative test-pattern
    derivation;
  - the `encompasses` subtyping rule.
- **Headers** (`headers.dfy`):
  - header uniqueness that ignores case (section 5.1 of RFC 9110);
  - Content-Type comparison on type and subtype only (section 8.3.1 of RFC 9110);
  - the SOAPAction short-circuit, failure aggregation, generation, `encompasses` and
    dynamic-header removal.
- **Scenarios** (`scenarios.dfy`):
  - fact (server state) matching and combination;
  - request, response and mock matching;
  - negative scenarios, which expect a 4xx status (section 15.5 of RFC 9110);
  - example rows and test execution.
- **Backward compatibility** (`backward_compatibility.dfy`): the decision procedure over
  the new contract's (request result, response result) candidates for each old scenario.
- **Stub-side helpers**:
  - the stateful stub cache (`stub_cache.dfy`);
  - scenario metadata filters (`metadata_filter.dfy`);
  - the overlay parser (`overlay.dfy`);
  - resolver strategies (`strategies.dfy`);
  - multipart form values (`multipart.dfy`);
  - stub-to-contract assignment with its error messages (`stub_loading.dfy`).

Supporting modules:
- `wrappers.dfy`: `Option` and `Outcome`. `Outcome` is a value or a thrown error.
- `results.dfy`: the three-way result of a check. It is a success, a failure with a breadcrumb, an optional reason tag and causes, or a thrown `Exception`.
- `values.dfy`: JSON-like values.
- `assoc.dfy`: ordered maps as association lists.
- `strings.dfy`: string helpers.
- `resolvers.dfy`: the resolver record and its cycle prevention.
- `choices.dfy`: the random source, passed in as an explicit tree of draws.
- `leaf_patterns.dfy`: stand-ins for the string, boolean and null patterns.

Wherever the source draws a random number, the model takes it from a `choices` tree. A generation step reads its own numbers from the tree's draws. The k-th value it generates in turn reads from branch k: an object's field, a header, a fact, an example row, a union's leaf, or the member a union picked. Sibling values therefore draw independently of one another and of the pick. A lemma that holds for every tree holds whatever the random source yields. Calls into code that is not part of this model are function parameters; "Left out" lists them.

## Model

| member | source | states |
|---|---|---|
| Patterns.Union | core/src/main/kotlin/io/specmatic/core/pattern/AnyPattern.kt:10-17 | a plain union holds exactly the given members and no discriminator |
| Patterns.FirstNonEmpty | core/src/main/kotlin/io/specmatic/core/pattern/AnyPattern.kt:440-450 | the position of the first member that is not a null marker, every member before it being one; none only when every member is a null marker |
| Patterns.UnionMemberName | core/src/main/kotlin/io/specmatic/core/pattern/AnyPattern.kt:311 | a member's name inside a union's name loses its delimiters, and a bare null is quoted |
| Patterns.MemberNames | core/src/main/kotlin/io/specmatic/core/pattern/AnyPattern.kt:311 | one name per member from the given position on, each the member's own name without delimiters |
| Patterns.MemberNamesOk | core/src/main/kotlin/io/specmatic/core/pattern/AnyPattern.kt:311 | the member names can be taken iff every member from that position on has a name |
| Patterns.TypeName | core/src/main/kotlin/io/specmatic/core/pattern/AnyPattern.kt:303-312 | every pattern other than a union has a name; the only error in naming is the empty-list error; a union's name is wrapped in parentheses |
| Patterns.NullableTypeName | core/src/main/kotlin/io/specmatic/core/pattern/AnyPattern.kt:303-309 | a two-member union of null and a concrete pattern is named "(T?)" after the concrete member |
| Patterns.NullableTypeNameNullLast | core/src/main/kotlin/io/specmatic/core/pattern/AnyPattern.kt:303-309 | the same holds with the null member second |
| Patterns.UnionTypeName | core/src/main/kotlin/io/specmatic/core/pattern/AnyPattern.kt:310-311 | any other union is named iff every member is named, by the members' names joined with " or " inside parentheses |
| Patterns.AllEmptyNullableTypeNameThrows | core/src/main/kotlin/io/specmatic/core/pattern/AnyPattern.kt:305-308 | naming a union whose two members are both null markers throws, as taking the first of an empty list does |
| Patterns.NullableStringName | core/src/test/kotlin/io/specmatic/core/pattern/StringMatchTest.kt:7-13 | the union of null and string is named "(string?)" |
| Patterns.DogBreedNames | core/src/test/kotlin/io/specmatic/conversions/OpenApiKtTest.kt:1399-1402 | the members of the enum of "labrador", "retriever" and null are named with quotes, null included |
| Patterns.EnumWithNullName | core/src/test/kotlin/io/specmatic/conversions/OpenApiKtTest.kt:1399-1402 | that enum is named ("labrador" or "retriever" or "null") |
| Matching.Matches | core/src/main/kotlin/io/specmatic/core/pattern/AnyPattern.kt:87-192 | a leaf pattern is matched directly; named references, objects and unions dispatch to their own rules, a union by its discriminator when it has one |
| Matching.DiscriminatedMatches | core/src/main/kotlin/io/specmatic/core/pattern/AnyPattern.kt:87-111 | a discriminated union whose pre-checks fail gives that pre-check failure |
| Matching.DiscriminatorFold | core/src/main/kotlin/io/specmatic/core/pattern/AnyPattern.kt:113-133 | the fold records one match per member after the ones before it, and once a member has been routed to, the routing stays recorded |
| Matching.Unrouted | core/src/main/kotlin/io/specmatic/core/pattern/AnyPattern.kt:118-119 | every member after the routed one is recorded with the discriminator match failure |
| Matching.FoldAfterHit | core/src/main/kotlin/io/specmatic/core/pattern/AnyPattern.kt:118-119 | once routing has happened, every remaining member is recorded as unrouted |
| Matching.FoldMissStep | core/src/main/kotlin/io/specmatic/core/pattern/AnyPattern.kt:129-132 | a member the probe misses is recorded as unrouted and the fold continues |
| Matching.FoldBeforeHit | core/src/main/kotlin/io/specmatic/core/pattern/AnyPattern.kt:115-133 | members the probe misses before the routed one are all recorded as unrouted |
| Matching.RoutedVerdict | core/src/main/kotlin/io/specmatic/core/pattern/AnyPattern.kt:143-155 | when one member is routed to, the union succeeds iff that member does, and its failure decides the union's failure and tag |
| Matching.RoutedFold | core/src/main/kotlin/io/specmatic/core/pattern/AnyPattern.kt:115-133 | the fold over a union routed to member k records the misses before it, its real match result, and unrouted failures after it |
| Matching.RoutedMemberDecides | core/src/main/kotlin/io/specmatic/core/pattern/AnyPattern.kt:87-156 | for a value that passes the pre-checks, the first member the probe hits decides the discriminated union's result: success iff that member matches, its failure otherwise |
| Matching.NoRouteIsMissingFromSpec | core/src/main/kotlin/io/specmatic/core/pattern/AnyPattern.kt:135-141 | when no member's probe hits, the union fails with "missing from the spec" |
| Matching.MemberMatches | core/src/main/kotlin/io/specmatic/core/pattern/AnyPattern.kt:158-161 | every member is matched against the value, in order, and the first error thrown stops the rest |
| Matching.PlainMatches | core/src/main/kotlin/io/specmatic/core/pattern/AnyPattern.kt:158-192 | an error in matching any member propagates; when every member matches, the union succeeds as soon as some member succeeds, and a success always comes from a member that succeeded |
| Matching.PlainUnionSucceedsIff | core/src/main/kotlin/io/specmatic/core/pattern/AnyPattern.kt:158-166 | a union without a discriminator succeeds iff one of its members does |
| Matching.NullableAcceptsNull | core/src/main/kotlin/io/specmatic/core/pattern/AnyPattern.kt:158-166 | a union of null and a leaf pattern accepts JSON null |
| Matching.NullableStringAcceptsNull | core/src/test/kotlin/io/specmatic/core/pattern/StringMatchTest.kt:7-13 | "(string?)" accepts null |
| Matching.DogBreedMembersRefuse | core/src/test/kotlin/io/specmatic/conversions/OpenApiKtTest.kt:1366-1402 | every member of the dog-breed enum refuses "malinois" with a plain mismatch |
| Matching.EnumRefusalNamesTheUnion | core/src/main/kotlin/io/specmatic/core/pattern/AnyPattern.kt:180-188 | a union with a null member, or of exact values only, whose members all refuse a value plainly reports one mismatch naming the whole union |
| Matching.NullableRefusalIsTheConcreteMembers | core/src/main/kotlin/io/specmatic/core/pattern/AnyPattern.kt:180-188 | a nullable union that every member refuses plainly reports exactly its concrete member's own failure |
| Matching.NullableNumberRefusesText | core/src/main/kotlin/io/specmatic/core/pattern/AnyPattern.kt:180-188 | "(number?)" refuses the text "abc" with the number pattern's own "number" mismatch |
| Matching.EnumMismatchNamesTheEnum | core/src/test/kotlin/io/specmatic/conversions/OpenApiKtTest.kt:1399-1402 | the dog-breed enum refuses "malinois" with one mismatch naming ("labrador" or "retriever" or "null") |
| Matching.DogBreedsAllRefuse | core/src/test/kotlin/io/specmatic/conversions/OpenApiKtTest.kt:1399-1402 | every dog-breed member refuses "malinois" plainly, and the enum has a null member |
| Matching.EmptyUnionMatchesNothing | core/src/main/kotlin/io/specmatic/core/pattern/AnyPattern.kt:180-188 | a union without members refuses every value against the name "()" |
| Parsing.Parse | core/src/main/kotlin/io/specmatic/core/pattern/AnyPattern.kt:260-277 | a leaf pattern parses text by its own rule; a union parses through ParseAny |
| Parsing.TypeNames | core/src/main/kotlin/io/specmatic/core/pattern/AnyPattern.kt:271-275 | the member names can be listed iff each member is named, in member order |
| Parsing.NoMemberParsed | core/src/main/kotlin/io/specmatic/core/pattern/AnyPattern.kt:270-276 | when no member parses the text, parsing throws a contract error that lists the members' names |
| Parsing.ParseAny | core/src/main/kotlin/io/specmatic/core/pattern/AnyPattern.kt:260-277 | a union resolves each member one hop, then gives the first parse of a non-null member before any null member, and throws when none parses |
| Parsing.FirstParse | core/src/main/kotlin/io/specmatic/core/pattern/AnyPattern.kt:264-270 | some parse is found iff some member in the order parses the text, and the one found is the first in that order |
| Parsing.ParseAnySucceedsIff | core/src/main/kotlin/io/specmatic/core/pattern/AnyPattern.kt:260-277 | a union parses text iff some resolved member does, and then the result is that of a non-null member if any non-null member parses |
| Parsing.FirstParseOverAllMembers | core/src/main/kotlin/io/specmatic/core/pattern/AnyPattern.kt:262-270 | over an order that lists every member, a parse is found iff some member parses |
| Parsing.NullableStringReadsText | core/src/test/kotlin/io/specmatic/core/pattern/StringMatchTest.kt:7-13 | "(string?)" reads any text as that string |
| Parsing.NumberOrBooleanReadsNothing | core/src/main/kotlin/io/specmatic/core/pattern/AnyPattern.kt:270-276 | a number-or-boolean union refuses text that is neither a number nor a boolean literal |
| Parsing.NumberOrBooleanNames | core/src/main/kotlin/io/specmatic/core/pattern/AnyPattern.kt:271-275 | its members are named "number" and "boolean" |
| Parsing.NumberOrBooleanRefusesText | core/src/main/kotlin/io/specmatic/core/pattern/AnyPattern.kt:270-276 | the refusal says the text should have matched one of number, boolean |
| AnyPatterns.DiscriminatorCsvClause | core/src/main/kotlin/io/specmatic/core/pattern/AnyPattern.kt:92-95 | one allowed discriminator value is shown bare; any other number of values is shown as "one of " followed by the values joined with ", " |
| AnyPatterns.DiscriminatorPrecheck | core/src/main/kotlin/io/specmatic/core/pattern/AnyPattern.kt:87-111 | a discriminated union passes its pre-checks exactly when the value is an object that carries the discriminator property with an allowed literal; otherwise it fails with a "json object" mismatch, a missing-key failure or a disallowed-value failure, in that order |
| AnyPatterns.DiscriminatorProbe | core/src/main/kotlin/io/specmatic/core/pattern/AnyPattern.kt:113-133 | the object a member is probed with holds the value's discriminator literal under the discriminator property |
| AnyPatterns.DeepFailures | core/src/main/kotlin/io/specmatic/core/pattern/AnyPattern.kt:148-155 | exactly the failures tagged as having failed after the discriminator matched are kept |
| AnyPatterns.DiscriminatorVerdict | core/src/main/kotlin/io/specmatic/core/pattern/AnyPattern.kt:135-155 | with no routed member the value is "missing from the spec"; otherwise it succeeds iff some member succeeded, and a failure lists as its causes, in order and stripped of their reasons, the deep failures when there are any and every member failure otherwise |
| AnyPatterns.NonNullCountCounts | core/src/main/kotlin/io/specmatic/core/pattern/AnyPattern.kt:398 | the count of members that are not null patterns equals the number of members left once the null patterns are filtered out |
| AnyPatterns.AddTypeInfoBreadCrumbs | core/src/main/kotlin/io/specmatic/core/pattern/AnyPattern.kt:420-438 | each member failure stays a failure at its position; it is wrapped under its member's breadcrumb only when the member has an alias and the union has more than one non-null member |
| AnyPatterns.GetResult | core/src/main/kotlin/io/specmatic/core/pattern/AnyPattern.kt:440-446 | a union that is not nullable reports every failure; a nullable one reports only its concrete member's failure, and throws when it has no concrete member |
| AnyPatterns.FailedToFindAny | core/src/main/kotlin/io/specmatic/core/pattern/AnyPattern.kt:453-459 | always a failure: one reported failure stands for itself, any other number becomes a single type mismatch naming the union |
| AnyPatterns.FirstSuccess | core/src/main/kotlin/io/specmatic/core/pattern/AnyPattern.kt:158-166 | the position of the first successful member, every earlier member having failed; none exactly when all members failed |
| AnyPatterns.ObjectMatches | core/src/main/kotlin/io/specmatic/core/pattern/AnyPattern.kt:170-173 | keeps exactly the member failures that record an object match, and is empty iff no failure records one |
| AnyPatterns.PlainVerdict | core/src/main/kotlin/io/specmatic/core/pattern/AnyPattern.kt:158-192 | a union without a discriminator succeeds iff some member succeeds; on failure it reports the object-match failures, stripped of reasons, when there are any; for an enum or a union with null, a nullable union reports its concrete member's failure (throwing when it has none) and any other union goes through FailedToFindAny naming the union; otherwise every failure under its breadcrumb; an error resolving the members propagates |
| AnyPatterns.NonNullScalars | core/src/main/kotlin/io/specmatic/core/pattern/AnyPattern.kt:350-354 | exactly the members that are scalar types other than null |
| AnyPatterns.DiscriminatorBasedPattern | core/src/main/kotlin/io/specmatic/core/pattern/AnyPattern.kt:356-366 | a found member is an object pattern whose discriminator field is pinned to the value; none is found only when no member is pinned to it or the union has no discriminator |
| AnyPatterns.NonNullFirst | core/src/main/kotlin/io/specmatic/core/pattern/AnyPattern.kt:260-262 | a permutation of the members in which no null pattern precedes a non-null one |
| AnyPatterns.NullsLastOrder | core/src/main/kotlin/io/specmatic/core/pattern/AnyPattern.kt:204-216 | an ordering that visits every member position once, with every null member after every non-null one |
| AnyPatterns.NewTypesOrExceptionIfNone | core/src/main/kotlin/io/specmatic/core/pattern/AnyPattern.kt:368-386 | throws a contract error exactly when the union has members and none produced a pattern; otherwise it gives every produced pattern and swallows the members' errors |
| AnyPatterns.OneProducerSuffices | core/src/main/kotlin/io/specmatic/core/pattern/AnyPattern.kt:368-386 | one member that produces a pattern is enough for the union not to throw, and that pattern is among the results |
| AnyPatterns.DistinctScalars | core/src/main/kotlin/io/specmatic/core/pattern/AnyPattern.kt:388-393 | de-duplication keeps every distinct pattern, never repeats a scalar or exact value, and keeps every other pattern in its order, duplicates included |
| AnyPatterns.NegativeCandidates | core/src/main/kotlin/io/specmatic/core/pattern/AnyPattern.kt:230-258 | the negatives are the members' negatives, minus the null pattern when the union itself admits null, with scalars not repeated |
| AnyPatterns.OnlyScalarsCollapse | core/src/main/kotlin/io/specmatic/core/pattern/AnyPattern.kt:388-393 | two copies of an object pattern both survive de-duplication, while two copies of the default number pattern collapse to one |
| NumberPatterns.MakeNumberPattern | core/src/main/kotlin/in/specmatic/core/pattern/NumberPattern.kt:14-25 | a number pattern can be built iff 1 <= minLength <= maxLength, and the two refusals carry the source's messages in the source's order |
| NumberPatterns.DefaultNumberPatternIsValid | core/src/main/kotlin/in/specmatic/core/pattern/NumberPattern.kt:14-25 | the defaults (length 1 to the largest 32-bit integer, no minimum) make a valid pattern |
| NumberPatterns.RenderDouble | core/src/main/kotlin/in/specmatic/core/pattern/NumberPattern.kt:43-44 | an integer below ten million in magnitude is rendered as a double with ".0" appended, as the minimum appears in messages |
| NumberPatterns.TenMillionRendering | core/src/main/kotlin/in/specmatic/core/pattern/NumberPattern.kt:43-44 | ten million switches to scientific notation, "1.0E7" |
| NumberPatterns.Matches | core/src/main/kotlin/in/specmatic/core/pattern/NumberPattern.kt:27-48 | a value matches iff it is a number whose literal length is within the bounds and which is not below the minimum (at or below it when exclusive); each refusal names the first check that failed |
| NumberPatterns.MinimumBoundary | core/src/main/kotlin/in/specmatic/core/pattern/NumberPattern.kt:37-45 | the minimum itself is accepted iff the minimum is inclusive |
| NumberPatterns.MinusSignCountsTowardsLength | core/src/main/kotlin/in/specmatic/core/pattern/NumberPattern.kt:31-35 | the length bounds count the minus sign: -5 has length 2 and 5 has length 1 |
| NumberPatterns.MatchVerdictIgnoresWording | core/src/main/kotlin/in/specmatic/core/pattern/NumberPattern.kt:27-48 | whether a value matches does not depend on the mismatch wording in use |
| NumberPatterns.Parse | core/src/main/kotlin/in/specmatic/core/pattern/NumberPattern.kt:73-75 | text parses iff its trimmed form is an integer literal as `toInt()` reads it (an optional '-' or '+' sign, then digits), and then gives that number; otherwise it throws "Expected number" quoting the text |
| NumberPatterns.PlusSignedTextParses | core/src/main/kotlin/in/specmatic/core/pattern/NumberPattern.kt:73-75 | digits with a '+' in front read as the unsigned number |
| NumberPatterns.ParseLiteral | core/src/main/kotlin/in/specmatic/core/pattern/NumberPattern.kt:73-75 | parsing a number's own literal gives the number back |
| NumberPatterns.RandomDigits | core/src/main/kotlin/in/specmatic/core/pattern/NumberPattern.kt:53-64 | the generated digit string has minLength digits (at least one) and no leading zero |
| NumberPatterns.RandomNumberAsWritten | core/src/main/kotlin/in/specmatic/core/pattern/NumberPattern.kt:53-60 | the digit string is converted to a 32-bit integer, which throws exactly when its value exceeds the largest one |
| NumberPatterns.RandomNumberAsWrittenOverflows | core/src/main/kotlin/in/specmatic/core/pattern/NumberPattern.kt:59 | any minLength of 11 or more makes the conversion throw |
| NumberPatterns.ElevenDigitGenerationThrows | core/src/main/kotlin/in/specmatic/core/pattern/NumberPattern.kt:22-60 | a pattern with minLength 11 is valid, yet generating a value for it throws |
| NumberPatterns.RandomNumber | core/src/main/kotlin/in/specmatic/core/pattern/NumberPattern.kt:53-60 | the intended generator: a positive number whose decimal text is exactly the generated digit string |
| NumberPatterns.RandomNumberAgreesBelowOverflow | core/src/main/kotlin/in/specmatic/core/pattern/NumberPattern.kt:53-60 | wherever the as-written conversion succeeds, it agrees with the intended generator |
| NumberPatterns.RandomNumberFitsLengths | core/src/main/kotlin/in/specmatic/core/pattern/NumberPattern.kt:31-60 | for a valid pattern the generated number is exactly minLength long, so it matches a pattern without minimum |
| NumberPatterns.GenerationIgnoresMinimum | core/src/main/kotlin/in/specmatic/core/pattern/NumberPattern.kt:43-60 | generation ignores the minimum: with minLength 1 and minimum 10 the generated digit never matches |
| NumberPatterns.Generate | core/src/main/kotlin/in/specmatic/core/pattern/NumberPattern.kt:50-51 | without a usable example it generates a number of exactly minLength digits (the intended generator of "## Findings"); with one, it succeeds iff the example parses and matches; for a valid pattern the value is within the length bounds and matches when there is no minimum or the example was used |
| NumberPatterns.GenerateAgreesWithSourceBelowOverflow | core/src/main/kotlin/in/specmatic/core/pattern/NumberPattern.kt:50-60 | without an example, whenever the source's 32-bit conversion of the random digits succeeds, generation gives that same number; where the conversion throws, generation still gives a value |
| NumberPatterns.NewBasedOn | core/src/main/kotlin/in/specmatic/core/pattern/NumberPattern.kt:66-67 | a number pattern's only new pattern is itself |
| NumberPatterns.NegativeBasedOn | core/src/main/kotlin/in/specmatic/core/pattern/NumberPattern.kt:69-71 | the negatives of a number are null, boolean and string, none of them a number |
| Encompassing.EncompassesSingle | core/src/main/kotlin/in/specmatic/core/pattern/NumberPattern.kt:96-134 | a pattern of the same kind is encompassed; an exact value is encompassed iff it fits this pattern; two scalars compare by matching a generated value; anything else is a mismatch |
| Encompassing.Mismatch | core/src/main/kotlin/in/specmatic/core/pattern/NumberPattern.kt:133 | the failure names both patterns and records no reason |
| Encompassing.EachEncompassed | core/src/main/kotlin/in/specmatic/core/pattern/NumberPattern.kt:112-115 | every leaf of the other union is compared, each generating from its own branch, and the comparison succeeds as a whole iff each comparison can be made |
| Encompassing.Encompasses | core/src/main/kotlin/in/specmatic/core/pattern/NumberPattern.kt:96-134 | a pattern that is not a union is compared directly; a union is compared leaf by leaf |
| Encompassing.UnionNeedsEveryLeaf | core/src/main/kotlin/in/specmatic/core/pattern/NumberPattern.kt:112-121 | a union is encompassed iff each of its leaves is, and otherwise the failures of the leaves that are not are reported |
| Encompassing.EncompassesItself | core/src/main/kotlin/in/specmatic/core/pattern/NumberPattern.kt:104 | every leaf pattern encompasses itself |
| Encompassing.NumberRefusesString | core/src/main/kotlin/in/specmatic/core/pattern/NumberPattern.kt:127-133 | a number does not encompass a string, and the failure names both |
| Encompassing.NumberRefusesNullableNumber | core/src/main/kotlin/in/specmatic/core/pattern/NumberPattern.kt:112-121 | a number does not encompass a nullable number, because the null leaf is not encompassed |
| Encompassing.NumberAndExactValues | core/src/main/kotlin/in/specmatic/core/pattern/NumberPattern.kt:105-110 | a number encompasses an exact number value and refuses an exact string value |
| Generation.TryExample | core/src/main/kotlin/io/specmatic/core/pattern/AnyPattern.kt:196 | an example is accepted by a member iff the member parses it and the parsed value matches the member |
| Generation.Attempts | core/src/main/kotlin/io/specmatic/core/pattern/AnyPattern.kt:196 | the example is tried against each member, in member order |
| Generation.FirstAccepted | core/src/main/kotlin/io/specmatic/core/pattern/AnyPattern.kt:196 | the first member that accepts the example, every earlier one having refused it; none iff all refuse |
| Generation.ResolveExample | core/src/main/kotlin/io/specmatic/core/pattern/AnyPattern.kt:196-202 | no example is used unless the resolver uses default examples and the union has one; then the first member that accepts it gives the value, and no member accepting it is a contract error |
| Generation.Generate | core/src/main/kotlin/io/specmatic/core/pattern/AnyPattern.kt:195-197 | a leaf pattern generates by its own rule; a union by GenerateAny |
| Generation.PickAndMemberDrawIndependently | core/src/main/kotlin/io/specmatic/core/pattern/AnyPattern.kt:340-345 | the random pick of a member and the chosen member's own generation read separate draws: a boolean-or-string union whose pick selects the boolean can still generate true |
| Generation.GenerateAny | core/src/main/kotlin/io/specmatic/core/pattern/AnyPattern.kt:195-197 | a union generates its resolved example when there is one, and otherwise generates from a member |
| Generation.ChosenMember | core/src/main/kotlin/io/specmatic/core/pattern/AnyPattern.kt:340 | the member generated from is one of the members; choosing throws iff the union has no members; without a discriminator match the choice is the random one |
| Generation.GenerateValue | core/src/main/kotlin/io/specmatic/core/pattern/AnyPattern.kt:334-348 | an empty union throws; a union of null and one scalar generates from the scalar; when cycle prevention refuses the chosen member a union with null gives null and any other union throws the cycle; any other non-null value is the chosen member's, generated from its own branch under the resolver that entered it |
| Generation.NullableScalarUsesScalar | core/src/main/kotlin/io/specmatic/core/pattern/AnyPattern.kt:335-338 | a union of null and one scalar generates from that scalar |
| Generation.NullableScalarValueMatches | core/src/main/kotlin/io/specmatic/core/pattern/AnyPattern.kt:335-338 | what such a union generates matches the union |
| Generation.RefusedMemberGeneratesNull | core/src/main/kotlin/io/specmatic/core/pattern/AnyPattern.kt:340-347 | when the cycle guard refuses the chosen member, a union with a null member generates null and any other union throws the cycle error |
| Generation.EmptyUnionGenerationThrows | core/src/main/kotlin/io/specmatic/core/pattern/AnyPattern.kt:340 | a union without members throws when asked to generate, as picking from an empty list does |
| Generation.ExampleIsGenerated | core/src/main/kotlin/io/specmatic/core/pattern/AnyPattern.kt:196 | when a member accepts the union's example, generation gives the value that member parsed from it |
| NewPatterns.Guarded | core/src/main/kotlin/io/specmatic/core/pattern/AnyPattern.kt:209-226 | a member's patterns pass through; a cycle in a nullable union gives no patterns; any other error is raised |
| NewPatterns.Caught | core/src/main/kotlin/io/specmatic/core/pattern/AnyPattern.kt:233-240 | a member's negatives pass through and any error it throws is caught and recorded |
| NewPatterns.NewBasedOn | core/src/main/kotlin/io/specmatic/core/pattern/AnyPattern.kt:199-219 | a number gives itself; a leaf or object gives itself; a union gives NewBasedOnAny |
| NewPatterns.NewOutcomes | core/src/main/kotlin/io/specmatic/core/pattern/AnyPattern.kt:205-216 | one outcome per member in the order given, each guarded by the cycle rule |
| NewPatterns.NewBasedOnAny | core/src/main/kotlin/io/specmatic/core/pattern/AnyPattern.kt:199-219 | a union with a usable example yields just that value as an exact pattern; an error resolving the example propagates; otherwise the only error is "Could not generate new tests", and a union without members yields nothing |
| NewPatterns.MemberNewOutcomes | core/src/main/kotlin/io/specmatic/core/pattern/AnyPattern.kt:205-216 | one outcome per member in declaration order |
| NewPatterns.NewPatternsComeFromMembers | core/src/main/kotlin/io/specmatic/core/pattern/AnyPattern.kt:199-219 | without an example, a union's new patterns are exactly its members' new patterns; it throws iff it has members and none produced a pattern, with "Could not generate new tests" |
| NewPatterns.ExampleIsTheOnlyNewPattern | core/src/main/kotlin/io/specmatic/core/pattern/AnyPattern.kt:200-202 | a union with a usable example has one new pattern, the exact value of the example |
| NewPatterns.NullableNumberNewPatterns | core/src/main/kotlin/io/specmatic/core/pattern/AnyPattern.kt:204-216 | the union of null and number gives the number first, then null |
| NewPatterns.NegativeBasedOn | core/src/main/kotlin/io/specmatic/core/pattern/AnyPattern.kt:230-258 | a number gives null, boolean and string; null, exact values and objects give none; a scalar's negatives are other scalar kinds |
| NewPatterns.NegativeBasedOnAny | core/src/main/kotlin/io/specmatic/core/pattern/AnyPattern.kt:230-258 | a union that admits null never offers null as a negative, and never repeats a scalar negative |
| NewPatterns.NegativeOutcomes | core/src/main/kotlin/io/specmatic/core/pattern/AnyPattern.kt:233-241 | every member is asked for negatives, in order, its error caught |
| NewPatterns.NegativesComeFromMembers | core/src/main/kotlin/io/specmatic/core/pattern/AnyPattern.kt:230-258 | a union's negatives are exactly its members' negatives, minus null when it admits null; it throws iff it has members and none produced anything |
| NewPatterns.NullableNumberNegatives | core/src/main/kotlin/io/specmatic/core/pattern/AnyPattern.kt:230-258 | the union of null and number has the negatives boolean and string |
| NewPatterns.NullableNumberCandidates | core/src/main/kotlin/io/specmatic/core/pattern/AnyPattern.kt:247-257 | from the number's negatives, null is dropped and the rest kept in order |
| NewPatterns.DropNullFromSubstitutes | core/src/main/kotlin/io/specmatic/core/pattern/AnyPattern.kt:247-249 | dropping null from null, boolean and string leaves boolean and string |
| NewPatterns.BooleanAndStringAreDistinct | core/src/main/kotlin/io/specmatic/core/pattern/AnyPattern.kt:253-257 | boolean and string are not collapsed into one |
| NewPatterns.NullOnlyUnionHasNoNegatives | core/src/main/kotlin/io/specmatic/core/pattern/AnyPattern.kt:243-246 | a union of null alone has no negatives and throws "Could not get negative tests" |
| Resolution.ResolvedHop | core/src/main/kotlin/io/specmatic/core/pattern/AnyPattern.kt:180-261 | a pattern that is not a named reference resolves to itself; a reference resolves to a pattern that is not a reference, and an unknown name throws |
| Resolution.SelfReferenceOverflows | core/src/main/kotlin/io/specmatic/core/pattern/AnyPattern.kt:180-261 | a name registered as a reference to itself never resolves and overflows the stack |
| Resolution.ResolvedHops | core/src/main/kotlin/io/specmatic/core/pattern/AnyPattern.kt:180-261 | every member is resolved one hop, and the whole succeeds iff each does |
| Resolution.ResolvedHopsOfResolved | core/src/main/kotlin/io/specmatic/core/pattern/AnyPattern.kt:180-261 | members that are not references resolve to themselves |
| Resolution.PatternSet | core/src/main/kotlin/io/specmatic/core/pattern/AnyPattern.kt:279-280 | the pattern set holds no unions and no references; a plain pattern's set is itself |
| Resolution.MembersPatternSet | core/src/main/kotlin/io/specmatic/core/pattern/AnyPattern.kt:279-280 | a union's pattern set contains every member's pattern set, and exists iff each member's does |
| Resolution.UnionOfLeavesPatternSet | core/src/main/kotlin/io/specmatic/core/pattern/AnyPattern.kt:279-280 | a union of leaves has its members as its pattern set |
| Resolvers.EnterPattern | core/src/main/kotlin/io/specmatic/core/pattern/AnyPattern.kt:209 | entering a pattern already on the cycle stack twice throws the cycle error; otherwise the pattern is pushed |
| Resolvers.CatchCycle | core/src/main/kotlin/io/specmatic/core/pattern/AnyPattern.kt:209-211 | a cycle error in a nullable context becomes "nothing"; other errors pass through |
| Resolvers.ThirdEntryIsCycle | core/src/main/kotlin/io/specmatic/core/pattern/AnyPattern.kt:209 | entering a pattern a third time throws "Invalid pattern cycle" |
| Headers.WithoutOptionality | core/src/main/kotlin/io/specmatic/core/HttpHeadersPattern.kt:122-128 | an optional key is the plain key with "?" appended; any other key is left alone |
| Headers.NewHeadersPattern | core/src/main/kotlin/io/specmatic/core/HttpHeadersPattern.kt:13-23 | a headers pattern can be built iff no two declared names are equal ignoring case; otherwise it throws "Headers are not unique" listing the names |
| Headers.HasCaseInsensitiveDuplicate | core/src/main/kotlin/io/specmatic/core/HttpHeadersPattern.kt:19-20 | any two different positions whose names are equal ignoring case make a duplicate, and a duplicate needs at least two names |
| Headers.MixedCaseDuplicateRefused | core/src/main/kotlin/io/specmatic/core/HttpHeadersPattern.kt:18-22 | "X-Id" and "x-id" together are refused |
| Headers.MediaType | core/src/main/kotlin/io/specmatic/core/HttpHeadersPattern.kt:167-175 | the simplified media type never keeps parameters: it is either the text itself or has no ';' |
| Headers.ParametersIgnored | core/src/main/kotlin/io/specmatic/core/HttpHeadersPattern.kt:167-175 | parameters after ';' do not change the simplified media type |
| Headers.ContentTypePattern | core/src/main/kotlin/io/specmatic/core/HttpHeadersPattern.kt:60 | the declared Content-Type pattern is the one under "Content-Type", else under "Content-Type?"; none iff neither is declared |
| Headers.MatchContentType | core/src/main/kotlin/io/specmatic/core/HttpHeadersPattern.kt:55-94 | any failure sits under the "Content-Type" breadcrumb and carries the content-type mismatch reason, either itself when there are no causes or on its single inner failure, the breadcrumb wrapper then carrying none; without a declared pattern or media type nothing is checked; with only a media type, a sent Content-Type must have the same simplified lower-cased media type |
| Headers.ContentTypeDecidesFirst | core/src/main/kotlin/io/specmatic/core/HttpHeadersPattern.kt:97-101 | a content-type mismatch is the only failure reported, before any other header is looked at |
| Headers.ParametersAndCaseDoNotMatter | core/src/main/kotlin/io/specmatic/core/HttpHeadersPattern.kt:78-90 | a sent Content-Type that differs from the declared one only in case and parameters matches |
| Headers.RelevantHeaders | core/src/main/kotlin/io/specmatic/core/HttpHeadersPattern.kt:103-106 | only sent headers are kept; without ancestor headers, everything but an undeclared Content-Type is kept |
| Headers.LowerKeys | core/src/main/kotlin/io/specmatic/core/HttpHeadersPattern.kt:187 | each name lower-cased, in order |
| Headers.WithoutIgnorableHeaders | core/src/main/kotlin/io/specmatic/core/HttpHeadersPattern.kt:183-193 | keeps exactly the sent headers whose lower-cased name, without "?", the ancestor headers declare, with or without "?" |
| Headers.WithoutUndeclaredContentType | core/src/main/kotlin/io/specmatic/core/HttpHeadersPattern.kt:195-207 | drops the sent Content-Type exactly when the pattern declares neither Content-Type nor Content-Type? |
| Headers.UndeclaredContentTypeIgnored | core/src/main/kotlin/io/specmatic/core/HttpHeadersPattern.kt:195-207 | an undeclared Content-Type is dropped and every other sent header is kept |
| Headers.MissingKeys | core/src/main/kotlin/io/specmatic/core/HttpHeadersPattern.kt:108-112 | exactly the required declared names that no sent header carries, ignoring case |
| Headers.MissingHeaderFailure | core/src/main/kotlin/io/specmatic/core/HttpHeadersPattern.kt:121-123 | a missing header fails under its own name with the "header … missing" message |
| Headers.SOAPActionMissing | core/src/main/kotlin/io/specmatic/core/HttpHeadersPattern.kt:114-119 | a missing SOAPAction fails alone under "SOAPAction", tagged as a SOAPAction mismatch |
| Headers.LastValueIgnoringCase | core/src/main/kotlin/io/specmatic/core/HttpHeadersPattern.kt:125-129 | a value is found iff some sent name equals the lower-cased key ignoring case, and it is one such header's value |
| Headers.HighlightReason | core/src/main/kotlin/io/specmatic/core/HttpHeadersPattern.kt:177-181 | the SOAPAction tag is set iff the key without "?" is SOAPAction |
| Headers.SetReason | core/src/main/kotlin/io/specmatic/core/HttpHeadersPattern.kt:145 | a success stays a success; a failure keeps everything but its reason, which is replaced |
| Headers.HeaderValueResult | core/src/main/kotlin/io/specmatic/core/HttpHeadersPattern.kt:131-152 | any failure of a header's value carries the SOAPAction tag exactly when the header is SOAPAction |
| Headers.ValueResults | core/src/main/kotlin/io/specmatic/core/HttpHeadersPattern.kt:127-157 | one result at most per declared header, only for headers that were sent |
| Headers.MatchEach | core/src/main/kotlin/io/specmatic/core/HttpHeadersPattern.kt:97-165 | a content-type error or mismatch decides first; then a missing SOAPAction alone; otherwise the headers succeed iff no required header is missing and every sent declared value matches |
| Headers.Matches | core/src/main/kotlin/io/specmatic/core/HttpHeadersPattern.kt:31-41 | the verdict is that of MatchEach, and a failure wraps it under "HEADERS" |
| Headers.HeaderValues | core/src/main/kotlin/io/specmatic/core/HttpHeadersPattern.kt:210-215 | every declared header's literal, each generated from its own branch, in declaration order; it fails iff some header fails, with the first failing header's error |
| Headers.GenerateEach | core/src/main/kotlin/io/specmatic/core/HttpHeadersPattern.kt:209-216 | the generated headers carry exactly the declared names, without "?", and generation succeeds iff every header's value does |
| Headers.HeaderValuesFromBranches | core/src/main/kotlin/io/specmatic/core/HttpHeadersPattern.kt:209-216 | the value generated under a name is the literal generated for that name's last declaration, from that declaration's own branch |
| Headers.SiblingHeadersDrawIndependently | core/src/main/kotlin/io/specmatic/core/HttpHeadersPattern.kt:210-215 | two boolean headers draw independently: one source gives A "true" and B "false" |
| Headers.WithMediaType | core/src/main/kotlin/io/specmatic/core/HttpHeadersPattern.kt:238-242 | a non-blank media type becomes the Content-Type and changes no other header; a blank one changes nothing |
| Headers.ContentTypeIsConst | core/src/main/kotlin/io/specmatic/core/HttpHeadersPattern.kt:229-236 | without a declared Content-Type pattern the generated Content-Type is never taken as constant |
| Headers.Generate | core/src/main/kotlin/io/specmatic/core/HttpHeadersPattern.kt:209-227 | every header other than Content-Type is the one generated from its declaration; without a media type the generated headers stand; with a non-blank one and no generated Content-Type, the media type becomes the Content-Type |
| Headers.GeneratedNames | core/src/main/kotlin/io/specmatic/core/HttpHeadersPattern.kt:209-227 | every generated name other than Content-Type is declared, and every declared one is generated |
| Headers.RequiredKeys | core/src/main/kotlin/io/specmatic/core/HttpHeadersPattern.kt:350-351 | exactly the declared names without "?" |
| Headers.CheckAllMissingHeaders | core/src/main/kotlin/io/specmatic/core/HttpHeadersPattern.kt:373-384 | success iff every header this pattern requires is required by the other; otherwise one missing-header failure per such header |
| Headers.MissingFailures | core/src/main/kotlin/io/specmatic/core/HttpHeadersPattern.kt:378-381 | one missing-header failure per required header the other does not require, and none iff there is no such header |
| Headers.KeysWithoutOptionality | core/src/main/kotlin/io/specmatic/core/HttpHeadersPattern.kt:355 | the names without "?" are exactly the declared names |
| Headers.SharedValueResults | core/src/main/kotlin/io/specmatic/core/HttpHeadersPattern.kt:359-366 | one comparison per shared header, each under the header's name |
| Headers.ValueComparisons | core/src/main/kotlin/io/specmatic/core/HttpHeadersPattern.kt:356-366 | one comparison per header both patterns declare |
| Headers.SharedHeaders | core/src/main/kotlin/io/specmatic/core/HttpHeadersPattern.kt:356-357 | exactly the headers both patterns declare, ignoring "?" |
| Headers.Encompasses | core/src/main/kotlin/io/specmatic/core/HttpHeadersPattern.kt:349-371 | success iff every required header stays required and every shared header's value is encompassed; a failure sits under "HEADER" |
| Headers.RequiredHeaderMustStayRequired | core/src/main/kotlin/io/specmatic/core/HttpHeadersPattern.kt:350-353 | a header this pattern requires that the other does not declare fails the comparison |
| Headers.UnsharedHeadersNotCompared | core/src/main/kotlin/io/specmatic/core/HttpHeadersPattern.kt:355-368 | with no shared header only the required-header check counts |
| Headers.WithoutDynamicHeaders | core/src/main/kotlin/io/specmatic/core/HttpHeadersPattern.kt:470-471 | keeps exactly the headers whose name, ignoring case, is not a dynamic header |
| Headers.DynamicIgnoresCase | core/src/main/kotlin/io/specmatic/core/HttpHeadersPattern.kt:470-471 | being dynamic does not depend on the name's case |
| Headers.IsDynamic | core/src/main/kotlin/io/specmatic/core/HttpHeadersPattern.kt:470-496 | a dynamic name has the length of one of the listed dynamic headers, since only case is ignored |
| Headers.AuthorizationIsDynamic | core/src/main/kotlin/io/specmatic/core/HttpHeadersPattern.kt:473-496 | "AUTHORIZATION" is dynamic and "X-Request-Id" is not |
| Scenarios.ScenarioResolver | core/src/main/kotlin/in/specmatic/core/Scenario.kt:84 | the resolver for matching holds the scenario's patterns, the server state as facts and the chosen wording, outside mock mode |
| Scenarios.ReadsAndMatches | core/src/main/kotlin/in/specmatic/core/Scenario.kt:64-70 | true iff the pattern reads the actual value's literal and the value read matches; an error while reading or matching is reported as such |
| Scenarios.FactMatches | core/src/main/kotlin/in/specmatic/core/Scenario.kt:61-76 | true on either side is a wildcard; a plain expected value must have the same literal as the actual one; a type token must read and match the actual value, only an unknown type or a stack overflow being an error |
| Scenarios.AllFactsMatch | core/src/main/kotlin/in/specmatic/core/Scenario.kt:60-77 | every expected fact matches its actual counterpart |
| Scenarios.ServerStateMatches | core/src/main/kotlin/in/specmatic/core/Scenario.kt:58-77 | the states match iff they have the same fact names and every fact matches; different names never match |
| Scenarios.TrueMatchesAnyFact | core/src/main/kotlin/in/specmatic/core/Scenario.kt:62 | an actual state of all-true facts with the expected names matches whatever is expected |
| Scenarios.DifferentFactNamesNeverMatch | core/src/main/kotlin/in/specmatic/core/Scenario.kt:59 | an actual fact the scenario does not expect makes the states differ |
| Scenarios.MatchesRequest | core/src/main/kotlin/in/specmatic/core/Scenario.kt:99-111 | a facts mismatch fails under "FACTS" without looking at the request; otherwise the request's verdict is the scenario's, tied to the scenario |
| Scenarios.FactsMismatchSkipsRequest | core/src/main/kotlin/in/specmatic/core/Scenario.kt:105-107 | with mismatched facts the request result makes no difference |
| Scenarios.MatchesResponse | core/src/main/kotlin/in/specmatic/core/Scenario.kt:174-189 | a negative scenario accepts exactly 4xx statuses, failing under RESPONSE.STATUS otherwise; a positive one takes the response pattern's verdict, and an exception becomes an "Exception:" failure |
| Scenarios.NegativeScenarioIgnoresBody | core/src/main/kotlin/in/specmatic/core/Scenario.kt:177-182 | a negative scenario's verdict does not depend on the response pattern's result |
| Scenarios.KeepsFact | core/src/main/kotlin/in/specmatic/core/Scenario.kt:129-143 | a name missing on either side throws, as getValue does; equal values keep the fact; a differing plain value drops it |
| Scenarios.CombineFrom | core/src/main/kotlin/in/specmatic/core/Scenario.kt:129-147 | keeps exactly the names whose fact is kept, each with the actual value; an error for any name is an error for the whole |
| Scenarios.CombineFacts | core/src/main/kotlin/in/specmatic/core/Scenario.kt:122-150 | combining succeeds only when both sides have the same names; the result holds exactly the kept facts, with the actual values |
| Scenarios.AgreedFactKept | core/src/main/kotlin/in/specmatic/core/Scenario.kt:136 | a fact with the same value on both sides is kept with that value |
| Scenarios.DifferingLiteralDropped | core/src/main/kotlin/in/specmatic/core/Scenario.kt:133-142 | a fact whose plain expected value differs from the actual one is dropped |
| Scenarios.FlattenRows | core/src/main/kotlin/in/specmatic/core/Scenario.kt:313-317 | as many rows as the examples hold together; a row is in the result iff it is a row of one of the examples with the given variables |
| Scenarios.FlattenRowsInOrder | core/src/main/kotlin/in/specmatic/core/Scenario.kt:313-317 | row j of example i sits at the count of the earlier examples' rows plus j: the rows keep the examples' order and their own |
| Scenarios.ExampleRows | core/src/main/kotlin/in/specmatic/core/Scenario.kt:310-317 | without examples there is one empty row; otherwise a row is in the result iff it is an example row carrying the variables |
| Scenarios.FactFor | core/src/main/kotlin/in/specmatic/core/Scenario.kt:486-499 | a fact named by the row takes a fixture when the row's value names one; when the row's value is a pattern token it is a value generated from that registered pattern, or a "Type … does not exist" contract error when none is registered; otherwise the row's text; an unnamed fact that is a token is generated the same way, and an unnamed plain fact keeps its value |
| Scenarios.NewExpectedServerState | core/src/main/kotlin/in/specmatic/core/Scenario.kt:479-501 | one new fact per expected fact, in order, each generated from its own branch; any failure becomes "Scenario fact generation failed" |
| Scenarios.EmptyRowKeepsFacts | core/src/main/kotlin/in/specmatic/core/Scenario.kt:498 | an empty row leaves plain facts unchanged |
| Scenarios.NewBasedOnRow | core/src/main/kotlin/in/specmatic/core/Scenario.kt:211-239 | one scenario per request pattern derived from the row (negative variants for a negative scenario), each identical to the original but for its request pattern and its facts, which are the row's expected server state; a fact error becomes the fact-generation failure and a request error propagates |
| Scenarios.NewBasedOnRows | core/src/main/kotlin/in/specmatic/core/Scenario.kt:318-320 | succeeds iff every row expands from its own branch, throwing the first failing row's error; a scenario is in the result iff it is in the expansion of some row |
| Scenarios.GenerateTestScenarios | core/src/main/kotlin/in/specmatic/core/Scenario.kt:302-322 | without examples one empty row is expanded; with examples it succeeds iff every example row expands from the branch at its place among all the rows, an error being some row's error, and a scenario is in the result iff it is in the expansion of some example row; every derived scenario keeps the name, response pattern and negativity |
| Scenarios.ExpansionOfExampleRows | core/src/main/kotlin/in/specmatic/core/Scenario.kt:310-320 | expanding the flattened example rows succeeds iff every example row expands, and yields exactly the scenarios of those rows' expansions |
| Scenarios.MatchesMock | core/src/main/kotlin/in/specmatic/core/Scenario.kt:377-415 | a failing request with the wrong status is reported alone, tagged as such; otherwise request and response errors propagate and the stub matches iff both match |
| Scenarios.NegativeBasedOn | core/src/main/kotlin/in/specmatic/core/Scenario.kt:463-476 | the negative scenario is the same scenario, negative, named "-ve: " followed by the original name |
| Scenarios.FindByName | core/src/main/kotlin/in/specmatic/core/Scenario.kt:460 | the first suggestion with the scenario's name, none iff no suggestion has it |
| Scenarios.NewBasedOnSuggestions | core/src/main/kotlin/in/specmatic/core/Scenario.kt:443-460 | the examples are taken from the suggestion of the same name and every other field the model carries is kept; nothing changes without a suggestion |
| Scenarios.ExecuteTest | core/src/main/kotlin/in/specmatic/core/Scenario.kt:519-537 | a request error propagates; a calling error fails with the text `exceptionCauseMessage` gives it, tied to the scenario; a "failure" result header fails with the body; otherwise the response is matched |
| BackwardCompatibility.RequestCandidates | core/src/main/kotlin/io/specmatic/core/TestBackwardCompatibility.kt:26-30 | the kept candidates are exactly the new contract's lookup pairs, each result tied to its own scenario, minus those whose result is a fluffy failure; no more candidates than pairs |
| BackwardCompatibility.ResponseCandidates | core/src/main/kotlin/io/specmatic/core/TestBackwardCompatibility.kt:31-45 | the walk succeeds exactly when every candidate's response check succeeds; its pairs are then exactly the candidates' request results paired with their scenario-tagged response results, with fluffy response results dropped |
| BackwardCompatibility.PairFailures | core/src/main/kotlin/io/specmatic/core/TestBackwardCompatibility.kt:51-55 | a result is reported exactly when it is a failure and is the request or the response half of some pair |
| BackwardCompatibility.Decide | core/src/main/kotlin/io/specmatic/core/TestBackwardCompatibility.kt:47-55 | no pair gives the single failure "This API exists in the old contract but not in the new contract" tagged with the old scenario; a pair whose request and response both succeed gives exactly [Success]; otherwise the pairs' failures |
| BackwardCompatibility.EmptyContractMessage | core/src/main/kotlin/io/specmatic/core/TestBackwardCompatibility.kt:56-58 | the message names the new contract's path when it has one and omits " at …" when the path is empty |
| BackwardCompatibility.ErrorFailure | core/src/main/kotlin/io/specmatic/core/TestBackwardCompatibility.kt:56-66 | every error becomes a causeless failure: an empty contract gives the path message, a contract exception its own failure, a stack overflow the recursion message, any other throwable "Exception: " followed by its message |
| Results.ExceptionMessage | core/src/main/kotlin/io/specmatic/core/TestBackwardCompatibility.kt:64-65 | a contract error reports its own message, a missing element its message, and a stack overflow, which carries no message, the text "null" |
| BackwardCompatibility.TestScenario | core/src/main/kotlin/io/specmatic/core/TestBackwardCompatibility.kt:15-67 | checking one old scenario always yields at least one result; an error in request generation, in the lookup of candidate scenarios or in a response check yields exactly the one error failure; otherwise the verdict over the surviving candidates |
| BackwardCompatibility.SuccessOrOnlyFailures | core/src/main/kotlin/io/specmatic/core/TestBackwardCompatibility.kt:47-66 | one old scenario's verdict is either exactly [Success] or consists of failures only, never a mixture |
| BackwardCompatibility.FluffyRequestFailureIgnored | core/src/main/kotlin/io/specmatic/core/TestBackwardCompatibility.kt:29-30 | adding a lookup pair whose request result is a fluffy failure leaves the candidates unchanged |
| BackwardCompatibility.Distinct | core/src/main/kotlin/io/specmatic/core/TestBackwardCompatibility.kt:12 | de-duplication keeps exactly the results present and no result twice |
| BackwardCompatibility.ResultsFrom | core/src/main/kotlin/io/specmatic/core/TestBackwardCompatibility.kt:9-11 | the fold from position i collects exactly the results of the non-ignored old scenarios from i on |
| BackwardCompatibility.TestContracts | core/src/main/kotlin/io/specmatic/core/TestBackwardCompatibility.kt:8-13 | the comparison of two contracts reports exactly the results of checking each old scenario whose failures are not ignored, with no result repeated |
| BackwardCompatibility.IgnoredScenarioNeverChecked | core/src/main/kotlin/io/specmatic/core/TestBackwardCompatibility.kt:9 | appending an old scenario marked ignoreFailure changes no reported result |
| Results.NullOrValue | core/src/main/kotlin/io/specmatic/core/TestBackwardCompatibility.kt:74-79 | the old value is described as "nullable" exactly when it is JSON null, as "null" when absent, and otherwise by its type name |
| Results.ValueMismatchFailure | core/src/main/kotlin/io/specmatic/core/TestBackwardCompatibility.kt:70-83 | for the old/new request wording the failure reads "This is <expected> in the new contract, <actual> in the old contract" with the old value described by NullOrValue; other wordings describe the value itself |
| StubCaches.IdValueFor | core/src/main/kotlin/io/specmatic/stub/stateful/StubCache.kt:140-142 | the id is the string literal of what the dot-separated key path reaches in the body, or empty when it reaches nothing; a key without dots reads the top-level member |
| StubCaches.FindIndexFrom | core/src/main/kotlin/io/specmatic/stub/stateful/StubCache.kt:90-96 | the position found from i is the first entry at or after i filed under the path with the id; none is found exactly when no such entry exists |
| StubCaches.FindIndex | core/src/main/kotlin/io/specmatic/stub/stateful/StubCache.kt:90-96 | the position found is the first entry filed under the path with the id; none exactly when no entry matches |
| StubCaches.FindResponseFor | core/src/main/kotlin/io/specmatic/stub/stateful/StubCache.kt:90-96 | a response is found exactly when some entry has the path and id, and it is the first such entry of the cache |
| StubCaches.AddResponse | core/src/main/kotlin/io/specmatic/stub/stateful/StubCache.kt:31-43 | adding leaves the cache unchanged when an entry with the path and id exists and otherwise appends the new entry at the end |
| StubCaches.RemoveFirst | core/src/main/kotlin/io/specmatic/stub/stateful/StubCache.kt:117 | removal deletes only the first occurrence of the entry, one shorter, and leaves a cache without it unchanged |
| StubCaches.DeleteResponse | core/src/main/kotlin/io/specmatic/stub/stateful/StubCache.kt:113-118 | deleting removes exactly the entry the lookup finds and keeps every other entry in order; with no such entry the cache is unchanged |
| StubCaches.UpdateResponse | core/src/main/kotlin/io/specmatic/stub/stateful/StubCache.kt:75-88 | updating grows the cache by at most one and introduces no entry other than the new one |
| StubCaches.AddKeepsIdsUnique | core/src/main/kotlin/io/specmatic/stub/stateful/StubCache.kt:31-43 | if no two entries of one path share an id, adding a body that carries its id keeps it so |
| StubCaches.AddThenFind | core/src/main/kotlin/io/specmatic/stub/stateful/StubCache.kt:31-96 | after adding, a lookup of the path and id succeeds: it returns the new entry if there was none and the old entry otherwise |
| StubCaches.AddIsIdempotent | core/src/main/kotlin/io/specmatic/stub/stateful/StubCache.kt:31-43 | adding the same response twice is the same as adding it once |
| StubCaches.DeleteRemovesTheEntry | core/src/main/kotlin/io/specmatic/stub/stateful/StubCache.kt:113-118 | with unique ids, after a delete the path and id are no longer found and ids stay unique |
| StubCaches.DeleteKeepsOthers | core/src/main/kotlin/io/specmatic/stub/stateful/StubCache.kt:113-118 | an entry not filed under the deleted path and id is in the cache after the delete exactly when it was before |
| StubCaches.UpdateReplaces | core/src/main/kotlin/io/specmatic/stub/stateful/StubCache.kt:75-88 | with unique ids, after an update the lookup returns the new body, ids stay unique and every unrelated entry is kept exactly |
| StubCaches.SatisfiesFilter | core/src/main/kotlin/io/specmatic/stub/stateful/StubCache.kt:120-129 | a body passes exactly when every filter key it has holds a value whose text equals the filter's; absent keys are ignored and the empty filter passes all |
| StubCaches.AbsentFilterKeyIgnored | core/src/main/kotlin/io/specmatic/stub/stateful/StubCache.kt:124 | a filter entry on a key the body lacks never changes the verdict |
| StubCaches.PresentFilterKeyMustMatch | core/src/main/kotlin/io/specmatic/stub/stateful/StubCache.kt:125-127 | a filter entry on a key the body has passes exactly when the value's text equals the filter's |
| StubCaches.ResponseBodies | core/src/main/kotlin/io/specmatic/stub/stateful/StubCache.kt:98-111 | the listed bodies are exactly the selected bodies of entries under the path that pass the filter, no more than the cache holds |
| StubCaches.ListingKeepsInsertionOrder | core/src/main/kotlin/io/specmatic/stub/stateful/StubCache.kt:98-111 | an appended entry, if listed, is listed after every earlier entry's body |
| StubCaches.FindAllResponsesFor | core/src/main/kotlin/io/specmatic/stub/stateful/StubCache.kt:98-111 | the answer is a JSON array holding exactly the bodies under the path that pass the filter, each cut down to the selected attributes |
| StubCaches.HeadersList | core/src/main/kotlin/io/specmatic/stub/stateful/StubCache.kt:131-133 | each header becomes, in order, an object with its name under "name" and its value under "value" |
| StubCaches.AcceptedRecord | core/src/main/kotlin/io/specmatic/stub/stateful/StubCache.kt:53-67 | the record holds, in this order, the response id found under "id" (empty text when absent), the request body, the response body, the parsed status code, the method and both header lists |
| StubCaches.AddAcceptedResponse | core/src/main/kotlin/io/specmatic/stub/stateful/StubCache.kt:45-73 | a request body that is not a JSON object throws; otherwise the record is added under the path and id like any other response |
| StubCaches.AcceptedRecordKeepsId | core/src/main/kotlin/io/specmatic/stub/stateful/StubCache.kt:55 | the record is found under the same id as the response it was made from |
| MetadataFilters.StrictAndLenientContains | core/src/main/kotlin/io/specmatic/core/filters/ScenarioMetadataFilter.kt:31-34 | strict and lenient membership agree on a non-empty set, where both mean plain membership; on the empty set strict refuses and lenient admits |
| MetadataFilters.IsSatisfiedByAll | core/src/main/kotlin/io/specmatic/core/filters/ScenarioMetadataFilter.kt:11-19 | admitted exactly when the method, the path and the status code text are each in their set or the set is empty, the example name is not blank and is in its set or that set is empty, and some header and some query parameter are in their sets unless those are empty |
| MetadataFilters.IsSatisfiedByAtLeastOne | core/src/main/kotlin/io/specmatic/core/filters/ScenarioMetadataFilter.kt:21-29 | admitted exactly when the method, the path, the status code text or the non-blank example name is in its set, or some header or query parameter is in its set |
| MetadataFilters.AllImpliesAtLeastOne | core/src/main/kotlin/io/specmatic/core/filters/ScenarioMetadataFilter.kt:11-29 | a filter with some criterion set that admits a scenario under the all-criteria rule admits it under the any-criterion rule too |
| MetadataFilters.AllEmptyFilter | core/src/main/kotlin/io/specmatic/core/filters/ScenarioMetadataFilter.kt:3-29 | the filter with every set empty admits by all exactly the scenarios with a non-blank example name, and admits none by at least one |
| MetadataFilters.MethodsOnly | core/src/main/kotlin/io/specmatic/core/filters/ScenarioMetadataFilter.kt:11-29 | a filter on methods alone admits by at least one exactly the listed methods, and by all the listed methods that have a named example |
| MetadataFilters.TrimAll | core/src/main/kotlin/io/specmatic/core/filters/ScenarioMetadataFilter.kt:62-64 | every item is trimmed, position by position |
| MetadataFilters.ClauseValues | core/src/main/kotlin/io/specmatic/core/filters/ScenarioMetadataFilter.kt:55-59 | a clause that does not split on '=' into two parts, or whose key is not the tag, gives no values |
| MetadataFilters.FiltersWithTag | core/src/main/kotlin/io/specmatic/core/filters/ScenarioMetadataFilter.kt:54-66 | a value is in the tag's set exactly when some clause gives it to that tag |
| MetadataFilters.From | core/src/main/kotlin/io/specmatic/core/filters/ScenarioMetadataFilter.kt:39-52 | each criterion of the parsed filter is the set its tag collects from the text's ';'-separated clauses |
| MetadataFilters.ClausesUnion | core/src/main/kotlin/io/specmatic/core/filters/ScenarioMetadataFilter.kt:54-66 | the values from two runs of clauses are the union of each run's values |
| MetadataFilters.MalformedClauseIgnored | core/src/main/kotlin/io/specmatic/core/filters/ScenarioMetadataFilter.kt:57 | a clause without exactly one '=' adds nothing to any criterion |
| MetadataFilters.ValuesAreTrimmed | core/src/main/kotlin/io/specmatic/core/filters/ScenarioMetadataFilter.kt:62-64 | no value read starts or ends with whitespace |
| MetadataFilters.EmptyTextIsAllEmpty | core/src/main/kotlin/io/specmatic/core/filters/ScenarioMetadataFilter.kt:39-52 | the empty text reads as the filter with every criterion empty |
| MetadataFilters.SingleClause | core/src/main/kotlin/io/specmatic/core/filters/ScenarioMetadataFilter.kt:39-66 | one clause "TAG=v1,v2" gives that tag the trimmed comma-separated items and every other tag nothing |
| Overlays.Actions | core/src/main/kotlin/io/specmatic/core/overlay/OverlayParser.kt:60-65 | a decoding error propagates and a document that is not a map throws; a map without an "actions" list gives no actions |
| Overlays.ActionFields | core/src/main/kotlin/io/specmatic/core/overlay/OverlayParser.kt:25-46 | an action is read exactly when it is a map, and then its fields are the map's entries |
| Overlays.TargetOf | core/src/main/kotlin/io/specmatic/core/overlay/OverlayParser.kt:26-47 | an action has a target exactly when its "target" entry is a string |
| Overlays.UpdatesFrom | core/src/main/kotlin/io/specmatic/core/overlay/OverlayParser.kt:25-33 | the fold over the actions succeeds exactly when every action is a map |
| Overlays.UpdateStepEffect | core/src/main/kotlin/io/specmatic/core/overlay/OverlayParser.kt:26-32 | one action appends its update to its target's list and adds the target key only when it contributes an update |
| Overlays.UpdatesFromUnfold | core/src/main/kotlin/io/specmatic/core/overlay/OverlayParser.kt:25-33 | over actions that are all maps, the fold is one step on the first action followed by the fold of the rest |
| Overlays.UpdatesFromCollects | core/src/main/kotlin/io/specmatic/core/overlay/OverlayParser.kt:21-35 | over actions that are all maps, each target's list is the earlier list followed by the updates of the actions aimed at it, in order |
| Overlays.UpdatesFromKeys | core/src/main/kotlin/io/specmatic/core/overlay/OverlayParser.kt:29-31 | over actions that are all maps, a target is a key of the update map exactly when it was already or some action gives it an update |
| Overlays.ParseAndReturnUpdateMap | core/src/main/kotlin/io/specmatic/core/overlay/OverlayParser.kt:36-39 | when the actions cannot be read the update map is empty |
| Overlays.RemovalsFrom | core/src/main/kotlin/io/specmatic/core/overlay/OverlayParser.kt:46-51 | the removal fold succeeds exactly when every action is a map |
| Overlays.RemovalsFromSnoc | core/src/main/kotlin/io/specmatic/core/overlay/OverlayParser.kt:46-51 | folding one more map sets its target, if any, to its remove flag and changes nothing else |
| Overlays.RemovalsFromKeepsLast | core/src/main/kotlin/io/specmatic/core/overlay/OverlayParser.kt:42-53 | over actions that are all maps, each target's removal flag is the one of the LAST action aimed at it, a missing or non-boolean "remove" reading as false |
| Overlays.ParseAndReturnRemovalMap | core/src/main/kotlin/io/specmatic/core/overlay/OverlayParser.kt:54-57 | when the actions cannot be read the removal map is empty |
| Overlays.Parse | core/src/main/kotlin/io/specmatic/core/overlay/OverlayParser.kt:10-19 | blank text gives the empty overlay; otherwise the overlay's two maps are those the two readings give |
| Overlays.OverlayOfWellFormedActions | core/src/main/kotlin/io/specmatic/core/overlay/OverlayParser.kt:10-58 | for well-formed actions, each target's updates are exactly its actions' updates in order, it is a key exactly when it has one, and its removal flag is the last one given |
| Overlays.MalformedActionEmptiesBothMaps | core/src/main/kotlin/io/specmatic/core/overlay/OverlayParser.kt:36-57 | unreadable actions or any action that is not a map empty both maps |
| Overlays.UntargetedActionIgnored | core/src/main/kotlin/io/specmatic/core/overlay/OverlayParser.kt:29-50 | an action without a string target adds no update and changes no removal flag |
| Overlays.UpdatesForSnoc | core/src/main/kotlin/io/specmatic/core/overlay/OverlayParser.kt:25-33 | the updates an extra action gives a target follow all the earlier ones |
| Strategies.Update | core/src/main/kotlin/in/specmatic/core/ResolverStrategies.kt:10-22 | without an unexpected-key check the resolver takes the example and generation strategies; with one, the copy is taken from the original resolver, so only its unexpected-key check changes |
| Strategies.StrategiesFromFlags | core/src/main/kotlin/in/specmatic/core/ResolverStrategies.kt:25-29 | each flag selects its own strategy independently of the other two |
| Strategies.FlagsOffAreDefault | core/src/main/kotlin/in/specmatic/core/ResolverStrategies.kt:25-35 | with every flag off the flags give exactly the default strategies |
| Strategies.DefaultUpdateKeepsKeyCheck | core/src/main/kotlin/in/specmatic/core/ResolverStrategies.kt:10-35 | the default strategies reset the example and generation strategies and keep the key check |
| Strategies.ExtendableSchemaDropsOtherFlags | core/src/main/kotlin/in/specmatic/core/ResolverStrategies.kt:15-18 | with the extendable-schema flag on, the example and generation flags have no effect on the updated resolver |
| Strategies.GenerativeFlagLostWithExtendableSchema | core/src/main/kotlin/in/specmatic/core/ResolverStrategies.kt:15-18 | with the generative and extendable-schema flags on, a non-generative resolver stays non-generative although the strategies ask for generative tests |
| MultiPart.ContentPart | core/src/main/kotlin/run/qontract/core/MultiPartFormDataValue.kt:27 | a content part keeps its name and content and takes the default boundary |
| MultiPart.FilePart | core/src/main/kotlin/run/qontract/core/MultiPartFormDataValue.kt:65 | a file part keeps its name and file name, takes the default boundary and has no content type, encoding or content |
| MultiPart.StrippedFilename | core/src/main/kotlin/run/qontract/core/MultiPartFormDataValue.kt:67-85 | a leading "@" is removed and any other file name is kept as is |
| MultiPart.ToJSONObject | core/src/main/kotlin/run/qontract/core/MultiPartFormDataValue.kt:40-100 | a content part gives exactly the name, content and content-type entries; a file part gives its name, its file name behind "@", and a content type and an encoding exactly when it has them |
| MultiPart.FileJsonLookups | core/src/main/kotlin/run/qontract/core/MultiPartFormDataValue.kt:89-100 | the file part's JSON object answers each lookup with the value put in, and holds the optional keys exactly when given |
| MultiPart.FileHeaders | core/src/main/kotlin/run/qontract/core/MultiPartFormDataValue.kt:71-75 | the displayed headers of a file part start with the Content-Disposition line, hold no blank value, and show a Content-Type exactly when the part has a non-blank one |
| MultiPart.NonBlank | core/src/main/kotlin/run/qontract/core/MultiPartFormDataValue.kt:75 | the kept headers are exactly those whose value is not blank, the first kept first when it is not blank |
| MultiPart.ToDisplayableValue | core/src/main/kotlin/run/qontract/core/MultiPartFormDataValue.kt:32-87 | the display text starts with the boundary line, and a file part shows its headers and the note in place of its content |
| MultiPart.DisplayStripsAt | core/src/main/kotlin/run/qontract/core/MultiPartFormDataValue.kt:72-85 | the Content-Disposition header names the file with its "@" while the note names it without |
| MultiPart.Plus | core/src/main/kotlin/run/qontract/core/MultiPartFormDataValue.kt:61 | merged example declarations hold the keys of both, the second's values winning, and both message lists in order |
| MultiPart.NullableText | core/src/main/kotlin/run/qontract/core/MultiPartFormDataValue.kt:126 | an absent value is written as "null" |
| MultiPart.ToClauseData | core/src/main/kotlin/run/qontract/core/MultiPartFormDataValue.kt:50-131 | one "request-part <name> …" clause is appended to the clauses in the When section; a file part keeps the types and examples, a content part takes its declaration's types and merges its examples |
| MultiPart.FileClauseText | core/src/main/kotlin/run/qontract/core/MultiPartFormDataValue.kt:120-126 | the file clause starts with "request-part <name> " and, without a content type, ends in " null null" |
| MultiPart.NullTypeClause | core/src/main/kotlin/run/qontract/core/MultiPartFormDataValue.kt:121 | without a content type the encoding is never written: the clause is the same whatever the encoding |
| MultiPart.InferType | core/src/main/kotlin/run/qontract/core/MultiPartFormDataValue.kt:28-68 | a content part's pattern is its content's exact-else-type pattern; a file part's pattern parses the file name without "@" and keeps its content type and encoding |
| MultiPart.AtSignIgnoredByInference | core/src/main/kotlin/run/qontract/core/MultiPartFormDataValue.kt:67 | a leading "@" on the file name does not change the inferred pattern |
| StubLoading.OpenApiExtensions | core/src/main/kotlin/io/specmatic/stub/api.kt:273-274 | a path names an OpenAPI file exactly when its trimmed text ends in ".yaml", ".yml" or ".json" |
| StubLoading.HasOpenApiFileExtension | core/src/main/kotlin/io/specmatic/stub/api.kt:273-274 | a path with an OpenAPI extension has at least four characters once trimmed, one of them a dot |
| StubLoading.ExtensionIgnoresNewlines | core/src/main/kotlin/io/specmatic/stub/api.kt:273-274 | surrounding newlines never change the extension test |
| StubLoading.WithoutFluff | core/src/main/kotlin/io/specmatic/stub/api.kt:347-362 | removing fluff keeps the contract path and the request and keeps exactly the failures not fluffy at the level |
| StubLoading.KeepNotFluffy | core/src/main/kotlin/io/specmatic/stub/api.kt:347-349 | exactly the failures that are not fluffy at the level are kept |
| StubLoading.ReportsOf | core/src/main/kotlin/io/specmatic/stub/api.kt:374 | the reports taken are exactly the error reports of the match results |
| StubLoading.ReportsAtLevel | core/src/main/kotlin/io/specmatic/stub/api.kt:376-386 | the reports kept at a level are exactly the de-fluffed reports that still have errors, no more than there were reports |
| StubLoading.ErrorReports | core/src/main/kotlin/io/specmatic/stub/api.kt:374-386 | the reports with level-0 fluff removed are used when any still has errors, and otherwise those with level-1 fluff removed; every report kept has errors |
| StubLoading.LevelZeroPreferred | core/src/main/kotlin/io/specmatic/stub/api.kt:376-380 | a report holding a failure not fluffy at level 0 appears de-fluffed at level 0, and then every report shown comes from level 0 |
| StubLoading.AllFluffy | core/src/main/kotlin/io/specmatic/stub/api.kt:347-349 | when every failure is fluffy at the level nothing is kept |
| StubLoading.NoneKeepErrors | core/src/main/kotlin/io/specmatic/stub/api.kt:378-380 | when no de-fluffed report has errors the level yields no reports |
| StubLoading.LevelOneFallback | core/src/main/kotlin/io/specmatic/stub/api.kt:380-386 | when every failure is fluffy at level 0 the reports come from level 1 |
| StubLoading.ReportParagraphs | core/src/main/kotlin/io/specmatic/stub/api.kt:393-399 | one paragraph per report, each starting with "<stub> didn't match <contract path>" and a line separator |
| StubLoading.MatchErrorMessage | core/src/main/kotlin/io/specmatic/stub/api.kt:388-399 | with no reports or no match results the message is the "didn't match any of the contracts" line; otherwise the paragraphs joined by a blank line |
| StubLoading.StubMatchErrorMessageAsWritten | core/src/main/kotlin/io/specmatic/stub/api.kt:370-400 | with no match results, the missing request is written as the text "null" after the "didn't match any of the contracts" line |
| StubLoading.NoFeaturesPrintsNull | core/src/main/kotlin/io/specmatic/stub/api.kt:388-389 | with no contracts, the message is "<stub> didn't match any of the contracts" followed by a newline and "null" |
| StubLoading.StubMatchErrorMessage | core/src/main/kotlin/io/specmatic/stub/api.kt:370-400 | with no match results the message ends after the "didn't match any of the contracts" line; with reports it starts with the first report's paragraph |
| StubLoading.NoContractMatched | core/src/main/kotlin/io/specmatic/stub/api.kt:388-389 | the message starts with the stub file's "didn't match any of the contracts" line when the file name does not start with whitespace |
| Strings.PrependIndentFirstLine | core/src/main/kotlin/io/specmatic/stub/api.kt:419 | `prependIndent` indents the first line and then the rest, whichever of "\n", "\r\n" or a lone "\r" ends the first line, and joins the lines with "\n" |
| Strings.JoinLines | core/src/main/kotlin/io/specmatic/stub/api.kt:419 | the lines `prependIndent` works on, joined with "\n", are the text with every "\r\n" and lone "\r" written as "\n" |
| Strings.CrLfIndented | core/src/main/kotlin/io/specmatic/stub/api.kt:419 | a "\r\n"-separated message is indented line by line and comes out with "\n" breaks |
| StubLoading.MessagesAgreeWithContracts | core/src/main/kotlin/io/specmatic/stub/api.kt:388-389 | when the first match result carries an error report, the corrected and the as-written messages are the same text |
| StubLoading.NoFeaturesMessage | core/src/main/kotlin/io/specmatic/stub/api.kt:388-389 | with no contracts the corrected message is exactly "<stub> didn't match any of the contracts" |
| StubLoading.SingleReportMessage | core/src/main/kotlin/io/specmatic/stub/api.kt:393-399 | with one report the message is its paragraph: the "didn't match" line, then the report indented by two spaces |
| StubLoading.MatchResultsFor | core/src/main/kotlin/io/specmatic/stub/api.kt:408-415 | one result per contract, in order: the contract when it accepts the stub, otherwise an error report holding the stub's request and the contract's path |
| StubLoading.FirstFeature | core/src/main/kotlin/io/specmatic/stub/api.kt:417 | no contract is found exactly when none accepted the stub, and otherwise it is the first that did |
| StubLoading.AssignedFeature | core/src/main/kotlin/io/specmatic/stub/api.kt:407-417 | a stub is assigned exactly when some contract accepts it, and then to the first contract that does |
| StubLoading.AssignStubs | core/src/main/kotlin/io/specmatic/stub/api.kt:407-425 | outside strict mode loading never fails; in strict mode it fails exactly when some stub matches no contract, with the indented error message of the first such stub; on success it pairs each accepted stub with its first accepting contract |
| StubLoading.FirstUnaccepted | core/src/main/kotlin/io/specmatic/stub/api.kt:407-421 | the position of the first stub no contract accepts, or none iff every stub is accepted |
| StubLoading.AcceptedPairs | core/src/main/kotlin/io/specmatic/stub/api.kt:407-425 | each pair joins a stub to its first accepting contract, one pair per stub when all are accepted |
| StubLoading.UnacceptedStubDropped | core/src/main/kotlin/io/specmatic/stub/api.kt:418-423 | a stub no contract accepts adds no pair |
| StubLoading.DistinctFeatures | core/src/main/kotlin/io/specmatic/stub/api.kt:426 | the grouped contracts are exactly those that received a stub, none twice |
| StubLoading.StubsFor | core/src/main/kotlin/io/specmatic/stub/api.kt:426 | a contract that received no stub gets no stubs |
| StubLoading.GroupByFeature | core/src/main/kotlin/io/specmatic/stub/api.kt:426 | grouping keeps every stub: the groups hold as many stubs as there were pairs |
| StubLoading.GroupingByFeature | core/src/main/kotlin/io/specmatic/stub/api.kt:426 | the groups are, in order of each contract's first stub, every contract with exactly its stubs in stub order |
| StubLoading.MissingFeatures | core/src/main/kotlin/io/specmatic/stub/api.kt:428-429 | the missing contracts are exactly those that received no stub |
| StubLoading.LoadContractStubs | core/src/main/kotlin/io/specmatic/stub/api.kt:402-432 | outside strict mode loading succeeds and in strict mode exactly when every stub is accepted, failing with the indented error message of the first stub that matches no contract; the result lists the stubbed contracts grouped, then every other contract with no stubs, so each contract appears, every accepted stub is kept once, and each stub sits under its first accepting contract |

## Left out

- Random sources (`Random`, `pattern.random()`, random strings): replaced by an explicit `choices` tree, with a separate branch for each value generated in turn. Lemmas quantify over every tree.
- Floating point: a number is an integer, and the `Double` minimum, with its default of negative infinity, is an optional integer bound. Fractional literals and their formatting are not modelled.
- Recursion through named references, nested unions and parsing carries a `fuel: nat` bound. Running out of fuel throws `StackOverflowError`, the error unbounded recursion raises in the source. A pattern nested deeper than the fuel is not distinguished from a genuine cycle.
- Patterns whose classes are not part of this model are minimal stand-ins:
  - `StringPattern`, `BooleanPattern` and `NullPattern` match by kind;
  - `ExactValuePattern` matches equal values;
  - `JSONObjectPattern` matches objects field by field;
  - `DeferredPattern` is a named reference.
- Resolver.kt is not part of this model. The resolver is a record holding:
  - the named-pattern registry;
  - the default-example and generation strategies;
  - the key-check policy;
  - the cycle-prevention stack;
  - the mismatch-message wording.
- ktor `ContentType.parse` is `Headers.MediaType`. It keeps the type/subtype before ';', trimmed. Text without a '/' is kept whole.
- A header value is parsed into a string value (`Headers.ParsedValue`). The source's `parsedValue` may also yield JSON or XML.
- Pattern tokens: `Scenarios.IsPatternToken` recognises a token by its surrounding parentheses. `Resolvers.GetPattern` looks the token up in the registry only. The built-in tokens such as "(number)", which Resolver.kt also resolves, are not part of this model. `Resolver.matchesPattern` is `Matching.Matches`.
- Functions passed in as parameters:
  - `removeKeysNotPresentIn`, `parsedPattern` and `exactMatchElseType`;
  - `typeDeclarationWithKey`;
  - the YAML decode of the overlay parser;
  - Jackson's header serialisation (`asString`) and `parsedValue` in the stub cache;
  - `System.lineSeparator()`;
  - the text of a stub match report;
  - fluff levels (`isFluffy`), because FailureReason.fluffLevel is not part of this model;
  - the new contract's `compatibilityLookup`;
  - the old response pattern's `encompasses` against a new scenario;
  - request and response body matching in scenarios;
  - the test executor;
  - `exceptionCauseMessage`, which words a test's calling error;
  - `feature.matchingStub`;
  - `Pattern.encompasses` for header values.
- `ExampleDeclarations.plus` is not part of this model. `MultiPart.Plus` is reconstructed: the right side's examples win and the message lists are concatenated.
- The filter tag keys (METHOD, PATH, STATUS, HEADERS, QUERY-PARAM, EXAMPLE-NAME) come from the examples command's help text. ScenarioFilterTags is not part of this model.
- `findFirstChildByPath` is a dot-separated path of object keys (`Values.FindFirstChildByPath`). The value classes that define it are not part of this model.
- `AnyPatterns.NewTypesOrExceptionIfNone` throws a contract exception whose message is a fixed text. The source's message comes from the members' failure report, which is not part of this model.
- The ClassCastException text of `addAcceptedResponse` is a fixed message.
- A multipart content part's displayed content and JSON content use the value's string literal. The source uses `Value.toString`/`toStringValue`.
- `addTo` (ktor form building) is foreign I/O.
- The cache's `ReentrantLock` and all concurrency: the cache is a sequence updated one call at a time.
- Console logging: the overlay parser's log lines and the stub loader's messages in non-strict mode.
- `createStub*`, file walking, implicit stub directories and git lookups in api.kt are I/O.
- Kafka message patterns.
- `generateWithAll`, `fillInTheBlanks`, `fixValue` and `withBindings`: these serve example filling and binding, which this model does not cover.
- The headers pattern's `newBasedOn` and `negativeBasedOn`: deriving header variants for tests is not covered; the model covers header matching, generation and compatibility.
- Headers.UnsharedHeadersNotCompared: states only the case where the two header sets share no key. There, `encompasses` succeeds exactly when the missing-header check succeeds. The general case, where shared values are compared as well, is stated by `Headers.Encompasses`.
- NumberPatterns.Generate: without an example it uses the corrected generator `NumberPatterns.RandomNumber` (see "## Findings"). The source converts the random digits with `toInt()`, which throws for every minLength of 11 or more and for 10-digit draws above 2147483647. Where that conversion succeeds the two give the same number (`NumberPatterns.GenerateAgreesWithSourceBelowOverflow`). Generation.Generate, Encompassing.EncompassesSingle and Headers.Generate inherit the difference.
- StubLoading.AssignStubs: the strict-mode error is built from the corrected `StubLoading.StubMatchErrorMessage` (see "## Findings"). The source's message ends in the text "null" when there are no contracts. Whenever a contract reported an error the two messages are the same text (`StubLoading.MessagesAgreeWithContracts`).
- StubLoading.LoadContractStubs: inherits the corrected strict-mode message of StubLoading.AssignStubs.
- Strings.Lower: lower-cases ASCII letters only, where Kotlin's `lowercase()` also folds other Unicode letters. Header-name uniqueness (Headers.HasCaseInsensitiveDuplicate), Headers.LastValueIgnoringCase, Headers.IsDynamic and the media-type comparison of Headers.MatchContentType therefore differ from the source for non-ASCII names.
- Generation.GenerateValue: a union with a `key` generates its chosen member as a union without one does. The source asks the resolver's `generate(key, pattern)` instead, which can take the value from the fact stored under that key. That function belongs to Resolver.kt, which is not part of this model.
- NumberPatterns.Parse: `convertToNumber` is modelled as reading an integer from the trimmed text. Its fallbacks to `toFloat` and `toDouble` are floating point and are not modelled. So fractions, exponents and the other forms only those functions accept are refused.
- Scenarios.NewBasedOnSuggestions: the model's scenario has no `references` field, so it does not state that the suggestion's references are taken over along with its examples (Scenario.kt:454).
- Scenarios.GenerateTestScenarios: rows carry no `references`, so the `testBaseURLs` parameter and the references copied into every row with the variables and base URLs (Scenario.kt:306-315) are not modelled. References only feed request generation, which is a parameter here.
- Results.ExceptionMessage: the message of `EmptyContract` is a fixed text, because that exception class is not part of this model.
- BackwardCompatibility.Distinct: states which results are kept and that none repeats. It does not state that Kotlin's `distinct` keeps first occurrences in order.

## Findings

| source | as written | input that shows it | evidently intended | confidence | as-written member | corrected member |
|---|---|---|---|---|---|---|
| core/src/main/kotlin/in/specmatic/core/pattern/NumberPattern.kt:53-60 | the random digit string of `minLength` digits is converted with `String.toInt()`, which throws NumberFormatException once the value exceeds 2147483647 | a NumberPattern with minLength = 11 and no example, then `generate`: every 11-digit string with a nonzero first digit exceeds the 32-bit range | a number of exactly `minLength` digits, whatever `minLength` is | not executed | NumberPatterns.RandomNumberAsWritten (NumberPatterns.RandomNumberAsWrittenOverflows, NumberPatterns.ElevenDigitGenerationThrows) | NumberPatterns.RandomNumber (NumberPatterns.RandomNumberFitsLengths, NumberPatterns.RandomNumberAgreesBelowOverflow) |
| core/src/main/kotlin/io/specmatic/stub/api.kt:388-389 | when there are no match results, `firstOrNull()` is null and the string template prints the text "null" after the "didn't match any of the contracts" line | `loadContractStubs([], [("stub.json", s)], strictMode = true)` throws with the message "  stub.json didn't match any of the contracts" followed by a newline and "  null", each line indented by two spaces by `prependIndent` (api.kt:419) | the message ends after "didn't match any of the contracts" when there is no request report to show | not executed | StubLoading.StubMatchErrorMessageAsWritten (StubLoading.NoFeaturesPrintsNull) | StubLoading.StubMatchErrorMessage (StubLoading.NoFeaturesMessage) |

=== FILE: any_patterns.dfy ===
/**
 * The decisions AnyPattern (unions, nullable types and discriminated
 * oneOf) takes once its members have been matched, generated or asked for
 * new and negative patterns. The recursion into the members themselves is
 * in the Matching, Generation, NewPatterns and Parsing modules; everything
 * here is a function of the members' outcomes.
 */
module AnyPatterns {
  import opened Wrappers
  import opened Strings
  import opened Values
  import opened Results
  import opened Patterns
  import AssocLists

  /** A member paired with the result of matching the value against it. */
  datatype AnyPatternMatch = AnyPatternMatch(pattern: Pattern, result: Result)

  function ResultsOf(matches: seq<AnyPatternMatch>): (r: seq<Result>)
    ensures |r| == |matches| && forall j :: 0 <= j < |matches| ==> r[j] == matches[j].result
  {
    seq(|matches|, j requires 0 <= j < |matches| => matches[j].result)
  }

  predicate AllFailed(matches: seq<AnyPatternMatch>) {
    forall j :: 0 <= j < |matches| ==> matches[j].result.Failure?
  }

  // ---- discriminated unions ----

  /** The allowed discriminator values as a message shows them. */
  function DiscriminatorCsvClause(values: seq<string>): (r: string)
    ensures |values| == 1 ==> r == values[0]
    ensures |values| != 1 ==> r == "one of " + Join(values, ", ")
  {
    if |values| == 1 then values[0] else "one of " + Join(values, ", ")
  }

  /**
   * The checks a discriminated union makes before it tries any member: the
   * value must be an object, must carry the discriminator property, and
   * the property's literal must be one of the allowed values. The first
   * check that fails is the union's result.
   */
  function DiscriminatorPrecheck(property: string, values: seq<string>, v: Value, mm: MismatchMessages): (r: Option<Result>)
    ensures r.None? <==>
      v.JSONObjectValue? && Member(v, property).Some? && ToStringLiteral(Member(v, property).value) in values
    ensures r.Some? ==> r.value.Failure?
    ensures !v.JSONObjectValue? ==> r == Some(ValueMismatchFailure(mm, "json object", v))
    ensures v.JSONObjectValue? && Member(v, property).None? ==>
      r == Some(FailAt("Discriminator property " + property + " is missing from the object (it's value should be " +
                       DiscriminatorCsvClause(values) + ")", property, DiscriminatorMismatch))
    ensures v.JSONObjectValue? && Member(v, property).Some? && ToStringLiteral(Member(v, property).value) !in values ==>
      r == Some(FailAt("Expected the value of discriminator property to be " + DiscriminatorCsvClause(values) +
                       " but it was " + ToStringLiteral(Member(v, property).value), property, DiscriminatorMismatch))
  {
    if !v.JSONObjectValue? then Some(ValueMismatchFailure(mm, "json object", v))
    else
      match Member(v, property)
      case None =>
        Some(FailAt("Discriminator property " + property + " is missing from the object (it's value should be " +
                    DiscriminatorCsvClause(values) + ")", property, DiscriminatorMismatch))
      case Some(actual) =>
        if ToStringLiteral(actual) !in values then
          Some(FailAt("Expected the value of discriminator property to be " + DiscriminatorCsvClause(values) +
                      " but it was " + ToStringLiteral(actual), property, DiscriminatorMismatch))
        else None
  }

  /** The one-key object a member is probed with to see whether the discriminator routes to it. */
  function DiscriminatorProbe(property: string, actual: Value): (v: Value)
    ensures Member(v, property) == Some(actual)
  {
    JSONObjectValue([(property, actual)])
  }

  /** A probe hits when it matches, or fails deeper down after the discriminator itself matched. */
  predicate ProbeHit(r: Result) {
    r.Success? || HasReason(r, FailedButDiscriminatorMatched)
  }

  /** What every member the discriminator did not route to is recorded with. */
  const DiscriminatorMatchFailure: Result := FailAt("Discriminator match failure", "", DiscriminatorMismatch)

  /** The results that failed after the discriminator had matched. */
  function DeepFailures(results: seq<Result>): (r: seq<Result>)
    ensures forall x :: x in r <==> x in results && x.Failure? && HasReason(x, FailedButDiscriminatorMatched)
  {
    if |results| == 0 then []
    else
      assert forall x :: x in results <==> x == results[0] || x in results[1..];
      (if results[0].Failure? && HasReason(results[0], FailedButDiscriminatorMatched) then [results[0]] else []) +
        DeepFailures(results[1..])
  }

  /**
   * The result of a discriminated union once its members have been folded
   * over: no routed member is "missing from the spec"; a successful member
   * is success; otherwise the failures that got past the discriminator, if
   * any, tagged as such, and else all failures, untagged below the top.
   */
  function DiscriminatorVerdict(property: string, matches: seq<AnyPatternMatch>, occurred: bool): (r: Result)
    ensures !occurred ==>
      r == FailAt("Discriminator property " + property + " is missing from the spec", property, DiscriminatorMismatch)
    ensures occurred ==> (r.Success? <==> exists j :: 0 <= j < |matches| && matches[j].result.Success?)
    ensures occurred && r.Failure? && |DeepFailures(ResultsOf(matches))| > 0 ==>
      (forall x :: HasReason(r, x) <==> x == FailedButDiscriminatorMatched) &&
      |r.causes| == |DeepFailures(ResultsOf(matches))| &&
      forall j :: 0 <= j < |r.causes| ==> r.causes[j] == RemoveReasons(DeepFailures(ResultsOf(matches))[j])
    ensures occurred && r.Failure? && |DeepFailures(ResultsOf(matches))| == 0 ==>
      (forall x :: !HasReason(r, x)) && |r.causes| == |matches| &&
      forall j :: 0 <= j < |r.causes| ==> r.causes[j] == RemoveReasons(matches[j].result)
  {
    if !occurred then
      FailAt("Discriminator property " + property + " is missing from the spec", property, DiscriminatorMismatch)
    else
      var results := ResultsOf(matches);
      if exists j :: 0 <= j < |matches| && matches[j].result.Success? then Success
      else
        var failures := Failures(results);
        assert failures == results by {
          FailuresOfAllFailed(results);
        }
        var deep := DeepFailures(results);
        if |deep| > 0 then WithReason(RemoveReasonsFromCauses(FromFailures(deep)), FailedButDiscriminatorMatched)
        else RemoveReasonsFromCauses(FromFailures(failures))
  }

  /** When nothing succeeded, the failures are all the results. */
  lemma {:induction false} FailuresOfAllFailed(results: seq<Result>)
    requires forall j :: 0 <= j < |results| ==> results[j].Failure?
    ensures Failures(results) == results
    decreases |results|
  {
    if |results| > 0 {
      FailuresOfAllFailed(results[1..]);
      assert results == [results[0]] + results[1..];
    }
  }

  // ---- plain unions ----

  /** How many members are not the null pattern. */
  function NonNullCount(members: seq<Pattern>): (n: nat)
    ensures n <= |members|
  {
    if |members| == 0 then 0 else (if members[0].NullPattern? then 0 else 1) + NonNullCount(members[1..])
  }

  /** The count is the number of members left once the null patterns are taken out. */
  lemma {:induction false} NonNullCountCounts(members: seq<Pattern>)
    ensures NonNullCount(members) == |WithoutNulls(members)|
    decreases |members|
  {
    if |members| > 0 {
      NonNullCountCounts(members[1..]);
    }
  }

  /** The breadcrumb naming which union member a failure came from. */
  function TypeInfoBreadCrumb(alias: string, ordinal: nat): string {
    if IsBlank(alias) || alias == "()" then "(~~~object " + NatToString(ordinal) + ")"
    else "(~~~" + WithoutPatternDelimiters(alias) + " object)"
  }

  /**
   * Each member failure wrapped under a breadcrumb naming its member (by
   * alias, or by its position among the given matches when the alias is
   * empty). Members without an alias, and every failure of a union with
   * only one non-null member, are left as they are.
   */
  function AddTypeInfoBreadCrumbs(members: seq<Pattern>, matches: seq<AnyPatternMatch>): (r: seq<Result>)
    requires AllFailed(matches)
    ensures |r| == |matches|
    ensures forall j :: 0 <= j < |r| ==> r[j].Failure?
    ensures NonNullCount(members) == 1 ==> r == ResultsOf(matches)
    ensures forall j :: 0 <= j < |r| && TypeAlias(matches[j].pattern).None? ==> r[j] == matches[j].result
    ensures NonNullCount(members) != 1 ==> forall j :: 0 <= j < |r| && TypeAlias(matches[j].pattern).Some? ==>
      r[j].causes == [matches[j].result] &&
      r[j].breadCrumb == TypeInfoBreadCrumb(TypeAlias(matches[j].pattern).value, j + 1)
  {
    if NonNullCount(members) == 1 then ResultsOf(matches)
    else
      seq(|matches|, j requires 0 <= j < |matches| =>
        match TypeAlias(matches[j].pattern)
        case None => matches[j].result
        case Some(alias) => WithBreadCrumb(matches[j].result, TypeInfoBreadCrumb(alias, j + 1)))
  }

  /**
   * The failures a failed enum or nullable union reports: for a nullable
   * union only the failure of its concrete member. Indexing with the
   * position of a concrete member that does not exist throws, as indexing
   * a list at -1 does.
   */
  function GetResult(members: seq<Pattern>, failures: seq<Result>): (o: Outcome<seq<Result>>)
    requires |failures| == |members|
    ensures !IsNullablePattern(members) ==> o == Ok(failures)
    ensures IsNullablePattern(members) && FirstNonEmpty(members).Some? ==>
      o == Ok([failures[FirstNonEmpty(members).value]])
    ensures IsNullablePattern(members) && FirstNonEmpty(members).None? ==> o.Thrown?
  {
    if IsNullablePattern(members) then
      match FirstNonEmpty(members)
      case Some(i) => Ok([failures[i]])
      case None => Thrown(OtherThrowable("Index -1 out of bounds for length " + NatToString(|failures|)))
    else Ok(failures)
  }

  /** A single reported failure stands for itself; several are summed up as one type mismatch. */
  function FailedToFindAny(expected: string, actual: Value, results: seq<Result>, mm: MismatchMessages): (r: Result)
    requires forall j :: 0 <= j < |results| ==> results[j].Failure?
    ensures r.Failure?
    ensures |results| == 1 ==> r == results[0]
    ensures |results| != 1 ==> r == MismatchResult(mm, expected, ValueError(actual))
  {
    if |results| == 1 then results[0] else MismatchResult(mm, expected, ValueError(actual))
  }

  /** The position of the first match that succeeded. */
  function FirstSuccess(matches: seq<AnyPatternMatch>): (r: Option<nat>)
    ensures r.Some? ==> r.value < |matches| && matches[r.value].result.Success?
    ensures r.Some? ==> forall j :: 0 <= j < r.value ==> matches[j].result.Failure?
    ensures r.None? <==> AllFailed(matches)
  {
    if |matches| == 0 then None
    else if matches[0].result.Success? then Some(0)
    else match FirstSuccess(matches[1..])
      case None => None
      case Some(i) => Some(i + 1)
  }

  /** The matches whose failure says an object was recognised. */
  function ObjectMatches(matches: seq<AnyPatternMatch>): (r: seq<AnyPatternMatch>)
    requires AllFailed(matches)
    ensures AllFailed(r) && |r| <= |matches|
    ensures forall m :: m in r <==> m in matches && ReasonIs(m.result, ObjectMatchOccurred)
    ensures |r| == 0 <==> forall j :: 0 <= j < |matches| ==> !ReasonIs(matches[j].result, ObjectMatchOccurred)
  {
    if |matches| == 0 then []
    else
      assert forall m :: m in matches <==> m == matches[0] || m in matches[1..];
      (if ReasonIs(matches[0].result, ObjectMatchOccurred) then [matches[0]] else []) + ObjectMatches(matches[1..])
  }

  /** Every resolved member is an exact value: an enum. */
  predicate AllExact(resolved: seq<Pattern>) {
    forall j :: 0 <= j < |resolved| ==> resolved[j].ExactValuePattern?
  }

  /**
   * The result of a union without a discriminator, given every member's
   * match result and (computed only when needed) the members with named
   * references resolved one hop. The first successful member decides
   * success. Otherwise, failures in which an object was recognised are
   * reported alone; else an enum or a union with null reports through
   * FailedToFindAny under the union's name; else all failures are
   * reported, each under its member's breadcrumb.
   */
  function PlainVerdict(any: Pattern, matches: seq<AnyPatternMatch>, resolved: Outcome<seq<Pattern>>, v: Value,
                        mm: MismatchMessages): (o: Outcome<Result>)
    requires any.AnyPattern? && |matches| == |any.members|
    requires resolved.Ok? ==> |resolved.value| == |any.members|
    ensures FirstSuccess(matches).Some? ==> o == Ok(Success)
    ensures o.Ok? ==> (o.value.Success? <==> FirstSuccess(matches).Some?)
    ensures o.Thrown? ==> AllFailed(matches) && |ObjectMatches(matches)| == 0
    ensures AllFailed(matches) && |ObjectMatches(matches)| > 0 ==>
      o.Ok? && (forall x :: !HasReason(o.value, x)) &&
      |o.value.causes| == |ObjectMatches(matches)| &&
      forall j :: 0 <= j < |o.value.causes| ==>
        o.value.causes[j] == RemoveReasons(AddTypeInfoBreadCrumbs(any.members, ObjectMatches(matches))[j])
    ensures (AllFailed(matches) && |ObjectMatches(matches)| == 0 && resolved.Ok? &&
             !HasNullMember(resolved.value) && !AllExact(resolved.value)) ==>
      o == Ok(FromFailures(AddTypeInfoBreadCrumbs(any.members, matches)))
    ensures (AllFailed(matches) && |ObjectMatches(matches)| == 0 && resolved.Ok? &&
             (HasNullMember(resolved.value) || AllExact(resolved.value)) && TypeName(any).Ok? &&
             !IsNullablePattern(any.members)) ==>
      o == Ok(FailedToFindAny(TypeName(any).value, v, ResultsOf(matches), mm))
    ensures (AllFailed(matches) && |ObjectMatches(matches)| == 0 && resolved.Ok? &&
             (HasNullMember(resolved.value) || AllExact(resolved.value)) && TypeName(any).Ok? &&
             IsNullablePattern(any.members) && FirstNonEmpty(any.members).Some?) ==>
      o == Ok(matches[FirstNonEmpty(any.members).value].result)
    ensures (AllFailed(matches) && |ObjectMatches(matches)| == 0 && resolved.Ok? &&
             (HasNullMember(resolved.value) || AllExact(resolved.value)) && TypeName(any).Ok? &&
             IsNullablePattern(any.members) && FirstNonEmpty(any.members).None?) ==> o.Thrown?
    ensures (AllFailed(matches) && |ObjectMatches(matches)| == 0 && resolved.Thrown?) ==> o == Thrown(resolved.error)
  {
    var getResult := GetResult(any.members, ResultsOf(matches));
    if FirstSuccess(matches).Some? then Ok(Success)
    else
      var objectMatches := ObjectMatches(matches);
      if |objectMatches| > 0 then
        Ok(RemoveReasonsFromCauses(FromFailures(AddTypeInfoBreadCrumbs(any.members, objectMatches))))
      else
        var members :- resolved;
        if HasNullMember(members) || AllExact(members) then
          var name :- TypeName(any);
          match getResult
          case Ok(reported) => Ok(FailedToFindAny(name, v, reported, mm))
          case Thrown(e) => Thrown(e)
        else
          Ok(ResultFromFailures(AddTypeInfoBreadCrumbs(any.members, matches)))
  }

  // ---- generation ----

  /** Members that are neither the null pattern nor anything but a scalar type. */
  function NonNullScalars(members: seq<Pattern>): (r: seq<Pattern>)
    ensures forall q :: q in r <==> q in members && IsScalarType(q) && !q.NullPattern?
    ensures |r| <= |members|
  {
    if |members| == 0 then []
    else
      assert forall q :: q in members <==> q == members[0] || q in members[1..];
      (if IsScalarType(members[0]) && !members[0].NullPattern? then [members[0]] else []) + NonNullScalars(members[1..])
  }

  /** A two-member union of null and exactly one other scalar: it generates from that scalar. */
  predicate IsScalarBasedPattern(members: seq<Pattern>) {
    |members| == 2 && HasNullMember(members) && |NonNullScalars(members)| == 1
  }

  /** The discriminator literal an object pattern pins its discriminator property to, if any. */
  function DiscriminatorLiteral(p: Pattern, property: string): Option<string> {
    if !p.JSONObjectPattern? then None
    else
      var field := AssocLists.Get(p.fields, property);
      if field.Some? && field.value.ExactValuePattern? && field.value.discriminator then
        Some(ToStringLiteral(field.value.value))
      else None
  }

  /** The first object member whose discriminator field is pinned to `value`. */
  function DiscriminatorBasedPattern(members: seq<Pattern>, property: Option<string>, value: string): (r: Option<Pattern>)
    ensures r.Some? ==> r.value in members && property.Some? && DiscriminatorLiteral(r.value, property.value) == Some(value)
    ensures r.None? ==> property.None? || forall q :: q in members ==> DiscriminatorLiteral(q, property.value) != Some(value)
  {
    if property.None? || |members| == 0 then None
    else if DiscriminatorLiteral(members[0], property.value) == Some(value) then Some(members[0])
    else
      assert forall q :: q in members <==> q == members[0] || q in members[1..];
      DiscriminatorBasedPattern(members[1..], property, value)
  }

  /** The members in their original order, except that null patterns come last. */
  function NonNullFirst(members: seq<Pattern>): (r: seq<Pattern>)
    ensures multiset(r) == multiset(members)
    ensures forall i, j :: 0 <= i < j < |r| && r[i].NullPattern? ==> r[j].NullPattern?
  {
    var nonNull := WithoutNulls(members);
    var nulls := OnlyNulls(members);
    NullSplit(members);
    nonNull + nulls
  }

  function WithoutNulls(ps: seq<Pattern>): (r: seq<Pattern>)
    ensures forall q :: q in r <==> q in ps && !q.NullPattern?
    ensures |r| <= |ps|
  {
    if |ps| == 0 then []
    else
      assert forall q :: q in ps <==> q == ps[0] || q in ps[1..];
      (if ps[0].NullPattern? then [] else [ps[0]]) + WithoutNulls(ps[1..])
  }

  function OnlyNulls(ps: seq<Pattern>): (r: seq<Pattern>)
    ensures forall q :: q in r ==> q.NullPattern?
  {
    if |ps| == 0 then [] else (if ps[0].NullPattern? then [ps[0]] else []) + OnlyNulls(ps[1..])
  }

  lemma {:induction false} NullSplit(ps: seq<Pattern>)
    ensures multiset(WithoutNulls(ps) + OnlyNulls(ps)) == multiset(ps)
    decreases |ps|
  {
    if |ps| > 0 {
      NullSplit(ps[1..]);
      assert ps == [ps[0]] + ps[1..];
    }
  }

  /** The positions from `i` on whose pattern is (or, with `wantNull` false, is not) the null pattern. */
  function PositionsWhere(ps: seq<Pattern>, wantNull: bool, i: nat): (r: seq<nat>)
    requires i <= |ps|
    ensures forall k :: 0 <= k < |r| ==> i <= r[k] < |ps| && ps[r[k]].NullPattern? == wantNull
    ensures forall j :: i <= j < |ps| && ps[j].NullPattern? == wantNull ==> j in r
    decreases |ps| - i
  {
    if i == |ps| then []
    else (if ps[i].NullPattern? == wantNull then [i] else []) + PositionsWhere(ps, wantNull, i + 1)
  }

  /** Every position from `i` on is either a null or a non-null one. */
  lemma {:induction false} PositionsPartition(ps: seq<Pattern>, i: nat)
    requires i <= |ps|
    ensures |PositionsWhere(ps, false, i)| + |PositionsWhere(ps, true, i)| == |ps| - i
    decreases |ps| - i
  {
    if i < |ps| {
      PositionsPartition(ps, i + 1);
    }
  }

  /**
   * The positions of `ps` in the order the members are tried: every
   * non-null pattern before every null one, each group in declaration order.
   */
  function NullsLastOrder(ps: seq<Pattern>): (order: seq<nat>)
    ensures |order| == |ps|
    ensures forall k :: 0 <= k < |order| ==> order[k] < |ps|
    ensures forall j :: 0 <= j < |ps| ==> j in order
    ensures forall a, b :: 0 <= a < b < |order| && ps[order[a]].NullPattern? ==> ps[order[b]].NullPattern?
  {
    var nonNull := PositionsWhere(ps, false, 0);
    var nulls := PositionsWhere(ps, true, 0);
    var order := nonNull + nulls;
    PositionsPartition(ps, 0);
    forall j | 0 <= j < |ps|
      ensures j in order
    {
      if ps[j].NullPattern? {
        assert j in nulls;
      } else {
        assert j in nonNull;
      }
    }
    forall a, b | 0 <= a < b < |order| && ps[order[a]].NullPattern?
      ensures ps[order[b]].NullPattern?
    {
      assert order[b] == nulls[b - |nonNull|];
    }
    order
  }

  // ---- new and negative patterns ----

  /** What asking one member for patterns gave: the patterns, or the error it threw. */
  datatype MemberOutcome = Produced(patterns: seq<Pattern>) | Raised(error: Exception)

  /** All produced patterns, member by member. */
  function Flatten(outcomes: seq<MemberOutcome>): (r: seq<Pattern>)
    ensures |r| == 0 <==> forall i :: 0 <= i < |outcomes| && outcomes[i].Produced? ==> |outcomes[i].patterns| == 0
    ensures forall q :: q in r <==> exists i :: 0 <= i < |outcomes| && outcomes[i].Produced? && q in outcomes[i].patterns
  {
    if |outcomes| == 0 then []
    else
      var rest := Flatten(outcomes[1..]);
      var r := (if outcomes[0].Produced? then outcomes[0].patterns else []) + rest;
      assert forall q :: q in r <==> exists i :: 0 <= i < |outcomes| && outcomes[i].Produced? && q in outcomes[i].patterns by {
        forall q ensures q in r <==> exists i :: 0 <= i < |outcomes| && outcomes[i].Produced? && q in outcomes[i].patterns {
          if q in rest {
            var i :| 0 <= i < |outcomes[1..]| && outcomes[1..][i].Produced? && q in outcomes[1..][i].patterns;
            assert outcomes[i + 1] == outcomes[1..][i];
          }
          if exists i :: 0 <= i < |outcomes| && outcomes[i].Produced? && q in outcomes[i].patterns {
            var i :| 0 <= i < |outcomes| && outcomes[i].Produced? && q in outcomes[i].patterns;
            if i > 0 {
              assert outcomes[1..][i - 1] == outcomes[i];
            }
          }
        }
      }
      r
  }

  /**
   * The members' patterns, all together. When the union has members but
   * none of them produced anything, the errors they threw are gathered
   * into one contract error carrying `message`; errors of members are
   * otherwise swallowed.
   */
  function NewTypesOrExceptionIfNone(members: seq<Pattern>, outcomes: seq<MemberOutcome>, message: string): (o: Outcome<seq<Pattern>>)
    ensures o.Thrown? <==> |members| > 0 && |Flatten(outcomes)| == 0
    ensures o.Thrown? ==> o.error == ContractException(message, false)
    ensures o.Ok? ==> o.value == Flatten(outcomes)
  {
    var produced := Flatten(outcomes);
    if |produced| == 0 && |members| > 0 then Thrown(ContractException(message, false)) else Ok(produced)
  }

  /** One member's pattern is enough: the other members' errors are then swallowed. */
  lemma OneProducerSuffices(members: seq<Pattern>, outcomes: seq<MemberOutcome>, message: string, i: nat, q: Pattern)
    requires i < |outcomes| && outcomes[i] == Produced([q])
    ensures NewTypesOrExceptionIfNone(members, outcomes, message) == Ok(Flatten(outcomes))
    ensures q in NewTypesOrExceptionIfNone(members, outcomes, message).value
  {
    assert q in outcomes[i].patterns;
  }

  /** The patterns de-duplication never collapses, in order: everything but scalars and exact values. */
  function NonLeaves(ps: seq<Pattern>): (r: seq<Pattern>)
    ensures forall q :: q in r ==> !IsLeaf(q)
  {
    if |ps| == 0 then []
    else NonLeaves(ps[..|ps| - 1]) + (if IsLeaf(ps[|ps| - 1]) then [] else [ps[|ps| - 1]])
  }

  /**
   * De-duplication keyed on the pattern for scalars and exact values, and
   * on a fresh random key for everything else: the first of several equal
   * scalar or exact patterns is kept, and every other pattern is kept.
   */
  function DistinctScalars(ps: seq<Pattern>): (r: seq<Pattern>)
    ensures forall q :: q in r <==> q in ps
    ensures forall i, j :: 0 <= i < j < |r| && IsLeaf(r[i]) ==> r[i] != r[j]
    ensures NonLeaves(r) == NonLeaves(ps)
  {
    if |ps| == 0 then []
    else
      var init := ps[..|ps| - 1];
      var last := ps[|ps| - 1];
      var kept := DistinctScalars(init);
      assert forall q :: q in ps <==> q in init || q == last by {
        assert ps == init + [last];
      }
      if IsLeaf(last) && last in init then kept
      else
        var r := kept + [last];
        assert r[..|r| - 1] == kept;
        r
  }

  /**
   * The negative patterns of a union: the members' negatives, with null
   * patterns dropped when the union itself admits null, de-duplicated.
   */
  function NegativeCandidates(members: seq<Pattern>, produced: seq<Pattern>): (r: seq<Pattern>)
    ensures HasNullMember(members) ==> forall q :: q in r ==> !q.NullPattern?
    ensures !HasNullMember(members) ==> forall q :: q in r <==> q in produced
    ensures HasNullMember(members) ==> forall q :: q in r <==> q in produced && !q.NullPattern?
    ensures forall i, j :: 0 <= i < j < |r| && IsLeaf(r[i]) ==> r[i] != r[j]
  {
    DistinctScalars(if HasNullMember(members) then WithoutNulls(produced) else produced)
  }

  /** Two copies of an object pattern both survive de-duplication, two copies of a number do not. */
  lemma OnlyScalarsCollapse(obj: Pattern)
    requires obj.JSONObjectPattern?
    ensures DistinctScalars([obj, obj]) == [obj, obj]
    ensures DistinctScalars([DefaultNumberPattern, DefaultNumberPattern]) == [DefaultNumberPattern]
  {
    RepeatedObjectKept(obj);
    RepeatedNumberDropped();
  }

  /** An object pattern is not a scalar, so its repetition stays. */
  lemma RepeatedObjectKept(obj: Pattern)
    requires obj.JSONObjectPattern?
    ensures DistinctScalars([obj, obj]) == [obj, obj]
  {
    assert !IsLeaf(obj);
    RepeatedNonLeafKept(obj);
  }

  /** A repeated pattern that is not a leaf is kept twice. */
  lemma RepeatedNonLeafKept(p: Pattern)
    requires !IsLeaf(p)
    ensures DistinctScalars([p, p]) == [p, p]
  {
    SingleKept(p);
    assert [p, p][..1] == [p];
  }

  /** A repeated number pattern is kept once. */
  lemma RepeatedNumberDropped()
    ensures DistinctScalars([DefaultNumberPattern, DefaultNumberPattern]) == [DefaultNumberPattern]
  {
    RepeatedLeafDropped(DefaultNumberPattern);
  }

  /** A repeated leaf pattern is kept once. */
  lemma RepeatedLeafDropped(p: Pattern)
    requires IsLeaf(p)
    ensures DistinctScalars([p, p]) == [p]
  {
    SingleKept(p);
    assert [p, p][..1] == [p];
    assert p in [p];
  }

  /** A single pattern is kept. */
  lemma SingleKept(p: Pattern)
    ensures DistinctScalars([p]) == [p]
  {
    assert [p][..0] == [];
  }
}

=== FILE: assoc.dfy ===
/**
 * Insertion-ordered maps (Kotlin's `LinkedHashMap`) as association lists.
 * Lookups return the first entry for a key; `Put` replaces a key's value in
 * place or appends a new entry, as a `LinkedHashMap` does.
 */
module AssocLists {
  import opened Wrappers

  function Keys<K, V>(m: seq<(K, V)>): (r: seq<K>)
    ensures |r| == |m|
    ensures forall i :: 0 <= i < |m| ==> r[i] == m[i].0
  {
    if |m| == 0 then [] else [m[0].0] + Keys(m[1..])
  }

  predicate HasKey<K(==), V>(m: seq<(K, V)>, k: K) {
    exists i :: 0 <= i < |m| && m[i].0 == k
  }

  /** No key occurs twice. */
  predicate DistinctKeys<K(==), V>(m: seq<(K, V)>) {
    forall i, j :: 0 <= i < j < |m| ==> m[i].0 != m[j].0
  }

  /** The value of the first entry with key `k`. */
  function Get<K(==), V>(m: seq<(K, V)>, k: K): (r: Option<V>)
    ensures r.Some? <==> HasKey(m, k)
    ensures r.Some? ==> exists i :: 0 <= i < |m| && m[i] == (k, r.value)
  {
    if |m| == 0 then None
    else if m[0].0 == k then Some(m[0].1)
    else
      var r := Get(m[1..], k);
      assert r.Some? ==> m[1..][0] in m;
      assert HasKey(m, k) ==> HasKey(m[1..], k) by {
        if HasKey(m, k) {
          var i :| 0 <= i < |m| && m[i].0 == k;
          assert m[1..][i - 1].0 == k;
        }
      }
      assert r.Some? ==> exists i :: 0 <= i < |m| && m[i] == (k, r.value) by {
        if r.Some? {
          var i :| 0 <= i < |m[1..]| && m[1..][i] == (k, r.value);
          assert m[i + 1] == (k, r.value);
        }
      }
      r
  }

  /** In a map without repeated keys, `Get` finds exactly the stored entry. */
  lemma GetDistinct<K, V>(m: seq<(K, V)>, i: nat)
    requires DistinctKeys(m) && i < |m|
    ensures Get(m, m[i].0) == Some(m[i].1)
  {
    if i > 0 {
      assert DistinctKeys(m[1..]) by {
        forall a, b | 0 <= a < b < |m[1..]| ensures m[1..][a].0 != m[1..][b].0 {
          assert m[1..][a] == m[a + 1] && m[1..][b] == m[b + 1];
        }
      }
      GetDistinct(m[1..], i - 1);
    }
  }

  /** `Get` finds the entry at `i` when no earlier entry has its key. */
  lemma {:induction false} GetFirstOccurrence<K, V>(m: seq<(K, V)>, i: nat)
    requires i < |m| && forall j :: 0 <= j < i ==> m[j].0 != m[i].0
    ensures Get(m, m[i].0) == Some(m[i].1)
  {
    if i > 0 {
      assert m[1..][i - 1] == m[i];
      GetFirstOccurrence(m[1..], i - 1);
    }
  }

  /** Looking a key up past a different first key is looking it up in the rest. */
  lemma GetCons<K, V>(e: (K, V), rest: seq<(K, V)>, j: K)
    requires e.0 != j
    ensures Get([e] + rest, j) == Get(rest, j)
  {
    assert ([e] + rest)[1..] == rest;
  }

  /** Putting the same entry in front of two lists keeps them agreeing on every key but `k`. */
  lemma ConsKeepsAgreement<K, V>(e: (K, V), m1: seq<(K, V)>, m2: seq<(K, V)>, k: K)
    requires forall j :: j != k ==> Get(m1, j) == Get(m2, j)
    ensures forall j :: j != k ==> Get([e] + m1, j) == Get([e] + m2, j)
  {
    forall j | j != k
      ensures Get([e] + m1, j) == Get([e] + m2, j)
    {
      if e.0 != j {
        GetCons(e, m1, j);
        GetCons(e, m2, j);
      }
    }
  }

  /** A key is in a list with a different first key iff it is in the rest. */
  lemma HasKeyCons<K, V>(m: seq<(K, V)>, k: K)
    requires |m| > 0 && m[0].0 != k
    ensures HasKey(m, k) <==> HasKey(m[1..], k)
  {
    if HasKey(m, k) {
      var i :| 0 <= i < |m| && m[i].0 == k;
      assert m[1..][i - 1].0 == k;
    }
    if HasKey(m[1..], k) {
      var i :| 0 <= i < |m[1..]| && m[1..][i].0 == k;
      assert m[i + 1].0 == k;
    }
  }

  /** `LinkedHashMap.put`: replace in place, or append a new last entry. */
  function Put<K(==,!new), V>(m: seq<(K, V)>, k: K, v: V): (r: seq<(K, V)>)
    ensures Get(r, k) == Some(v)
    ensures forall j :: j != k ==> Get(r, j) == Get(m, j)
    ensures HasKey(m, k) ==> |r| == |m|
    ensures !HasKey(m, k) ==> r == m + [(k, v)]
  {
    if |m| == 0 then [(k, v)]
    else if m[0].0 == k then
      var r := [(k, v)] + m[1..];
      assert m == [m[0]] + m[1..];
      assert forall j :: j != k ==> Get(r, j) == Get(m, j) by {
        forall j | j != k
          ensures Get(r, j) == Get(m, j)
        {
          GetCons((k, v), m[1..], j);
          GetCons(m[0], m[1..], j);
        }
      }
      assert HasKey(m, k) by {
        assert m[0].0 == k;
      }
      r
    else
      var rest := Put(m[1..], k, v);
      var r := [m[0]] + rest;
      assert m == [m[0]] + m[1..];
      GetCons(m[0], rest, k);
      ConsKeepsAgreement(m[0], rest, m[1..], k);
      HasKeyCons(m, k);
      r
  }

  /** After a put, the keys are the old ones and the key put. */
  lemma PutHasKey<K(!new), V>(m: seq<(K, V)>, k: K, v: V, j: K)
    ensures HasKey(Put(m, k, v), j) <==> j == k || HasKey(m, j)
  {
    if j != k {
      assert Get(Put(m, k, v), j) == Get(m, j);
    } else {
      assert Get(Put(m, k, v), j).Some?;
    }
  }

  /** `toMap` of a list of pairs put after `m`'s entries: each pair put in turn, so a later pair with the same key wins. */
  function PutAll<K(==,!new), V>(m: seq<(K, V)>, entries: seq<(K, V)>): seq<(K, V)>
    decreases |entries|
  {
    if |entries| == 0 then m
    else Put(PutAll(m, entries[..|entries| - 1]), entries[|entries| - 1].0, entries[|entries| - 1].1)
  }

  /** A key is among some pairs iff it is among all but the last, or is the last one's. */
  lemma HasKeySnoc<K, V>(m: seq<(K, V)>, k: K)
    requires |m| > 0
    ensures HasKey(m, k) <==> HasKey(m[..|m| - 1], k) || m[|m| - 1].0 == k
  {
    var n := |m| - 1;
    if HasKey(m, k) && m[n].0 != k {
      var i :| 0 <= i < |m| && m[i].0 == k;
      assert m[..n][i].0 == k;
    }
    if HasKey(m[..n], k) {
      var i :| 0 <= i < n && m[..n][i].0 == k;
      assert m[i].0 == k;
    }
  }

  /** After putting the pairs in turn, the keys are the old ones and those of the pairs. */
  lemma {:induction false} PutAllKeys<K(!new), V>(m: seq<(K, V)>, entries: seq<(K, V)>, k: K)
    ensures HasKey(PutAll(m, entries), k) <==> HasKey(m, k) || HasKey(entries, k)
    decreases |entries|
  {
    if |entries| > 0 {
      var n := |entries| - 1;
      var before := PutAll(m, entries[..n]);
      assert PutAll(m, entries) == Put(before, entries[n].0, entries[n].1);
      PutAllKeys(m, entries[..n], k);
      PutHasKey(before, entries[n].0, entries[n].1, k);
      HasKeySnoc(entries, k);
    }
  }

  /** After putting the pairs in turn, a key holds the value of its last pair. */
  lemma {:induction false} PutAllLast<K(!new), V>(m: seq<(K, V)>, entries: seq<(K, V)>, i: nat, k: K, v: V)
    requires i < |entries| && entries[i] == (k, v) && forall j :: i < j < |entries| ==> entries[j].0 != k
    ensures Get(PutAll(m, entries), k) == Some(v)
    decreases |entries|
  {
    var n := |entries| - 1;
    var before := PutAll(m, entries[..n]);
    assert PutAll(m, entries) == Put(before, entries[n].0, entries[n].1);
    if i < n {
      assert entries[..n][i] == entries[i];
      PutAllLast(m, entries[..n], i, k, v);
      assert Get(before, k) == Some(v);
      assert entries[n].0 != k;
      assert Get(Put(before, entries[n].0, entries[n].1), k) == Some(v);
    } else {
      assert entries[n] == (k, v);
      assert Get(Put(before, k, v), k) == Some(v);
    }
  }

  /** Kotlin's `minus(key)`: every entry with that key is gone, the others keep their order. */
  function Remove<K(==,!new), V(!new)>(m: seq<(K, V)>, k: K): (r: seq<(K, V)>)
    ensures !HasKey(r, k)
    ensures forall j :: j != k ==> Get(r, j) == Get(m, j)
    ensures forall e :: e in r <==> e in m && e.0 != k
  {
    if |m| == 0 then []
    else
      var rest := Remove(m[1..], k);
      assert forall j :: j != m[0].0 ==> Get(m, j) == Get(m[1..], j);
      if m[0].0 == k then
        assert forall e :: e in m <==> e == m[0] || e in m[1..];
        rest
      else
        var r := [m[0]] + rest;
        assert forall e :: e in m <==> e == m[0] || e in m[1..];
        r
  }

  /** Kotlin's `filterKeys`: the entries whose key satisfies `keep`, in order. */
  function FilterKeys<K(!new), V(!new)>(m: seq<(K, V)>, keep: K -> bool): (r: seq<(K, V)>)
    ensures forall e :: e in r <==> e in m && keep(e.0)
    ensures |r| <= |m|
  {
    if |m| == 0 then []
    else
      assert forall e :: e in m <==> e == m[0] || e in m[1..];
      (if keep(m[0].0) then [m[0]] else []) + FilterKeys(m[1..], keep)
  }
}

=== FILE: backward_compatibility.dfy ===
/**
 * Whether a newer contract still serves the clients of an older one. Each
 * old scenario's request is looked up in the new contract; every new
 * scenario that accepts it is a candidate whose response must be
 * encompassed by the old one. Fluffy failures (failures the engine ranks
 * as noise, such as a mismatched path on an unrelated operation) are
 * discarded before the decision.
 */
module BackwardCompatibility {
  import opened Wrappers
  import opened Values
  import opened Results
  import opened Scenarios

  /** A failure the engine considers noise; a success is never fluffy. */
  predicate IsFluffy(r: Result, fluffy: Result -> bool) {
    r.Failure? && fluffy(r)
  }

  /** The new contract's request results, each tied to its scenario, without the fluffy failures. */
  function RequestCandidates(pairs: seq<(Scenario, Result)>, fluffy: Result -> bool): (r: seq<(Scenario, Result)>)
    ensures forall c :: c in r <==>
      exists i :: 0 <= i < |pairs| && c == (pairs[i].0, UpdateScenario(pairs[i].1, pairs[i].0.name)) && !IsFluffy(c.1, fluffy)
    ensures |r| <= |pairs|
  {
    if |pairs| == 0 then []
    else
      var c := (pairs[0].0, UpdateScenario(pairs[0].1, pairs[0].0.name));
      var rest := RequestCandidates(pairs[1..], fluffy);
      var r := (if IsFluffy(c.1, fluffy) then [] else [c]) + rest;
      assert forall x :: x in r <==>
        exists i :: 0 <= i < |pairs| && x == (pairs[i].0, UpdateScenario(pairs[i].1, pairs[i].0.name)) && !IsFluffy(x.1, fluffy) by {
        forall x
          ensures x in r <==>
            exists i :: 0 <= i < |pairs| && x == (pairs[i].0, UpdateScenario(pairs[i].1, pairs[i].0.name)) && !IsFluffy(x.1, fluffy)
        {
          if x in rest {
            var i :| 0 <= i < |pairs[1..]| && x == (pairs[1..][i].0, UpdateScenario(pairs[1..][i].1, pairs[1..][i].0.name));
            assert pairs[i + 1] == pairs[1..][i];
          }
          if exists i :: 0 <= i < |pairs| && x == (pairs[i].0, UpdateScenario(pairs[i].1, pairs[i].0.name)) && !IsFluffy(x.1, fluffy) {
            var i :| 0 <= i < |pairs| && x == (pairs[i].0, UpdateScenario(pairs[i].1, pairs[i].0.name)) && !IsFluffy(x.1, fluffy);
            if i > 0 {
              assert pairs[1..][i - 1] == pairs[i];
            }
          }
        }
      }
      r
  }

  /**
   * For each remaining candidate in order, the old response pattern's
   * check against the new scenario's response (`respond`), tied to the new
   * scenario; pairs whose response result is fluffy are dropped. The first
   * error stops the walk.
   */
  function ResponseCandidates(kept: seq<(Scenario, Result)>, respond: Scenario -> Outcome<Result>,
                              fluffy: Result -> bool): (o: Outcome<seq<(Result, Result)>>)
    ensures (forall i :: 0 <= i < |kept| ==> respond(kept[i].0).Ok?) <==> o.Ok?
    ensures o.Ok? ==> forall w :: w in o.value <==>
      exists i :: 0 <= i < |kept| && w == (kept[i].1, UpdateScenario(respond(kept[i].0).value, kept[i].0.name)) &&
                  !IsFluffy(w.1, fluffy)
  {
    if |kept| == 0 then Ok([])
    else
      var response :- respond(kept[0].0);
      var tied := UpdateScenario(response, kept[0].0.name);
      var rest :- ResponseCandidates(kept[1..], respond, fluffy);
      assert forall i :: 1 <= i < |kept| ==> kept[i] == kept[1..][i - 1];
      Ok((if IsFluffy(tied, fluffy) then [] else [(kept[0].1, tied)]) + rest)
  }

  const NotInNewContract: string := "This API exists in the old contract but not in the new contract"

  /** Some candidate has both its request and its response accepted. */
  predicate AnyWhollyAccepted(whole: seq<(Result, Result)>) {
    exists i :: 0 <= i < |whole| && whole[i].0.Success? && whole[i].1.Success?
  }

  /** The failures of the candidates' request and response results, pair by pair. */
  function PairFailures(whole: seq<(Result, Result)>): (r: seq<Result>)
    ensures forall x :: x in r <==> x.Failure? && exists i :: 0 <= i < |whole| && (x == whole[i].0 || x == whole[i].1)
  {
    if |whole| == 0 then []
    else
      var rest := PairFailures(whole[1..]);
      var head := [whole[0].0, whole[0].1];
      var r := Failures(head) + rest;
      assert forall x :: x in r <==> x.Failure? && exists i :: 0 <= i < |whole| && (x == whole[i].0 || x == whole[i].1) by {
        forall x
          ensures x in r <==> x.Failure? && exists i :: 0 <= i < |whole| && (x == whole[i].0 || x == whole[i].1)
        {
          if x in rest {
            var i :| 0 <= i < |whole[1..]| && (x == whole[1..][i].0 || x == whole[1..][i].1);
            assert whole[i + 1] == whole[1..][i];
          }
          if x in Failures(head) {
            assert x == head[0] || x == head[1];
          }
          if x.Failure? && exists i :: 0 <= i < |whole| && (x == whole[i].0 || x == whole[i].1) {
            var i :| 0 <= i < |whole| && (x == whole[i].0 || x == whole[i].1);
            if i > 0 {
              assert whole[1..][i - 1] == whole[i];
            } else {
              assert x in head;
            }
          }
        }
      }
      r
  }

  /**
   * The verdict on one old scenario: no candidate means the API is gone;
   * one wholly accepted candidate means compatible; otherwise every
   * failure of every candidate.
   */
  function Decide(oldScenario: Scenario, whole: seq<(Result, Result)>): (r: seq<Result>)
    ensures |whole| == 0 ==> r == [Failure(NotInNewContract, [], "", None, Some(oldScenario.name))]
    ensures |whole| > 0 && AnyWhollyAccepted(whole) ==> r == [Success]
    ensures |whole| > 0 && !AnyWhollyAccepted(whole) ==> r == PairFailures(whole)
  {
    if |whole| == 0 then [UpdateScenario(Fail(NotInNewContract), oldScenario.name)]
    else if AnyWhollyAccepted(whole) then [Success]
    else PairFailures(whole)
  }

  /** The message an empty contract is reported with; `path` is the new contract's file, possibly empty. */
  function EmptyContractMessage(path: string): (m: string)
    ensures path == "" ==> m == "The contract had no operations"
    ensures path != "" ==> m == "The contract at " + path + " had no operations"
  {
    if path != "" then "The contract at " + path + " had no operations" else "The contract had no operations"
  }

  const StackOverflowMessage := "Exception: Stack overflow error, most likely caused by a recursive definition. Please report this with a sample contract as a bug!"

  /** The single failure an error turns into; `path` is the new contract's file, possibly empty. */
  function ErrorFailure(e: Exception, path: string): (r: Result)
    ensures r.Failure? && r.causes == [] && r.scenario.None?
    ensures e == EmptyContract ==> r.message == EmptyContractMessage(path)
    ensures e == StackOverflowError ==> r.message == StackOverflowMessage
    ensures e.OtherThrowable? ==> r.message == "Exception: " + e.localizedMessage
    ensures e.ContractException? ==> r == ContractFailure(e.errorMessage)
  {
    match e
    case EmptyContract => Fail(EmptyContractMessage(path))
    case ContractException(m, _) => ContractFailure(m)
    case StackOverflowError => Fail(StackOverflowMessage)
    case NoSuchElementException(m) => Fail("Exception: " + m)
    case OtherThrowable(m) => Fail("Exception: " + m)
  }

  /**
   * One old scenario against the new contract. `request` is the old
   * scenario's generated request, `lookup` the new contract's scenarios
   * with their verdict on it, `respond` the old response pattern's check
   * against a new scenario's. Every error becomes a single failure.
   */
  function TestScenario(oldScenario: Scenario, path: string, request: Outcome<HttpRequest>,
                        lookup: HttpRequest -> Outcome<seq<(Scenario, Result)>>,
                        respond: Scenario -> Outcome<Result>, fluffy: Result -> bool): (r: seq<Result>)
    ensures |r| >= 1
    ensures request.Thrown? ==> r == [ErrorFailure(request.error, path)]
    ensures request.Ok? && lookup(request.value).Thrown? ==> r == [ErrorFailure(lookup(request.value).error, path)]
    ensures request.Ok? && lookup(request.value).Ok? ==>
      var whole := ResponseCandidates(RequestCandidates(lookup(request.value).value, fluffy), respond, fluffy);
      (whole.Thrown? ==> r == [ErrorFailure(whole.error, path)]) && (whole.Ok? ==> r == Decide(oldScenario, whole.value))
  {
    var outcome :=
      var req :- request;
      var pairs :- lookup(req);
      var whole :- ResponseCandidates(RequestCandidates(pairs, fluffy), respond, fluffy);
      Ok(Decide(oldScenario, whole));
    match outcome
    case Ok(results) => results
    case Thrown(e) => [ErrorFailure(e, path)]
  }

  /** Without errors, the answer is either exactly [Success] or failures only. */
  lemma SuccessOrOnlyFailures(oldScenario: Scenario, path: string, request: Outcome<HttpRequest>,
                              lookup: HttpRequest -> Outcome<seq<(Scenario, Result)>>,
                              respond: Scenario -> Outcome<Result>, fluffy: Result -> bool)
    ensures TestScenario(oldScenario, path, request, lookup, respond, fluffy) == [Success] ||
      forall x :: x in TestScenario(oldScenario, path, request, lookup, respond, fluffy) ==> x.Failure?
  {
  }

  /**
   * A fluffy request failure from the new contract changes nothing: the
   * verdict with it is the verdict without it.
   */
  lemma {:induction false} FluffyRequestFailureIgnored(pairs: seq<(Scenario, Result)>, extra: (Scenario, Result), fluffy: Result -> bool)
    requires IsFluffy(UpdateScenario(extra.1, extra.0.name), fluffy)
    ensures RequestCandidates(pairs + [extra], fluffy) == RequestCandidates(pairs, fluffy)
    decreases |pairs|
  {
    if |pairs| == 0 {
      assert pairs + [extra] == [extra];
      assert [extra][1..] == [];
    } else {
      assert (pairs + [extra])[1..] == pairs[1..] + [extra];
      assert (pairs + [extra])[0] == pairs[0];
      FluffyRequestFailureIgnored(pairs[1..], extra, fluffy);
    }
  }

  // ---- whole contracts ----

  /** The results without repeats, first occurrences kept in order. */
  function Distinct(results: seq<Result>): (r: seq<Result>)
    ensures forall x :: x in r <==> x in results
    ensures forall i, j :: 0 <= i < j < |r| ==> r[i] != r[j]
    decreases |results|
  {
    if |results| == 0 then []
    else
      var init := Distinct(results[..|results| - 1]);
      var last := results[|results| - 1];
      assert forall x :: x in results <==> x in results[..|results| - 1] || x == last by {
        assert results == results[..|results| - 1] + [last];
      }
      if last in init then init else init + [last]
  }

  /** The results of the old scenarios from index `i` on that are checked, in order. */
  function ResultsFrom(older: seq<Scenario>, testOne: Scenario -> seq<Result>, i: nat): (r: seq<Result>)
    requires i <= |older|
    ensures forall x :: x in r <==> exists j :: i <= j < |older| && !older[j].ignoreFailure && x in testOne(older[j])
    decreases |older| - i
  {
    if i == |older| then []
    else (if older[i].ignoreFailure then [] else testOne(older[i])) + ResultsFrom(older, testOne, i + 1)
  }

  /**
   * The whole old contract against the new one: every old scenario not
   * marked to ignore failures is checked with `testOne`, and the results
   * are gathered without repeats.
   */
  function TestContracts(older: seq<Scenario>, testOne: Scenario -> seq<Result>): (r: seq<Result>)
    ensures forall x :: x in r <==> exists j :: 0 <= j < |older| && !older[j].ignoreFailure && x in testOne(older[j])
    ensures forall i, j :: 0 <= i < j < |r| ==> r[i] != r[j]
  {
    Distinct(ResultsFrom(older, testOne, 0))
  }

  /** A scenario that ignores failures contributes nothing: dropping it gives the same results. */
  lemma IgnoredScenarioNeverChecked(older: seq<Scenario>, ignored: Scenario, testOne: Scenario -> seq<Result>, x: Result)
    requires ignored.ignoreFailure
    ensures x in TestContracts(older + [ignored], testOne) <==> x in TestContracts(older, testOne)
  {
    var both := older + [ignored];
    if x in TestContracts(both, testOne) {
      var j :| 0 <= j < |both| && !both[j].ignoreFailure && x in testOne(both[j]);
      assert j < |older| && both[j] == older[j];
    }
    if x in TestContracts(older, testOne) {
      var j :| 0 <= j < |older| && !older[j].ignoreFailure && x in testOne(older[j]);
      assert both[j] == older[j];
    }
  }
}

=== FILE: choices.dfy ===
/**
 * The random source, made explicit as a tree of draws. A generation step
 * reads its own random numbers from `draws`; the k-th value it generates
 * in turn (an object's field, a header, a fact, an example row, the member
 * a union chose) reads from branch k. Sibling draws therefore come from
 * disjoint parts of the tree, and a property proved for every tree holds
 * whatever the random generator returns, each draw independently.
 */
module Choices {
  datatype ChoiceTree = ChoiceTree(draws: seq<nat>, branches: seq<ChoiceTree>)

  /** A source with no recorded draws: every draw reads 0. */
  const NoChoices: ChoiceTree := ChoiceTree([], [])

  /** The draw at position `i` of this step, reduced into `[0, bound)`; a missing entry draws 0. */
  function Pick(c: ChoiceTree, i: nat, bound: nat): (r: nat)
    requires bound > 0
    ensures r < bound
  {
    if i < |c.draws| then c.draws[i] % bound else 0
  }

  /** The source of the k-th value generated in turn; a missing branch has no draws. */
  function Branch(c: ChoiceTree, k: nat): (b: ChoiceTree)
    ensures k >= |c.branches| ==> b == NoChoices
    ensures k < |c.branches| ==> b == c.branches[k]
  {
    if k < |c.branches| then c.branches[k] else NoChoices
  }

  /** The source left for the values after the first: branch k of the result is branch k + 1 of `c`. */
  function Rest(c: ChoiceTree): (r: ChoiceTree)
    ensures forall k: nat :: Branch(r, k) == Branch(c, k + 1)
  {
    ChoiceTree(c.draws, if |c.branches| == 0 then [] else c.branches[1..])
  }

  /** Value i of `xs` and its branch are value i - 1 of the rest and the rest's branch i - 1. */
  lemma Shifted<T>(xs: seq<T>, c: ChoiceTree)
    requires |xs| > 0
    ensures forall i :: 1 <= i < |xs| ==> xs[i] == xs[1..][i - 1] && Branch(Rest(c), i - 1) == Branch(c, i)
  {
  }

  /** Every draw in range can be produced by some source. */
  lemma PickReaches(i: nat, bound: nat, target: nat)
    requires target < bound
    ensures Pick(ChoiceTree(seq(i + 1, j => target), []), i, bound) == target
  {
  }
}

=== FILE: encompassing.dfy ===
/**
 * The subtyping rule scalar patterns share: whether every value another
 * pattern admits is admitted by this one. Patterns of the same kind
 * always encompass each other; an exact value must fit; a union must have
 * every one of its leaves encompassed; two scalars of different kinds are
 * compared by generating from the other one and matching the result.
 */
module Encompassing {
  import opened Wrappers
  import opened Strings
  import opened Values
  import opened Results
  import opened Patterns
  import opened Resolvers
  import opened Choices
  import opened Resolution
  import LeafPatterns

  /** `own` against a pattern that is not a union. */
  function EncompassesSingle(own: Pattern, other: Pattern, ownR: Resolver, otherR: Resolver, choices: ChoiceTree): (o: Outcome<Result>)
    requires IsLeaf(own) && !other.AnyPattern?
    ensures SameClass(own, other) ==> o == Ok(Success)
    ensures !SameClass(own, other) && other.ExactValuePattern? ==>
      o == Ok(LeafPatterns.Matches(own, other.value, ownR.mismatchMessages))
    ensures !SameClass(own, other) && !IsScalarType(other) && !other.ExactValuePattern? && o.Ok? ==> o.value.Failure?
    ensures !SameClass(own, other) && IsScalarType(own) && IsScalarType(other) ==>
      (o == Ok(Success) <==>
        LeafPatterns.Generate(other, otherR, choices).Ok? &&
        LeafPatterns.Matches(own, LeafPatterns.Generate(other, otherR, choices).value, ownR.mismatchMessages).Success?)
  {
    if SameClass(own, other) then Ok(Success)
    else if other.ExactValuePattern? then Ok(LeafPatterns.Matches(own, other.value, ownR.mismatchMessages))
    else if IsScalarType(own) && IsScalarType(other) then
      var generated :- LeafPatterns.Generate(other, otherR, choices);
      if LeafPatterns.Matches(own, generated, ownR.mismatchMessages).Success? then Ok(Success)
      else Ok(Mismatch(own, other, ownR.mismatchMessages))
    else Ok(Mismatch(own, other, ownR.mismatchMessages))
  }

  /** The refusal that names both patterns' types. */
  function Mismatch(own: Pattern, other: Pattern, mm: MismatchMessages): (r: Result)
    requires !own.AnyPattern? && !other.AnyPattern?
    ensures r.Failure? && r.reason.None?
    ensures r == MismatchResult(mm, TypeName(own).value, TypeName(other).value)
  {
    MismatchResult(mm, TypeName(own).value, TypeName(other).value)
  }

  /** Each pattern of `leaves` checked with `EncompassesSingle`, leaf i generating from branch i. */
  function EachEncompassed(own: Pattern, leaves: seq<Pattern>, ownR: Resolver, otherR: Resolver, choices: ChoiceTree): (o: Outcome<seq<Result>>)
    requires IsLeaf(own) && forall q :: q in leaves ==> !q.AnyPattern?
    ensures o.Ok? <==> forall i :: 0 <= i < |leaves| ==> EncompassesSingle(own, leaves[i], ownR, otherR, Branch(choices, i)).Ok?
    ensures o.Ok? ==> |o.value| == |leaves|
    ensures o.Ok? ==> forall i :: 0 <= i < |leaves| ==>
      o.value[i] == EncompassesSingle(own, leaves[i], ownR, otherR, Branch(choices, i)).value
  {
    if |leaves| == 0 then Ok([])
    else
      var first :- EncompassesSingle(own, leaves[0], ownR, otherR, Branch(choices, 0));
      var rest :- EachEncompassed(own, leaves[1..], ownR, otherR, Rest(choices));
      Shifted(leaves, choices);
      Ok([first] + rest)
  }

  /**
   * Whether leaf pattern `own` encompasses `other`. A union on the other
   * side is flattened to its leaves, and its failures are gathered into
   * one; the scalar cross-check generates from `choices`, leaf i of a
   * union from its branch i.
   */
  function Encompasses(fuel: nat, own: Pattern, other: Pattern, ownR: Resolver, otherR: Resolver, choices: ChoiceTree): (o: Outcome<Result>)
    requires IsLeaf(own)
    ensures !other.AnyPattern? ==> o == EncompassesSingle(own, other, ownR, otherR, choices)
  {
    if !other.AnyPattern? then EncompassesSingle(own, other, ownR, otherR, choices)
    else
      var leaves :- PatternSet(fuel, other, otherR);
      var results :- EachEncompassed(own, leaves, ownR, otherR, choices);
      Ok(ResultFromFailures(Failures(results)))
  }

  /**
   * Against a union, `own` succeeds iff every leaf of the union is
   * encompassed, and a failure holds exactly the leaves' failures.
   */
  lemma UnionNeedsEveryLeaf(fuel: nat, own: Pattern, other: Pattern, ownR: Resolver, otherR: Resolver, choices: ChoiceTree)
    requires IsLeaf(own) && other.AnyPattern?
    requires PatternSet(fuel, other, otherR).Ok?
    requires forall i :: 0 <= i < |PatternSet(fuel, other, otherR).value| ==>
      EncompassesSingle(own, PatternSet(fuel, other, otherR).value[i], ownR, otherR, Branch(choices, i)).Ok?
    ensures Encompasses(fuel, own, other, ownR, otherR, choices).Ok?
    ensures Encompasses(fuel, own, other, ownR, otherR, choices).value.Success? <==>
      forall i :: 0 <= i < |PatternSet(fuel, other, otherR).value| ==>
        EncompassesSingle(own, PatternSet(fuel, other, otherR).value[i], ownR, otherR, Branch(choices, i)).value.Success?
    ensures Encompasses(fuel, own, other, ownR, otherR, choices).value.Failure? ==>
      forall c :: c in Encompasses(fuel, own, other, ownR, otherR, choices).value.causes <==>
        c.Failure? &&
        exists i :: 0 <= i < |PatternSet(fuel, other, otherR).value| &&
                    EncompassesSingle(own, PatternSet(fuel, other, otherR).value[i], ownR, otherR, Branch(choices, i)).value == c
  {
    var leaves := PatternSet(fuel, other, otherR).value;
    var results := EachEncompassed(own, leaves, ownR, otherR, choices).value;
    assert forall c :: c in results <==>
      exists i :: 0 <= i < |leaves| && EncompassesSingle(own, leaves[i], ownR, otherR, Branch(choices, i)).value == c;
  }

  /** Every leaf pattern encompasses itself. */
  lemma EncompassesItself(fuel: nat, p: Pattern, ownR: Resolver, otherR: Resolver, choices: ChoiceTree)
    requires IsLeaf(p)
    ensures Encompasses(fuel, p, p, ownR, otherR, choices) == Ok(Success)
  {
  }

  /** A number does not encompass a string: no generated string is a number. */
  lemma NumberRefusesString(fuel: nat, ownR: Resolver, otherR: Resolver, choices: ChoiceTree)
    ensures Encompasses(fuel, DefaultNumberPattern, DefaultStringPattern, ownR, otherR, choices) ==
      Ok(MismatchResult(ownR.mismatchMessages, "number", "string"))
  {
    var g := LeafPatterns.Generate(DefaultStringPattern, otherR, choices);
    assert g.Ok? ==> g.value.StringValue?;
  }

  /**
   * A number does not encompass a nullable number: the union's null leaf
   * is refused, and that refusal is the only cause of the failure.
   */
  lemma NumberRefusesNullableNumber(fuel: nat, ownR: Resolver, otherR: Resolver, choices: ChoiceTree)
    ensures Encompasses(fuel, DefaultNumberPattern, Union([NullPattern, DefaultNumberPattern]), ownR, otherR, choices) ==
      Ok(FromFailures([MismatchResult(ownR.mismatchMessages, "number", "null")]))
  {
    var other := Union([NullPattern, DefaultNumberPattern]);
    UnionOfLeavesPatternSet(fuel, other, otherR, 0);
    var leaves := PatternSet(fuel, other, otherR).value;
    assert leaves == [NullPattern, DefaultNumberPattern];
    var refusal := MismatchResult(ownR.mismatchMessages, "number", "null");
    assert EncompassesSingle(DefaultNumberPattern, NullPattern, ownR, otherR, choices) == Ok(refusal);
    var results := EachEncompassed(DefaultNumberPattern, leaves, ownR, otherR, choices).value;
    assert results == [refusal, Success];
    assert results[1..] == [Success];
    assert Failures(results[1..]) == [];
    assert Failures(results) == [refusal];
  }

  /** A number encompasses an exact number value that fits its bounds, and refuses an exact string. */
  lemma NumberAndExactValues(fuel: nat, ownR: Resolver, otherR: Resolver, choices: ChoiceTree, n: nat, s: string)
    requires n < 10
    ensures Encompasses(fuel, DefaultNumberPattern, ExactValuePattern(NumberValue(n), None, false), ownR, otherR, choices) == Ok(Success)
    ensures Encompasses(fuel, DefaultNumberPattern, ExactValuePattern(StringValue(s), None, false), ownR, otherR, choices).value.Failure?
  {
    assert ToStringLiteral(NumberValue(n)) == [DigitChar(n)];
  }
}

=== FILE: generation.dfy ===
/**
 * Generating a value of a pattern. Leaves generate themselves; a union
 * uses its example when default examples are on, else generates from its
 * non-null scalar when it is a nullable scalar, else from a chosen member
 * under cycle prevention, with NullValue standing in when a nullable
 * union would recurse into itself once too often.
 */
module Generation {
  import opened Wrappers
  import opened Strings
  import opened Values
  import opened Results
  import opened Patterns
  import opened Resolvers
  import opened AnyPatterns
  import opened Choices
  import LeafPatterns
  import NumberPatterns
  import Parsing
  import Matching

  /** The resolver an example is read and checked with: no facts and no named patterns. */
  const FreshResolver: Resolver := NewResolver([], false, map[])

  /** What member `m` makes of an example: the value it reads, if any, and whether that value matches. */
  datatype ExampleAttempt = ExampleAttempt(verdict: Result, read: Option<Value>)

  function TryExample(fuel: nat, m: Pattern, example: string): (a: ExampleAttempt)
    ensures a.verdict.Success? ==>
              a.read.Some? && Parsing.Parse(fuel, m, example, FreshResolver) == Ok(a.read.value) &&
              Matching.Matches(fuel, m, a.read.value, FreshResolver) == Ok(Success)
    ensures (Parsing.Parse(fuel, m, example, FreshResolver).Ok? &&
             Matching.Matches(fuel, m, Parsing.Parse(fuel, m, example, FreshResolver).value, FreshResolver) == Ok(Success)) ==>
              a.verdict.Success?
  {
    match Parsing.Parse(fuel, m, example, FreshResolver)
    case Thrown(e) => ExampleAttempt(Fail(ExceptionMessage(e)), None)
    case Ok(v) =>
      match Matching.Matches(fuel, m, v, FreshResolver)
      case Thrown(e) => ExampleAttempt(Fail(ExceptionMessage(e)), None)
      case Ok(verdict) => ExampleAttempt(verdict, Some(v))
  }

  /** Every member's attempt at the example, in declaration order. */
  function Attempts(fuel: nat, members: seq<Pattern>, example: string): (a: seq<ExampleAttempt>)
    ensures |a| == |members| && forall i :: 0 <= i < |members| ==> a[i] == TryExample(fuel, members[i], example)
  {
    seq(|members|, i requires 0 <= i < |members| => TryExample(fuel, members[i], example))
  }

  /** The position of the first attempt that succeeded. */
  function FirstAccepted(attempts: seq<ExampleAttempt>): (r: Option<nat>)
    ensures r.Some? ==> r.value < |attempts| && attempts[r.value].verdict.Success?
    ensures r.Some? ==> forall j :: 0 <= j < r.value ==> attempts[j].verdict.Failure?
    ensures r.None? <==> forall j :: 0 <= j < |attempts| ==> attempts[j].verdict.Failure?
  {
    if |attempts| == 0 then None
    else if attempts[0].verdict.Success? then Some(0)
    else match FirstAccepted(attempts[1..])
      case None => None
      case Some(i) => Some(i + 1)
  }

  /** The failure messages of the attempts, one per line. */
  function AttemptReport(attempts: seq<ExampleAttempt>): string {
    Join(seq(|attempts|, i requires 0 <= i < |attempts| => if attempts[i].verdict.Failure? then attempts[i].verdict.message else ""), "\n")
  }

  /**
   * A union's example, when default examples are on: the value read by
   * the first member that reads it and accepts the value read; a contract
   * error quoting the example when no member does.
   */
  function ResolveExample(fuel: nat, p: Pattern, r: Resolver): (o: Outcome<Option<Value>>)
    requires p.AnyPattern?
    ensures r.defaultExampleResolver == DoNotUseDefaultExample || p.example.None? ==> o == Ok(None)
    ensures r.defaultExampleResolver == UseDefaultExample && p.example.Some? ==>
      (o.Ok? <==> exists j :: 0 <= j < |p.members| && TryExample(fuel, p.members[j], p.example.value).verdict.Success?)
    ensures o.Ok? && o.value.Some? ==>
      exists j :: 0 <= j < |p.members| && Parsing.Parse(fuel, p.members[j], p.example.value, FreshResolver) == Ok(o.value.value) &&
        Matching.Matches(fuel, p.members[j], o.value.value, FreshResolver) == Ok(Success)
    ensures o.Ok? && r.defaultExampleResolver == UseDefaultExample && p.example.Some? ==> o.value.Some?
    ensures o.Thrown? ==> o.error.ContractException? && !o.error.isCycle
  {
    if r.defaultExampleResolver == DoNotUseDefaultExample || p.example.None? then Ok(None)
    else
      var example := p.example.value;
      var attempts := Attempts(fuel, p.members, example);
      match FirstAccepted(attempts)
      case Some(j) => Ok(Some(attempts[j].read.value))
      case None =>
        assert forall j :: 0 <= j < |p.members| ==> !TryExample(fuel, p.members[j], example).verdict.Success? by {
          forall j | 0 <= j < |p.members|
            ensures !TryExample(fuel, p.members[j], example).verdict.Success?
          {
            assert attempts[j] == TryExample(fuel, p.members[j], example);
          }
        }
        Thrown(ContractException("Example \"" + example + "\" does not match:\n" + AttemptReport(attempts), false))
  }

  function Generate(fuel: nat, p: Pattern, r: Resolver, choices: ChoiceTree): (o: Outcome<Value>)
    ensures IsLeaf(p) ==> o == LeafPatterns.Generate(p, r, choices)
    decreases fuel, p, 2
  {
    match p
    case DeferredPattern(token) =>
      if fuel == 0 then Thrown(StackOverflowError)
      else
        var q :- GetPattern(r, token);
        Generate(fuel - 1, q, r, choices)
    case JSONObjectPattern(_, _) =>
      var fields :- AllOk(seq(|p.fields|, i requires 0 <= i < |p.fields| => FieldValue(fuel, p, r, choices, i)));
      Ok(JSONObjectValue(fields))
    case AnyPattern(_, _, _, _, _, _) => GenerateAny(fuel, p, r, choices)
    case _ => LeafPatterns.Generate(p, r, choices)
  }

  /** The value generated for the field at index `i`, under the field's key, from the field's own branch of draws. */
  function FieldValue(fuel: nat, p: Pattern, r: Resolver, choices: ChoiceTree, i: nat): (o: Outcome<(string, Value)>)
    requires p.JSONObjectPattern? && i < |p.fields|
    ensures o.Ok? ==> o.value.0 == p.fields[i].0
    ensures o.Ok? <==> Generate(fuel, p.fields[i].1, r, Branch(choices, i)).Ok?
    ensures o.Ok? ==> o.value.1 == Generate(fuel, p.fields[i].1, r, Branch(choices, i)).value
    decreases fuel, p, 1
  {
    var v :- Generate(fuel, p.fields[i].1, r, Branch(choices, i));
    Ok((p.fields[i].0, v))
  }

  /**
   * Each field's value is generated from that field's own branch of draws:
   * an object generates iff each of its fields does, and each value is the
   * one its field generates on its own.
   */
  lemma FieldsFromBranches(fuel: nat, p: Pattern, r: Resolver, choices: ChoiceTree)
    requires p.JSONObjectPattern?
    ensures Generate(fuel, p, r, choices).Ok? <==>
      forall j :: 0 <= j < |p.fields| ==> Generate(fuel, p.fields[j].1, r, Branch(choices, j)).Ok?
    ensures Generate(fuel, p, r, choices).Ok? ==>
      Generate(fuel, p, r, choices).value.JSONObjectValue? &&
      |Generate(fuel, p, r, choices).value.jsonObject| == |p.fields| &&
      forall j :: 0 <= j < |p.fields| ==>
        Generate(fuel, p, r, choices).value.jsonObject[j] == (p.fields[j].0, Generate(fuel, p.fields[j].1, r, Branch(choices, j)).value)
  {
    var outs := seq(|p.fields|, i requires 0 <= i < |p.fields| => FieldValue(fuel, p, r, choices, i));
    var fields := AllOk(outs);
    assert Generate(fuel, p, r, choices) == if fields.Ok? then Ok(JSONObjectValue(fields.value)) else Thrown(fields.error);
    forall j | 0 <= j < |p.fields|
      ensures outs[j].Ok? <==> Generate(fuel, p.fields[j].1, r, Branch(choices, j)).Ok?
    {
      assert outs[j] == FieldValue(fuel, p, r, choices, j);
    }
  }

  /** Two boolean fields draw independently: one source gives `a` true and `b` false. */
  lemma SiblingFieldsDrawIndependently(fuel: nat, r: Resolver)
    ensures Generate(fuel, JSONObjectPattern([("a", DefaultBooleanPattern), ("b", DefaultBooleanPattern)], None), r,
                     ChoiceTree([], [ChoiceTree([1], []), ChoiceTree([0], [])])) ==
      Ok(JSONObjectValue([("a", BooleanValue(true)), ("b", BooleanValue(false))]))
  {
    var p := JSONObjectPattern([("a", DefaultBooleanPattern), ("b", DefaultBooleanPattern)], None);
    var c := ChoiceTree([], [ChoiceTree([1], []), ChoiceTree([0], [])]);
    assert Generate(fuel, DefaultBooleanPattern, r, Branch(c, 0)) == Ok(BooleanValue(true));
    assert Generate(fuel, DefaultBooleanPattern, r, Branch(c, 1)) == Ok(BooleanValue(false));
    FieldsFromBranches(fuel, p, r, c);
    var fields := Generate(fuel, p, r, c).value.jsonObject;
    assert fields[0] == ("a", BooleanValue(true)) && fields[1] == ("b", BooleanValue(false));
    assert fields == [("a", BooleanValue(true)), ("b", BooleanValue(false))];
  }

  /** A union: its example when one is to be used, otherwise a generated value. */
  function GenerateAny(fuel: nat, p: Pattern, r: Resolver, choices: ChoiceTree): (o: Outcome<Value>)
    requires p.AnyPattern?
    ensures ResolveExample(fuel, p, r).Ok? && ResolveExample(fuel, p, r).value.Some? ==>
      o == Ok(ResolveExample(fuel, p, r).value.value)
    ensures ResolveExample(fuel, p, r).Thrown? ==> o == Thrown(ResolveExample(fuel, p, r).error)
    decreases fuel, p, 1
  {
    var example :- ResolveExample(fuel, p, r);
    match example
    case Some(v) => Ok(v)
    case None => GenerateValue(fuel, p, r, choices)
  }

  /**
   * The member a union generates from when it is not a nullable scalar:
   * the object whose discriminator is "" when there is one, else a random
   * member; an empty union has nothing to choose from.
   */
  function ChosenMember(p: Pattern, choices: ChoiceTree): (o: Outcome<Pattern>)
    requires p.AnyPattern?
    ensures o.Ok? ==> o.value in p.members
    ensures o.Thrown? <==> |p.members| == 0
    ensures o.Thrown? ==> o.error == EmptyCollection
    ensures DiscriminatorBasedPattern(p.members, p.discriminatorProperty, "").None? && |p.members| > 0 ==>
      o == Ok(p.members[Pick(choices, 0, |p.members|)])
  {
    match DiscriminatorBasedPattern(p.members, p.discriminatorProperty, "")
    case Some(q) => Ok(q)
    case None =>
      if |p.members| == 0 then Thrown(EmptyCollection)
      else Ok(p.members[Pick(choices, 0, |p.members|)])
  }

  /**
   * A union's generated value without an example: a nullable scalar
   * generates from its scalar; otherwise the chosen member is generated
   * under cycle prevention, and a cycle in a nullable union gives null.
   * The union's `key` is not consulted: the resolver's generation from the
   * fact stored under a key is not part of this model.
   */
  function GenerateValue(fuel: nat, p: Pattern, r: Resolver, choices: ChoiceTree): (o: Outcome<Value>)
    requires p.AnyPattern?
    ensures |p.members| == 0 ==> o == Thrown(EmptyCollection)
    ensures IsScalarBasedPattern(p.members) ==> o == LeafPatterns.Generate(NonNullScalars(p.members)[0], r, choices)
    ensures !IsScalarBasedPattern(p.members) && |p.members| > 0 && ChosenMember(p, choices).Ok? &&
            EnterPattern(r, ChosenMember(p, choices).value).Thrown? ==>
              o == (if HasNullMember(p.members) then Ok(NullValue)
                    else Thrown(EnterPattern(r, ChosenMember(p, choices).value).error))
    ensures !IsScalarBasedPattern(p.members) && o.Ok? && !o.value.NullValue? ==>
      ChosenMember(p, choices).Ok? && EnterPattern(r, ChosenMember(p, choices).value).Ok?
    ensures !IsScalarBasedPattern(p.members) && ChosenMember(p, choices).Ok? &&
            EnterPattern(r, ChosenMember(p, choices).value).Ok? &&
            Generate(fuel, ChosenMember(p, choices).value, EnterPattern(r, ChosenMember(p, choices).value).value, Branch(choices, 0)).Ok? ==>
              o == Generate(fuel, ChosenMember(p, choices).value, EnterPattern(r, ChosenMember(p, choices).value).value, Branch(choices, 0))
    decreases fuel, p, 0
  {
    if IsScalarBasedPattern(p.members) then
      var scalar := NonNullScalars(p.members)[0];
      assert scalar in p.members;
      Generate(fuel, scalar, r, choices)
    else
      var chosen :- ChosenMember(p, choices);
      var entered := EnterPattern(r, chosen);
      var inner := if entered.Thrown? then Thrown(entered.error) else Generate(fuel, chosen, entered.value, Branch(choices, 0));
      var value :- CatchCycle(inner, HasNullMember(p.members));
      Ok(value.GetOr(NullValue))
  }

  /**
   * The union's pick and the chosen member's own draws are independent:
   * one source picks the boolean member (draw 0) and has it generate true
   * (its branch draws 1).
   */
  lemma PickAndMemberDrawIndependently(fuel: nat, r: Resolver)
    requires Occurrences(r.cyclePreventionStack, DefaultBooleanPattern) <= 1
    ensures Generate(fuel, Union([DefaultBooleanPattern, DefaultStringPattern]), r, ChoiceTree([0], [ChoiceTree([1], [])])) ==
      Ok(BooleanValue(true))
  {
    var p := Union([DefaultBooleanPattern, DefaultStringPattern]);
    var c := ChoiceTree([0], [ChoiceTree([1], [])]);
    assert !HasNullMember(p.members);
    assert !IsScalarBasedPattern(p.members);
    assert ResolveExample(fuel, p, r) == Ok(None);
    assert ChosenMember(p, c) == Ok(DefaultBooleanPattern);
    var entered := EnterPattern(r, DefaultBooleanPattern);
    assert Generate(fuel, DefaultBooleanPattern, entered.value, Branch(c, 0)) == Ok(BooleanValue(true));
    assert GenerateAny(fuel, p, r, c) == GenerateValue(fuel, p, r, c);
  }

  /** The example is not used: default examples are off or the union has none. */
  predicate NoExampleUsed(p: Pattern, r: Resolver)
    requires p.AnyPattern?
  {
    r.defaultExampleResolver == DoNotUseDefaultExample || p.example.None?
  }

  /**
   * A nullable scalar generates from its non-null scalar member, so the
   * value is never null; and without a discriminator the union accepts it.
   */
  lemma NullableScalarUsesScalar(fuel: nat, p: Pattern, r: Resolver, choices: ChoiceTree)
    requires p.AnyPattern? && IsScalarBasedPattern(p.members) && NoExampleUsed(p, r)
    ensures Generate(fuel, p, r, choices) == LeafPatterns.Generate(NonNullScalars(p.members)[0], r, choices)
    ensures !NonNullScalars(p.members)[0].NullPattern?
    ensures Generate(fuel, p, r, choices).Ok? &&
            (NonNullScalars(p.members)[0].NumberPattern? ==> NumberPatterns.ValidNumberPattern(NonNullScalars(p.members)[0])) ==>
              !Generate(fuel, p, r, choices).value.NullValue?
  {
    var scalar := NonNullScalars(p.members)[0];
    assert scalar in NonNullScalars(p.members);
    assert ResolveExample(fuel, p, r) == Ok(None);
    assert GenerateAny(fuel, p, r, choices) == GenerateValue(fuel, p, r, choices);
    assert GenerateValue(fuel, p, r, choices) == Generate(fuel, scalar, r, choices);
  }

  /** The value a nullable scalar generates, when the union has no discriminator, matches the union. */
  lemma NullableScalarValueMatches(fuel: nat, p: Pattern, r: Resolver, choices: ChoiceTree)
    requires p.AnyPattern? && p.discriminatorProperty.None? && IsScalarBasedPattern(p.members) && NoExampleUsed(p, r)
    requires NonNullScalars(p.members)[0].NumberPattern? ==>
      NumberPatterns.ValidNumberPattern(NonNullScalars(p.members)[0]) && NonNullScalars(p.members)[0].minimum.None?
    requires Generate(fuel, p, r, choices).Ok?
    ensures Matching.Matches(fuel, p, Generate(fuel, p, r, choices).value, r) == Ok(Success)
  {
    var scalar := NonNullScalars(p.members)[0];
    assert scalar in NonNullScalars(p.members);
    NullableScalarUsesScalar(fuel, p, r, choices);
    var v := Generate(fuel, p, r, choices).value;
    assert LeafPatterns.Matches(scalar, v, r.mismatchMessages).Success?;
    var j :| 0 <= j < |p.members| && p.members[j] == scalar;
    forall i | 0 <= i < |p.members|
      ensures IsLeaf(p.members[i])
    {
      if !p.members[i].NullPattern? {
        assert p.members[i] in NonNullScalars(p.members) by {
          NonNullScalarsOfPair(p.members, i);
        }
      }
    }
    assert Matching.Matches(fuel, p.members[j], v, r).value.Success?;
    Matching.PlainUnionSucceedsIff(fuel, p, v, r);
  }

  /** In a two-member union with exactly one non-null scalar, every non-null member is that scalar. */
  lemma NonNullScalarsOfPair(members: seq<Pattern>, i: nat)
    requires IsScalarBasedPattern(members) && i < |members| && !members[i].NullPattern?
    ensures members[i] in NonNullScalars(members)
  {
    var n :| 0 <= n < |members| && members[n].NullPattern?;
    var scalar := NonNullScalars(members)[0];
    assert scalar in NonNullScalars(members);
    var s :| 0 <= s < |members| && members[s] == scalar;
    assert i != n && s != n;
    assert i == s;
  }

  /**
   * When cycle prevention refuses the chosen member, a union with a null
   * member generates NullValue, and any other union fails with the cycle.
   */
  lemma RefusedMemberGeneratesNull(fuel: nat, p: Pattern, r: Resolver, choices: ChoiceTree)
    requires p.AnyPattern? && NoExampleUsed(p, r) && !IsScalarBasedPattern(p.members)
    requires DiscriminatorBasedPattern(p.members, p.discriminatorProperty, "").None? && |p.members| > 0
    requires Occurrences(r.cyclePreventionStack, p.members[Pick(choices, 0, |p.members|)]) > 1
    ensures HasNullMember(p.members) ==> Generate(fuel, p, r, choices) == Ok(NullValue)
    ensures !HasNullMember(p.members) ==>
      Generate(fuel, p, r, choices) == Thrown(ContractException("Invalid pattern cycle", true))
  {
    var chosen := p.members[Pick(choices, 0, |p.members|)];
    assert ChosenMember(p, choices) == Ok(chosen);
    assert EnterPattern(r, chosen) == Thrown(ContractException("Invalid pattern cycle", true));
    assert ResolveExample(fuel, p, r) == Ok(None);
    assert GenerateAny(fuel, p, r, choices) == GenerateValue(fuel, p, r, choices);
  }

  /** A union without members and without a usable example cannot generate anything. */
  lemma EmptyUnionGenerationThrows(fuel: nat, r: Resolver, choices: ChoiceTree)
    ensures Generate(fuel, Union([]), r, choices) == Thrown(EmptyCollection)
  {
    var p := Union([]);
    assert !IsScalarBasedPattern(p.members);
    assert ResolveExample(fuel, p, r) == Ok(None);
    assert ChosenMember(p, choices) == Thrown(EmptyCollection);
    assert GenerateAny(fuel, p, r, choices) == GenerateValue(fuel, p, r, choices);
  }

  /**
   * With default examples on, a union's example is what it generates, and
   * one of its members reads that value from the example and accepts it.
   */
  lemma ExampleIsGenerated(fuel: nat, p: Pattern, r: Resolver, choices: ChoiceTree)
    requires p.AnyPattern? && r.defaultExampleResolver == UseDefaultExample && p.example.Some?
    requires exists j :: 0 <= j < |p.members| && TryExample(fuel, p.members[j], p.example.value).verdict.Success?
    ensures Generate(fuel, p, r, choices).Ok?
    ensures exists j ::
              0 <= j < |p.members| &&
              Parsing.Parse(fuel, p.members[j], p.example.value, FreshResolver) == Generate(fuel, p, r, choices) &&
              Matching.Matches(fuel, p.members[j], Generate(fuel, p, r, choices).value, FreshResolver) == Ok(Success)
  {
    var o := ResolveExample(fuel, p, r);
    assert o.Ok? && o.value.Some?;
    assert Generate(fuel, p, r, choices) == Ok(o.value.value);
  }
}

=== FILE: headers.dfy ===
/**
 * The header part of a request or response pattern: a map from header
 * name (with a trailing "?" marking an optional header) to the pattern of
 * its value, an optional map of the headers an ancestor declares, and the
 * declared media type. Header names compare case-insensitively (section
 * 5.1 of RFC 9110); media types compare on type and subtype only, without
 * parameters (section 8.3.1 of RFC 9110).
 */
module Headers {
  import opened Wrappers
  import opened Strings
  import opened Values
  import opened Results
  import opened Patterns
  import opened Resolvers
  import opened Choices
  import AssocLists
  import Parsing
  import Matching
  import Generation

  datatype HeadersPattern = HeadersPattern(
    pattern: seq<(string, Pattern)>,
    ancestorHeaders: Option<seq<(string, Pattern)>>,
    contentType: Option<string>)

  const ContentTypeHeader: string := "Content-Type"

  const SOAPActionHeader: string := "SOAPAction"

  predicate IsOptional(key: string) {
    EndsWith(key, "?")
  }

  function WithoutOptionality(key: string): (r: string)
    ensures IsOptional(key) ==> r + "?" == key
    ensures !IsOptional(key) ==> r == key
  {
    RemoveSuffix(key, "?")
  }

  /** Two of the names are equal once lower-cased. */
  predicate HasCaseInsensitiveDuplicate(names: seq<string>)
    ensures forall i, j :: 0 <= i < |names| && 0 <= j < |names| && i != j && EqualsIgnoreCase(names[i], names[j]) ==>
      HasCaseInsensitiveDuplicate(names)
    ensures HasCaseInsensitiveDuplicate(names) ==> |names| >= 2
  {
    exists i, j :: 0 <= i < j < |names| && Lower(names[i]) == Lower(names[j])
  }

  /**
   * Building a headers pattern: the header names must stay distinct when
   * lower-cased, or the construction throws naming all of them.
   */
  function NewHeadersPattern(pattern: seq<(string, Pattern)>, ancestorHeaders: Option<seq<(string, Pattern)>>,
                             contentType: Option<string>): (o: Outcome<HeadersPattern>)
    ensures o.Ok? <==> !HasCaseInsensitiveDuplicate(AssocLists.Keys(pattern))
    ensures o.Ok? ==> o.value == HeadersPattern(pattern, ancestorHeaders, contentType)
    ensures o.Thrown? ==>
      o.error == ContractException("Headers are not unique: " + Join(AssocLists.Keys(pattern), ", "), false)
  {
    var names := AssocLists.Keys(pattern);
    if HasCaseInsensitiveDuplicate(names) then
      Thrown(ContractException("Headers are not unique: " + Join(names, ", "), false))
    else Ok(HeadersPattern(pattern, ancestorHeaders, contentType))
  }

  /** "X-Id" and "x-id" cannot both be declared. */
  lemma MixedCaseDuplicateRefused(p: Pattern, q: Pattern)
    ensures NewHeadersPattern([("X-Id", p), ("x-id", q)], None, None).Thrown?
  {
    var names := AssocLists.Keys([("X-Id", p), ("x-id", q)]);
    assert names[0] == "X-Id" && names[1] == "x-id";
    assert Lower(names[0]) == Lower(names[1]);
  }

  // ---- media types ----

  /**
   * The "type/subtype" of a media type: the text before any ";"
   * parameters, trimmed; text without a "/" there is kept whole, as the
   * source keeps a value its media-type parser refuses.
   */
  function MediaType(s: string): (r: string)
    ensures ';' !in r || r == s
  {
    var main := Trim(Split(s, ';')[0]);
    if '/' in main then main else s
  }

  /** Parameters such as a charset do not take part in the comparison. */
  lemma ParametersIgnored(mediaType: string, parameters: string)
    requires ';' !in mediaType && '/' in Trim(mediaType)
    ensures MediaType(mediaType + ";" + parameters) == MediaType(mediaType)
  {
    var s := mediaType + ";" + parameters;
    assert IndexOf(s, ';') == Some(|mediaType|) by {
      assert s[|mediaType|] == ';';
      assert s[..|mediaType|] == mediaType;
    }
    assert Split(s, ';')[0] == mediaType;
    SplitWithoutSeparator(mediaType, ';');
  }

  /** The text a header value stands for when it is matched against a pattern; an absent header is the empty string. */
  function ParsedValue(s: Option<string>): (v: Value)
    ensures v.StringValue?
  {
    match s
    case Some(text) => StringValue(text)
    case None => EmptyString
  }

  /** The pattern declared for Content-Type, as a required or an optional header. */
  function ContentTypePattern(pattern: seq<(string, Pattern)>): (r: Option<Pattern>)
    ensures AssocLists.HasKey(pattern, ContentTypeHeader) ==> r == AssocLists.Get(pattern, ContentTypeHeader)
    ensures r.None? <==> !AssocLists.HasKey(pattern, ContentTypeHeader) && !AssocLists.HasKey(pattern, ContentTypeHeader + "?")
  {
    match AssocLists.Get(pattern, ContentTypeHeader)
    case Some(p) => Some(p)
    case None => AssocLists.Get(pattern, ContentTypeHeader + "?")
  }

  /**
   * The Content-Type check. When a Content-Type pattern exists and refuses
   * the declared media type, the request's value must match the pattern.
   * Otherwise, with both a declared media type and a request value, their
   * lower-cased type/subtype must agree.
   */
  function MatchContentType(fuel: nat, hp: HeadersPattern, headers: seq<(string, string)>, r: Resolver): (o: Outcome<Result>)
    ensures o.Ok? && o.value.Failure? ==> HasReason(o.value, ContentTypeMismatch) && o.value.breadCrumb == ContentTypeHeader
    ensures ContentTypePattern(hp.pattern).None? && o.Ok? && o.value.Failure? ==> o.value.reason == Some(ContentTypeMismatch)
    ensures o.Ok? && o.value.Failure? ==>
      (o.value.reason == Some(ContentTypeMismatch) && o.value.causes == []) ||
      (o.value.reason.None? && |o.value.causes| == 1 && o.value.causes[0].Failure? &&
       o.value.causes[0].reason == Some(ContentTypeMismatch))
    ensures ContentTypePattern(hp.pattern).None? && hp.contentType.Some? && AssocLists.Get(headers, ContentTypeHeader).Some? ==>
      (o == Ok(Success) <==>
        MediaType(Lower(hp.contentType.value)) == MediaType(Lower(AssocLists.Get(headers, ContentTypeHeader).value)))
    ensures hp.contentType.None? && ContentTypePattern(hp.pattern).None? ==> o == Ok(Success)
  {
    var fromRequest := AssocLists.Get(headers, ContentTypeHeader);
    var ctPattern := ContentTypePattern(hp.pattern);
    var declared :- if ctPattern.Some? then Matching.Matches(fuel, ctPattern.value, ParsedValue(hp.contentType), r) else Ok(Success);
    if ctPattern.Some? && declared.Failure? then
      var actual :- Matching.Matches(fuel, ctPattern.value, ParsedValue(fromRequest), r);
      if actual.Failure? then
        Ok(WithBreadCrumb(WithReason(actual, ContentTypeMismatch), ContentTypeHeader))
      else Ok(Success)
    else if hp.contentType.Some? && fromRequest.Some? then
      if MediaType(Lower(hp.contentType.value)) != MediaType(Lower(fromRequest.value)) then
        Ok(Failure(MismatchMessage(r.mismatchMessages, hp.contentType.value, fromRequest.value), [], ContentTypeHeader,
                   Some(ContentTypeMismatch), None))
      else Ok(Success)
    else Ok(Success)
  }

  // ---- which request headers are checked ----

  /**
   * With ancestor headers, the request headers the ancestor declares
   * (ignoring case and optionality); without, all of them except a
   * Content-Type that the pattern does not declare.
   */
  function RelevantHeaders(hp: HeadersPattern, headers: seq<(string, string)>): (r: seq<(string, string)>)
    ensures forall e :: e in r ==> e in headers
    ensures hp.ancestorHeaders.None? ==>
      (forall e :: e in r <==> e in headers && !(e.0 == ContentTypeHeader && ContentTypePattern(hp.pattern).None?))
  {
    match hp.ancestorHeaders
    case Some(ancestors) => WithoutIgnorableHeaders(headers, ancestors)
    case None => WithoutUndeclaredContentType(headers, hp.pattern)
  }

  /** The lower-cased names of an ancestor's headers. */
  function LowerKeys(m: seq<(string, Pattern)>): (r: seq<string>)
    ensures |r| == |m| && forall i :: 0 <= i < |m| ==> r[i] == Lower(m[i].0)
  {
    seq(|m|, i requires 0 <= i < |m| => Lower(m[i].0))
  }

  /** Keeps the headers an ancestor declares, as required or optional, ignoring case. */
  function WithoutIgnorableHeaders(headers: seq<(string, string)>, ancestors: seq<(string, Pattern)>): (r: seq<(string, string)>)
    ensures forall e :: e in r <==>
      (e in headers &&
       (Lower(WithoutOptionality(e.0)) in LowerKeys(ancestors) || Lower(WithoutOptionality(e.0)) + "?" in LowerKeys(ancestors)))
  {
    var declared := LowerKeys(ancestors);
    AssocLists.FilterKeys(headers, key => Lower(WithoutOptionality(key)) in declared || Lower(WithoutOptionality(key)) + "?" in declared)
  }

  /** Drops the request's Content-Type when the pattern declares none (the engine added it itself). */
  function WithoutUndeclaredContentType(headers: seq<(string, string)>, pattern: seq<(string, Pattern)>): (r: seq<(string, string)>)
    ensures forall e :: e in r <==> e in headers && !(e.0 == ContentTypeHeader && ContentTypePattern(pattern).None?)
  {
    if AssocLists.HasKey(headers, ContentTypeHeader) && ContentTypePattern(pattern).None? then
      AssocLists.Remove(headers, ContentTypeHeader)
    else
      assert forall e :: e in headers && e.0 == ContentTypeHeader ==> AssocLists.HasKey(headers, ContentTypeHeader) by {
        forall e | e in headers && e.0 == ContentTypeHeader
          ensures AssocLists.HasKey(headers, ContentTypeHeader)
        {
          var i :| 0 <= i < |headers| && headers[i] == e;
        }
      }
      headers
  }

  // ---- key errors ----

  /** Some header carries `name`, ignoring case. */
  predicate HasHeaderIgnoringCase(headers: seq<(string, string)>, name: string) {
    exists i :: 0 <= i < |headers| && Lower(headers[i].0) == Lower(name)
  }

  /** The required pattern keys that no header carries (case-insensitively), in declaration order. */
  function MissingKeys(pattern: seq<(string, Pattern)>, headers: seq<(string, string)>): (r: seq<string>)
    ensures forall k :: k in r <==> AssocLists.HasKey(pattern, k) && !IsOptional(k) && !HasHeaderIgnoringCase(headers, k)
  {
    if |pattern| == 0 then []
    else
      var k := pattern[0].0;
      var rest := MissingKeys(pattern[1..], headers);
      assert forall j :: AssocLists.HasKey(pattern, j) <==> j == k || AssocLists.HasKey(pattern[1..], j) by {
        forall j ensures AssocLists.HasKey(pattern, j) <==> j == k || AssocLists.HasKey(pattern[1..], j) {
          if j != k {
            AssocLists.HasKeyCons(pattern, j);
          }
        }
      }
      (if !IsOptional(k) && !HasHeaderIgnoringCase(headers, k) then [k] else []) + rest
  }

  /** The failure for a required header that is absent, under that header's name. */
  function MissingHeaderFailure(name: string, mm: MismatchMessages): (r: Result)
    ensures r.Failure? && r.breadCrumb == name && r.causes == [Fail(ExpectedKeyWasMissing(mm, "header", name))]
  {
    WithBreadCrumb(Fail(ExpectedKeyWasMissing(mm, "header", name)), name)
  }

  /** A missing SOAPAction alone decides the outcome. */
  function SOAPActionMissing(mm: MismatchMessages): (r: Result)
    ensures r.Failure? && r.reason == Some(SOAPActionMismatch) && r.breadCrumb == SOAPActionHeader
  {
    SetReason(MissingHeaderFailure(SOAPActionHeader, mm), Some(SOAPActionMismatch))
  }

  // ---- header values ----

  /** The value of the last header whose lower-cased name is `lowerName` (later entries win when the names are lower-cased). */
  function LastValueIgnoringCase(headers: seq<(string, string)>, lowerName: string): (r: Option<string>)
    ensures r.Some? <==> exists i :: 0 <= i < |headers| && Lower(headers[i].0) == lowerName
    ensures r.Some? ==> exists i :: 0 <= i < |headers| && Lower(headers[i].0) == lowerName && headers[i].1 == r.value
    decreases |headers|
  {
    if |headers| == 0 then None
    else
      var last := headers[|headers| - 1];
      if Lower(last.0) == lowerName then Some(last.1)
      else
        var init := headers[..|headers| - 1];
        var r := LastValueIgnoringCase(init, lowerName);
        assert forall i :: 0 <= i < |init| ==> init[i] == headers[i];
        r
  }

  /** SOAPAction failures are tagged so that they stand out; other headers' failures carry no reason. */
  function HighlightReason(key: string): (r: Option<FailureReason>)
    ensures r.Some? <==> WithoutOptionality(key) == SOAPActionHeader
  {
    if WithoutOptionality(key) == SOAPActionHeader then Some(SOAPActionMismatch) else None
  }

  /** The reason tag of a failure replaced by `reason` (possibly by none). */
  function SetReason(r: Result, reason: Option<FailureReason>): (w: Result)
    ensures r.Success? <==> w.Success?
    ensures w.Failure? ==> w == r.(reason := reason)
  {
    if r.Failure? then r.(reason := reason) else r
  }

  /**
   * One declared header whose value the request carries: the value is
   * read with the pattern (kept as text when it does not read) and
   * matched; a thrown error becomes a failure.
   */
  function HeaderValueResult(fuel: nat, key: string, p: Pattern, sample: string, r: Resolver): (res: Result)
    ensures res.Failure? ==> res.reason == HighlightReason(key)
  {
    var name := WithoutOptionality(key);
    var value := match Parsing.Parse(fuel, p, sample, r) case Ok(v) => v case Thrown(_) => StringValue(sample);
    match Matching.Matches(fuel, p, value, r)
    case Ok(res) => SetReason(WithBreadCrumb(res, name), HighlightReason(key))
    case Thrown(ContractException(m, _)) => Failure(m, [], "", HighlightReason(key), None)
    case Thrown(e) => Failure(ExceptionMessage(e), [], name, HighlightReason(key), None)
  }

  /** The results of the declared headers from index `i` on that the request carries, in declaration order. */
  function ValueResults(fuel: nat, pattern: seq<(string, Pattern)>, headers: seq<(string, string)>, r: Resolver, i: nat): (rs: seq<Result>)
    requires i <= |pattern|
    ensures |rs| <= |pattern| - i
    ensures forall x :: x in rs ==>
      (exists j :: i <= j < |pattern| &&
        LastValueIgnoringCase(headers, Lower(WithoutOptionality(pattern[j].0))).Some? &&
        x == HeaderValueResult(fuel, pattern[j].0, pattern[j].1,
                               LastValueIgnoringCase(headers, Lower(WithoutOptionality(pattern[j].0))).value, r))
    decreases |pattern| - i
  {
    if i == |pattern| then []
    else
      var rest := ValueResults(fuel, pattern, headers, r, i + 1);
      match LastValueIgnoringCase(headers, Lower(WithoutOptionality(pattern[i].0)))
      case None => rest
      case Some(sample) => [HeaderValueResult(fuel, pattern[i].0, pattern[i].1, sample, r)] + rest
  }

  // ---- matching ----

  /**
   * All checks but the outer breadcrumb: the Content-Type check first;
   * then a missing SOAPAction alone; then every missing required header
   * and every failing header value, together.
   */
  function MatchEach(fuel: nat, hp: HeadersPattern, headers: seq<(string, string)>, r: Resolver): (o: Outcome<Result>)
    ensures MatchContentType(fuel, hp, headers, r).Thrown? ==> o.Thrown?
    ensures MatchContentType(fuel, hp, headers, r).Ok? && MatchContentType(fuel, hp, headers, r).value.Failure? ==>
      o == MatchContentType(fuel, hp, headers, r)
    ensures MatchContentType(fuel, hp, headers, r) == Ok(Success) ==> o.Ok?
    ensures MatchContentType(fuel, hp, headers, r) == Ok(Success) &&
            SOAPActionHeader in MissingKeys(hp.pattern, RelevantHeaders(hp, headers)) ==>
              o == Ok(SOAPActionMissing(r.mismatchMessages))
    ensures MatchContentType(fuel, hp, headers, r) == Ok(Success) &&
            SOAPActionHeader !in MissingKeys(hp.pattern, RelevantHeaders(hp, headers)) ==>
              (o.value.Success? <==>
                (|MissingKeys(hp.pattern, RelevantHeaders(hp, headers))| == 0 &&
                 forall x :: x in ValueResults(fuel, hp.pattern, RelevantHeaders(hp, headers), r, 0) ==> x.Success?))
  {
    var contentTypeResult :- MatchContentType(fuel, hp, headers, r);
    if contentTypeResult.Failure? then Ok(contentTypeResult)
    else
      var relevant := RelevantHeaders(hp, headers);
      var missing := MissingKeys(hp.pattern, relevant);
      if SOAPActionHeader in missing then Ok(SOAPActionMissing(r.mismatchMessages))
      else
        var keyFailures := seq(|missing|, i requires 0 <= i < |missing| => MissingHeaderFailure(WithoutOptionality(missing[i]), r.mismatchMessages));
        var failures := keyFailures + Failures(ValueResults(fuel, hp.pattern, relevant, r, 0));
        if |failures| > 0 then
          assert |missing| > 0 || |Failures(ValueResults(fuel, hp.pattern, relevant, r, 0))| > 0;
          Ok(FromFailures(failures))
        else Ok(Success)
  }

  /** Header matching: every failure sits under the HEADERS breadcrumb. */
  function Matches(fuel: nat, hp: HeadersPattern, headers: seq<(string, string)>, r: Resolver): (o: Outcome<Result>)
    ensures MatchEach(fuel, hp, headers, r).Thrown? <==> o.Thrown?
    ensures o.Ok? ==> (o.value.Success? <==> MatchEach(fuel, hp, headers, r).value.Success?)
    ensures o.Ok? && o.value.Failure? ==>
      o.value.breadCrumb == "HEADERS" && o.value.causes == [MatchEach(fuel, hp, headers, r).value]
  {
    var result :- MatchEach(fuel, hp, headers, r);
    Ok(WithBreadCrumb(result, "HEADERS"))
  }

  /** A request whose media type differs from the declared one fails at Content-Type, before any header is looked at. */
  lemma ContentTypeDecidesFirst(fuel: nat, hp: HeadersPattern, headers: seq<(string, string)>, r: Resolver)
    requires ContentTypePattern(hp.pattern).None? && hp.contentType.Some?
    requires AssocLists.Get(headers, ContentTypeHeader).Some?
    requires MediaType(Lower(hp.contentType.value)) != MediaType(Lower(AssocLists.Get(headers, ContentTypeHeader).value))
    ensures Matches(fuel, hp, headers, r).Ok?
    ensures Matches(fuel, hp, headers, r).value.causes == [MatchContentType(fuel, hp, headers, r).value]
    ensures MatchContentType(fuel, hp, headers, r).value.reason == Some(ContentTypeMismatch)
  {
  }

  /**
   * With no Content-Type pattern, a request sending the declared media
   * type in any case, followed by parameters such as a charset, passes the
   * Content-Type check.
   */
  lemma ParametersAndCaseDoNotMatter(fuel: nat, declared: string, sent: string, parameters: string,
                                     headers: seq<(string, string)>, r: Resolver)
    requires ';' !in declared && '/' in Trim(Lower(declared))
    requires Lower(sent) == Lower(declared)
    requires AssocLists.Get(headers, ContentTypeHeader) == Some(sent + ";" + parameters)
    ensures MatchContentType(fuel, HeadersPattern([], None, Some(declared)), headers, r) == Ok(Success)
  {
    LowerKeepsSeparator(declared);
    LowerOfParameters(sent, parameters);
    ParametersIgnored(Lower(declared), Lower(parameters));
  }

  lemma LowerKeepsSeparator(s: string)
    requires ';' !in s
    ensures ';' !in Lower(s)
  {
  }

  lemma LowerOfParameters(sent: string, parameters: string)
    ensures Lower(sent + ";" + parameters) == Lower(sent) + ";" + Lower(parameters)
  {
    LowerConcat(sent + ";", parameters);
    LowerConcat(sent, ";");
    assert Lower(";") == ";";
  }


  /** Without ancestor headers, an undeclared Content-Type in the request never counts among the checked headers. */
  lemma UndeclaredContentTypeIgnored(hp: HeadersPattern, headers: seq<(string, string)>)
    requires hp.ancestorHeaders.None? && ContentTypePattern(hp.pattern).None?
    ensures !AssocLists.HasKey(RelevantHeaders(hp, headers), ContentTypeHeader)
    ensures forall e :: e in headers && e.0 != ContentTypeHeader ==> e in RelevantHeaders(hp, headers)
  {
  }

  // ---- generation ----

  /** Some declared key, without its "?", is `k`. */
  predicate Declares(pattern: seq<(string, Pattern)>, k: string) {
    exists i :: 0 <= i < |pattern| && WithoutOptionality(pattern[i].0) == k
  }

  lemma DeclaresSnoc(pattern: seq<(string, Pattern)>, k: string)
    requires |pattern| > 0
    ensures Declares(pattern, k) <==> Declares(pattern[..|pattern| - 1], k) || WithoutOptionality(pattern[|pattern| - 1].0) == k
  {
    var init := pattern[..|pattern| - 1];
    if Declares(pattern, k) && WithoutOptionality(pattern[|pattern| - 1].0) != k {
      var i :| 0 <= i < |pattern| && WithoutOptionality(pattern[i].0) == k;
      assert init[i] == pattern[i];
    }
    if Declares(init, k) {
      var i :| 0 <= i < |init| && WithoutOptionality(init[i].0) == k;
      assert init[i] == pattern[i];
    }
  }

  /** No later declaration has the same name without "?" as the one at index i. */
  predicate LastDeclaration(pattern: seq<(string, Pattern)>, i: nat)
    requires i < |pattern|
  {
    forall j :: i < j < |pattern| ==> WithoutOptionality(pattern[j].0) != WithoutOptionality(pattern[i].0)
  }

  /** The literal a header declared at index i with pattern `p` generates on its own, from branch i of the draws. */
  function HeaderValue(fuel: nat, p: Pattern, r: Resolver, choices: ChoiceTree, i: nat): (o: Outcome<string>)
    ensures o.Ok? <==> EnterPattern(r, p).Ok? && Generation.Generate(fuel, p, EnterPattern(r, p).value, Branch(choices, i)).Ok?
    ensures o.Ok? ==> o.value == ToStringLiteral(Generation.Generate(fuel, p, EnterPattern(r, p).value, Branch(choices, i)).value)
  {
    var entered :- EnterPattern(r, p);
    var value :- Generation.Generate(fuel, p, entered, Branch(choices, i));
    Ok(ToStringLiteral(value))
  }

  /** Each declared header's literal, in declaration order: all of them, or the error of the first that fails. */
  function HeaderValues(fuel: nat, pattern: seq<(string, Pattern)>, r: Resolver, choices: ChoiceTree): (o: Outcome<seq<string>>)
    ensures o.Ok? <==> forall i :: 0 <= i < |pattern| ==> HeaderValue(fuel, pattern[i].1, r, choices, i).Ok?
    ensures o.Ok? ==> |o.value| == |pattern| && forall i :: 0 <= i < |pattern| ==> o.value[i] == HeaderValue(fuel, pattern[i].1, r, choices, i).value
    ensures o.Thrown? ==>
              exists i :: 0 <= i < |pattern| && HeaderValue(fuel, pattern[i].1, r, choices, i) == Thrown(o.error) &&
                          forall k :: 0 <= k < i ==> HeaderValue(fuel, pattern[k].1, r, choices, k).Ok?
  {
    var outs := seq(|pattern|, i requires 0 <= i < |pattern| => HeaderValue(fuel, pattern[i].1, r, choices, i));
    assert forall i :: 0 <= i < |pattern| ==> outs[i] == HeaderValue(fuel, pattern[i].1, r, choices, i);
    AllOk(outs)
  }

  /** Each header's name without "?" paired with its literal. */
  function Named(pattern: seq<(string, Pattern)>, values: seq<string>): (named: seq<(string, string)>)
    requires |values| == |pattern|
    ensures |named| == |pattern|
    ensures forall i :: 0 <= i < |pattern| ==> named[i] == (WithoutOptionality(pattern[i].0), values[i])
  {
    seq(|pattern|, i requires 0 <= i < |pattern| => (WithoutOptionality(pattern[i].0), values[i]))
  }

  /**
   * A literal for each declared header, under its name without "?", in
   * declaration order (a later declaration of the same name wins, as
   * `toMap` does); the header at index i draws from branch i, and the
   * first header that fails to generate gives the error.
   */
  function GenerateEach(fuel: nat, pattern: seq<(string, Pattern)>, r: Resolver, choices: ChoiceTree): (o: Outcome<seq<(string, string)>>)
    ensures o.Ok? ==> forall k :: AssocLists.HasKey(o.value, k) <==> Declares(pattern, k)
    ensures o.Ok? <==> forall i :: 0 <= i < |pattern| ==> HeaderValue(fuel, pattern[i].1, r, choices, i).Ok?
  {
    var values :- HeaderValues(fuel, pattern, r, choices);
    var named := Named(pattern, values);
    assert forall k :: AssocLists.HasKey(AssocLists.PutAll([], named), k) <==> Declares(pattern, k) by {
      forall k ensures AssocLists.HasKey(AssocLists.PutAll([], named), k) <==> Declares(pattern, k) {
        AssocLists.PutAllKeys([], named, k);
        if Declares(pattern, k) {
          var i :| 0 <= i < |pattern| && WithoutOptionality(pattern[i].0) == k;
          assert named[i].0 == k;
        }
        if AssocLists.HasKey(named, k) {
          var i :| 0 <= i < |named| && named[i].0 == k;
          assert WithoutOptionality(pattern[i].0) == k;
        }
      }
    }
    Ok(AssocLists.PutAll([], named))
  }

  /**
   * Each header's value is generated on its own, from its own branch of
   * draws: after a successful generation the last declaration of a name
   * gives that name's value.
   */
  lemma HeaderValuesFromBranches(fuel: nat, pattern: seq<(string, Pattern)>, r: Resolver, choices: ChoiceTree, i: nat)
    requires i < |pattern| && LastDeclaration(pattern, i) && GenerateEach(fuel, pattern, r, choices).Ok?
    ensures HeaderValue(fuel, pattern[i].1, r, choices, i).Ok?
    ensures AssocLists.Get(GenerateEach(fuel, pattern, r, choices).value, WithoutOptionality(pattern[i].0)) ==
      Some(HeaderValue(fuel, pattern[i].1, r, choices, i).value)
  {
    var values := HeaderValues(fuel, pattern, r, choices).value;
    var named := Named(pattern, values);
    assert GenerateEach(fuel, pattern, r, choices).value == AssocLists.PutAll([], named);
    AssocLists.PutAllLast([], named, i, WithoutOptionality(pattern[i].0), values[i]);
  }

  /** Two boolean headers draw independently: one source gives "true" for A and "false" for B. */
  lemma SiblingHeadersDrawIndependently(fuel: nat, r: Resolver)
    requires Occurrences(r.cyclePreventionStack, DefaultBooleanPattern) <= 1
    ensures GenerateEach(fuel, [("A", DefaultBooleanPattern), ("B", DefaultBooleanPattern)], r,
                         ChoiceTree([], [ChoiceTree([1], []), ChoiceTree([0], [])])) == Ok([("A", "true"), ("B", "false")])
  {
    var pattern := [("A", DefaultBooleanPattern), ("B", DefaultBooleanPattern)];
    var c := ChoiceTree([], [ChoiceTree([1], []), ChoiceTree([0], [])]);
    BooleanHeaderValue(fuel, r, c, 0, true);
    BooleanHeaderValue(fuel, r, c, 1, false);
    var values := HeaderValues(fuel, pattern, r, c).value;
    assert values == ["true", "false"];
    var named := Named(pattern, values);
    assert WithoutOptionality("A") == "A" && WithoutOptionality("B") == "B";
    assert named == [("A", "true"), ("B", "false")];
    PutTwo("A", "true", "B", "false");
  }

  /** Two pairs with different names put in turn are listed in order. */
  lemma PutTwo(a: string, x: string, b: string, y: string)
    requires a != b
    ensures AssocLists.PutAll([], [(a, x), (b, y)]) == [(a, x), (b, y)]
  {
    var entries := [(a, x), (b, y)];
    assert entries[..1] == [(a, x)] && entries[..1][..0] == [];
    assert AssocLists.PutAll([], entries[..1]) == [(a, x)];
    assert !AssocLists.HasKey([(a, x)], b);
  }

  /** A boolean header whose branch draws 1 generates "true", and one whose branch draws 0 generates "false". */
  lemma BooleanHeaderValue(fuel: nat, r: Resolver, c: ChoiceTree, i: nat, b: bool)
    requires Occurrences(r.cyclePreventionStack, DefaultBooleanPattern) <= 1
    requires Branch(c, i) == ChoiceTree([if b then 1 else 0], [])
    ensures HeaderValue(fuel, DefaultBooleanPattern, r, c, i) == Ok(if b then "true" else "false")
  {
    var entered := EnterPattern(r, DefaultBooleanPattern).value;
    assert Generation.Generate(fuel, DefaultBooleanPattern, entered, Branch(c, i)) == Ok(BooleanValue(b));
  }

  /** The declared media type added as Content-Type, unless it is blank. */
  function WithMediaType(headers: seq<(string, string)>, contentType: string): (r: seq<(string, string)>)
    ensures !IsBlank(contentType) ==> AssocLists.Get(r, ContentTypeHeader) == Some(contentType)
    ensures IsBlank(contentType) ==> r == headers
    ensures forall k :: k != ContentTypeHeader ==> AssocLists.Get(r, k) == AssocLists.Get(headers, k)
  {
    if IsBlank(contentType) then headers else AssocLists.Put(headers, ContentTypeHeader, contentType)
  }

  /** Whether a second generation from the Content-Type pattern (with `again`) gives the same text: the pattern pins one value. */
  function ContentTypeIsConst(fuel: nat, hp: HeadersPattern, generated: string, r: Resolver, again: ChoiceTree): (o: Outcome<bool>)
    ensures ContentTypePattern(hp.pattern).None? ==> o == Ok(false)
  {
    match ContentTypePattern(hp.pattern)
    case None => Ok(false)
    case Some(p) =>
      var regenerated :- Generation.Generate(fuel, p, r, again);
      Ok(generated == ToStringLiteral(regenerated))
  }

  /**
   * Headers generated from the pattern: one per declared header, named
   * without "?". With a declared media type, Content-Type is added when
   * none was generated, and replaced when the generated one is not fixed.
   */
  function Generate(fuel: nat, hp: HeadersPattern, r: Resolver, choices: ChoiceTree, again: ChoiceTree): (o: Outcome<seq<(string, string)>>)
    ensures GenerateEach(fuel, hp.pattern, r, choices).Thrown? ==> o.Thrown?
    ensures hp.contentType.None? ==> o == GenerateEach(fuel, hp.pattern, r, choices)
    ensures o.Ok? ==> forall k :: k != ContentTypeHeader ==>
      AssocLists.Get(o.value, k) == AssocLists.Get(GenerateEach(fuel, hp.pattern, r, choices).value, k)
    ensures o.Ok? && hp.contentType.Some? && !IsBlank(hp.contentType.value) &&
            !AssocLists.HasKey(GenerateEach(fuel, hp.pattern, r, choices).value, ContentTypeHeader) ==>
              AssocLists.Get(o.value, ContentTypeHeader) == hp.contentType
  {
    var generated :- GenerateEach(fuel, hp.pattern, r, choices);
    match hp.contentType
    case None => Ok(generated)
    case Some(ct) =>
      match AssocLists.Get(generated, ContentTypeHeader)
      case None => Ok(WithMediaType(generated, ct))
      case Some(value) =>
        var isConst :- ContentTypeIsConst(fuel, hp, value, r, again);
        Ok(if isConst then generated else WithMediaType(generated, ct))
  }

  /** Generated header names are the declared names without their "?"; nothing else appears but Content-Type. */
  lemma GeneratedNames(fuel: nat, hp: HeadersPattern, r: Resolver, choices: ChoiceTree, again: ChoiceTree, k: string)
    requires k != ContentTypeHeader
    ensures Generate(fuel, hp, r, choices, again).Ok? ==>
      (AssocLists.HasKey(Generate(fuel, hp, r, choices, again).value, k) <==> Declares(hp.pattern, k))
  {
    if Generate(fuel, hp, r, choices, again).Ok? {
      var all := Generate(fuel, hp, r, choices, again).value;
      var each := GenerateEach(fuel, hp.pattern, r, choices).value;
      assert AssocLists.Get(all, k) == AssocLists.Get(each, k);
    }
  }

  // ---- encompassing ----

  /** The keys without "?", in order. */
  function RequiredKeys(pattern: seq<(string, Pattern)>): (r: seq<string>)
    ensures forall k :: k in r <==> AssocLists.HasKey(pattern, k) && !IsOptional(k)
  {
    if |pattern| == 0 then []
    else
      var k := pattern[0].0;
      assert forall j :: AssocLists.HasKey(pattern, j) <==> j == k || AssocLists.HasKey(pattern[1..], j) by {
        forall j ensures AssocLists.HasKey(pattern, j) <==> j == k || AssocLists.HasKey(pattern[1..], j) {
          if j != k {
            AssocLists.HasKeyCons(pattern, j);
          }
        }
      }
      (if IsOptional(k) then [] else [k]) + RequiredKeys(pattern[1..])
  }

  /** This pattern's required keys that the other does not require, each a missing-header failure. */
  function CheckAllMissingHeaders(mine: seq<string>, theirs: seq<string>, mm: MismatchMessages): (r: Result)
    ensures r.Success? <==> forall k :: k in mine ==> k in theirs
    ensures r.Failure? ==> forall c :: c in r.causes <==> exists k :: k in mine && k !in theirs && c == MissingHeaderFailure(k, mm)
  {
    var missing := seq(|mine|, i requires 0 <= i < |mine| => mine[i]);
    var failures := MissingFailures(mine, theirs, mm);
    ResultFromFailures(failures)
  }

  function MissingFailures(mine: seq<string>, theirs: seq<string>, mm: MismatchMessages): (r: seq<Result>)
    ensures |r| == 0 <==> forall k :: k in mine ==> k in theirs
    ensures forall c :: c in r <==> exists k :: k in mine && k !in theirs && c == MissingHeaderFailure(k, mm)
  {
    if |mine| == 0 then []
    else
      assert forall k :: k in mine <==> k == mine[0] || k in mine[1..];
      (if mine[0] in theirs then [] else [MissingHeaderFailure(mine[0], mm)]) + MissingFailures(mine[1..], theirs, mm)
  }

  /** Keys with "?" removed; a later entry's pattern wins when two keys coincide. */
  function KeysWithoutOptionality(pattern: seq<(string, Pattern)>): (r: seq<(string, Pattern)>)
    ensures forall k :: AssocLists.HasKey(r, k) <==> Declares(pattern, k)
    decreases |pattern|
  {
    if |pattern| == 0 then []
    else
      var init := pattern[..|pattern| - 1];
      var last := pattern[|pattern| - 1];
      var before := KeysWithoutOptionality(init);
      var after := AssocLists.Put(before, WithoutOptionality(last.0), last.1);
      assert forall k :: AssocLists.HasKey(after, k) <==> Declares(pattern, k) by {
        forall k ensures AssocLists.HasKey(after, k) <==> Declares(pattern, k) {
          AssocLists.PutHasKey(before, WithoutOptionality(last.0), last.1, k);
          DeclaresSnoc(pattern, k);
        }
      }
      after
  }

  /** Each shared header's value comparison, under the header's name. */
  function SharedValueResults(shared: seq<(string, Pattern)>, theirs: seq<(string, Pattern)>,
                              valueEncompasses: (Pattern, Pattern) -> Result): (rs: seq<Result>)
    requires forall i :: 0 <= i < |shared| ==> AssocLists.HasKey(theirs, shared[i].0)
    ensures |rs| == |shared|
    ensures forall i :: 0 <= i < |shared| ==>
      rs[i] == WithBreadCrumb(valueEncompasses(shared[i].1, AssocLists.Get(theirs, shared[i].0).value), shared[i].0)
  {
    seq(|shared|, i requires 0 <= i < |shared| =>
      WithBreadCrumb(valueEncompasses(shared[i].1, AssocLists.Get(theirs, shared[i].0).value), shared[i].0))
  }

  /** The value comparison of each header both patterns declare, under the header's name. */
  function ValueComparisons(own: HeadersPattern, other: HeadersPattern, valueEncompasses: (Pattern, Pattern) -> Result): (rs: seq<Result>)
    ensures |rs| == |SharedHeaders(own, other)|
    ensures forall i :: 0 <= i < |rs| ==>
      rs[i] == WithBreadCrumb(valueEncompasses(SharedHeaders(own, other)[i].1,
                                               AssocLists.Get(KeysWithoutOptionality(other.pattern), SharedHeaders(own, other)[i].0).value),
                              SharedHeaders(own, other)[i].0)
  {
    SharedValueResults(SharedHeaders(own, other), KeysWithoutOptionality(other.pattern), valueEncompasses)
  }

  /**
   * Whether this headers pattern accepts everything `other` does: every
   * header it requires must be required by `other`, and the headers both
   * declare (ignoring "?") are compared with `valueEncompasses`, the
   * value patterns' own check. The result sits under HEADER.
   */
  function Encompasses(own: HeadersPattern, other: HeadersPattern, mm: MismatchMessages,
                       valueEncompasses: (Pattern, Pattern) -> Result): (r: Result)
    ensures r.Success? <==>
      (CheckAllMissingHeaders(RequiredKeys(own.pattern), RequiredKeys(other.pattern), mm).Success? &&
       forall i :: 0 <= i < |ValueComparisons(own, other, valueEncompasses)| ==>
         ValueComparisons(own, other, valueEncompasses)[i].Success?)
    ensures r.Failure? ==> r.breadCrumb == "HEADER"
  {
    var missing := CheckAllMissingHeaders(RequiredKeys(own.pattern), RequiredKeys(other.pattern), mm);
    var values := ValueComparisons(own, other, valueEncompasses);
    FromResultsWithFirst(missing, values);
    WithBreadCrumb(FromResults([missing] + values), "HEADER")
  }

  lemma FromResultsWithFirst(first: Result, rest: seq<Result>)
    ensures FromResults([first] + rest).Success? <==> first.Success? && forall i :: 0 <= i < |rest| ==> rest[i].Success?
  {
    var all := [first] + rest;
    assert all[0] == first;
    assert forall i :: 1 <= i < |all| ==> all[i] == rest[i - 1];
    assert forall i :: 0 <= i < |rest| ==> all[i + 1] == rest[i];
  }

  /** This pattern's headers that `other` also declares, ignoring "?", named without it. */
  function SharedHeaders(own: HeadersPattern, other: HeadersPattern): (r: seq<(string, Pattern)>)
    ensures forall i :: 0 <= i < |r| ==> AssocLists.HasKey(KeysWithoutOptionality(other.pattern), r[i].0)
    ensures forall k :: AssocLists.HasKey(r, k) <==>
      (AssocLists.HasKey(KeysWithoutOptionality(own.pattern), k) && AssocLists.HasKey(KeysWithoutOptionality(other.pattern), k))
  {
    var theirs := KeysWithoutOptionality(other.pattern);
    var r := KeysWithoutOptionality(DeclaredBoth(own.pattern, theirs));
    forall k
      ensures AssocLists.HasKey(r, k) <==> AssocLists.HasKey(KeysWithoutOptionality(own.pattern), k) && AssocLists.HasKey(theirs, k)
    {
      if AssocLists.HasKey(r, k) {
        SharedKeyIsDeclared(own.pattern, theirs, k);
      }
      if AssocLists.HasKey(KeysWithoutOptionality(own.pattern), k) && AssocLists.HasKey(theirs, k) {
        DeclaredKeyIsShared(own.pattern, theirs, k);
      }
    }
    forall i | 0 <= i < |r|
      ensures AssocLists.HasKey(theirs, r[i].0)
    {
      assert AssocLists.HasKey(r, r[i].0);
    }
    r
  }

  /** The entries whose key, without "?", `theirs` has. */
  function DeclaredBoth(own: seq<(string, Pattern)>, theirs: seq<(string, Pattern)>): (r: seq<(string, Pattern)>)
    ensures forall e :: e in r <==> e in own && AssocLists.HasKey(theirs, WithoutOptionality(e.0))
  {
    AssocLists.FilterKeys(own, key => AssocLists.HasKey(theirs, WithoutOptionality(key)))
  }

  lemma SharedKeyIsDeclared(own: seq<(string, Pattern)>, theirs: seq<(string, Pattern)>, k: string)
    requires AssocLists.HasKey(KeysWithoutOptionality(DeclaredBoth(own, theirs)), k)
    ensures AssocLists.HasKey(KeysWithoutOptionality(own), k) && AssocLists.HasKey(theirs, k)
  {
    var kept := DeclaredBoth(own, theirs);
    assert Declares(kept, k);
    var i :| 0 <= i < |kept| && WithoutOptionality(kept[i].0) == k;
    assert kept[i] in kept;
    var j :| 0 <= j < |own| && own[j] == kept[i];
    assert Declares(own, k);
  }

  lemma DeclaredKeyIsShared(own: seq<(string, Pattern)>, theirs: seq<(string, Pattern)>, k: string)
    requires AssocLists.HasKey(KeysWithoutOptionality(own), k) && AssocLists.HasKey(theirs, k)
    ensures AssocLists.HasKey(KeysWithoutOptionality(DeclaredBoth(own, theirs)), k)
  {
    var kept := DeclaredBoth(own, theirs);
    assert Declares(own, k);
    var j :| 0 <= j < |own| && WithoutOptionality(own[j].0) == k;
    assert own[j] in own;
    assert own[j] in kept;
    var i :| 0 <= i < |kept| && kept[i] == own[j];
    assert Declares(kept, k);
  }

  /** A header this pattern requires but the other only allows is a failure, whatever the values say. */
  lemma RequiredHeaderMustStayRequired(own: HeadersPattern, other: HeadersPattern, mm: MismatchMessages,
                                       valueEncompasses: (Pattern, Pattern) -> Result, k: string)
    requires AssocLists.HasKey(own.pattern, k) && !IsOptional(k)
    requires !AssocLists.HasKey(other.pattern, k)
    ensures Encompasses(own, other, mm, valueEncompasses).Failure?
  {
    assert k in RequiredKeys(own.pattern);
    assert k !in RequiredKeys(other.pattern);
  }

  /** Headers the other pattern does not declare are never compared by value: with none shared, only the key check counts. */
  lemma UnsharedHeadersNotCompared(own: HeadersPattern, other: HeadersPattern, mm: MismatchMessages,
                                   valueEncompasses: (Pattern, Pattern) -> Result)
    requires forall i :: 0 <= i < |own.pattern| ==> !AssocLists.HasKey(KeysWithoutOptionality(other.pattern), WithoutOptionality(own.pattern[i].0))
    ensures Encompasses(own, other, mm, valueEncompasses).Success? <==>
      CheckAllMissingHeaders(RequiredKeys(own.pattern), RequiredKeys(other.pattern), mm).Success?
  {
    NothingShared(own, other);
  }

  lemma NothingShared(own: HeadersPattern, other: HeadersPattern)
    requires forall i :: 0 <= i < |own.pattern| ==> !AssocLists.HasKey(KeysWithoutOptionality(other.pattern), WithoutOptionality(own.pattern[i].0))
    ensures |SharedHeaders(own, other)| == 0
  {
    var shared := SharedHeaders(own, other);
    if |shared| > 0 {
      var k := shared[0].0;
      assert AssocLists.HasKey(shared, k);
    }
  }

  // ---- dynamic headers ----

  /** Headers that change from one request to the next, and are left out of comparisons. */
  const DynamicHttpHeaders: seq<string> := [
    "Authorization", "User-Agent", "Cookie", "Referer", "Accept-Language", "Host", "If-Modified-Since",
    "If-None-Match", "Cache-Control", "Content-Length", "Range", "X-Forwarded-For", "Date", "Server",
    "Expires", "Last-Modified", "ETag", "Vary", "Access-Control-Allow-Credentials", "Access-Control-Max-Age",
    "Access-Control-Request-Headers", "Access-Control-Request-Method"]

  /** The name is a dynamic header, ignoring case. */
  predicate IsDynamic(name: string)
    ensures IsDynamic(name) ==> exists i :: 0 <= i < |DynamicHttpHeaders| && |DynamicHttpHeaders[i]| == |name|
  {
    exists i :: 0 <= i < |DynamicHttpHeaders| && Lower(DynamicHttpHeaders[i]) == Lower(name)
  }

  /** The headers without the dynamic ones, compared ignoring case; every other header is kept, in order. */
  function WithoutDynamicHeaders(headers: seq<(string, string)>): (r: seq<(string, string)>)
    ensures forall e :: e in r <==> e in headers && !IsDynamic(e.0)
  {
    AssocLists.FilterKeys(headers, key => !IsDynamic(key))
  }

  /** Lower-casing twice is lower-casing once, so a header differing only in case is just as dynamic. */
  lemma DynamicIgnoresCase(name: string)
    ensures IsDynamic(name) <==> IsDynamic(Lower(name))
  {
    LowerIdempotent(name);
  }

  lemma LowerIdempotent(s: string)
    ensures Lower(Lower(s)) == Lower(s)
  {
  }

  /** "AUTHORIZATION" is dynamic whatever its case; "X-Request-Id" is not, no dynamic header having its length. */
  lemma AuthorizationIsDynamic()
    ensures IsDynamic("AUTHORIZATION")
    ensures !IsDynamic("X-Request-Id")
  {
    AuthorizationLowered();
    NoDynamicHeaderOfTwelveLetters();
  }

  lemma NoDynamicHeaderOfTwelveLetters()
    ensures forall i :: 0 <= i < |DynamicHttpHeaders| ==> |DynamicHttpHeaders[i]| != 12
  {
  }

  lemma AuthorizationLowered()
    ensures Lower(DynamicHttpHeaders[0]) == Lower("AUTHORIZATION")
  {
    var a := DynamicHttpHeaders[0];
    var b := "AUTHORIZATION";
    assert |a| == |b|;
    forall i | 0 <= i < |a|
      ensures LowerChar(a[i]) == LowerChar(b[i])
    {
    }
  }
}

=== FILE: leaf_patterns.dfy ===
/**
 * Matching, parsing and generation for the leaf patterns: numbers, and the
 * string, boolean, null and exact-value patterns that stand beside them.
 * Only the number pattern is modelled in full; the others accept a value
 * by its kind (or, for an exact value, by equality).
 */
module LeafPatterns {
  import opened Wrappers
  import opened Strings
  import opened Values
  import opened Results
  import opened Patterns
  import opened Resolvers
  import opened Choices
  import NumberPatterns

  /**
   * Whether a leaf pattern accepts a value. A failure names the pattern's
   * type as the expected text, except for numbers, whose bounds it names.
   */
  function Matches(p: Pattern, v: Value, mm: MismatchMessages): (r: Result)
    requires IsLeaf(p)
    ensures p.NumberPattern? ==> r == NumberPatterns.Matches(p, v, mm)
    ensures p.StringPattern? ==> (r.Success? <==> v.StringValue?)
    ensures p.BooleanPattern? ==> (r.Success? <==> v.BooleanValue?)
    ensures p.NullPattern? ==> (r.Success? <==> v.NullValue?)
    ensures p.ExactValuePattern? ==> (r.Success? <==> v == p.value)
    ensures !p.NumberPattern? && r.Failure? ==> TypeName(p).Ok? && r == MismatchResult(mm, TypeName(p).value, ValueError(v))
  {
    match p
    case NumberPattern(_, _, _, _, _, _) => NumberPatterns.Matches(p, v, mm)
    case StringPattern(_, _) => if v.StringValue? then Success else MismatchResult(mm, "string", ValueError(v))
    case BooleanPattern(_, _) => if v.BooleanValue? then Success else MismatchResult(mm, "boolean", ValueError(v))
    case NullPattern => if v.NullValue? then Success else MismatchResult(mm, "null", ValueError(v))
    case ExactValuePattern(expected, _, _) =>
      if v == expected then Success else MismatchResult(mm, DisplayableValue(expected), ValueError(v))
  }

  /** The scalar pattern that reads text of the same kind as `v`. */
  function KindPattern(v: Value): (p: Option<Pattern>)
    ensures p.Some? <==> IsScalar(v)
    ensures p.Some? ==> IsScalarType(p.value)
  {
    match v
    case NullValue => Some(NullPattern)
    case BooleanValue(_) => Some(DefaultBooleanPattern)
    case NumberValue(_) => Some(DefaultNumberPattern)
    case StringValue(_) => Some(DefaultStringPattern)
    case _ => None
  }

  /**
   * Reading a leaf pattern's value from text. Strings take the text as it
   * is, booleans accept "true" and "false", null accepts blank text and
   * "(null)", and an exact value reads the text as its own kind.
   */
  function Parse(p: Pattern, s: string): (o: Outcome<Value>)
    requires IsLeaf(p)
    ensures p.NumberPattern? ==> o == NumberPatterns.Parse(s)
    ensures p.StringPattern? ==> o == Ok(StringValue(s))
    ensures p.BooleanPattern? ==> (o.Ok? <==> s == "true" || s == "false")
    ensures p.BooleanPattern? && o.Ok? ==> o.value == BooleanValue(s == "true")
    ensures p.NullPattern? ==> (o.Ok? <==> Trim(s) == "" || Trim(s) == "(null)")
    ensures p.NullPattern? && o.Ok? ==> o.value == NullValue
    ensures o.Thrown? ==> o.error.ContractException? && !o.error.isCycle
    decreases if p.ExactValuePattern? then 1 else 0
  {
    match p
    case NumberPattern(_, _, _, _, _, _) => NumberPatterns.Parse(s)
    case StringPattern(_, _) => Ok(StringValue(s))
    case BooleanPattern(_, _) =>
      if s == "true" then Ok(BooleanValue(true))
      else if s == "false" then Ok(BooleanValue(false))
      else Thrown(ContractException("Expected boolean, actual was \"" + s + "\"", false))
    case NullPattern =>
      if Trim(s) == "" || Trim(s) == "(null)" then Ok(NullValue)
      else Thrown(ContractException("Failed to parse " + s + ": it is not null.", false))
    case ExactValuePattern(expected, _, _) =>
      match KindPattern(expected)
      case Some(kind) => Parse(kind, s)
      case None => Thrown(ContractException("Expected " + DisplayableType(expected) + ", actual was \"" + s + "\"", false))
  }

  /** Text that is a non-null value's literal reads back as that value, for a pattern that accepts it. */
  lemma ParseLiteral(p: Pattern, v: Value, mm: MismatchMessages)
    requires IsLeaf(p) && !p.NullPattern? && IsScalar(v) && !v.NullValue?
    requires Matches(p, v, mm).Success?
    ensures Parse(p, ToStringLiteral(v)) == Ok(v)
  {
    if v.NumberValue? {
      NumberPatterns.ParseLiteral(v.number);
    }
  }

  /** Five random lower-case letters. */
  function RandomString(choices: ChoiceTree): (s: string)
    ensures |s| == 5
  {
    seq(5, i requires 0 <= i < 5 => ('a' as int + Pick(choices, i, 26)) as char)
  }

  /**
   * A value for a leaf pattern: the example when default examples are in
   * use (it must parse and match), else a random value of the pattern's
   * kind; null and exact patterns have only one value.
   */
  function Generate(p: Pattern, r: Resolver, choices: ChoiceTree): (o: Outcome<Value>)
    requires IsLeaf(p)
    ensures p.NumberPattern? ==> o == NumberPatterns.Generate(p, r, choices)
    ensures o.Ok? && !p.NumberPattern? ==> Matches(p, o.value, r.mismatchMessages).Success?
    ensures o.Ok? && p.NumberPattern? && NumberPatterns.ValidNumberPattern(p) && p.minimum.None? ==>
      Matches(p, o.value, r.mismatchMessages).Success?
    ensures p.NullPattern? ==> o == Ok(NullValue)
    ensures p.ExactValuePattern? ==> o == Ok(p.value)
  {
    match p
    case NumberPattern(_, _, _, _, _, _) => NumberPatterns.Generate(p, r, choices)
    case StringPattern(_, example) =>
      if r.defaultExampleResolver == UseDefaultExample && example.Some? then
        AcceptExample(example.value, Parse(p, example.value), v => Matches(p, v, DefaultMismatchMessages))
      else Ok(StringValue(RandomString(choices)))
    case BooleanPattern(_, example) =>
      if r.defaultExampleResolver == UseDefaultExample && example.Some? then
        AcceptExample(example.value, Parse(p, example.value), v => Matches(p, v, DefaultMismatchMessages))
      else Ok(BooleanValue(Pick(choices, 0, 2) == 1))
    case NullPattern => Ok(NullValue)
    case ExactValuePattern(v, _, _) => Ok(v)
  }
}

=== FILE: matching.dfy ===
/**
 * Matching a value against any pattern. Leaves are matched directly,
 * named references through the registry (bounded by `fuel`), objects
 * field by field, and unions either by discriminator routing or by trying
 * every member.
 */
module Matching {
  import opened Wrappers
  import opened Strings
  import opened Values
  import opened Results
  import opened Patterns
  import opened Resolvers
  import opened AnyPatterns
  import opened Resolution
  import LeafPatterns

  /** The state of the fold over a discriminated union's members. */
  datatype FoldState = FoldState(matches: seq<AnyPatternMatch>, occurred: bool)

  function Matches(fuel: nat, p: Pattern, v: Value, r: Resolver): (o: Outcome<Result>)
    ensures IsLeaf(p) ==> o == Ok(LeafPatterns.Matches(p, v, r.mismatchMessages))
    decreases fuel, p, 2
  {
    match p
    case DeferredPattern(token) =>
      if fuel == 0 then Thrown(StackOverflowError)
      else
        var q :- GetPattern(r, token);
        Matches(fuel - 1, q, v, r)
    case JSONObjectPattern(_, _) => ObjectPatternMatches(fuel, p, v, r)
    case AnyPattern(_, _, _, _, _, _) =>
      if p.discriminatorProperty.Some? then DiscriminatedMatches(fuel, p, v, r) else PlainMatches(fuel, p, v, r)
    case _ => Ok(LeafPatterns.Matches(p, v, r.mismatchMessages))
  }

  // ---- objects ----

  /** Some field of the object pattern is a discriminator whose value the object carries. */
  predicate DiscriminatorFieldMatched(p: Pattern, v: Value)
    requires p.JSONObjectPattern?
  {
    exists i :: 0 <= i < |p.fields| && p.fields[i].1.ExactValuePattern? && p.fields[i].1.discriminator &&
      Member(v, p.fields[i].0) == Some(p.fields[i].1.value)
  }

  /**
   * An object pattern accepts an object carrying every declared key with a
   * matching value. A failure is tagged as an object the union recognised:
   * as a discriminator match when a discriminator field matched.
   */
  function ObjectPatternMatches(fuel: nat, p: Pattern, v: Value, r: Resolver): (o: Outcome<Result>)
    requires p.JSONObjectPattern?
    ensures !v.JSONObjectValue? ==> o == Ok(ValueMismatchFailure(r.mismatchMessages, "json object", v))
    ensures v.JSONObjectValue? && o.Ok? && o.value.Failure? ==>
      o.value.reason == Some(if DiscriminatorFieldMatched(p, v) then FailedButDiscriminatorMatched else FailedButObjectTypeMatched)
    decreases fuel, p, 1
  {
    if !v.JSONObjectValue? then Ok(ValueMismatchFailure(r.mismatchMessages, "json object", v))
    else
      var results :- FieldResults(fuel, p, v, r, 0);
      var failures := Failures(results);
      if |failures| == 0 then Ok(Success)
      else
        Ok(WithReason(FromFailures(failures),
                      if DiscriminatorFieldMatched(p, v) then FailedButDiscriminatorMatched else FailedButObjectTypeMatched))
  }

  /** Each declared field from index `i` on: missing, or matched under its key's breadcrumb. */
  function FieldResults(fuel: nat, p: Pattern, v: Value, r: Resolver, i: nat): (o: Outcome<seq<Result>>)
    requires p.JSONObjectPattern? && i <= |p.fields|
    ensures o.Ok? ==> |o.value| == |p.fields| - i
    decreases fuel, p, 0, |p.fields| - i
  {
    if i == |p.fields| then Ok([])
    else
      var key := p.fields[i].0;
      var first :- match Member(v, key)
        case None => Ok(Failure(ExpectedKeyWasMissing(r.mismatchMessages, "Key", key), [], key, None, None))
        case Some(fieldValue) =>
          var result :- Matches(fuel, p.fields[i].1, fieldValue, r);
          Ok(WithBreadCrumb(result, key));
      var rest :- FieldResults(fuel, p, v, r, i + 1);
      Ok([first] + rest)
  }

  // ---- discriminated unions ----

  /**
   * A discriminated union: the pre-checks, then a fold that probes each
   * member with the discriminator alone, fully matches the first member
   * the probe hits, and records every other member as a discriminator
   * mismatch without matching it.
   */
  function DiscriminatedMatches(fuel: nat, p: Pattern, v: Value, r: Resolver): (o: Outcome<Result>)
    requires p.AnyPattern? && p.discriminatorProperty.Some?
    ensures DiscriminatorPrecheck(p.discriminatorProperty.value, p.discriminatorValues, v, r.mismatchMessages).Some? ==>
      o == Ok(DiscriminatorPrecheck(p.discriminatorProperty.value, p.discriminatorValues, v, r.mismatchMessages).value)
    decreases fuel, p, 1
  {
    var property := p.discriminatorProperty.value;
    match DiscriminatorPrecheck(property, p.discriminatorValues, v, r.mismatchMessages)
    case Some(failure) => Ok(failure)
    case None =>
      var probe := DiscriminatorProbe(property, Member(v, property).value);
      var state :- DiscriminatorFold(fuel, p, v, r, probe, 0, [], false);
      Ok(DiscriminatorVerdict(property, state.matches, state.occurred))
  }

  /** One step of the fold per member, from index `i` on. */
  function DiscriminatorFold(fuel: nat, p: Pattern, v: Value, r: Resolver, probe: Value, i: nat,
                             acc: seq<AnyPatternMatch>, hit: bool): (o: Outcome<FoldState>)
    requires p.AnyPattern? && i <= |p.members|
    ensures o.Ok? ==> |o.value.matches| == |acc| + |p.members| - i && o.value.matches[..|acc|] == acc
    ensures hit ==> o.Ok? && o.value.occurred
    decreases fuel, p, 0, |p.members| - i
  {
    if i == |p.members| then Ok(FoldState(acc, hit))
    else
      var member := p.members[i];
      if hit then
        DiscriminatorFold(fuel, p, v, r, probe, i + 1, acc + [AnyPatternMatch(member, DiscriminatorMatchFailure)], true)
      else
        var probeResult :- Matches(fuel, member, probe, r);
        if ProbeHit(probeResult) then
          var full :- Matches(fuel, member, v, r);
          DiscriminatorFold(fuel, p, v, r, probe, i + 1, acc + [AnyPatternMatch(member, full)], true)
        else
          DiscriminatorFold(fuel, p, v, r, probe, i + 1, acc + [AnyPatternMatch(member, DiscriminatorMatchFailure)], false)
  }

  /** The members from `from` up to `to`, each recorded as a discriminator mismatch. */
  function Unrouted(members: seq<Pattern>, from: nat, to: nat): (r: seq<AnyPatternMatch>)
    requires from <= to <= |members|
    ensures |r| == to - from
    ensures forall j :: 0 <= j < |r| ==> r[j] == AnyPatternMatch(members[from + j], DiscriminatorMatchFailure)
  {
    seq(to - from, j requires 0 <= j < to - from => AnyPatternMatch(members[from + j], DiscriminatorMatchFailure))
  }

  /** Peeling the first member off a run of mismatches. */
  lemma UnroutedStep(members: seq<Pattern>, i: nat, k: nat)
    requires i < k <= |members|
    ensures Unrouted(members, i, k) == [AnyPatternMatch(members[i], DiscriminatorMatchFailure)] + Unrouted(members, i + 1, k)
  {
  }

  /** After a hit, the remaining members are recorded as mismatches and never matched. */
  lemma {:induction false} FoldAfterHit(fuel: nat, p: Pattern, v: Value, r: Resolver, probe: Value, i: nat,
                                        acc: seq<AnyPatternMatch>)
    requires p.AnyPattern? && i <= |p.members|
    ensures DiscriminatorFold(fuel, p, v, r, probe, i, acc, true) == Ok(FoldState(acc + Unrouted(p.members, i, |p.members|), true))
    decreases |p.members| - i
  {
    if i < |p.members| {
      var step := acc + [AnyPatternMatch(p.members[i], DiscriminatorMatchFailure)];
      FoldAfterHit(fuel, p, v, r, probe, i + 1, step);
      assert step + Unrouted(p.members, i + 1, |p.members|) == acc + Unrouted(p.members, i, |p.members|);
    } else {
      assert Unrouted(p.members, i, |p.members|) == [];
      assert acc + [] == acc;
    }
  }

  /** Probing `member` with `probe` completes without a hit. */
  predicate ProbeMissed(fuel: nat, member: Pattern, probe: Value, r: Resolver) {
    Matches(fuel, member, probe, r).Ok? && !ProbeHit(Matches(fuel, member, probe, r).value)
  }

  /** A member whose probe misses is recorded as a mismatch and the fold moves on. */
  lemma FoldMissStep(fuel: nat, p: Pattern, v: Value, r: Resolver, probe: Value, i: nat, acc: seq<AnyPatternMatch>)
    requires p.AnyPattern? && i < |p.members|
    requires ProbeMissed(fuel, p.members[i], probe, r)
    ensures DiscriminatorFold(fuel, p, v, r, probe, i, acc, false) ==
      DiscriminatorFold(fuel, p, v, r, probe, i + 1, acc + [AnyPatternMatch(p.members[i], DiscriminatorMatchFailure)], false)
  {
  }

  /** Before any hit, members whose probe misses are recorded as mismatches too. */
  lemma {:induction false} FoldBeforeHit(fuel: nat, p: Pattern, v: Value, r: Resolver, probe: Value, i: nat, k: nat,
                                         acc: seq<AnyPatternMatch>)
    requires p.AnyPattern? && i <= k <= |p.members|
    requires forall j :: i <= j < k ==> ProbeMissed(fuel, p.members[j], probe, r)
    ensures DiscriminatorFold(fuel, p, v, r, probe, i, acc, false) ==
      DiscriminatorFold(fuel, p, v, r, probe, k, acc + Unrouted(p.members, i, k), false)
    decreases k - i
  {
    if i < k {
      var step := acc + [AnyPatternMatch(p.members[i], DiscriminatorMatchFailure)];
      assert ProbeMissed(fuel, p.members[i], probe, r);
      FoldMissStep(fuel, p, v, r, probe, i, acc);
      FoldBeforeHit(fuel, p, v, r, probe, i + 1, k, step);
      UnroutedStep(p.members, i, k);
      assert step + Unrouted(p.members, i + 1, k) == acc + Unrouted(p.members, i, k);
    } else {
      assert acc + Unrouted(p.members, i, k) == acc;
    }
  }

  /** The single-key object the members of `p` are probed with for `v`. */
  function ProbeFor(p: Pattern, v: Value): Value
    requires p.AnyPattern? && p.discriminatorProperty.Some?
    requires Member(v, p.discriminatorProperty.value).Some?
  {
    DiscriminatorProbe(p.discriminatorProperty.value, Member(v, p.discriminatorProperty.value).value)
  }

  /** Probing `member` with the discriminator of `v` completes without a hit. */
  predicate ProbeMisses(fuel: nat, member: Pattern, v: Value, p: Pattern, r: Resolver)
    requires p.AnyPattern? && p.discriminatorProperty.Some?
    requires Member(v, p.discriminatorProperty.value).Some?
  {
    ProbeMissed(fuel, member, ProbeFor(p, v), r)
  }

  /**
   * The verdict over a fold in which only member `k` was matched: it
   * succeeds iff that member did, and its failure is tagged as a
   * discriminator match exactly when that member's failure is.
   */
  lemma RoutedVerdict(property: string, matches: seq<AnyPatternMatch>, k: nat, res: Result)
    requires k < |matches| && matches[k].result == res
    requires forall j :: 0 <= j < |matches| && j != k ==> matches[j].result == DiscriminatorMatchFailure
    ensures DiscriminatorVerdict(property, matches, true).Success? <==> res.Success?
    ensures res.Failure? && HasReason(res, FailedButDiscriminatorMatched) ==>
      DiscriminatorVerdict(property, matches, true).reason == Some(FailedButDiscriminatorMatched)
    ensures res.Failure? && !HasReason(res, FailedButDiscriminatorMatched) ==>
      forall x :: !HasReason(DiscriminatorVerdict(property, matches, true), x)
  {
    var results := ResultsOf(matches);
    assert !HasReason(DiscriminatorMatchFailure, FailedButDiscriminatorMatched);
    assert res.Success? <==> exists j :: 0 <= j < |matches| && matches[j].result.Success?;
    if res.Failure? {
      var deep := DeepFailures(results);
      assert HasReason(res, FailedButDiscriminatorMatched) <==> |deep| > 0 by {
        if HasReason(res, FailedButDiscriminatorMatched) {
          assert res == results[k];
        }
        if |deep| > 0 {
          assert deep[0] in results;
        }
      }
    }
  }

  /** The fold records member `k` with its full match and every other member as a mismatch. */
  lemma RoutedFold(fuel: nat, p: Pattern, v: Value, r: Resolver, k: nat, res: Result)
    requires p.AnyPattern? && p.discriminatorProperty.Some?
    requires Member(v, p.discriminatorProperty.value).Some?
    requires k < |p.members|
    requires forall j :: 0 <= j < k ==> ProbeMisses(fuel, p.members[j], v, p, r)
    requires Matches(fuel, p.members[k], ProbeFor(p, v), r).Ok? && ProbeHit(Matches(fuel, p.members[k], ProbeFor(p, v), r).value)
    requires Matches(fuel, p.members[k], v, r) == Ok(res)
    ensures DiscriminatorFold(fuel, p, v, r, ProbeFor(p, v), 0, [], false) ==
      Ok(FoldState(Unrouted(p.members, 0, k) + [AnyPatternMatch(p.members[k], res)] + Unrouted(p.members, k + 1, |p.members|), true))
  {
    var probe := ProbeFor(p, v);
    FoldBeforeHit(fuel, p, v, r, probe, 0, k, []);
    assert [] + Unrouted(p.members, 0, k) == Unrouted(p.members, 0, k);
    var routed := Unrouted(p.members, 0, k) + [AnyPatternMatch(p.members[k], res)];
    assert DiscriminatorFold(fuel, p, v, r, probe, k, Unrouted(p.members, 0, k), false) ==
      DiscriminatorFold(fuel, p, v, r, probe, k + 1, routed, true);
    FoldAfterHit(fuel, p, v, r, probe, k + 1, routed);
  }

  /**
   * The member the discriminator routes to decides the result alone:
   * with the pre-checks passed, the probes of the members before `k`
   * missing and the probe of member `k` hitting, the union succeeds iff
   * member `k` matches, and a deep failure of it is reported as such.
   * Every member after `k` is recorded as a mismatch without being tried.
   */
  lemma RoutedMemberDecides(fuel: nat, p: Pattern, v: Value, r: Resolver, k: nat, res: Result)
    requires p.AnyPattern? && p.discriminatorProperty.Some?
    requires DiscriminatorPrecheck(p.discriminatorProperty.value, p.discriminatorValues, v, r.mismatchMessages).None?
    requires k < |p.members|
    requires forall j :: 0 <= j < k ==> ProbeMisses(fuel, p.members[j], v, p, r)
    requires Matches(fuel, p.members[k], ProbeFor(p, v), r).Ok? && ProbeHit(Matches(fuel, p.members[k], ProbeFor(p, v), r).value)
    requires Matches(fuel, p.members[k], v, r) == Ok(res)
    ensures DiscriminatedMatches(fuel, p, v, r) == Ok(DiscriminatorVerdict(p.discriminatorProperty.value,
      Unrouted(p.members, 0, k) + [AnyPatternMatch(p.members[k], res)] + Unrouted(p.members, k + 1, |p.members|), true))
    ensures DiscriminatedMatches(fuel, p, v, r).Ok?
    ensures DiscriminatedMatches(fuel, p, v, r).value.Success? <==> res.Success?
    ensures res.Failure? && HasReason(res, FailedButDiscriminatorMatched) ==>
      DiscriminatedMatches(fuel, p, v, r).value.reason == Some(FailedButDiscriminatorMatched)
    ensures res.Failure? && !HasReason(res, FailedButDiscriminatorMatched) ==>
      forall x :: !HasReason(DiscriminatedMatches(fuel, p, v, r).value, x)
  {
    var property := p.discriminatorProperty.value;
    RoutedFold(fuel, p, v, r, k, res);
    var matches := Unrouted(p.members, 0, k) + [AnyPatternMatch(p.members[k], res)] + Unrouted(p.members, k + 1, |p.members|);
    assert DiscriminatedMatches(fuel, p, v, r) == Ok(DiscriminatorVerdict(property, matches, true));
    forall j | 0 <= j < |matches| && j != k
      ensures matches[j].result == DiscriminatorMatchFailure
    {
      SplicedIndex(Unrouted(p.members, 0, k), AnyPatternMatch(p.members[k], res), Unrouted(p.members, k + 1, |p.members|), j);
    }
    RoutedVerdict(property, matches, k, res);
  }

  /** An element of `before + [x] + after` other than `x` comes from one side. */
  lemma SplicedIndex<T>(before: seq<T>, x: T, after: seq<T>, j: nat)
    requires j < |before| + 1 + |after| && j != |before|
    ensures j < |before| ==> (before + [x] + after)[j] == before[j]
    ensures j > |before| ==> (before + [x] + after)[j] == after[j - |before| - 1]
  {
  }

  /** When no member's probe hits, the discriminator value is "missing from the spec". */
  lemma NoRouteIsMissingFromSpec(fuel: nat, p: Pattern, v: Value, r: Resolver)
    requires p.AnyPattern? && p.discriminatorProperty.Some?
    requires DiscriminatorPrecheck(p.discriminatorProperty.value, p.discriminatorValues, v, r.mismatchMessages).None?
    requires forall j :: 0 <= j < |p.members| ==> ProbeMisses(fuel, p.members[j], v, p, r)
    ensures DiscriminatedMatches(fuel, p, v, r) ==
      Ok(FailAt("Discriminator property " + p.discriminatorProperty.value + " is missing from the spec",
                p.discriminatorProperty.value, DiscriminatorMismatch))
  {
    FoldBeforeHit(fuel, p, v, r, ProbeFor(p, v), 0, |p.members|, []);
  }

  // ---- plain unions ----

  /** A union without a discriminator: every member is matched, then the verdict is taken. */
  function PlainMatches(fuel: nat, p: Pattern, v: Value, r: Resolver): (o: Outcome<Result>)
    requires p.AnyPattern?
    ensures (exists j :: 0 <= j < |p.members| && Matches(fuel, p.members[j], v, r).Thrown?) ==> o.Thrown?
    ensures (forall j :: 0 <= j < |p.members| ==> Matches(fuel, p.members[j], v, r).Ok?) &&
            (exists j :: 0 <= j < |p.members| && Matches(fuel, p.members[j], v, r).value.Success?) ==>
              o == Ok(Success)
    ensures o.Ok? && o.value.Success? ==>
      exists j :: 0 <= j < |p.members| && Matches(fuel, p.members[j], v, r) == Ok(Success)
    decreases fuel, p, 1
  {
    var matches :- MemberMatches(fuel, p, v, r, 0);
    assert forall j :: 0 <= j < |matches| ==> matches[j].result == Matches(fuel, p.members[j], v, r).value;
    PlainVerdict(p, matches, ResolvedHops(fuel, p.members, r), v, r.mismatchMessages)
  }

  /** The members from index `i` on, each with its match result; the first error thrown stops the rest. */
  function MemberMatches(fuel: nat, p: Pattern, v: Value, r: Resolver, i: nat): (o: Outcome<seq<AnyPatternMatch>>)
    requires p.AnyPattern? && i <= |p.members|
    ensures o.Ok? <==> forall j :: i <= j < |p.members| ==> Matches(fuel, p.members[j], v, r).Ok?
    ensures o.Ok? ==> |o.value| == |p.members| - i
    ensures o.Ok? ==> forall j :: 0 <= j < |o.value| ==>
      o.value[j] == AnyPatternMatch(p.members[i + j], Matches(fuel, p.members[i + j], v, r).value)
    decreases fuel, p, 0, |p.members| - i
  {
    if i == |p.members| then Ok([])
    else
      var first :- Matches(fuel, p.members[i], v, r);
      var rest :- MemberMatches(fuel, p, v, r, i + 1);
      Ok([AnyPatternMatch(p.members[i], first)] + rest)
  }

  /**
   * Without a discriminator, a union whose members all match without
   * throwing succeeds iff one of its members does.
   */
  lemma PlainUnionSucceedsIff(fuel: nat, p: Pattern, v: Value, r: Resolver)
    requires p.AnyPattern? && p.discriminatorProperty.None?
    requires forall j :: 0 <= j < |p.members| ==> Matches(fuel, p.members[j], v, r).Ok?
    ensures (exists j :: 0 <= j < |p.members| && Matches(fuel, p.members[j], v, r).value.Success?) ==>
      Matches(fuel, p, v, r) == Ok(Success)
    ensures Matches(fuel, p, v, r).Ok? && Matches(fuel, p, v, r).value.Success? ==>
      exists j :: 0 <= j < |p.members| && Matches(fuel, p.members[j], v, r).value.Success?
  {
    var matches := MemberMatches(fuel, p, v, r, 0).value;
    if exists j :: 0 <= j < |p.members| && Matches(fuel, p.members[j], v, r).value.Success? {
      var j :| 0 <= j < |p.members| && Matches(fuel, p.members[j], v, r).value.Success?;
      assert matches[j].result.Success?;
    }
    if FirstSuccess(matches).Some? {
      var j := FirstSuccess(matches).value;
      assert Matches(fuel, p.members[j], v, r).value.Success?;
    }
  }

  /** A union of null and a leaf pattern accepts JSON null. */
  lemma NullableAcceptsNull(fuel: nat, p: Pattern, r: Resolver)
    requires p.AnyPattern? && p.discriminatorProperty.None?
    requires |p.members| == 2 && p.members[0].NullPattern? && IsLeaf(p.members[1])
    ensures Matches(fuel, p, NullValue, r) == Ok(Success)
  {
    assert Matches(fuel, p.members[0], NullValue, r).value.Success?;
    PlainUnionSucceedsIff(fuel, p, NullValue, r);
  }

  /** "(string?)" is the union of null and string, so it accepts null. */
  lemma NullableStringAcceptsNull(fuel: nat, r: Resolver)
    ensures Matches(fuel, Union([NullPattern, DefaultStringPattern]), NullValue, r) == Ok(Success)
  {
    NullableAcceptsNull(fuel, Union([NullPattern, DefaultStringPattern]), r);
  }

  /** Every member of the dog-breed enum refuses "malinois" with a plain mismatch. */
  lemma DogBreedMembersRefuse(fuel: nat, r: Resolver, j: nat)
    requires j < 3
    ensures Matches(fuel, DogBreeds()[j], StringValue("malinois"), r).Ok?
    ensures Matches(fuel, DogBreeds()[j], StringValue("malinois"), r).value.Failure?
    ensures Matches(fuel, DogBreeds()[j], StringValue("malinois"), r).value.reason.None?
  {
    var q := DogBreeds()[j];
    assert IsLeaf(q);
    assert StringValue("malinois") != StringValue("labrador");
    assert StringValue("malinois") != StringValue("retriever");
  }

  /**
   * A union with a null member, or of exact values only, whose members all
   * refuse `v` with plain mismatches, reports a single mismatch naming the
   * whole union (unless it has exactly one member, whose failure stands).
   */
  lemma EnumRefusalNamesTheUnion(fuel: nat, p: Pattern, v: Value, r: Resolver)
    requires p.AnyPattern? && p.discriminatorProperty.None? && |p.members| != 1
    requires forall j :: 0 <= j < |p.members| ==> !p.members[j].DeferredPattern?
    requires forall j :: 0 <= j < |p.members| ==>
      Matches(fuel, p.members[j], v, r).Ok? && Matches(fuel, p.members[j], v, r).value.Failure? &&
      Matches(fuel, p.members[j], v, r).value.reason.None?
    requires HasNullMember(p.members) || AllExact(p.members)
    requires !IsNullablePattern(p.members) && TypeName(p).Ok?
    ensures Matches(fuel, p, v, r) == Ok(MismatchResult(r.mismatchMessages, TypeName(p).value, ValueError(v)))
  {
    var matches := MemberMatches(fuel, p, v, r, 0).value;
    assert AllFailed(matches);
    assert forall j :: 0 <= j < |matches| ==> !ReasonIs(matches[j].result, ObjectMatchOccurred);
    ResolvedHopsOfResolved(fuel, p.members, r);
    assert PlainMatches(fuel, p, v, r) == PlainVerdict(p, matches, Ok(p.members), v, r.mismatchMessages);
  }

  /**
   * A nullable union whose members all refuse `v` with plain mismatches
   * reports the failure of its concrete member alone.
   */
  lemma NullableRefusalIsTheConcreteMembers(fuel: nat, p: Pattern, v: Value, r: Resolver)
    requires p.AnyPattern? && p.discriminatorProperty.None?
    requires forall j :: 0 <= j < |p.members| ==> !p.members[j].DeferredPattern?
    requires forall j :: 0 <= j < |p.members| ==>
      Matches(fuel, p.members[j], v, r).Ok? && Matches(fuel, p.members[j], v, r).value.Failure? &&
      Matches(fuel, p.members[j], v, r).value.reason.None?
    requires HasNullMember(p.members) && IsNullablePattern(p.members) && TypeName(p).Ok?
    ensures FirstNonEmpty(p.members).Some? ==>
      Matches(fuel, p, v, r) == Matches(fuel, p.members[FirstNonEmpty(p.members).value], v, r)
    ensures FirstNonEmpty(p.members).None? ==> Matches(fuel, p, v, r).Thrown?
  {
    var matches := MemberMatches(fuel, p, v, r, 0).value;
    assert AllFailed(matches);
    assert forall j :: 0 <= j < |matches| ==> !ReasonIs(matches[j].result, ObjectMatchOccurred);
    ResolvedHopsOfResolved(fuel, p.members, r);
    assert PlainMatches(fuel, p, v, r) == PlainVerdict(p, matches, Ok(p.members), v, r.mismatchMessages);
  }

  /** "(number?)" refuses the text "abc" with the number pattern's own mismatch. */
  lemma NullableNumberRefusesText(fuel: nat, r: Resolver)
    ensures Matches(fuel, Union([DefaultNumberPattern, NullPattern]), StringValue("abc"), r) ==
      Ok(MismatchResult(r.mismatchMessages, "number", ValueError(StringValue("abc"))))
  {
    var p := Union([DefaultNumberPattern, NullPattern]);
    var v := StringValue("abc");
    assert p.members[1].NullPattern?;
    UndelimitedName("number");
    NullableTypeNameNullLast(p, "number");
    NullableRefusalIsTheConcreteMembers(fuel, p, v, r);
  }

  /**
   * An enum of "labrador", "retriever" and null refuses "malinois" with one
   * message naming the whole enum, in the wording of the comparison.
   */
  lemma EnumMismatchNamesTheEnum(fuel: nat, r: Resolver)
    ensures Matches(fuel, Union(DogBreeds()), StringValue("malinois"), r) ==
      Ok(MismatchResult(r.mismatchMessages, "(" + "\"labrador\"" + " or " + "\"retriever\"" + " or " + "\"null\"" + ")",
                        "\"malinois\""))
  {
    var p := Union(DogBreeds());
    var v := StringValue("malinois");
    DogBreedsAllRefuse(fuel, r);
    EnumWithNullName();
    EnumRefusalNamesTheUnion(fuel, p, v, r);
    MalinoisError();
  }

  /** Every member of the dog-breed union refuses "malinois" with a plain mismatch, and the union has a null member. */
  lemma DogBreedsAllRefuse(fuel: nat, r: Resolver)
    ensures forall j :: 0 <= j < |Union(DogBreeds()).members| ==>
      Matches(fuel, Union(DogBreeds()).members[j], StringValue("malinois"), r).Ok? &&
      Matches(fuel, Union(DogBreeds()).members[j], StringValue("malinois"), r).value.Failure? &&
      Matches(fuel, Union(DogBreeds()).members[j], StringValue("malinois"), r).value.reason.None?
    ensures HasNullMember(Union(DogBreeds()).members)
    ensures forall j :: 0 <= j < |Union(DogBreeds()).members| ==> !Union(DogBreeds()).members[j].DeferredPattern?
  {
    var p := Union(DogBreeds());
    forall j | 0 <= j < |p.members|
      ensures Matches(fuel, p.members[j], StringValue("malinois"), r).Ok? &&
        Matches(fuel, p.members[j], StringValue("malinois"), r).value.Failure? &&
        Matches(fuel, p.members[j], StringValue("malinois"), r).value.reason.None?
    {
      DogBreedMembersRefuse(fuel, r, j);
    }
    assert p.members[2].NullPattern?;
  }

  lemma MalinoisError()
    ensures ValueError(StringValue("malinois")) == "\"malinois\""
  {
  }

  /** A union without members matches nothing: the value is refused against the name "()". */
  lemma EmptyUnionMatchesNothing(fuel: nat, v: Value, r: Resolver)
    ensures Matches(fuel, Union([]), v, r) == Ok(MismatchResult(r.mismatchMessages, "()", ValueError(v)))
  {
    var p := Union([]);
    assert MemberMatches(fuel, p, v, r, 0) == Ok([]);
    assert ResolvedHops(fuel, p.members, r) == Ok([]);
    assert MemberNames(p, 0) == Ok([]);
    assert Join([], " or ") == "";
    assert "(" + "" + ")" == "()";
    assert TypeName(p) == Ok("()");
  }
}

=== FILE: metadata_filter.dfy ===
/**
 * Selecting scenarios by their metadata. A filter holds, per criterion
 * (method, path, status code, headers, query parameters, example name),
 * the set of accepted values. "By all" is the strict conjunction in which
 * an empty set accepts anything; "by at least one" is the disjunction in
 * which an empty set accepts nothing. Filters are read from text such as
 * "METHOD=GET,POST;PATH=/users".
 */
module MetadataFilters {
  import opened Wrappers
  import opened Strings

  /** What a scenario is filtered on. */
  datatype ScenarioMetadata = ScenarioMetadata(httpMethod: string, path: string, statusCode: int, header: set<string>,
                                               query: set<string>, exampleName: string)

  datatype ScenarioMetadataFilter = ScenarioMetadataFilter(methods: set<string>, paths: set<string>,
                                                           statusCodes: set<string>, headers: set<string>,
                                                           queryParams: set<string>, exampleNames: set<string>)

  /** The filter with every criterion empty. */
  const AllEmpty := ScenarioMetadataFilter({}, {}, {}, {}, {}, {})

  const FilterSeparator := ';'

  /** The tag keys a filter clause may start with. */
  const MethodTag := "METHOD"
  const PathTag := "PATH"
  const StatusCodeTag := "STATUS"
  const HeaderTag := "HEADERS"
  const QueryTag := "QUERY-PARAM"
  const ExampleNameTag := "EXAMPLE-NAME"

  /**
   * Membership in a criterion's set: strictly, the set must be non-empty
   * and hold the element; leniently, an empty set admits everything.
   */
  predicate Contains(values: set<string>, element: string, strict: bool) {
    if strict then values != {} && element in values else values == {} || element in values
  }

  /** The two readings differ exactly on the empty set: there strict refuses and lenient admits. */
  lemma StrictAndLenientContains(values: set<string>, element: string)
    ensures values != {} ==> (Contains(values, element, true) <==> Contains(values, element, false))
    ensures values != {} ==> (Contains(values, element, true) <==> element in values)
    ensures values == {} ==> !Contains(values, element, true) && Contains(values, element, false)
  {
  }

  /**
   * Every criterion admits the scenario. A blank example name refuses it
   * whatever the filter; header and query criteria need one of the
   * scenario's entries to be in a non-empty set.
   */
  function IsSatisfiedByAll(f: ScenarioMetadataFilter, m: ScenarioMetadata): (b: bool)
    ensures IsBlank(m.exampleName) ==> !b
    ensures b <==> ((f.methods == {} || m.httpMethod in f.methods) && (f.paths == {} || m.path in f.paths) &&
                    (f.statusCodes == {} || IntToString(m.statusCode) in f.statusCodes) &&
                    !IsBlank(m.exampleName) && (f.exampleNames == {} || m.exampleName in f.exampleNames) &&
                    (f.headers == {} || exists h :: h in m.header && h in f.headers) &&
                    (f.queryParams == {} || exists q :: q in m.query && q in f.queryParams))
  {
    Contains(f.methods, m.httpMethod, false) &&
    Contains(f.paths, m.path, false) &&
    Contains(f.statusCodes, IntToString(m.statusCode), false) &&
    (!IsBlank(m.exampleName) && Contains(f.exampleNames, m.exampleName, false)) &&
    (f.headers == {} || exists h :: h in m.header && Contains(f.headers, h, false)) &&
    (f.queryParams == {} || exists q :: q in m.query && Contains(f.queryParams, q, false))
  }

  /**
   * Some criterion names the scenario: an empty set never does, and a
   * blank example name never matches.
   */
  function IsSatisfiedByAtLeastOne(f: ScenarioMetadataFilter, m: ScenarioMetadata): (b: bool)
    ensures b <==> (m.httpMethod in f.methods || m.path in f.paths || IntToString(m.statusCode) in f.statusCodes ||
      (!IsBlank(m.exampleName) && m.exampleName in f.exampleNames) ||
      (exists h :: h in m.header && h in f.headers) || (exists q :: q in m.query && q in f.queryParams))
  {
    Contains(f.methods, m.httpMethod, true) ||
    Contains(f.paths, m.path, true) ||
    Contains(f.statusCodes, IntToString(m.statusCode), true) ||
    (!IsBlank(m.exampleName) && Contains(f.exampleNames, m.exampleName, true)) ||
    (f.headers != {} && exists h :: h in m.header && Contains(f.headers, h, true)) ||
    (f.queryParams != {} && exists q :: q in m.query && Contains(f.queryParams, q, true))
  }

  /** A filter with at least one criterion set admits by at least one every scenario it admits by all. */
  lemma AllImpliesAtLeastOne(f: ScenarioMetadataFilter, m: ScenarioMetadata)
    requires f != AllEmpty
    requires IsSatisfiedByAll(f, m)
    ensures IsSatisfiedByAtLeastOne(f, m)
  {
    if f.methods == {} && f.paths == {} && f.statusCodes == {} && f.exampleNames == {} && f.headers == {} {
      assert f.queryParams != {};
    }
  }

  /** The all-empty filter admits by all exactly the scenarios with a named example, and by at least one none. */
  lemma AllEmptyFilter(m: ScenarioMetadata)
    ensures IsSatisfiedByAll(AllEmpty, m) <==> !IsBlank(m.exampleName)
    ensures !IsSatisfiedByAtLeastOne(AllEmpty, m)
  {
  }

  /**
   * A filter on methods alone: by at least one it admits exactly the
   * listed methods; by all it also needs a named example.
   */
  lemma MethodsOnly(methods: set<string>, m: ScenarioMetadata)
    requires methods != {}
    ensures IsSatisfiedByAtLeastOne(AllEmpty.(methods := methods), m) <==> m.httpMethod in methods
    ensures IsSatisfiedByAll(AllEmpty.(methods := methods), m) <==> m.httpMethod in methods && !IsBlank(m.exampleName)
  {
  }

  // ---- reading a filter ----

  /** Every piece trimmed. */
  function TrimAll(pieces: seq<string>): (r: seq<string>)
    ensures |r| == |pieces|
    ensures forall i :: 0 <= i < |r| ==> r[i] == Trim(pieces[i])
  {
    seq(|pieces|, i requires 0 <= i < |pieces| => Trim(pieces[i]))
  }

  /**
   * The values one clause gives `tag`: the trimmed clause must split on
   * '=' into exactly a key equal to the tag and a value list, whose
   * comma-separated items are trimmed; any other clause gives none.
   */
  function ClauseValues(clause: string, tag: string): (r: seq<string>)
    ensures |Split(Trim(clause), '=')| != 2 ==> r == []
    ensures Split(Trim(clause), '=')[0] != tag ==> r == []
  {
    var parts := Split(Trim(clause), '=');
    if |parts| == 2 && parts[0] == tag then TrimAll(Split(Trim(parts[1]), ',')) else []
  }

  /** The values the clauses give `tag`, gathered into one set. */
  function FiltersWithTag(clauses: seq<string>, tag: string): (r: set<string>)
    ensures forall v :: v in r <==> exists i :: 0 <= i < |clauses| && v in ClauseValues(clauses[i], tag)
  {
    if |clauses| == 0 then {}
    else
      var rest := FiltersWithTag(clauses[1..], tag);
      var first := ClauseValues(clauses[0], tag);
      var r := (set v | v in first) + rest;
      assert forall v :: v in r <==> exists i :: 0 <= i < |clauses| && v in ClauseValues(clauses[i], tag) by {
        forall v
          ensures v in r <==> exists i :: 0 <= i < |clauses| && v in ClauseValues(clauses[i], tag)
        {
          if v in rest {
            var i :| 0 <= i < |clauses[1..]| && v in ClauseValues(clauses[1..][i], tag);
            assert clauses[i + 1] == clauses[1..][i];
          }
          if exists i :: 0 <= i < |clauses| && v in ClauseValues(clauses[i], tag) {
            var i :| 0 <= i < |clauses| && v in ClauseValues(clauses[i], tag);
            if i > 0 {
              assert clauses[1..][i - 1] == clauses[i];
            }
          }
        }
      }
      r
  }

  /** Parses a filter: clauses are separated by ';', and each criterion collects the values of its tag. */
  function From(filter: string): (f: ScenarioMetadataFilter)
    ensures f.methods == FiltersWithTag(Split(filter, FilterSeparator), MethodTag)
    ensures f.paths == FiltersWithTag(Split(filter, FilterSeparator), PathTag)
    ensures f.statusCodes == FiltersWithTag(Split(filter, FilterSeparator), StatusCodeTag)
    ensures f.headers == FiltersWithTag(Split(filter, FilterSeparator), HeaderTag)
    ensures f.queryParams == FiltersWithTag(Split(filter, FilterSeparator), QueryTag)
    ensures f.exampleNames == FiltersWithTag(Split(filter, FilterSeparator), ExampleNameTag)
  {
    var clauses := Split(filter, FilterSeparator);
    if |clauses| == 0 then AllEmpty
    else
      ScenarioMetadataFilter(FiltersWithTag(clauses, MethodTag), FiltersWithTag(clauses, PathTag),
                             FiltersWithTag(clauses, StatusCodeTag), FiltersWithTag(clauses, HeaderTag),
                             FiltersWithTag(clauses, QueryTag), FiltersWithTag(clauses, ExampleNameTag))
  }

  /** Clauses that share a tag union their values. */
  lemma {:induction false} ClausesUnion(first: seq<string>, second: seq<string>, tag: string)
    ensures FiltersWithTag(first + second, tag) == FiltersWithTag(first, tag) + FiltersWithTag(second, tag)
  {
    var all := first + second;
    forall v
      ensures v in FiltersWithTag(all, tag) <==> v in FiltersWithTag(first, tag) || v in FiltersWithTag(second, tag)
    {
      if v in FiltersWithTag(all, tag) {
        var i :| 0 <= i < |all| && v in ClauseValues(all[i], tag);
        if i >= |first| {
          assert all[i] == second[i - |first|];
        }
      }
      if v in FiltersWithTag(first, tag) {
        var i :| 0 <= i < |first| && v in ClauseValues(first[i], tag);
        assert all[i] == first[i];
      }
      if v in FiltersWithTag(second, tag) {
        var i :| 0 <= i < |second| && v in ClauseValues(second[i], tag);
        assert all[|first| + i] == second[i];
      }
    }
  }

  /** A clause that does not split on '=' into exactly two parts adds nothing to any criterion. */
  lemma MalformedClauseIgnored(clauses: seq<string>, clause: string, tag: string)
    requires |Split(Trim(clause), '=')| != 2
    ensures FiltersWithTag(clauses + [clause], tag) == FiltersWithTag(clauses, tag)
  {
    ClausesUnion(clauses, [clause], tag);
    assert FiltersWithTag([clause], tag) == {};
  }

  /** Every value read is trimmed: it neither starts nor ends with whitespace. */
  lemma ValuesAreTrimmed(clauses: seq<string>, tag: string, v: string)
    requires v in FiltersWithTag(clauses, tag)
    ensures |v| > 0 ==> !IsWhitespace(v[0]) && !IsWhitespace(v[|v| - 1])
  {
    var i :| 0 <= i < |clauses| && v in ClauseValues(clauses[i], tag);
    var parts := Split(Trim(clauses[i]), '=');
    var items := Split(Trim(parts[1]), ',');
    var k :| 0 <= k < |items| && v == TrimAll(items)[k];
  }

  /** The empty text reads as the all-empty filter. */
  lemma EmptyTextIsAllEmpty()
    ensures From("") == AllEmpty
  {
    SplitWithoutSeparator("", FilterSeparator);
    assert Trim("") == "";
    SplitWithoutSeparator("", '=');
    assert forall tag :: FiltersWithTag([""], tag) == {};
  }

  /**
   * A filter of one clause "TAG=v1,v2,…" gives that tag the trimmed
   * comma-separated items and every other tag nothing.
   */
  lemma SingleClause(tag: string, values: string)
    requires '=' !in tag && '=' !in values && FilterSeparator !in tag && FilterSeparator !in values
    requires |tag| > 0 && !IsWhitespace(tag[0]) && |values| > 0 && !IsWhitespace(values[|values| - 1])
    ensures forall t :: (FiltersWithTag(Split(tag + "=" + values, FilterSeparator), t) ==
      if t == tag then (set v | v in TrimAll(Split(Trim(values), ','))) else {})
  {
    var clause := tag + "=" + values;
    ClauseParts(tag, values);
    SplitWithoutSeparator(clause, FilterSeparator);
  }

  /** The clause "TAG=values" is one clause that splits on '=' into the tag and the values. */
  lemma ClauseParts(tag: string, values: string)
    requires '=' !in tag && '=' !in values && FilterSeparator !in tag && FilterSeparator !in values
    requires |tag| > 0 && !IsWhitespace(tag[0]) && |values| > 0 && !IsWhitespace(values[|values| - 1])
    ensures FilterSeparator !in tag + "=" + values
    ensures Split(Trim(tag + "=" + values), '=') == [tag, values]
  {
    var clause := tag + "=" + values;
    assert clause == tag + ['='] + values;
    TrimUntouched(clause);
    SplitAtFirst(tag, '=', values);
    SplitWithoutSeparator(values, '=');
  }
}

=== FILE: multipart.dfy ===
/**
 * The parts of a multipart form request: a content part carrying a value,
 * and a file part naming a file with an optional content type, encoding
 * and content. Each renders as JSON, as display text framed by its
 * boundary, and as a "request-part" Gherkin clause; a file name may carry
 * a leading "@", which the display text and the inferred pattern drop.
 */
module MultiPart {
  import opened Wrappers
  import opened Strings
  import opened Values
  import opened AssocLists
  import opened Patterns

  const ContentDisposition := "Content-Disposition"
  const DefaultBoundary := "#####"

  datatype MultiPartFormDataValue =
    | MultiPartContentValue(name: string, content: Value, boundary: string)
    | MultiPartFileValue(name: string, filename: string, contentType: Option<string>, contentEncoding: Option<string>,
                         fileContent: Option<string>, boundary: string)

  /** A content part with the default boundary. */
  function ContentPart(name: string, content: Value): (p: MultiPartFormDataValue)
    ensures p.MultiPartContentValue? && p.name == name && p.content == content && p.boundary == DefaultBoundary
  {
    MultiPartContentValue(name, content, DefaultBoundary)
  }

  /** A file part with no type, encoding or content, and the default boundary. */
  function FilePart(name: string, filename: string): (p: MultiPartFormDataValue)
    ensures p.MultiPartFileValue? && p.name == name && p.filename == filename && p.boundary == DefaultBoundary
    ensures p.contentType.None? && p.contentEncoding.None? && p.fileContent.None?
  {
    MultiPartFileValue(name, filename, None, None, None, DefaultBoundary)
  }

  /** The media type a value is sent as: JSON structures as JSON, everything else as plain text. */
  function HttpContentType(v: Value): string {
    if v.JSONObjectValue? || v.JSONArrayValue? then "application/json" else "text/plain"
  }

  /** The file name without a leading "@". */
  function StrippedFilename(filename: string): (r: string)
    ensures StartsWith(filename, "@") ==> "@" + r == filename
    ensures !StartsWith(filename, "@") ==> r == filename
  {
    RemovePrefix(filename, "@")
  }

  // ---- JSON ----

  /**
   * The JSON form of a part. A content part has exactly the keys name,
   * content and contentType; a file part has name and filename ("@" in
   * front of the file name), then contentType and contentEncoding only
   * when they are given.
   */
  function ToJSONObject(p: MultiPartFormDataValue): (r: seq<(string, Value)>)
    ensures p.MultiPartContentValue? ==> Keys(r) == ["name", "content", "contentType"]
    ensures p.MultiPartContentValue? ==> Get(r, "content") == Some(StringValue(ToStringLiteral(p.content)))
    ensures p.MultiPartFileValue? ==> Get(r, "name") == Some(StringValue(p.name))
    ensures p.MultiPartFileValue? ==> Get(r, "filename") == Some(StringValue("@" + p.filename))
    ensures p.MultiPartFileValue? ==> (HasKey(r, "contentType") <==> p.contentType.Some?)
    ensures p.MultiPartFileValue? ==> (HasKey(r, "contentEncoding") <==> p.contentEncoding.Some?)
    ensures p.MultiPartFileValue? && p.contentType.Some? ==> Get(r, "contentType") == Some(StringValue(p.contentType.value))
    ensures p.MultiPartFileValue? && p.contentEncoding.Some? ==>
      Get(r, "contentEncoding") == Some(StringValue(p.contentEncoding.value))
  {
    match p
    case MultiPartContentValue(name, content, _) =>
      var r := [("name", StringValue(name)), ("content", StringValue(ToStringLiteral(content))),
                ("contentType", StringValue(HttpContentType(content)))];
      assert r[0].0 == "name" && r[1].0 == "content";
      assert r[0].0 != "content";
      r
    case MultiPartFileValue(name, filename, contentType, contentEncoding, _, _) =>
      var base := [("name", StringValue(name)), ("filename", StringValue("@" + filename))];
      var withType := if contentType.Some? then base + [("contentType", StringValue(contentType.value))] else base;
      var r := if contentEncoding.Some? then withType + [("contentEncoding", StringValue(contentEncoding.value))] else withType;
      FileJsonLookups(r, name, filename, contentType, contentEncoding);
      r
  }

  /** The lookups in a file part's JSON, proved from its shape. */
  lemma FileJsonLookups(r: seq<(string, Value)>, name: string, filename: string, contentType: Option<string>,
                        contentEncoding: Option<string>)
    requires
      var base := [("name", StringValue(name)), ("filename", StringValue("@" + filename))];
      var withType := if contentType.Some? then base + [("contentType", StringValue(contentType.value))] else base;
      r == if contentEncoding.Some? then withType + [("contentEncoding", StringValue(contentEncoding.value))] else withType
    ensures Get(r, "name") == Some(StringValue(name))
    ensures Get(r, "filename") == Some(StringValue("@" + filename))
    ensures HasKey(r, "contentType") <==> contentType.Some?
    ensures HasKey(r, "contentEncoding") <==> contentEncoding.Some?
    ensures contentType.Some? ==> Get(r, "contentType") == Some(StringValue(contentType.value))
    ensures contentEncoding.Some? ==> Get(r, "contentEncoding") == Some(StringValue(contentEncoding.value))
  {
    assert r[0] == ("name", StringValue(name));
    assert r[1] == ("filename", StringValue("@" + filename));
    assert "name" != "filename";
    assert forall i :: 0 <= i < |r| ==> r[i].0 in {"name", "filename", "contentType", "contentEncoding"};
    if contentType.Some? {
      assert r[2] == ("contentType", StringValue(contentType.value));
      assert "contentType" != "name" && "contentType" != "filename";
    }
    if contentEncoding.Some? {
      var k := |r| - 1;
      assert r[k] == ("contentEncoding", StringValue(contentEncoding.value));
      assert forall i :: 0 <= i < k ==> r[i].0 != "contentEncoding";
    }
    if !contentType.Some? {
      assert forall i :: 0 <= i < |r| ==> r[i].0 != "contentType";
    }
    if !contentEncoding.Some? {
      assert forall i :: 0 <= i < |r| ==> r[i].0 != "contentEncoding";
    }
  }

  // ---- display text ----

  /** The headers a file part shows, in order, leaving out those whose value is blank. */
  function FileHeaders(p: MultiPartFormDataValue): (r: seq<(string, string)>)
    requires p.MultiPartFileValue?
    ensures |r| >= 1 && r[0] == (ContentDisposition, DispositionValue(p))
    ensures forall i :: 0 <= i < |r| ==> !IsBlank(r[i].1)
    ensures (exists i :: 0 <= i < |r| && r[i].0 == "Content-Type") <==>
      p.contentType.Some? && !IsBlank(p.contentType.value)
  {
    var all := [(ContentDisposition, DispositionValue(p)), ("Content-Type", p.contentType.GetOr("")),
                ("Content-Encoding", p.contentEncoding.GetOr(""))];
    assert !IsBlank(DispositionValue(p)) by {
      assert !IsWhitespace(DispositionValue(p)[0]);
    }
    assert IsBlank("");
    var r := NonBlank(all);
    assert r[0] == all[0];
    assert "Content-Type" != ContentDisposition && "Content-Type" != "Content-Encoding";
    r
  }

  /** The Content-Disposition header of a file part, naming the file as given. */
  function DispositionValue(p: MultiPartFormDataValue): string
    requires p.MultiPartFileValue?
  {
    "form-data; name=\"" + p.name + "\"; filename=\"" + p.filename + "\""
  }

  /** The entries whose value is not blank, in order. */
  function NonBlank(entries: seq<(string, string)>): (r: seq<(string, string)>)
    ensures forall e :: e in r <==> e in entries && !IsBlank(e.1)
    ensures |entries| > 0 && !IsBlank(entries[0].1) ==> |r| > 0 && r[0] == entries[0]
    ensures forall i :: 0 <= i < |r| ==> !IsBlank(r[i].1)
  {
    if |entries| == 0 then []
    else
      var rest := NonBlank(entries[1..]);
      assert forall e :: e in entries <==> e == entries[0] || e in entries[1..];
      if IsBlank(entries[0].1) then rest else [entries[0]] + rest
  }

  /** The headers as one line, "key: value" joined by ", ". */
  function HeaderString(headers: seq<(string, string)>): string {
    Join(seq(|headers|, i requires 0 <= i < |headers| => headers[i].0 + ": " + headers[i].1), ", ")
  }

  /** The note a file part shows instead of its content. */
  function FileNote(filename: string): string {
    "(File content not shown here.  Please examine the file " + StrippedFilename(filename) + ")"
  }

  /** The first line of a part's display text. */
  function BoundaryLine(boundary: string): (r: string)
    ensures |r| > 0 && r[0] == '-'
  {
    "--" + boundary + "\n"
  }

  /** What a content part shows after its boundary line: disposition, type, then the content. */
  function ContentBody(p: MultiPartFormDataValue): (r: string)
    requires p.MultiPartContentValue?
    ensures |r| > 0 && r[0] == 'C'
  {
    ContentDisposition + ": form-data; name=\"" + p.name + "\"\nContent-Type: " + HttpContentType(p.content) + "\n\n" +
    ToStringLiteral(p.content) + "\n"
  }

  /** What a file part shows after its boundary line: its headers on one line, then the note. */
  function FileBody(p: MultiPartFormDataValue): (r: string)
    requires p.MultiPartFileValue?
    ensures |r| > 0 && r[|r| - 1] == ')'
  {
    HeaderString(FileHeaders(p)) + "\n\n" + FileNote(p.filename)
  }

  /**
   * The display text of a part, the text framed by newlines and trimmed.
   * Both kinds start with their boundary line; a file part's text is
   * exactly its boundary line and body, since the body ends in the note.
   */
  function ToDisplayableValue(p: MultiPartFormDataValue): (r: string)
    ensures StartsWith(r, BoundaryLine(p.boundary))
    ensures p.MultiPartFileValue? ==> r == BoundaryLine(p.boundary) + FileBody(p)
  {
    match p
    case MultiPartContentValue(_, _, _) =>
      TrimLeadingNewline(BoundaryLine(p.boundary), ContentBody(p));
      Trim("\n" + (BoundaryLine(p.boundary) + ContentBody(p)))
    case MultiPartFileValue(_, _, _, _, _, _) =>
      var x := BoundaryLine(p.boundary) + FileBody(p);
      assert x[0] == '-' && x[|x| - 1] == ')';
      TrimNewlines(x);
      Trim("\n" + x + "\n")
  }

  /** Trimming "\n" + prefix + rest keeps the prefix when both start with a non-whitespace character. */
  lemma TrimLeadingNewline(prefix: string, rest: string)
    requires |prefix| > 0 && prefix[0] == '-' && |rest| > 0 && rest[0] == 'C'
    ensures StartsWith(Trim("\n" + (prefix + rest)), prefix)
  {
    var s := "\n" + (prefix + rest);
    assert s[1..] == prefix + rest;
    assert TrimStart(s) == TrimStart(prefix + rest);
    TrimKeepsPrefix(prefix, rest, 0);
  }

  /**
   * A file part with only a name shows just its Content-Disposition
   * header, which keeps the "@" of the file name, while the note names
   * the file without it.
   */
  lemma DisplayStripsAt(name: string, filename: string)
    ensures FileHeaders(FilePart(name, "@" + filename)) ==
      [(ContentDisposition, "form-data; name=\"" + name + "\"; filename=\"@" + filename + "\"")]
    ensures FileNote("@" + filename) == "(File content not shown here.  Please examine the file " + filename + ")"
  {
    var p := FilePart(name, "@" + filename);
    var all := [(ContentDisposition, DispositionValue(p)), ("Content-Type", ""), ("Content-Encoding", "")];
    assert IsBlank("");
    assert all[2..][1..] == [];
    assert NonBlank(all[2..]) == [];
    assert all[1..][1..] == all[2..];
    assert NonBlank(all[1..]) == [];
    assert StrippedFilename("@" + filename) == filename;
    assert "form-data; name=\"" + name + "\"; filename=\"" + ("@" + filename) + "\"" ==
      "form-data; name=\"" + name + "\"; filename=\"@" + filename + "\"";
  }

  // ---- Gherkin clauses ----

  datatype GherkinSection = Given | When | Then

  datatype GherkinClause = GherkinClause(content: string, section: GherkinSection)

  /** Example values gathered while declaring types, and messages about them. */
  datatype ExampleDeclarations = ExampleDeclarations(examples: map<string, string>, messages: seq<string>)

  /** Merging example declarations: later examples win, messages accumulate. */
  function Plus(a: ExampleDeclarations, b: ExampleDeclarations): (r: ExampleDeclarations)
    ensures r.examples.Keys == a.examples.Keys + b.examples.Keys
    ensures forall k :: k in b.examples ==> r.examples[k] == b.examples[k]
    ensures r.messages == a.messages + b.messages
  {
    ExampleDeclarations(a.examples + b.examples, a.messages + b.messages)
  }

  /** A type declared for a value: the text naming it and the types now known. */
  datatype TypeDeclaration = TypeDeclaration(typeValue: string, types: map<string, Pattern>)

  datatype ClauseData = ClauseData(clauses: seq<GherkinClause>, newTypes: map<string, Pattern>, examples: ExampleDeclarations)

  /** How a text that may be absent prints: its value, or "null". */
  function NullableText(s: Option<string>): (r: string)
    ensures s.None? ==> r == "null"
    ensures s.Some? ==> r == s.value
  {
    if s.Some? then s.value else "null"
  }

  /**
   * The clause a part contributes. A content part declares its content's
   * type under its name (with `typeDeclarationWithKey`, the library's
   * type declaration) and merges the examples that produces; a file part
   * adds one clause naming the file with "@", its content type and, only
   * when a type is given, its encoding, and changes nothing else.
   */
  function ToClauseData(p: MultiPartFormDataValue, clauses: seq<GherkinClause>, newTypes: map<string, Pattern>,
                        examples: ExampleDeclarations,
                        typeDeclarationWithKey: (Value, string, map<string, Pattern>, ExampleDeclarations) -> (TypeDeclaration, ExampleDeclarations)):
    (r: ClauseData)
    ensures |r.clauses| == |clauses| + 1 && r.clauses[..|clauses|] == clauses
    ensures r.clauses[|clauses|].section == When
    ensures StartsWith(r.clauses[|clauses|].content, "request-part " + p.name + " ")
    ensures p.MultiPartFileValue? ==> r.newTypes == newTypes && r.examples == examples
    ensures p.MultiPartContentValue? ==>
      var (declaration, newExamples) := typeDeclarationWithKey(p.content, p.name, newTypes, examples);
      r.newTypes == declaration.types && r.examples == Plus(examples, newExamples)
  {
    match p
    case MultiPartContentValue(name, content, _) =>
      var (declaration, newExamples) := typeDeclarationWithKey(content, name, newTypes, examples);
      var clause := GherkinClause("request-part " + name + " " + declaration.typeValue, When);
      assert ("request-part " + name + " " + declaration.typeValue)[..|"request-part " + name + " "|] == "request-part " + name + " ";
      assert (clauses + [clause])[..|clauses|] == clauses;
      ClauseData(clauses + [clause], declaration.types, Plus(examples, newExamples))
    case MultiPartFileValue(name, filename, contentType, contentEncoding, _, _) =>
      var clause := GherkinClause(FileClauseText(name, filename, contentType, contentEncoding), When);
      assert (clauses + [clause])[..|clauses|] == clauses;
      ClauseData(clauses + [clause], newTypes, examples)
  }

  /** The text of a file part's clause; the encoding is dropped when no content type is given. */
  function FileClauseText(name: string, filename: string, contentType: Option<string>, contentEncoding: Option<string>): (r: string)
    ensures StartsWith(r, "request-part " + name + " ")
    ensures contentType.None? ==> EndsWith(r, " null null")
  {
    var encoding := if contentType.Some? then contentEncoding else None;
    var prefix := "request-part " + name + " ";
    var rest := "@" + filename + " " + NullableText(contentType) + " " + NullableText(encoding);
    assert rest[0] == '@';
    TrimKeepsPrefix(prefix, rest, 0);
    if contentType.None? then
      NullSuffix(prefix, "@" + filename);
      Trim(prefix + rest)
    else
      Trim(prefix + rest)
  }

  /** A clause ending in " null null" is left alone by trimming. */
  lemma NullSuffix(prefix: string, file: string)
    requires |prefix| > 0 && prefix[0] == 'r'
    ensures EndsWith(Trim(prefix + (file + " " + "null" + " " + "null")), " null null")
  {
    var text := prefix + (file + " " + "null" + " " + "null");
    assert text == prefix + file + " null null";
    assert text[0] == 'r' && text[|text| - 1] == 'l';
    TrimUntouched(text);
  }

  /** Without a content type, a file clause prints the literal "null null" for the type and encoding, whatever the encoding. */
  lemma NullTypeClause(name: string, filename: string, contentEncoding: Option<string>)
    ensures FileClauseText(name, filename, None, contentEncoding) == FileClauseText(name, filename, None, None)
    ensures EndsWith(FileClauseText(name, filename, None, contentEncoding), " null null")
  {
  }

  // ---- inferred patterns ----

  datatype MultiPartFormDataPattern =
    | MultiPartContentPattern(name: string, content: Pattern)
    | MultiPartFilePattern(name: string, filename: Pattern, contentType: Option<string>, contentEncoding: Option<string>)

  /**
   * The pattern a part is an example of: a content part's content is
   * matched by `exactMatchElseType`; a file part's name, without its "@",
   * is read by `parsedPattern`. Both are the library's pattern readers.
   */
  function InferType(p: MultiPartFormDataValue, exactMatchElseType: Value -> Pattern, parsedPattern: string -> Pattern):
    (r: MultiPartFormDataPattern)
    ensures r.name == p.name
    ensures p.MultiPartContentValue? ==> r == MultiPartContentPattern(p.name, exactMatchElseType(p.content))
    ensures p.MultiPartFileValue? ==>
      r == MultiPartFilePattern(p.name, parsedPattern(StrippedFilename(p.filename)), p.contentType, p.contentEncoding)
  {
    match p
    case MultiPartContentValue(name, content, _) => MultiPartContentPattern(name, exactMatchElseType(content))
    case MultiPartFileValue(name, filename, contentType, contentEncoding, _, _) =>
      MultiPartFilePattern(name, parsedPattern(StrippedFilename(filename)), contentType, contentEncoding)
  }

  /** A file written with or without "@" infers the same pattern. */
  lemma AtSignIgnoredByInference(name: string, filename: string, exactMatchElseType: Value -> Pattern,
                                 parsedPattern: string -> Pattern)
    requires !StartsWith(filename, "@")
    ensures InferType(FilePart(name, "@" + filename), exactMatchElseType, parsedPattern) ==
      InferType(FilePart(name, filename), exactMatchElseType, parsedPattern)
  {
    assert StartsWith("@" + filename, "@");
    assert StrippedFilename("@" + filename) == filename;
  }
}

=== FILE: new_patterns.dfy ===
/**
 * The patterns a test generator derives from a pattern: the "new" ones
 * that a positive test may use in its place, and the "negative" ones that
 * a negative test substitutes for it. A union gathers its members'
 * patterns, swallowing a member's error as long as some member produced
 * something.
 */
module NewPatterns {
  import opened Wrappers
  import opened Values
  import opened Results
  import opened Patterns
  import opened Resolvers
  import opened AnyPatterns
  import NumberPatterns
  import Generation
  import Choices

  /** A member's outcome under cycle prevention: a refused cycle on a nullable union counts as producing nothing. */
  function Guarded(o: Outcome<seq<Pattern>>, nullable: bool): (m: MemberOutcome)
    ensures o.Ok? ==> m == Produced(o.value)
    ensures o.Thrown? && o.error.ContractException? && o.error.isCycle && nullable ==> m == Produced([])
    ensures o.Thrown? && !(o.error.ContractException? && o.error.isCycle && nullable) ==> m == Raised(o.error)
  {
    match CatchCycle(o, nullable)
    case Ok(Some(ps)) => Produced(ps)
    case Ok(None) => Produced([])
    case Thrown(e) => Raised(e)
  }

  /** A member's outcome with no cycle prevention: every error is kept. */
  function Caught(o: Outcome<seq<Pattern>>): (m: MemberOutcome)
    ensures o.Ok? <==> m.Produced?
    ensures o.Ok? ==> m == Produced(o.value)
    ensures o.Thrown? ==> m == Raised(o.error)
  {
    match o
    case Ok(ps) => Produced(ps)
    case Thrown(e) => Raised(e)
  }

  // ---- new patterns ----

  function NewBasedOn(fuel: nat, p: Pattern, r: Resolver): (o: Outcome<seq<Pattern>>)
    ensures p.NumberPattern? ==> o == Ok(NumberPatterns.NewBasedOn(p))
    ensures IsLeaf(p) || p.JSONObjectPattern? ==> o == Ok([p])
    decreases fuel, p, 2
  {
    match p
    case DeferredPattern(token) =>
      if fuel == 0 then Thrown(StackOverflowError)
      else
        var q :- GetPattern(r, token);
        NewBasedOn(fuel - 1, q, r)
    case AnyPattern(_, _, _, _, _, _) => NewBasedOnAny(fuel, p, r)
    case NumberPattern(_, _, _, _, _, _) => Ok(NumberPatterns.NewBasedOn(p))
    case _ => Ok([p])
  }

  /**
   * A union: its example, as an exact value, when one is to be used;
   * otherwise every member's new patterns, non-null members first.
   */
  function NewBasedOnAny(fuel: nat, p: Pattern, r: Resolver): (o: Outcome<seq<Pattern>>)
    requires p.AnyPattern?
    ensures Generation.ResolveExample(fuel, p, r).Thrown? ==> o == Thrown(Generation.ResolveExample(fuel, p, r).error)
    ensures Generation.ResolveExample(fuel, p, r).Ok? && Generation.ResolveExample(fuel, p, r).value.Some? ==>
      o == Ok([ExactValuePattern(Generation.ResolveExample(fuel, p, r).value.value, None, false)])
    ensures o.Thrown? && Generation.ResolveExample(fuel, p, r).Ok? ==>
      o.error == ContractException("Could not generate new tests", false)
    ensures Generation.ResolveExample(fuel, p, r) == Ok(None) && |p.members| == 0 ==> o == Ok([])
    decreases fuel, p, 1
  {
    var example :- Generation.ResolveExample(fuel, p, r);
    match example
    case Some(v) => Ok([ExactValuePattern(v, None, false)])
    case None =>
      var outcomes := NewOutcomes(fuel, p, r, NullsLastOrder(p.members), 0);
      NewTypesOrExceptionIfNone(p.members, outcomes, "Could not generate new tests")
  }

  /** One member's new patterns, under cycle prevention. */
  function NewOutcome(fuel: nat, m: Pattern, r: Resolver, nullable: bool): (o: MemberOutcome)
    decreases fuel, m, 3
  {
    var entered := EnterPattern(r, m);
    Guarded(if entered.Thrown? then Thrown(entered.error) else NewBasedOn(fuel, m, entered.value), nullable)
  }

  /** The outcomes of the members at `order[k..]`, in that order. */
  function NewOutcomes(fuel: nat, p: Pattern, r: Resolver, order: seq<nat>, k: nat): (os: seq<MemberOutcome>)
    requires p.AnyPattern? && k <= |order|
    requires forall i :: 0 <= i < |order| ==> order[i] < |p.members|
    ensures |os| == |order| - k
    ensures forall i :: 0 <= i < |os| ==> os[i] == NewOutcome(fuel, p.members[order[k + i]], r, HasNullMember(p.members))
    decreases fuel, p, 0, |order| - k
  {
    if k == |order| then []
    else [NewOutcome(fuel, p.members[order[k]], r, HasNullMember(p.members))] + NewOutcomes(fuel, p, r, order, k + 1)
  }

  /** The example is not used: default examples are off or the union has none. */
  predicate NoExample(p: Pattern, r: Resolver)
    requires p.AnyPattern?
  {
    r.defaultExampleResolver == DoNotUseDefaultExample || p.example.None?
  }

  /** Every member's new-pattern outcome, in declaration order. */
  function MemberNewOutcomes(fuel: nat, p: Pattern, r: Resolver): (os: seq<MemberOutcome>)
    requires p.AnyPattern?
    ensures |os| == |p.members|
    ensures forall j :: 0 <= j < |os| ==> os[j] == NewOutcome(fuel, p.members[j], r, HasNullMember(p.members))
  {
    seq(|p.members|, j requires 0 <= j < |p.members| => NewOutcome(fuel, p.members[j], r, HasNullMember(p.members)))
  }

  /** Outcomes taken in an order that lists every position produce exactly the patterns produced at those positions. */
  lemma OrderedOutcomesCover(os: seq<MemberOutcome>, each: seq<MemberOutcome>, order: seq<nat>, q: Pattern)
    requires |os| == |order| && forall i :: 0 <= i < |order| ==> order[i] < |each| && os[i] == each[order[i]]
    requires forall j :: 0 <= j < |each| ==> j in order
    ensures q in Flatten(os) <==> q in Flatten(each)
  {
    if q in Flatten(os) {
      OrderedProducedIsProduced(os, each, order, q);
    }
    if q in Flatten(each) {
      var j :| 0 <= j < |each| && each[j].Produced? && q in each[j].patterns;
      assert j in order;
      var i :| 0 <= i < |order| && order[i] == j;
      assert os[i].Produced? && q in os[i].patterns;
    }
  }

  /** What reordered outcomes produce was produced at some position. */
  lemma OrderedProducedIsProduced(os: seq<MemberOutcome>, each: seq<MemberOutcome>, order: seq<nat>, q: Pattern)
    requires |os| == |order| && forall i :: 0 <= i < |order| ==> order[i] < |each| && os[i] == each[order[i]]
    requires q in Flatten(os)
    ensures q in Flatten(each)
  {
    var i :| 0 <= i < |os| && os[i].Produced? && q in os[i].patterns;
    var j := order[i];
    assert each[j].Produced? && q in each[j].patterns;
  }

  /** Reordering outcomes as above does not change whether anything was produced. */
  lemma OrderedOutcomesEmpty(os: seq<MemberOutcome>, each: seq<MemberOutcome>, order: seq<nat>)
    requires |os| == |order| && forall i :: 0 <= i < |order| ==> order[i] < |each| && os[i] == each[order[i]]
    requires forall j :: 0 <= j < |each| ==> j in order
    ensures |Flatten(os)| == 0 <==> |Flatten(each)| == 0
  {
    if |Flatten(each)| > 0 {
      var q := Flatten(each)[0];
      OrderedOutcomesCover(os, each, order, q);
    }
    if |Flatten(os)| > 0 {
      var q := Flatten(os)[0];
      OrderedOutcomesCover(os, each, order, q);
    }
  }

  /**
   * Without an example, a union's new patterns are exactly those its
   * members produce, and the union throws "Could not generate new tests"
   * iff it has members and none of them produced a pattern.
   */
  lemma NewPatternsComeFromMembers(fuel: nat, p: Pattern, r: Resolver, q: Pattern)
    requires p.AnyPattern? && NoExample(p, r)
    ensures NewBasedOn(fuel, p, r).Ok? ==> (q in NewBasedOn(fuel, p, r).value <==> q in Flatten(MemberNewOutcomes(fuel, p, r)))
    ensures NewBasedOn(fuel, p, r).Thrown? <==> |p.members| > 0 && |Flatten(MemberNewOutcomes(fuel, p, r))| == 0
    ensures NewBasedOn(fuel, p, r).Thrown? ==>
      NewBasedOn(fuel, p, r).error == ContractException("Could not generate new tests", false)
  {
    assert Generation.ResolveExample(fuel, p, r) == Ok(None);
    var order := NullsLastOrder(p.members);
    var os := NewOutcomes(fuel, p, r, order, 0);
    assert NewBasedOn(fuel, p, r) == NewTypesOrExceptionIfNone(p.members, os, "Could not generate new tests");
    OrderedOutcomesCover(os, MemberNewOutcomes(fuel, p, r), order, q);
    OrderedOutcomesEmpty(os, MemberNewOutcomes(fuel, p, r), order);
  }

  /**
   * With an example in use, a union's only new pattern is the exact value
   * one of its members reads from the example.
   */
  lemma ExampleIsTheOnlyNewPattern(fuel: nat, p: Pattern, r: Resolver)
    requires p.AnyPattern? && r.defaultExampleResolver == UseDefaultExample && p.example.Some?
    requires exists j :: 0 <= j < |p.members| && Generation.TryExample(fuel, p.members[j], p.example.value).verdict.Success?
    ensures NewBasedOn(fuel, p, r).Ok? && |NewBasedOn(fuel, p, r).value| == 1
    ensures NewBasedOn(fuel, p, r).value[0].ExactValuePattern?
    ensures NewBasedOn(fuel, p, r).value[0] ==
      ExactValuePattern(Generation.Generate(fuel, p, r, Choices.NoChoices).value, None, false)
  {
    Generation.ExampleIsGenerated(fuel, p, r, Choices.NoChoices);
    var example := Generation.ResolveExample(fuel, p, r);
    assert NewBasedOn(fuel, p, r) == NewBasedOnAny(fuel, p, r);
    assert NewBasedOnAny(fuel, p, r) == Ok([ExactValuePattern(example.value.value, None, false)]);
    assert Generation.Generate(fuel, p, r, Choices.NoChoices) == Ok(example.value.value);
  }

  /** A nullable number with nothing on the cycle stack yields the number first, then null. */
  lemma NullableNumberNewPatterns(fuel: nat, r: Resolver)
    requires r.cyclePreventionStack == []
    ensures NewBasedOn(fuel, Union([NullPattern, DefaultNumberPattern]), r) == Ok([DefaultNumberPattern, NullPattern])
  {
    var p := Union([NullPattern, DefaultNumberPattern]);
    assert Generation.ResolveExample(fuel, p, r) == Ok(None);
    var order := NullsLastOrder(p.members);
    assert 0 in order && 1 in order;
    assert order == [1, 0];
    var os := NewOutcomes(fuel, p, r, order, 0);
    EnterFreshPattern(r, DefaultNumberPattern);
    EnterFreshPattern(r, NullPattern);
    assert os[0] == Produced([DefaultNumberPattern]);
    assert os[1] == Produced([NullPattern]);
    assert os == [Produced([DefaultNumberPattern]), Produced([NullPattern])];
    assert Flatten(os[1..]) == [NullPattern] by {
      assert os[1..][1..] == [];
    }
    assert Flatten(os) == [DefaultNumberPattern, NullPattern];
    assert NewBasedOn(fuel, p, r) == NewBasedOnAny(fuel, p, r);
  }

  // ---- negative patterns ----

  /**
   * The patterns a negative test substitutes for `p`. A number offers
   * null, a boolean and a string; a string offers null, a number and a
   * boolean; a boolean offers null, a number and a string; null, exact
   * values and objects offer nothing.
   */
  function NegativeBasedOn(fuel: nat, p: Pattern, r: Resolver): (o: Outcome<seq<Pattern>>)
    ensures p.NumberPattern? ==> o == Ok(NumberPatterns.NegativeBasedOn(p))
    ensures p.NullPattern? || p.ExactValuePattern? || p.JSONObjectPattern? ==> o == Ok([])
    ensures IsScalarType(p) && o.Ok? ==> forall q :: q in o.value ==> IsScalarType(q) && !SameClass(p, q)
    decreases fuel, p, 2
  {
    match p
    case DeferredPattern(token) =>
      if fuel == 0 then Thrown(StackOverflowError)
      else
        var q :- GetPattern(r, token);
        NegativeBasedOn(fuel - 1, q, r)
    case AnyPattern(_, _, _, _, _, _) => NegativeBasedOnAny(fuel, p, r)
    case NumberPattern(_, _, _, _, _, _) => Ok(NumberPatterns.NegativeBasedOn(p))
    case StringPattern(_, _) => Ok([NullPattern, DefaultNumberPattern, DefaultBooleanPattern])
    case BooleanPattern(_, _) => Ok([NullPattern, DefaultNumberPattern, DefaultStringPattern])
    case _ => Ok([])
  }

  /**
   * A union: every member's negatives in declaration order, errors
   * swallowed unless nothing came out; null dropped from a union that
   * admits null; repeated scalars collapsed.
   */
  function NegativeBasedOnAny(fuel: nat, p: Pattern, r: Resolver): (o: Outcome<seq<Pattern>>)
    requires p.AnyPattern?
    ensures o.Ok? && HasNullMember(p.members) ==> forall q :: q in o.value ==> !q.NullPattern?
    ensures o.Ok? ==> forall i, j :: 0 <= i < j < |o.value| && IsLeaf(o.value[i]) ==> o.value[i] != o.value[j]
    decreases fuel, p, 1
  {
    var produced :- NewTypesOrExceptionIfNone(p.members, NegativeOutcomes(fuel, p, r, 0), "Could not get negative tests");
    Ok(NegativeCandidates(p.members, produced))
  }

  /** The outcomes of the members from index `i` on. */
  function NegativeOutcomes(fuel: nat, p: Pattern, r: Resolver, i: nat): (os: seq<MemberOutcome>)
    requires p.AnyPattern? && i <= |p.members|
    ensures |os| == |p.members| - i
    ensures forall k :: 0 <= k < |os| ==> os[k] == Caught(NegativeBasedOn(fuel, p.members[i + k], r))
    decreases fuel, p, 0, |p.members| - i
  {
    if i == |p.members| then []
    else [Caught(NegativeBasedOn(fuel, p.members[i], r))] + NegativeOutcomes(fuel, p, r, i + 1)
  }

  /**
   * A union's negatives are the members' negatives, less null when the
   * union admits null; it throws "Could not get negative tests" iff it
   * has members and none of them offered anything.
   */
  lemma NegativesComeFromMembers(fuel: nat, p: Pattern, r: Resolver, q: Pattern)
    requires p.AnyPattern?
    ensures NegativeBasedOn(fuel, p, r).Ok? ==>
      (q in NegativeBasedOn(fuel, p, r).value <==>
        !(HasNullMember(p.members) && q.NullPattern?) &&
        exists j :: 0 <= j < |p.members| && NegativeBasedOn(fuel, p.members[j], r).Ok? &&
                    q in NegativeBasedOn(fuel, p.members[j], r).value)
    ensures NegativeBasedOn(fuel, p, r).Thrown? <==>
      |p.members| > 0 && forall j :: 0 <= j < |p.members| && NegativeBasedOn(fuel, p.members[j], r).Ok? ==>
        |NegativeBasedOn(fuel, p.members[j], r).value| == 0
    ensures NegativeBasedOn(fuel, p, r).Thrown? ==>
      NegativeBasedOn(fuel, p, r).error == ContractException("Could not get negative tests", false)
  {
    var os := NegativeOutcomes(fuel, p, r, 0);
    assert NegativeBasedOn(fuel, p, r) == NegativeBasedOnAny(fuel, p, r);
    if q in Flatten(os) {
      var i :| 0 <= i < |os| && os[i].Produced? && q in os[i].patterns;
      assert os[i] == Caught(NegativeBasedOn(fuel, p.members[i], r));
    }
    if exists j :: 0 <= j < |p.members| && NegativeBasedOn(fuel, p.members[j], r).Ok? &&
                   q in NegativeBasedOn(fuel, p.members[j], r).value {
      var j :| 0 <= j < |p.members| && NegativeBasedOn(fuel, p.members[j], r).Ok? &&
               q in NegativeBasedOn(fuel, p.members[j], r).value;
      assert os[j] == Caught(NegativeBasedOn(fuel, p.members[j], r));
    }
    if |Flatten(os)| == 0 {
      forall j | 0 <= j < |p.members| && NegativeBasedOn(fuel, p.members[j], r).Ok?
        ensures |NegativeBasedOn(fuel, p.members[j], r).value| == 0
      {
        assert os[j] == Caught(NegativeBasedOn(fuel, p.members[j], r));
      }
    } else {
      var i :| 0 <= i < |os| && os[i].Produced? && |os[i].patterns| > 0;
      assert os[i] == Caught(NegativeBasedOn(fuel, p.members[i], r));
    }
  }

  /** A nullable number's negatives are a boolean and a string: the number's null is dropped. */
  lemma NullableNumberNegatives(fuel: nat, r: Resolver)
    ensures NegativeBasedOn(fuel, Union([NullPattern, DefaultNumberPattern]), r) ==
      Ok([DefaultBooleanPattern, DefaultStringPattern])
  {
    var p := Union([NullPattern, DefaultNumberPattern]);
    var os := NegativeOutcomes(fuel, p, r, 0);
    assert os[0] == Produced([]);
    assert os[1] == Produced([NullPattern, DefaultBooleanPattern, DefaultStringPattern]);
    assert os == [Produced([]), Produced([NullPattern, DefaultBooleanPattern, DefaultStringPattern])];
    var produced := [NullPattern, DefaultBooleanPattern, DefaultStringPattern];
    assert Flatten(os[1..]) == produced by {
      assert os[1..][1..] == [];
    }
    assert Flatten(os) == produced;
    NullableNumberCandidates();
  }

  /** Null dropped and nothing repeated: the candidates a nullable number keeps from null, boolean and string. */
  lemma NullableNumberCandidates()
    ensures NegativeCandidates([NullPattern, DefaultNumberPattern], [NullPattern, DefaultBooleanPattern, DefaultStringPattern]) ==
      [DefaultBooleanPattern, DefaultStringPattern]
  {
    var members := [NullPattern, DefaultNumberPattern];
    assert HasNullMember(members) by {
      assert members[0].NullPattern?;
    }
    DropNullFromSubstitutes();
    BooleanAndStringAreDistinct();
  }

  lemma DropNullFromSubstitutes()
    ensures WithoutNulls([NullPattern, DefaultBooleanPattern, DefaultStringPattern]) == [DefaultBooleanPattern, DefaultStringPattern]
  {
    var produced := [NullPattern, DefaultBooleanPattern, DefaultStringPattern];
    var negs := [DefaultBooleanPattern, DefaultStringPattern];
    var tail := [DefaultStringPattern];
    assert tail[1..] == [];
    assert WithoutNulls(tail) == tail;
    assert negs[1..] == tail;
    assert WithoutNulls(negs) == negs;
    assert produced[1..] == negs;
  }

  lemma BooleanAndStringAreDistinct()
    ensures DistinctScalars([DefaultBooleanPattern, DefaultStringPattern]) == [DefaultBooleanPattern, DefaultStringPattern]
  {
    var negs := [DefaultBooleanPattern, DefaultStringPattern];
    assert negs[..1] == [DefaultBooleanPattern];
    assert [DefaultBooleanPattern][..0] == [];
    assert DistinctScalars([DefaultBooleanPattern]) == [DefaultBooleanPattern];
    assert DefaultStringPattern !in negs[..1];
  }

  /** A union of null alone has no negatives at all, so it throws. */
  lemma NullOnlyUnionHasNoNegatives(fuel: nat, r: Resolver)
    ensures NegativeBasedOn(fuel, Union([NullPattern]), r) == Thrown(ContractException("Could not get negative tests", false))
  {
    var p := Union([NullPattern]);
    var os := NegativeOutcomes(fuel, p, r, 0);
    assert os == [Produced([])];
    assert Flatten(os) == [];
  }
}

=== FILE: number_patterns.dfy ===
/**
 * NumberPattern: an integer whose decimal literal (minus sign included) has
 * between `minLength` and `maxLength` characters and which lies above an
 * optional, inclusive or exclusive, minimum.
 */
module NumberPatterns {
  import opened Wrappers
  import opened Strings
  import opened Values
  import opened Results
  import opened Patterns
  import opened Resolvers
  import opened Choices

  /** The constructor's invariant: at least one digit, and the bounds in order. */
  predicate ValidNumberPattern(p: Pattern) {
    p.NumberPattern? && p.minLength >= 1 && p.minLength <= p.maxLength
  }

  /** Construction, refused with the source's messages when the length bounds are wrong. */
  function MakeNumberPattern(typeAlias: Option<string>, minLength: int, maxLength: int, minimum: Option<int>,
                             exclusiveMinimum: bool, example: Option<string>): (o: Outcome<Pattern>)
    ensures o.Ok? <==> 1 <= minLength <= maxLength
    ensures o.Ok? ==> ValidNumberPattern(o.value)
    ensures o.Ok? ==> o.value == NumberPattern(typeAlias, minLength, maxLength, minimum, exclusiveMinimum, example)
    ensures minLength < 1 ==> o == Thrown(OtherThrowable("minLength cannot be less than 1"))
    ensures minLength >= 1 && maxLength < minLength ==> o == Thrown(OtherThrowable("maxLength cannot be less than minLength"))
  {
    if minLength <= 0 then Thrown(OtherThrowable("minLength cannot be less than 1"))
    else if minLength > maxLength then Thrown(OtherThrowable("maxLength cannot be less than minLength"))
    else Ok(NumberPattern(typeAlias, minLength, maxLength, minimum, exclusiveMinimum, example))
  }

  /** The default number pattern satisfies the constructor's invariant. */
  lemma DefaultNumberPatternIsValid()
    ensures MakeNumberPattern(None, 1, IntMax, None, false, None) == Ok(DefaultNumberPattern)
  {
  }

  // ---- rendering the minimum as the JVM prints a double ----

  function DropTrailingZeros(s: string): (r: string)
    ensures |r| <= |s| && r == s[..|r|]
    ensures |r| > 0 ==> r[|r| - 1] != '0'
  {
    if |s| > 0 && s[|s| - 1] == '0' then DropTrailingZeros(s[..|s| - 1]) else s
  }

  /**
   * A whole number as the JVM prints it as a double: "m.0" below ten
   * million in magnitude, and "d.dddEk" from there on.
   */
  function RenderDouble(m: int): (r: string)
    ensures -10000000 < m < 10000000 ==> r == IntToString(m) + ".0"
  {
    if -10000000 < m < 10000000 then IntToString(m) + ".0"
    else
      var digits := NatToString(if m < 0 then -m else m);
      var fraction := DropTrailingZeros(digits[1..]);
      (if m < 0 then "-" else "") + digits[..1] + "." + (if fraction == "" then "0" else fraction) + "E" +
        NatToString(|digits| - 1)
  }

  /** Ten million prints in the exponent form. */
  lemma TenMillionRendering()
    ensures RenderDouble(10000000) == "1.0E7"
  {
    TenMillionDigits();
    var digits := NatToString(10000000);
    assert digits[..1] == "1";
    assert digits[1..] == "0000000";
    assert DropTrailingZeros("0000000") == "";
    assert NatToString(7) == "7";
  }

  lemma TenMillionDigits()
    ensures NatToString(10000000) == "10000000"
  {
    assert NatToString(1) == "1";
    assert NatToString(10) == "10";
    assert NatToString(100) == "100";
    assert NatToString(1000) == "1000";
    assert NatToString(10000) == "10000";
    assert NatToString(100000) == "100000";
    assert NatToString(1000000) == "1000000";
  }

  // ---- matching ----

  /** The decimal literal whose length the bounds constrain. */
  function Literal(n: int): string {
    ToStringLiteral(NumberValue(n))
  }

  /** The number falls on the wrong side of the pattern's minimum (none means minus infinity). */
  predicate BelowMinimum(p: Pattern, n: int)
    requires p.NumberPattern?
  {
    match p.minimum
    case None => false
    case Some(m) => if p.exclusiveMinimum then n <= m else n < m
  }

  /** What the message says was expected when the minimum is violated. */
  function MinimumExpectation(p: Pattern): string
    requires p.NumberPattern? && p.minimum.Some?
  {
    "number greater than " + (if p.exclusiveMinimum then "" else "or equal to ") + RenderDouble(p.minimum.value)
  }

  /**
   * A value matches iff it is a number, its literal's length is within the
   * bounds and it is not below the minimum. The checks run in that order,
   * and the first one that fails names what was expected.
   */
  function Matches(p: Pattern, v: Value, mm: MismatchMessages): (r: Result)
    requires p.NumberPattern?
    ensures r.Success? <==>
      v.NumberValue? && p.minLength <= |Literal(v.number)| <= p.maxLength && !BelowMinimum(p, v.number)
    ensures !v.NumberValue? ==> r == MismatchResult(mm, "number", ValueError(v))
    ensures v.NumberValue? && |Literal(v.number)| < p.minLength ==>
      r == MismatchResult(mm, "number with minLength " + IntToString(p.minLength), ValueError(v))
    ensures v.NumberValue? && p.minLength <= |Literal(v.number)| && |Literal(v.number)| > p.maxLength ==>
      r == MismatchResult(mm, "number with maxLength " + IntToString(p.maxLength), ValueError(v))
    ensures v.NumberValue? && p.minLength <= |Literal(v.number)| <= p.maxLength && BelowMinimum(p, v.number) ==>
      r == MismatchResult(mm, MinimumExpectation(p), ValueError(v))
  {
    if !v.NumberValue? then MismatchResult(mm, "number", ValueError(v))
    else if |Literal(v.number)| < p.minLength then
      MismatchResult(mm, "number with minLength " + IntToString(p.minLength), ValueError(v))
    else if |Literal(v.number)| > p.maxLength then
      MismatchResult(mm, "number with maxLength " + IntToString(p.maxLength), ValueError(v))
    else if BelowMinimum(p, v.number) then MismatchResult(mm, MinimumExpectation(p), ValueError(v))
    else Success
  }

  /** The minimum itself is accepted by an inclusive minimum and refused by an exclusive one. */
  lemma MinimumBoundary(p: Pattern, mm: MismatchMessages)
    requires p.NumberPattern? && p.minimum.Some?
    requires p.minLength <= |Literal(p.minimum.value)| <= p.maxLength
    ensures Matches(p, NumberValue(p.minimum.value), mm).Success? <==> !p.exclusiveMinimum
  {
  }

  /** The minus sign counts towards the length: -5 has the two characters 5 lacks. */
  lemma MinusSignCountsTowardsLength(mm: MismatchMessages)
    ensures Matches(NumberPattern(None, 2, 2, None, false, None), NumberValue(-5), mm).Success?
    ensures !Matches(NumberPattern(None, 2, 2, None, false, None), NumberValue(5), mm).Success?
  {
    assert Literal(-5) == "-" + NatToString(5);
    assert NatToString(5) == "5";
  }

  /** Whether a value matches never depends on the wording of the messages. */
  lemma MatchVerdictIgnoresWording(p: Pattern, v: Value, mm1: MismatchMessages, mm2: MismatchMessages)
    requires p.NumberPattern?
    ensures Matches(p, v, mm1).Success? == Matches(p, v, mm2).Success?
  {
  }

  // ---- parsing ----

  /**
   * Reading a number from text: surrounding whitespace is ignored, and text
   * that is not an integer is a contract error naming the original text.
   */
  function Parse(s: string): (o: Outcome<Value>)
    ensures o.Ok? <==> ParseInt(Trim(s)).Some?
    ensures o.Ok? ==> o.value == NumberValue(ParseInt(Trim(s)).value)
    ensures o.Thrown? ==> o.error == ContractException("Expected number, actual was \"" + s + "\"", false)
  {
    match ParseInt(Trim(s))
    case Some(n) => Ok(NumberValue(n))
    case None => Thrown(ContractException("Expected number, actual was \"" + s + "\"", false))
  }

  /** Parsing a number's literal gives the number back. */
  lemma ParseLiteral(n: int)
    ensures Parse(Literal(n)) == Ok(NumberValue(n))
  {
    var s := Literal(n);
    NumberLiteralRoundTrip(n);
    assert !IsWhitespace(s[0]) && !IsWhitespace(s[|s| - 1]) by {
      if n < 0 {
        assert s[1..] == NatToString(-n);
        assert s[|s| - 1] == NatToString(-n)[|NatToString(-n)| - 1];
      }
    }
    TrimUntouched(s);
  }

  /** Text with a '+' in front of the digits reads as the unsigned number, as `toInt()` reads it. */
  lemma PlusSignedTextParses(n: nat)
    ensures Parse("+" + NatToString(n)) == Ok(NumberValue(n))
  {
    PlusSignedDigitsParse(NatToString(n));
    DigitsOfNatToString(n);
  }

  /** '+' followed by digits reads as the digits' value. */
  lemma PlusSignedDigitsParse(d: string)
    requires |d| > 0 && AllDigits(d)
    ensures Parse("+" + d) == Ok(NumberValue(DigitsToNat(d)))
  {
    PlusSignedDigitsUntrimmed(d);
    PlusSignedDigitsRead(d);
  }

  /** '+' followed by digits has no whitespace to trim. */
  lemma PlusSignedDigitsUntrimmed(d: string)
    requires |d| > 0 && AllDigits(d)
    ensures Trim("+" + d) == "+" + d
  {
    var s := "+" + d;
    assert s[|s| - 1] == d[|d| - 1];
    assert IsDigit(d[|d| - 1]);
    TrimUntouched(s);
  }

  /** `toInt()` reads '+' followed by digits as the digits' value. */
  lemma PlusSignedDigitsRead(d: string)
    requires |d| > 0 && AllDigits(d)
    ensures ParseInt("+" + d) == Some(DigitsToNat(d))
  {
    assert ("+" + d)[1..] == d;
  }

  // ---- generation ----

  /** `minLength` random digits, the first of them nonzero (at least one digit in all). */
  function RandomDigits(minLength: int, choices: ChoiceTree): (s: string)
    ensures |s| == (if minLength < 1 then 1 else minLength)
    ensures AllDigits(s) && s[0] != '0'
  {
    var rest := seq(if minLength < 1 then 0 else minLength - 1, i requires 0 <= i => DigitChar(Pick(choices, i + 1, 10)));
    [DigitChar(Pick(choices, 0, 9) + 1)] + rest
  }

  /**
   * The random number as the source computes it: the digit string is read
   * back as a 32-bit integer, which throws once it exceeds the largest one.
   */
  function RandomNumberAsWritten(minLength: int, choices: ChoiceTree): (o: Outcome<int>)
    ensures o.Thrown? <==> DigitsToNat(RandomDigits(minLength, choices)) > IntMax
    ensures o.Ok? ==> o.value == DigitsToNat(RandomDigits(minLength, choices))
  {
    var digits := RandomDigits(minLength, choices);
    var n := DigitsToNat(digits);
    if n > IntMax then Thrown(OtherThrowable("For input string: \"" + digits + "\"")) else Ok(n)
  }

  /** From eleven digits on, reading the digits back as a 32-bit integer always throws. */
  lemma RandomNumberAsWrittenOverflows(minLength: int, choices: ChoiceTree)
    requires minLength >= 11
    ensures RandomNumberAsWritten(minLength, choices).Thrown?
  {
    var digits := RandomDigits(minLength, choices);
    DigitsToNatLowerBound(digits);
    Pow10Monotone(10, |digits| - 1);
    assert Pow10(10) == 10000000000;
  }

  lemma {:induction false} Pow10Monotone(j: nat, k: nat)
    requires j <= k
    ensures Pow10(j) <= Pow10(k)
    decreases k
  {
    if j < k {
      Pow10Monotone(j, k - 1);
    }
  }

  /** A number pattern of minimum length eleven, which the source cannot generate. */
  lemma ElevenDigitGenerationThrows()
    ensures MakeNumberPattern(None, 11, IntMax, None, false, None).Ok?
    ensures RandomNumberAsWritten(11, NoChoices).Thrown?
  {
    RandomNumberAsWrittenOverflows(11, NoChoices);
  }

  /**
   * The random number as evidently intended: the digit string's value,
   * without a 32-bit limit. It has exactly `minLength` digits and no
   * leading zero.
   */
  function RandomNumber(minLength: int, choices: ChoiceTree): (n: nat)
    ensures n >= 1
    ensures NatToString(n) == RandomDigits(minLength, choices)
  {
    var digits := RandomDigits(minLength, choices);
    NatToStringOfDigits(digits);
    DigitsToNatPositive(digits);
    DigitsToNat(digits)
  }

  /** The corrected generator agrees with the source wherever the source does not throw. */
  lemma RandomNumberAgreesBelowOverflow(minLength: int, choices: ChoiceTree)
    requires RandomNumberAsWritten(minLength, choices).Ok?
    ensures RandomNumberAsWritten(minLength, choices).value == RandomNumber(minLength, choices)
  {
  }

  /** A generated number has exactly `minLength` characters, so it passes both length checks. */
  lemma RandomNumberFitsLengths(p: Pattern, choices: ChoiceTree, mm: MismatchMessages)
    requires ValidNumberPattern(p)
    ensures |Literal(RandomNumber(p.minLength, choices))| == p.minLength
    ensures p.minimum.None? ==> Matches(p, NumberValue(RandomNumber(p.minLength, choices)), mm).Success?
  {
  }

  /**
   * Generation does not consult the minimum: with a minimum of 10 and one
   * digit, every generated number is refused by the pattern itself.
   */
  lemma GenerationIgnoresMinimum(choices: ChoiceTree, mm: MismatchMessages)
    ensures !Matches(NumberPattern(None, 1, IntMax, Some(10), false, None), NumberValue(RandomNumber(1, choices)), mm).Success?
  {
    var n := RandomNumber(1, choices);
    assert |NatToString(n)| == 1;
  }

  /**
   * A value for the pattern: its example when default examples are in use
   * (refused with a contract error unless it parses and matches), otherwise
   * a random number of `minLength` digits.
   */
  function Generate(p: Pattern, r: Resolver, choices: ChoiceTree): (o: Outcome<Value>)
    requires p.NumberPattern?
    ensures ValidNumberPattern(p) && o.Ok? ==> o.value.NumberValue? && p.minLength <= |Literal(o.value.number)| <= p.maxLength
    ensures ValidNumberPattern(p) && o.Ok? && (p.minimum.None? || (r.defaultExampleResolver == UseDefaultExample && p.example.Some?)) ==>
      Matches(p, o.value, r.mismatchMessages).Success?
    ensures r.defaultExampleResolver == DoNotUseDefaultExample || p.example.None? ==>
      o == Ok(NumberValue(RandomNumber(p.minLength, choices)))
    ensures r.defaultExampleResolver == UseDefaultExample && p.example.Some? ==>
      (o.Ok? <==> Parse(p.example.value).Ok? && Matches(p, Parse(p.example.value).value, DefaultMismatchMessages).Success?)
  {
    if r.defaultExampleResolver == UseDefaultExample && p.example.Some? then
      AcceptExample(p.example.value, Parse(p.example.value), v => Matches(p, v, DefaultMismatchMessages))
    else
      var n := RandomNumber(p.minLength, choices);
      assert ValidNumberPattern(p) ==> |Literal(n)| == p.minLength by {
        if ValidNumberPattern(p) {
          RandomNumberFitsLengths(p, choices, r.mismatchMessages);
        }
      }
      Ok(NumberValue(n))
  }
  /**
   * Without an example, generation agrees with the source's `toInt()`
   * conversion wherever that conversion succeeds, and returns the number
   * where the source would throw.
   */
  lemma GenerateAgreesWithSourceBelowOverflow(p: Pattern, r: Resolver, choices: ChoiceTree)
    requires p.NumberPattern?
    requires r.defaultExampleResolver == DoNotUseDefaultExample || p.example.None?
    ensures RandomNumberAsWritten(p.minLength, choices).Ok? ==>
      Generate(p, r, choices) == Ok(NumberValue(RandomNumberAsWritten(p.minLength, choices).value))
    ensures RandomNumberAsWritten(p.minLength, choices).Thrown? ==> Generate(p, r, choices).Ok?
  {
    if RandomNumberAsWritten(p.minLength, choices).Ok? {
      RandomNumberAgreesBelowOverflow(p.minLength, choices);
    }
  }


  // ---- new and negative patterns ----

  /** A number pattern yields only itself as a new pattern. */
  function NewBasedOn(p: Pattern): (r: seq<Pattern>)
    requires p.NumberPattern?
    ensures r == [p]
  {
    [p]
  }

  /** The substitutes that a negative test puts in a number's place: null, a boolean and a string. */
  function NegativeBasedOn(p: Pattern): (r: seq<Pattern>)
    requires p.NumberPattern?
    ensures |r| == 3 && forall q :: q in r ==> IsScalarType(q) && !q.NumberPattern?
    ensures r[0].NullPattern? && r[1].BooleanPattern? && r[2].StringPattern?
  {
    [NullPattern, DefaultBooleanPattern, DefaultStringPattern]
  }
}

=== FILE: overlay.dfy ===
/**
 * Reading an overlay document: its "actions" list is folded into an update
 * map (target to the list of updates for it, in action order) and a
 * removal map (target to whether it is removed, the last action winning).
 * Decoding the YAML text is a parameter that yields a value or throws;
 * each map falls back to empty on its own when building it throws.
 */
module Overlays {
  import opened Wrappers
  import opened Strings
  import opened Values
  import opened AssocLists
  import opened Results

  datatype Overlay = Overlay(updateMap: seq<(string, seq<Value>)>, removalMap: seq<(string, bool)>)

  const TargetKey := "target"
  const UpdateKey := "update"
  const RemoveKey := "remove"
  const ActionsKey := "actions"

  /** The message of the cast failure when the document or an action is not a map. */
  const NotAMap := "Overlay content is not a map"

  /**
   * The actions of a decoded document. A document that is not a map makes
   * the cast throw; a missing or non-list "actions" entry is no actions.
   */
  function Actions(decoded: Outcome<Value>): (o: Outcome<seq<Value>>)
    ensures decoded.Thrown? ==> o == Thrown(decoded.error)
    ensures decoded.Ok? && !decoded.value.JSONObjectValue? ==> o.Thrown?
    ensures decoded.Ok? && decoded.value.JSONObjectValue? ==> o.Ok?
    ensures (o.Ok? && !(Get(decoded.value.jsonObject, ActionsKey).Some? &&
                        Get(decoded.value.jsonObject, ActionsKey).value.JSONArrayValue?)) ==> o.value == []
  {
    var root :- decoded;
    if !root.JSONObjectValue? then Thrown(OtherThrowable(NotAMap))
    else
      var actions: Option<Value> := Get(root.jsonObject, ActionsKey);
      if actions.Some? && actions.value.JSONArrayValue? then Ok(actions.value.list) else Ok([])
  }

  /** An action read as a map; anything else makes the cast throw. */
  function ActionFields(action: Value): (o: Outcome<seq<(string, Value)>>)
    ensures o.Ok? <==> action.JSONObjectValue?
    ensures o.Ok? ==> o.value == action.jsonObject
  {
    if action.JSONObjectValue? then Ok(action.jsonObject) else Thrown(OtherThrowable(NotAMap))
  }

  /** The target an action names, when it is a string. */
  function TargetOf(fields: seq<(string, Value)>): (t: Option<string>)
    ensures t.Some? <==> Get(fields, TargetKey).Some? && Get(fields, TargetKey).value.StringValue?
  {
    var target: Option<Value> := Get(fields, TargetKey);
    if target.Some? && target.value.StringValue? then Some(target.value.stringValue) else None
  }

  // ---- the update map ----

  /** The update map after one action: a targeted action with an "update" key adds its update, even a null one. */
  function UpdateStep(acc: seq<(string, seq<Value>)>, fields: seq<(string, Value)>): seq<(string, seq<Value>)> {
    if TargetOf(fields).Some? && HasKey(fields, UpdateKey) then
      Put(acc, TargetOf(fields).value, Get(acc, TargetOf(fields).value).GetOr([]) + [Get(fields, UpdateKey).value])
    else acc
  }

  /** The fold over the actions; the first action that is not a map makes it throw. */
  function UpdatesFrom(actions: seq<Value>, acc: seq<(string, seq<Value>)>): (o: Outcome<seq<(string, seq<Value>)>>)
    ensures o.Ok? <==> forall i :: 0 <= i < |actions| ==> actions[i].JSONObjectValue?
  {
    if |actions| == 0 then Ok(acc)
    else
      var fields := ActionFields(actions[0]);
      assert forall i :: 1 <= i < |actions| ==> actions[i] == actions[1..][i - 1];
      if fields.Thrown? then Thrown(fields.error)
      else UpdatesFrom(actions[1..], UpdateStep(acc, fields.value))
  }

  /** The updates the actions give `target`, in order: the reference the fold is measured against. */
  function UpdatesFor(actions: seq<Value>, target: string): seq<Value> {
    if |actions| == 0 then []
    else
      Contribution(actions[0], target) + UpdatesFor(actions[1..], target)
  }

  /** The update one action gives `target`, if any. */
  function Contribution(a: Value, target: string): seq<Value> {
    if a.JSONObjectValue? && TargetOf(a.jsonObject) == Some(target) && HasKey(a.jsonObject, UpdateKey)
    then [Get(a.jsonObject, UpdateKey).value] else []
  }

  /** One step of the fold appends the action's contribution to `target`, and adds the key only with it. */
  lemma UpdateStepEffect(acc: seq<(string, seq<Value>)>, fields: seq<(string, Value)>, target: string)
    ensures Get(UpdateStep(acc, fields), target).GetOr([]) ==
      Get(acc, target).GetOr([]) + Contribution(JSONObjectValue(fields), target)
    ensures HasKey(UpdateStep(acc, fields), target) <==> HasKey(acc, target) || Contribution(JSONObjectValue(fields), target) != []
  {
    if TargetOf(fields).Some? && HasKey(fields, UpdateKey) {
      PutHasKey(acc, TargetOf(fields).value, Get(acc, TargetOf(fields).value).GetOr([]) + [Get(fields, UpdateKey).value], target);
    }
  }

  /** Every action is a map. */
  predicate AllMaps(actions: seq<Value>) {
    forall i :: 0 <= i < |actions| ==> actions[i].JSONObjectValue?
  }

  /** The fold over actions that are all maps: one step, then the rest. */
  lemma UpdatesFromUnfold(actions: seq<Value>, acc: seq<(string, seq<Value>)>)
    requires |actions| > 0 && AllMaps(actions)
    ensures AllMaps(actions[1..]) && actions[0] == JSONObjectValue(actions[0].jsonObject)
    ensures UpdatesFrom(actions, acc) == UpdatesFrom(actions[1..], UpdateStep(acc, actions[0].jsonObject))
  {
    assert forall i :: 0 <= i < |actions[1..]| ==> actions[1..][i] == actions[i + 1];
  }

  /** The fold appends to every target exactly its updates, in action order. */
  lemma {:induction false} UpdatesFromCollects(actions: seq<Value>, acc: seq<(string, seq<Value>)>, target: string)
    requires AllMaps(actions)
    ensures UpdatesFrom(actions, acc).Ok?
    ensures Get(UpdatesFrom(actions, acc).value, target).GetOr([]) == Get(acc, target).GetOr([]) + UpdatesFor(actions, target)
  {
    if |actions| > 0 {
      var fields := actions[0].jsonObject;
      var next := UpdateStep(acc, fields);
      UpdatesFromUnfold(actions, acc);
      UpdatesFromCollects(actions[1..], next, target);
      UpdateStepEffect(acc, fields, target);
      var before := Get(acc, target).GetOr([]);
      var c := Contribution(actions[0], target);
      var later := UpdatesFor(actions[1..], target);
      assert UpdatesFor(actions, target) == c + later;
      assert Get(next, target).GetOr([]) == before + c;
      assert Get(UpdatesFrom(actions, acc).value, target).GetOr([]) == before + c + later;
      ConcatAssociates(before, c, later);
    } else {
      assert UpdatesFor(actions, target) == [];
      assert Get(acc, target).GetOr([]) + [] == Get(acc, target).GetOr([]);
    }
  }

  lemma ConcatAssociates<T>(a: seq<T>, b: seq<T>, c: seq<T>)
    ensures a + b + c == a + (b + c)
  {
  }

  /** The fold adds a target to the map only when it has updates. */
  lemma {:induction false} UpdatesFromKeys(actions: seq<Value>, acc: seq<(string, seq<Value>)>, target: string)
    requires AllMaps(actions)
    ensures UpdatesFrom(actions, acc).Ok?
    ensures HasKey(UpdatesFrom(actions, acc).value, target) <==> HasKey(acc, target) || UpdatesFor(actions, target) != []
  {
    if |actions| > 0 {
      var fields := actions[0].jsonObject;
      var next := UpdateStep(acc, fields);
      UpdatesFromUnfold(actions, acc);
      UpdatesFromKeys(actions[1..], next, target);
      UpdateStepEffect(acc, fields, target);
    }
  }

  /** The update map, or the empty map when building it throws. */
  function ParseAndReturnUpdateMap(decoded: Outcome<Value>): (m: seq<(string, seq<Value>)>)
    ensures Actions(decoded).Thrown? ==> m == []
  {
    match Actions(decoded)
    case Thrown(_) => []
    case Ok(actions) =>
      match UpdatesFrom(actions, [])
      case Ok(m) => m
      case Thrown(_) => []
  }

  // ---- the removal map ----

  /** A targeted action sets its target's removal flag: its boolean "remove", false when absent or not a boolean. */
  function RemovalStep(acc: seq<(string, bool)>, fields: seq<(string, Value)>): seq<(string, bool)> {
    if TargetOf(fields).Some? then Put(acc, TargetOf(fields).value, RemoveFlag(fields)) else acc
  }

  function RemoveFlag(fields: seq<(string, Value)>): bool {
    var remove: Option<Value> := Get(fields, RemoveKey);
    remove.Some? && remove.value.BooleanValue? && remove.value.booleanValue
  }

  function RemovalsFrom(actions: seq<Value>, acc: seq<(string, bool)>): (o: Outcome<seq<(string, bool)>>)
    ensures o.Ok? <==> forall i :: 0 <= i < |actions| ==> actions[i].JSONObjectValue?
  {
    if |actions| == 0 then Ok(acc)
    else
      var fields := ActionFields(actions[0]);
      assert forall i :: 1 <= i < |actions| ==> actions[i] == actions[1..][i - 1];
      if fields.Thrown? then Thrown(fields.error)
      else RemovalsFrom(actions[1..], RemovalStep(acc, fields.value))
  }

  /** The flag of the last action targeting `target`, if any: the reference for the removal map. */
  function LastRemoval(actions: seq<Value>, target: string): Option<bool> {
    if |actions| == 0 then None
    else
      var a := actions[|actions| - 1];
      if a.JSONObjectValue? && TargetOf(a.jsonObject) == Some(target) then Some(RemoveFlag(a.jsonObject))
      else LastRemoval(actions[..|actions| - 1], target)
  }

  /** Folding one more action: its target now maps to its flag, every other key is unchanged. */
  lemma {:induction false} RemovalsFromSnoc(actions: seq<Value>, a: Value, acc: seq<(string, bool)>)
    requires forall i :: 0 <= i < |actions| ==> actions[i].JSONObjectValue?
    requires a.JSONObjectValue?
    ensures RemovalsFrom(actions + [a], acc) == Ok(RemovalStep(RemovalsFrom(actions, acc).value, a.jsonObject))
    decreases |actions|
  {
    if |actions| > 0 {
      var all := actions + [a];
      assert all[0] == actions[0];
      assert all[1..] == actions[1..] + [a];
      RemovalsFromSnoc(actions[1..], a, RemovalStep(acc, actions[0].jsonObject));
    } else {
      assert actions + [a] == [a];
    }
  }

  /** Every target maps to the flag of the last action that names it; the initial map shows through otherwise. */
  lemma {:induction false} RemovalsFromKeepsLast(actions: seq<Value>, target: string)
    requires forall i :: 0 <= i < |actions| ==> actions[i].JSONObjectValue?
    ensures RemovalsFrom(actions, []).Ok?
    ensures Get(RemovalsFrom(actions, []).value, target) == LastRemoval(actions, target)
    decreases |actions|
  {
    if |actions| > 0 {
      var init := actions[..|actions| - 1];
      var a := actions[|actions| - 1];
      assert actions == init + [a];
      RemovalsFromKeepsLast(init, target);
      RemovalsFromSnoc(init, a, []);
    }
  }

  /** The removal map, or the empty map when building it throws. */
  function ParseAndReturnRemovalMap(decoded: Outcome<Value>): (m: seq<(string, bool)>)
    ensures Actions(decoded).Thrown? ==> m == []
  {
    match Actions(decoded)
    case Thrown(_) => []
    case Ok(actions) =>
      match RemovalsFrom(actions, [])
      case Ok(m) => m
      case Thrown(_) => []
  }

  // ---- the overlay ----

  /** Blank content is the empty overlay; anything else is decoded and both maps are read from it. */
  function Parse(yamlContent: string, decode: string -> Outcome<Value>): (o: Overlay)
    ensures IsBlank(yamlContent) ==> o == Overlay([], [])
    ensures !IsBlank(yamlContent) ==>
      o.updateMap == ParseAndReturnUpdateMap(decode(yamlContent)) && o.removalMap == ParseAndReturnRemovalMap(decode(yamlContent))
  {
    if IsBlank(yamlContent) then Overlay([], [])
    else Overlay(ParseAndReturnUpdateMap(decode(yamlContent)), ParseAndReturnRemovalMap(decode(yamlContent)))
  }

  /**
   * For a document whose actions are all maps, the overlay lists for each
   * target exactly its updates in order, and maps each target to the
   * flag of the last action naming it.
   */
  lemma OverlayOfWellFormedActions(yamlContent: string, decode: string -> Outcome<Value>, target: string)
    requires !IsBlank(yamlContent)
    requires Actions(decode(yamlContent)).Ok?
    requires forall i :: 0 <= i < |Actions(decode(yamlContent)).value| ==> Actions(decode(yamlContent)).value[i].JSONObjectValue?
    ensures Get(Parse(yamlContent, decode).updateMap, target).GetOr([]) == UpdatesFor(Actions(decode(yamlContent)).value, target)
    ensures HasKey(Parse(yamlContent, decode).updateMap, target) <==> UpdatesFor(Actions(decode(yamlContent)).value, target) != []
    ensures Get(Parse(yamlContent, decode).removalMap, target) == LastRemoval(Actions(decode(yamlContent)).value, target)
  {
    var actions := Actions(decode(yamlContent)).value;
    UpdatesFromCollects(actions, [], target);
    UpdatesFromKeys(actions, [], target);
    RemovalsFromKeepsLast(actions, target);
  }

  /**
   * One action that is not a map spoils both maps, each falling back to
   * empty; a document that does not decode or is not a map does the same.
   */
  lemma MalformedActionEmptiesBothMaps(yamlContent: string, decode: string -> Outcome<Value>)
    requires !IsBlank(yamlContent)
    requires Actions(decode(yamlContent)).Thrown? ||
      exists i :: 0 <= i < |Actions(decode(yamlContent)).value| && !Actions(decode(yamlContent)).value[i].JSONObjectValue?
    ensures Parse(yamlContent, decode) == Overlay([], [])
  {
  }

  /** Actions without a string target are ignored by both maps. */
  lemma UntargetedActionIgnored(actions: seq<Value>, a: Value, target: string)
    requires a.JSONObjectValue? && TargetOf(a.jsonObject).None?
    ensures UpdatesFor(actions + [a], target) == UpdatesFor(actions, target)
    ensures LastRemoval(actions + [a], target) == LastRemoval(actions, target)
  {
    UpdatesForSnoc(actions, a, target);
    assert UpdatesFor([a], target) == Contribution(a, target) + UpdatesFor([], target);
    assert (actions + [a])[..|actions|] == actions;
  }

  /** The updates of one more action come after the earlier ones. */
  lemma {:induction false} UpdatesForSnoc(actions: seq<Value>, a: Value, target: string)
    ensures UpdatesFor(actions + [a], target) == UpdatesFor(actions, target) + UpdatesFor([a], target)
    decreases |actions|
  {
    if |actions| > 0 {
      assert (actions + [a])[1..] == actions[1..] + [a];
      UpdatesForSnoc(actions[1..], a, target);
    } else {
      assert actions + [a] == [a];
    }
  }
}

=== FILE: parsing.dfy ===
/**
 * Reading a value of a pattern from text. A union tries its members,
 * those that are not null first, and the first member that reads the
 * text wins; the members' own errors are swallowed.
 */
module Parsing {
  import opened Wrappers
  import opened Strings
  import opened Values
  import opened Results
  import opened Patterns
  import opened Resolvers
  import opened AnyPatterns
  import opened Resolution
  import LeafPatterns
  import NumberPatterns

  function Parse(fuel: nat, p: Pattern, s: string, r: Resolver): (o: Outcome<Value>)
    ensures IsLeaf(p) ==> o == LeafPatterns.Parse(p, s)
    decreases fuel, p, 2
  {
    match p
    case DeferredPattern(token) =>
      if fuel == 0 then Thrown(StackOverflowError)
      else
        var q :- GetPattern(r, token);
        Parse(fuel - 1, q, s, r)
    case JSONObjectPattern(_, _) => Thrown(ContractException("Expected json object, actual was \"" + s + "\"", false))
    case AnyPattern(_, _, _, _, _, _) => ParseAny(fuel, p, s, r)
    case _ => LeafPatterns.Parse(p, s)
  }

  /** The members' own type names, as the failure message lists them. */
  function TypeNames(ps: seq<Pattern>): (o: Outcome<seq<string>>)
    ensures o.Ok? <==> forall i :: 0 <= i < |ps| ==> TypeName(ps[i]).Ok?
    ensures o.Ok? ==> |o.value| == |ps| && forall i :: 0 <= i < |ps| ==> o.value[i] == TypeName(ps[i]).value
  {
    if |ps| == 0 then Ok([])
    else
      var first :- TypeName(ps[0]);
      var rest :- TypeNames(ps[1..]);
      assert forall i :: 1 <= i < |ps| ==> ps[i] == ps[1..][i - 1];
      Ok([first] + rest)
  }

  /** What a union reports when none of its members reads the text. */
  function NoMemberParsed(p: Pattern, s: string): (o: Outcome<Value>)
    requires p.AnyPattern?
    ensures o.Thrown?
    ensures TypeNames(p.members).Ok? ==>
      o == Thrown(ContractException("Failed to parse value \"" + s + "\". It should have matched one of " +
                                    Join(TypeNames(p.members).value, ", ") + ".", false))
  {
    var names :- TypeNames(p.members);
    Thrown(ContractException("Failed to parse value \"" + s + "\". It should have matched one of " + Join(names, ", ") + ".", false))
  }

  /**
   * A union: the members are resolved one hop (an error there is not
   * swallowed), ordered non-null first by their resolved form, and read
   * in that order until one succeeds.
   */
  function ParseAny(fuel: nat, p: Pattern, s: string, r: Resolver): (o: Outcome<Value>)
    requires p.AnyPattern?
    ensures ResolvedHops(fuel, p.members, r).Thrown? ==> o == Thrown(ResolvedHops(fuel, p.members, r).error)
    ensures ResolvedHops(fuel, p.members, r).Ok? ==>
      var order := NullsLastOrder(ResolvedHops(fuel, p.members, r).value);
      match FirstParse(fuel, p, order, s, r, 0)
      case Some(v) => o == Ok(v)
      case None => o == NoMemberParsed(p, s)
    decreases fuel, p, 1
  {
    var resolved :- ResolvedHops(fuel, p.members, r);
    var order := NullsLastOrder(resolved);
    match FirstParse(fuel, p, order, s, r, 0)
    case Some(v) => Ok(v)
    case None => NoMemberParsed(p, s)
  }

  /** The value read by the first member, in `order` from position `k`, that reads the text. */
  function FirstParse(fuel: nat, p: Pattern, order: seq<nat>, s: string, r: Resolver, k: nat): (o: Option<Value>)
    requires p.AnyPattern? && k <= |order|
    requires forall i :: 0 <= i < |order| ==> order[i] < |p.members|
    ensures o.Some? <==> exists i :: k <= i < |order| && Parse(fuel, p.members[order[i]], s, r).Ok?
    ensures o.Some? ==>
      exists i :: k <= i < |order| && Parse(fuel, p.members[order[i]], s, r) == Ok(o.value) &&
        forall j :: k <= j < i ==> Parse(fuel, p.members[order[j]], s, r).Thrown?
    decreases fuel, p, 0, |order| - k
  {
    if k == |order| then None
    else
      match Parse(fuel, p.members[order[k]], s, r)
      case Ok(v) => Some(v)
      case Thrown(_) => FirstParse(fuel, p, order, s, r, k + 1)
  }

  /**
   * A union reads the text iff its members resolve and one of them reads
   * it; the value is that of the first reading member in the order tried.
   */
  lemma ParseAnySucceedsIff(fuel: nat, p: Pattern, s: string, r: Resolver)
    requires p.AnyPattern?
    ensures ParseAny(fuel, p, s, r).Ok? <==>
      ResolvedHops(fuel, p.members, r).Ok? && exists j :: 0 <= j < |p.members| && Parse(fuel, p.members[j], s, r).Ok?
    ensures ParseAny(fuel, p, s, r).Ok? ==>
      exists j :: 0 <= j < |p.members| && Parse(fuel, p.members[j], s, r) == ParseAny(fuel, p, s, r)
  {
    var hops := ResolvedHops(fuel, p.members, r);
    if hops.Ok? {
      var order := NullsLastOrder(hops.value);
      FirstParseOverAllMembers(fuel, p, order, s, r);
      var first := FirstParse(fuel, p, order, s, r, 0);
      if first.Some? {
        assert ParseAny(fuel, p, s, r) == Ok(first.value);
      } else {
        assert ParseAny(fuel, p, s, r) == NoMemberParsed(p, s);
      }
    }
  }

  /** Over an order that lists every member, some member reads the text iff the first reader exists. */
  lemma FirstParseOverAllMembers(fuel: nat, p: Pattern, order: seq<nat>, s: string, r: Resolver)
    requires p.AnyPattern?
    requires forall i :: 0 <= i < |order| ==> order[i] < |p.members|
    requires forall j :: 0 <= j < |p.members| ==> j in order
    ensures FirstParse(fuel, p, order, s, r, 0).Some? <==>
      exists j :: 0 <= j < |p.members| && Parse(fuel, p.members[j], s, r).Ok?
    ensures FirstParse(fuel, p, order, s, r, 0).Some? ==>
      exists j :: 0 <= j < |p.members| && Parse(fuel, p.members[j], s, r) == Ok(FirstParse(fuel, p, order, s, r, 0).value)
  {
    var first := FirstParse(fuel, p, order, s, r, 0);
    if exists j :: 0 <= j < |p.members| && Parse(fuel, p.members[j], s, r).Ok? {
      var j :| 0 <= j < |p.members| && Parse(fuel, p.members[j], s, r).Ok?;
      assert j in order;
      var i :| 0 <= i < |order| && order[i] == j;
      assert Parse(fuel, p.members[order[i]], s, r).Ok?;
    }
    if first.Some? {
      var i :| 0 <= i < |order| && Parse(fuel, p.members[order[i]], s, r) == Ok(first.value);
      assert Parse(fuel, p.members[order[i]], s, r).Ok?;
    }
  }

  /** A nullable string reads every text as a string, "null" included: the string member is tried first. */
  lemma NullableStringReadsText(fuel: nat, s: string, r: Resolver)
    ensures Parse(fuel, Union([NullPattern, DefaultStringPattern]), s, r) == Ok(StringValue(s))
  {
    var p := Union([NullPattern, DefaultStringPattern]);
    ResolvedHopsOfResolved(fuel, p.members, r);
    var order := NullsLastOrder(p.members);
    assert 0 in order && 1 in order;
    assert p.members[0].NullPattern? && !p.members[1].NullPattern?;
    assert order == [1, 0];
    assert Parse(fuel, p.members[1], s, r) == Ok(StringValue(s));
  }

  /** No member of a union of number and boolean reads text that is neither a number nor a boolean. */
  lemma NumberOrBooleanReadsNothing(fuel: nat, s: string, r: Resolver)
    requires ParseInt(Trim(s)).None? && s != "true" && s != "false"
    ensures Parse(fuel, Union([DefaultNumberPattern, DefaultBooleanPattern]), s, r) ==
      NoMemberParsed(Union([DefaultNumberPattern, DefaultBooleanPattern]), s)
  {
    var p := Union([DefaultNumberPattern, DefaultBooleanPattern]);
    forall j | 0 <= j < |p.members|
      ensures Parse(fuel, p.members[j], s, r).Thrown?
    {
      if j == 0 {
        assert LeafPatterns.Parse(DefaultNumberPattern, s) == NumberPatterns.Parse(s);
      } else {
        assert LeafPatterns.Parse(DefaultBooleanPattern, s).Thrown?;
      }
    }
    ResolvedHopsOfResolved(fuel, p.members, r);
    var hops := ResolvedHops(fuel, p.members, r);
    assert hops == Ok(p.members);
    var order := NullsLastOrder(hops.value);
    FirstParseOverAllMembers(fuel, p, order, s, r);
    assert FirstParse(fuel, p, order, s, r, 0).None?;
  }

  /** The members of a union of number and boolean are named "number" and "boolean". */
  lemma NumberOrBooleanNames()
    ensures TypeNames([DefaultNumberPattern, DefaultBooleanPattern]) == Ok(["number", "boolean"])
  {
    var ps := [DefaultNumberPattern, DefaultBooleanPattern];
    assert TypeName(ps[0]) == Ok("number");
    assert TypeName(ps[1]) == Ok("boolean");
    var names := TypeNames(ps);
    assert names.Ok?;
    assert names.value[0] == "number" && names.value[1] == "boolean";
    assert names.value == ["number", "boolean"];
  }

  /** A union of number and boolean refuses other text, naming both members. */
  lemma NumberOrBooleanRefusesText(fuel: nat, s: string, r: Resolver)
    requires ParseInt(Trim(s)).None? && s != "true" && s != "false"
    ensures Parse(fuel, Union([DefaultNumberPattern, DefaultBooleanPattern]), s, r) ==
      Thrown(ContractException("Failed to parse value \"" + s + "\". It should have matched one of " +
                               ("number" + ", " + "boolean") + ".", false))
  {
    NumberOrBooleanReadsNothing(fuel, s, r);
    NumberOrBooleanNames();
    var p := Union([DefaultNumberPattern, DefaultBooleanPattern]);
    assert p.members == [DefaultNumberPattern, DefaultBooleanPattern];
    var names := ["number", "boolean"];
    assert names[1..] == ["boolean"];
    assert Join(names, ", ") == "number" + ", " + "boolean";
  }
}

=== FILE: patterns.dfy ===
/**
 * The pattern family: the schema nodes that match, generate and compare
 * values. NumberPattern and AnyPattern carry their full behaviour in this
 * model; the other variants are the small scalar, literal, object and
 * named-reference patterns the union and header logic needs around them.
 */
module Patterns {
  import opened Wrappers
  import opened Strings
  import opened Values
  import opened Results

  datatype Pattern =
    | NumberPattern(typeAlias: Option<string>, minLength: int, maxLength: int,
                    minimum: Option<int>, exclusiveMinimum: bool, example: Option<string>)
    | StringPattern(typeAlias: Option<string>, example: Option<string>)
    | BooleanPattern(typeAlias: Option<string>, example: Option<string>)
    | NullPattern
    | ExactValuePattern(value: Value, typeAlias: Option<string>, discriminator: bool)
    | AnyPattern(members: seq<Pattern>, key: Option<string>, typeAlias: Option<string>, example: Option<string>,
                 discriminatorProperty: Option<string>, discriminatorValues: seq<string>)
    | JSONObjectPattern(fields: seq<(string, Pattern)>, typeAlias: Option<string>)
    | DeferredPattern(token: string)

  /** The largest 32-bit signed integer, the default `maxLength` of a number pattern. */
  const IntMax: int := 2147483647

  /** A number pattern with the source's defaults: length 1 to IntMax, no minimum, no example. */
  const DefaultNumberPattern: Pattern := NumberPattern(None, 1, IntMax, None, false, None)

  const DefaultStringPattern: Pattern := StringPattern(None, None)

  const DefaultBooleanPattern: Pattern := BooleanPattern(None, None)

  /** A plain union: no key, alias, example or discriminator. */
  function Union(members: seq<Pattern>): (p: Pattern)
    ensures p.AnyPattern? && p.members == members && p.discriminatorProperty.None?
  {
    AnyPattern(members, None, None, None, None, [])
  }

  /** The alias a pattern carries for error breadcrumbs; a named reference's alias is its token. */
  function TypeAlias(p: Pattern): Option<string> {
    match p
    case NumberPattern(a, _, _, _, _, _) => a
    case StringPattern(a, _) => a
    case BooleanPattern(a, _) => a
    case NullPattern => None
    case ExactValuePattern(_, a, _) => a
    case AnyPattern(_, _, a, _, _, _) => a
    case JSONObjectPattern(_, a) => a
    case DeferredPattern(t) => Some(t)
  }

  /** The scalar kinds: number, string, boolean and null. */
  predicate IsScalarType(p: Pattern) {
    p.NumberPattern? || p.StringPattern? || p.BooleanPattern? || p.NullPattern?
  }

  /**
   * The patterns whose behaviour involves no other pattern: the scalar
   * kinds and exact values.
   */
  predicate IsLeaf(p: Pattern) {
    IsScalarType(p) || p.ExactValuePattern?
  }

  /** Two patterns of the same kind (the source compares their classes). */
  predicate SameClass(a: Pattern, b: Pattern) {
    (a.NumberPattern? && b.NumberPattern?) || (a.StringPattern? && b.StringPattern?) ||
    (a.BooleanPattern? && b.BooleanPattern?) || (a.NullPattern? && b.NullPattern?) ||
    (a.ExactValuePattern? && b.ExactValuePattern?) || (a.AnyPattern? && b.AnyPattern?) ||
    (a.JSONObjectPattern? && b.JSONObjectPattern?) || (a.DeferredPattern? && b.DeferredPattern?)
  }

  /** The null marker of a union: the null pattern, or a pattern aliased "(empty)". */
  predicate IsEmptyMember(p: Pattern) {
    TypeAlias(p) == Some("(empty)") || p.NullPattern?
  }

  /** A union of exactly two members, one of them the null marker. */
  predicate IsNullablePattern(members: seq<Pattern>) {
    |members| == 2 && (IsEmptyMember(members[0]) || IsEmptyMember(members[1]))
  }

  /** Some member is the null pattern itself. */
  predicate HasNullMember(members: seq<Pattern>) {
    exists i :: 0 <= i < |members| && members[i].NullPattern?
  }

  function WithoutPatternDelimiters(s: string): string {
    RemoveSurrounding(s, "(", ")")
  }

  /** A name that does not open with a parenthesis keeps its text. */
  lemma UndelimitedName(s: string)
    requires |s| > 0 && s[0] != '('
    ensures WithoutPatternDelimiters(s) == s
  {
    assert s[..1] != "(" by {
      assert s[..1][0] == s[0];
    }
  }

  /** Index of the first member that is not the null marker. */
  function FirstNonEmpty(members: seq<Pattern>): (r: Option<nat>)
    ensures r.Some? ==> r.value < |members| && !IsEmptyMember(members[r.value])
    ensures r.Some? ==> forall j :: 0 <= j < r.value ==> IsEmptyMember(members[j])
    ensures r.None? ==> forall j :: 0 <= j < |members| ==> IsEmptyMember(members[j])
  {
    if |members| == 0 then None
    else if !IsEmptyMember(members[0]) then Some(0)
    else match FirstNonEmpty(members[1..])
      case None => None
      case Some(i) => Some(i + 1)
  }

  /** A member's name inside a union's name: delimiters dropped, a bare null quoted. */
  function UnionMemberName(typeName: string): (r: string)
    ensures WithoutPatternDelimiters(typeName) == "null" ==> r == "\"null\""
    ensures WithoutPatternDelimiters(typeName) != "null" ==> r == WithoutPatternDelimiters(typeName)
  {
    var n := WithoutPatternDelimiters(typeName);
    if n == "null" then "\"null\"" else n
  }

  /**
   * The name of a pattern in messages. A union of two members with a null
   * marker is "(T?)"; taking the concrete member of a union whose two
   * members are both null markers throws, as taking the first element of
   * an empty list does.
   */
  function TypeName(p: Pattern): (o: Outcome<string>)
    ensures !p.AnyPattern? ==> o.Ok?
    ensures o.Thrown? ==> o.error == EmptyList
    ensures p.AnyPattern? && o.Ok? ==> |o.value| >= 2 && o.value[0] == '(' && o.value[|o.value| - 1] == ')'
    decreases p, 1
  {
    match p
    case NumberPattern(_, _, _, _, _, _) => Ok("number")
    case StringPattern(_, _) => Ok("string")
    case BooleanPattern(_, _) => Ok("boolean")
    case NullPattern => Ok("null")
    case ExactValuePattern(v, _, _) => Ok(DisplayableValue(v))
    case JSONObjectPattern(_, _) => Ok("json object")
    case DeferredPattern(t) => Ok(WithoutPatternDelimiters(t))
    case AnyPattern(members, _, _, _, _, _) =>
      if IsNullablePattern(members) then
        match FirstNonEmpty(members)
        case None => Thrown(EmptyList)
        case Some(i) =>
          var concrete :- TypeName(members[i]);
          Ok("(" + WithoutPatternDelimiters(concrete) + "?)")
      else
        var names :- MemberNames(p, 0);
        Ok("(" + Join(names, " or ") + ")")
  }

  /** The union-member names of `p`'s members from index `i` on. */
  function MemberNames(p: Pattern, i: nat): (r: Outcome<seq<string>>)
    requires p.AnyPattern? && i <= |p.members|
    ensures r.Ok? ==> |r.value| == |p.members| - i
    ensures r.Thrown? ==> r.error == EmptyList
    ensures r.Ok? ==> forall j :: i <= j < |p.members| ==>
      TypeName(p.members[j]).Ok? && r.value[j - i] == UnionMemberName(TypeName(p.members[j]).value)
    decreases p, 0, |p.members| - i
  {
    if i == |p.members| then Ok([])
    else
      var first :- TypeName(p.members[i]);
      var rest :- MemberNames(p, i + 1);
      Ok([UnionMemberName(first)] + rest)
  }

  /** A nullable union is named after its concrete member, with a question mark. */
  lemma NullableTypeName(p: Pattern, concreteName: string)
    requires p.AnyPattern? && |p.members| == 2
    requires p.members[0].NullPattern? && !IsEmptyMember(p.members[1])
    requires TypeName(p.members[1]) == Ok(concreteName)
    ensures TypeName(p) == Ok("(" + WithoutPatternDelimiters(concreteName) + "?)")
  {
    assert FirstNonEmpty(p.members) == Some(1);
  }

  /** The same holds with the null member second. */
  lemma NullableTypeNameNullLast(p: Pattern, concreteName: string)
    requires p.AnyPattern? && |p.members| == 2
    requires p.members[1].NullPattern? && !IsEmptyMember(p.members[0])
    requires TypeName(p.members[0]) == Ok(concreteName)
    ensures TypeName(p) == Ok("(" + WithoutPatternDelimiters(concreteName) + "?)")
  {
  }

  /**
   * Any other union is named by its members' names joined with " or ",
   * each without delimiters and a bare null quoted; it is named iff every
   * member is.
   */
  lemma UnionTypeName(p: Pattern)
    requires p.AnyPattern? && !IsNullablePattern(p.members)
    ensures TypeName(p).Ok? <==> forall j :: 0 <= j < |p.members| ==> TypeName(p.members[j]).Ok?
    ensures TypeName(p).Ok? ==>
      TypeName(p).value == "(" + Join(seq(|p.members|, j requires 0 <= j < |p.members| => UnionMemberName(TypeName(p.members[j]).value)), " or ") + ")"
  {
    MemberNamesOk(p, 0);
    var r := MemberNames(p, 0);
    if r.Ok? {
      assert r.value == seq(|p.members|, j requires 0 <= j < |p.members| => UnionMemberName(TypeName(p.members[j]).value));
    }
  }

  lemma {:induction false} MemberNamesOk(p: Pattern, i: nat)
    requires p.AnyPattern? && i <= |p.members|
    ensures MemberNames(p, i).Ok? <==> forall j :: i <= j < |p.members| ==> TypeName(p.members[j]).Ok?
    decreases |p.members| - i
  {
    if i < |p.members| {
      MemberNamesOk(p, i + 1);
    }
  }

  /** A union whose two members are both null markers has no name: naming it throws. */
  lemma AllEmptyNullableTypeNameThrows(p: Pattern)
    requires p.AnyPattern? && p.members == [NullPattern, NullPattern]
    ensures TypeName(p) == Thrown(EmptyList)
  {
    assert FirstNonEmpty(p.members) == None;
  }

  /** `AnyPattern([NullPattern, StringPattern])` is named "(string?)". */
  lemma NullableStringName()
    ensures TypeName(Union([NullPattern, DefaultStringPattern])) == Ok("(string?)")
  {
    UndelimitedName("string");
    assert "(" + "string" + "?)" == "(string?)";
    NullableTypeName(Union([NullPattern, DefaultStringPattern]), "string");
  }

  lemma JoinThree(a: string, b: string, c: string, sep: string)
    ensures Join([a, b, c], sep) == a + sep + b + sep + c
  {
    assert [a, b, c][1..] == [b, c];
    assert [b, c][1..] == [c];
    assert Join([b, c], sep) == b + sep + c;
    assert Join([a, b, c], sep) == a + sep + (b + sep + c);
  }

  /** The members of an enum of "labrador", "retriever" and null. */
  function DogBreeds(): seq<Pattern> {
    [ExactValuePattern(StringValue("labrador"), None, false),
     ExactValuePattern(StringValue("retriever"), None, false),
     NullPattern]
  }

  lemma DogBreedNames()
    ensures MemberNames(Union(DogBreeds()), 0) == Ok(["\"labrador\"", "\"retriever\"", "\"null\""])
  {
    var p := Union(DogBreeds());
    var lab := "\"labrador\"";
    var ret := "\"retriever\"";
    UndelimitedName(lab);
    UndelimitedName(ret);
    UndelimitedName("null");
    assert "\"" + "labrador" + "\"" == lab;
    assert "\"" + "retriever" + "\"" == ret;
    MemberNamesOk(p, 0);
    var names := MemberNames(p, 0).value;
    assert |names| == 3;
    assert names[0] == lab && names[1] == ret && names[2] == "\"null\"";
    assert names == [lab, ret, "\"null\""];
  }

  /** An enum of two strings and null renders each literal quoted and the null quoted too. */
  lemma EnumWithNullName()
    ensures TypeName(Union(DogBreeds())) == Ok("(" + "\"labrador\"" + " or " + "\"retriever\"" + " or " + "\"null\"" + ")")
  {
    DogBreedNameJoined();
    ParenthesizedJoinThree("\"labrador\"", "\"retriever\"", "\"null\"", " or ");
  }

  lemma ParenthesizedJoinThree(a: string, b: string, c: string, sep: string)
    ensures "(" + Join([a, b, c], sep) + ")" == "(" + a + sep + b + sep + c + ")"
  {
    JoinThree(a, b, c, sep);
    assert "(" + (a + sep + b + sep + c) + ")" == "(" + a + sep + b + sep + c + ")";
  }

  lemma DogBreedNameJoined()
    ensures TypeName(Union(DogBreeds())) == Ok("(" + Join(["\"labrador\"", "\"retriever\"", "\"null\""], " or ") + ")")
  {
    var p := Union(DogBreeds());
    DogBreedNames();
    assert !IsNullablePattern(p.members);
  }
}

=== FILE: resolution.dfy ===
/**
 * Named references: resolving a DeferredPattern through the resolver's
 * registry, and flattening a pattern into the set of patterns it stands
 * for. Resolution is bounded by `fuel`; running out of it is the stack
 * overflow that unbounded resolution of a self-referencing name causes.
 */
module Resolution {
  import opened Wrappers
  import opened Results
  import opened Patterns
  import opened Resolvers

  /** A pattern with named references followed until something else is reached. */
  function ResolvedHop(fuel: nat, p: Pattern, r: Resolver): (o: Outcome<Pattern>)
    ensures !p.DeferredPattern? ==> o == Ok(p)
    ensures o.Ok? ==> !o.value.DeferredPattern?
    ensures p.DeferredPattern? && p.token !in r.newPatterns ==> o.Thrown?
    decreases fuel
  {
    if !p.DeferredPattern? then Ok(p)
    else if fuel == 0 then Thrown(StackOverflowError)
    else
      var q :- GetPattern(r, p.token);
      ResolvedHop(fuel - 1, q, r)
  }

  /** A name bound to itself never resolves: it overflows whatever the fuel. */
  lemma {:induction false} SelfReferenceOverflows(fuel: nat, token: string, r: Resolver)
    requires token in r.newPatterns && r.newPatterns[token] == DeferredPattern(token)
    ensures ResolvedHop(fuel, DeferredPattern(token), r) == Thrown(StackOverflowError)
    decreases fuel
  {
    if fuel > 0 {
      SelfReferenceOverflows(fuel - 1, token, r);
    }
  }

  /** Every pattern of a list resolved; the first error thrown stops the rest. */
  function ResolvedHops(fuel: nat, ps: seq<Pattern>, r: Resolver): (o: Outcome<seq<Pattern>>)
    ensures o.Ok? <==> forall i :: 0 <= i < |ps| ==> ResolvedHop(fuel, ps[i], r).Ok?
    ensures o.Ok? ==> |o.value| == |ps| && forall i :: 0 <= i < |ps| ==> o.value[i] == ResolvedHop(fuel, ps[i], r).value
  {
    if |ps| == 0 then Ok([])
    else
      var first :- ResolvedHop(fuel, ps[0], r);
      var rest :- ResolvedHops(fuel, ps[1..], r);
      assert forall i :: 1 <= i < |ps| ==> ps[i] == ps[1..][i - 1];
      Ok([first] + rest)
  }

  /** A list without named references resolves to itself. */
  lemma {:induction false} ResolvedHopsOfResolved(fuel: nat, ps: seq<Pattern>, r: Resolver)
    requires forall i :: 0 <= i < |ps| ==> !ps[i].DeferredPattern?
    ensures ResolvedHops(fuel, ps, r) == Ok(ps)
  {
    var o := ResolvedHops(fuel, ps, r);
    assert o.value == ps;
  }

  /**
   * The patterns a pattern stands for: a union stands for the patterns of
   * all its members, a reference for those of what it names, anything else
   * for itself.
   */
  function PatternSet(fuel: nat, p: Pattern, r: Resolver): (o: Outcome<seq<Pattern>>)
    ensures o.Ok? ==> forall q :: q in o.value ==> !q.AnyPattern? && !q.DeferredPattern?
    ensures !p.AnyPattern? && !p.DeferredPattern? ==> o == Ok([p])
    decreases fuel, p, 1
  {
    match p
    case AnyPattern(_, _, _, _, _, _) => MembersPatternSet(fuel, p, r, 0)
    case DeferredPattern(token) =>
      if fuel == 0 then Thrown(StackOverflowError)
      else
        var q :- GetPattern(r, token);
        PatternSet(fuel - 1, q, r)
    case _ => Ok([p])
  }

  /** The concatenated pattern sets of the members from index `i` on. */
  function MembersPatternSet(fuel: nat, p: Pattern, r: Resolver, i: nat): (o: Outcome<seq<Pattern>>)
    requires p.AnyPattern? && i <= |p.members|
    ensures o.Ok? ==> forall q :: q in o.value ==> !q.AnyPattern? && !q.DeferredPattern?
    ensures o.Ok? <==> forall j :: i <= j < |p.members| ==> PatternSet(fuel, p.members[j], r).Ok?
    ensures o.Ok? ==> forall j, q :: i <= j < |p.members| && q in PatternSet(fuel, p.members[j], r).value ==> q in o.value
    decreases fuel, p, 0, |p.members| - i
  {
    if i == |p.members| then Ok([])
    else
      var first :- PatternSet(fuel, p.members[i], r);
      var rest :- MembersPatternSet(fuel, p, r, i + 1);
      Ok(first + rest)
  }

  /** A union of leaves stands for exactly its members. */
  lemma {:induction false} UnionOfLeavesPatternSet(fuel: nat, p: Pattern, r: Resolver, i: nat)
    requires p.AnyPattern? && i <= |p.members|
    requires forall j :: 0 <= j < |p.members| ==> IsLeaf(p.members[j])
    ensures MembersPatternSet(fuel, p, r, i) == Ok(p.members[i..])
    decreases |p.members| - i
  {
    if i < |p.members| {
      UnionOfLeavesPatternSet(fuel, p, r, i + 1);
      assert PatternSet(fuel, p.members[i], r) == Ok([p.members[i]]);
      assert p.members[i..] == [p.members[i]] + p.members[i + 1..];
    } else {
      assert p.members[i..] == [];
    }
  }
}

=== FILE: resolvers.dfy ===
/**
 * The resolver: the configuration threaded through every match and
 * generation, changed only by copying. It holds the fact store, the
 * named-pattern registry, the key-check policy, the mismatch wording, the
 * cycle-prevention stack and the example and generation strategies.
 */
module Resolvers {
  import opened Wrappers
  import opened Values
  import opened Results
  import opened Patterns

  datatype DefaultExampleResolver = UseDefaultExample | DoNotUseDefaultExample

  datatype GenerationStrategies = NonGenerativeTests | GenerativeTestsEnabled

  datatype UnexpectedKeyCheck = ValidateUnexpectedKeys | IgnoreUnexpectedKeys

  datatype PatternKeyCheck = CheckOnlyPatternKeys | CheckAllKeys

  datatype KeyCheck = KeyCheck(patternKeyCheck: PatternKeyCheck, unexpectedKeyCheck: UnexpectedKeyCheck,
                               overrideUnexpectedKeyCheck: bool)

  const DefaultKeyCheck: KeyCheck := KeyCheck(CheckOnlyPatternKeys, ValidateUnexpectedKeys, true)

  datatype Resolver = Resolver(
    factStore: seq<(string, Value)>,
    mockMode: bool,
    newPatterns: map<string, Pattern>,
    findKeyErrorCheck: KeyCheck,
    mismatchMessages: MismatchMessages,
    cyclePreventionStack: seq<Pattern>,
    defaultExampleResolver: DefaultExampleResolver,
    generation: GenerationStrategies,
    isNegative: bool)

  /** A fresh resolver over some facts and named patterns, every other field at its default. */
  function NewResolver(facts: seq<(string, Value)>, mockMode: bool, patterns: map<string, Pattern>): (r: Resolver)
    ensures r.factStore == facts && r.mockMode == mockMode && r.newPatterns == patterns
    ensures r.cyclePreventionStack == [] && r.mismatchMessages == DefaultMismatchMessages
    ensures r.defaultExampleResolver == DoNotUseDefaultExample && r.generation == NonGenerativeTests
  {
    Resolver(facts, mockMode, patterns, DefaultKeyCheck, DefaultMismatchMessages, [],
             DoNotUseDefaultExample, NonGenerativeTests, false)
  }

  /** Looks a named type up in the registry; an unknown name is a contract error. */
  function GetPattern(r: Resolver, token: string): (p: Outcome<Pattern>)
    ensures token in r.newPatterns <==> p.Ok?
    ensures p.Ok? ==> p.value == r.newPatterns[token]
  {
    if token in r.newPatterns then Ok(r.newPatterns[token])
    else Thrown(ContractException("Type " + token + " does not exist", false))
  }

  /**
   * How a default example is accepted: it must parse, and the parsed
   * value must pass `check`; a value that does not is a contract error
   * quoting the example and the failure.
   */
  function AcceptExample(example: string, parsed: Outcome<Value>, check: Value -> Result): (o: Outcome<Value>)
    ensures o.Ok? <==> parsed.Ok? && check(parsed.value).Success?
    ensures o.Ok? ==> o.value == parsed.value
    ensures parsed.Thrown? ==> o == Thrown(parsed.error)
  {
    var v :- parsed;
    var verdict := check(v);
    if verdict.Success? then Ok(v)
    else Thrown(ContractException("Example \"" + example + "\" does not match:\n" + verdict.message, false))
  }

  /** How often `p` is already on the stack. */
  function Occurrences(stack: seq<Pattern>, p: Pattern): (n: nat)
    ensures n <= |stack|
    ensures n == 0 <==> p !in stack
  {
    if |stack| == 0 then 0
    else (if stack[|stack| - 1] == p then 1 else 0) + Occurrences(stack[..|stack| - 1], p)
  }

  /**
   * Entering `p` under cycle prevention: `p` is pushed onto the stack,
   * unless it is already there twice, which is a pattern cycle.
   */
  function EnterPattern(r: Resolver, p: Pattern): (o: Outcome<Resolver>)
    ensures Occurrences(r.cyclePreventionStack, p) > 1 <==> o.Thrown?
    ensures o.Thrown? ==> o.error.ContractException? && o.error.isCycle
    ensures o.Ok? ==> o.value == r.(cyclePreventionStack := r.cyclePreventionStack + [p])
  {
    if Occurrences(r.cyclePreventionStack, p) > 1 then
      Thrown(ContractException("Invalid pattern cycle", true))
    else Ok(r.(cyclePreventionStack := r.cyclePreventionStack + [p]))
  }

  /**
   * What cycle prevention returns for the work done under it: a cycle
   * error becomes "nothing" (Kotlin's null) when the caller may return null
   * there, and every other outcome passes through.
   */
  function CatchCycle<T>(o: Outcome<T>, returnNullOnCycle: bool): (c: Outcome<Option<T>>)
    ensures o.Ok? ==> c == Ok(Some(o.value))
    ensures o.Thrown? && o.error.ContractException? && o.error.isCycle && returnNullOnCycle ==> c == Ok(None)
    ensures o.Thrown? && !(o.error.ContractException? && o.error.isCycle && returnNullOnCycle) ==> c == Thrown(o.error)
  {
    match o
    case Ok(v) => Ok(Some(v))
    case Thrown(e) => if e.ContractException? && e.isCycle && returnNullOnCycle then Ok(None) else Thrown(e)
  }

  /** Pushing a pattern that is not on the stack always succeeds. */
  lemma EnterFreshPattern(r: Resolver, p: Pattern)
    requires p !in r.cyclePreventionStack
    ensures EnterPattern(r, p).Ok?
  {
  }

  /** The third nested entry of the same pattern is refused as a cycle. */
  lemma {:induction false} ThirdEntryIsCycle(r: Resolver, p: Pattern)
    requires r.cyclePreventionStack == [p, p]
    ensures EnterPattern(r, p) == Thrown(ContractException("Invalid pattern cycle", true))
  {
    assert [p, p][..1] == [p];
    assert [p][..0] == [];
    assert Occurrences([p, p], p) == 2;
  }
}

=== FILE: results.dfy ===
/**
 * Match results, failure reasons, mismatch-message wording and the thrown
 * errors of the engine.
 *
 * A failure is a tree: a message, the failures it was built from, the
 * breadcrumb (field-path segment) it sits under, an optional reason tag
 * and the scenario it belongs to.
 */
module Results {
  import opened Wrappers
  import opened Strings
  import opened Values

  datatype FailureReason =
    | ContentTypeMismatch
    | SOAPActionMismatch
    | DiscriminatorMismatch
    | RequestMismatchButStatusAlsoWrong
    | FailedButDiscriminatorMatched
    | FailedButObjectTypeMatched

  /** Reasons that say an object was recognised even though it did not match. */
  predicate ObjectMatchOccurred(reason: FailureReason) {
    reason == FailedButDiscriminatorMatched || reason == FailedButObjectTypeMatched
  }

  datatype Result =
    | Success
    | Failure(message: string, causes: seq<Result>, breadCrumb: string, reason: Option<FailureReason>, scenario: Option<string>)

  function Fail(message: string): (r: Result)
    ensures r.Failure? && r.message == message && r.causes == [] && r.reason.None?
  {
    Failure(message, [], "", None, None)
  }

  function FailAt(message: string, breadCrumb: string, reason: FailureReason): (r: Result)
    ensures r.Failure? && r.breadCrumb == breadCrumb && r.reason == Some(reason)
  {
    Failure(message, [], breadCrumb, Some(reason), None)
  }

  /** A failure wrapped under one more breadcrumb segment; success stays success. */
  function WithBreadCrumb(r: Result, crumb: string): (w: Result)
    ensures r.Success? <==> w.Success?
    ensures r.Failure? ==> w.breadCrumb == crumb && w.causes == [r] && w.reason.None?
  {
    if r.Success? then Success else Failure("", [r], crumb, None, None)
  }

  /** One failure built from several. */
  function FromFailures(failures: seq<Result>): (r: Result)
    ensures r.Failure? && r.causes == failures && r.reason.None?
  {
    Failure("", failures, "", None, None)
  }

  /** The failures among `results`, in order. */
  function Failures(results: seq<Result>): (r: seq<Result>)
    ensures |r| <= |results|
    ensures forall x :: x in r <==> x in results && x.Failure?
    ensures |r| == 0 <==> forall i :: 0 <= i < |results| ==> results[i].Success?
  {
    if |results| == 0 then []
    else
      assert forall x :: x in results <==> x == results[0] || x in results[1..];
      (if results[0].Failure? then [results[0]] else []) + Failures(results[1..])
  }

  /** Success when there is no failure, otherwise one failure holding them all. */
  function ResultFromFailures(failures: seq<Result>): (r: Result)
    ensures r.Success? <==> |failures| == 0
    ensures r.Failure? ==> r.causes == failures
  {
    if |failures| == 0 then Success else FromFailures(failures)
  }

  /** Success iff every result is a success; otherwise the failures, combined. */
  function FromResults(results: seq<Result>): (r: Result)
    ensures r.Success? <==> forall i :: 0 <= i < |results| ==> results[i].Success?
    ensures r.Failure? ==> r.causes == Failures(results)
  {
    ResultFromFailures(Failures(results))
  }

  /** The reason tag is on this failure or on any failure it was built from. */
  predicate HasReason(r: Result, reason: FailureReason) {
    r.Failure? && (r.reason == Some(reason) || exists c :: c in r.causes && HasReason(c, reason))
  }

  /** The reason tag of this failure itself satisfies `pred`. */
  predicate ReasonIs(r: Result, pred: FailureReason -> bool) {
    r.Failure? && r.reason.Some? && pred(r.reason.value)
  }

  /** This failure and everything below it without reason tags. */
  function RemoveReasons(r: Result): (w: Result)
    ensures r.Success? <==> w.Success?
    ensures r.Failure? ==> w.reason.None? && |w.causes| == |r.causes|
    ensures forall reason :: !HasReason(w, reason)
  {
    if r.Success? then Success
    else
      var causes := seq(|r.causes|, i requires 0 <= i < |r.causes| => RemoveReasons(r.causes[i]));
      var w := Failure(r.message, causes, r.breadCrumb, None, r.scenario);
      assert forall reason :: !HasReason(w, reason) by {
        forall reason ensures !HasReason(w, reason) {
          forall c | c in causes ensures !HasReason(c, reason) {
            var i :| 0 <= i < |causes| && causes[i] == c;
          }
        }
      }
      w
  }

  /** Keeps this failure's own reason and strips the reasons of everything below it. */
  function RemoveReasonsFromCauses(r: Result): (w: Result)
    requires r.Failure?
    ensures w.Failure? && w.reason == r.reason && w.message == r.message && w.breadCrumb == r.breadCrumb
    ensures |w.causes| == |r.causes|
    ensures forall i :: 0 <= i < |w.causes| ==> w.causes[i] == RemoveReasons(r.causes[i])
    ensures forall reason :: HasReason(w, reason) <==> r.reason == Some(reason)
  {
    var causes := seq(|r.causes|, i requires 0 <= i < |r.causes| => RemoveReasons(r.causes[i]));
    var w := Failure(r.message, causes, r.breadCrumb, r.reason, r.scenario);
    assert forall reason :: HasReason(w, reason) <==> r.reason == Some(reason) by {
      forall reason ensures HasReason(w, reason) <==> r.reason == Some(reason) {
        forall c | c in causes ensures !HasReason(c, reason) {
          var i :| 0 <= i < |causes| && causes[i] == c;
        }
      }
    }
    w
  }

  /** The same failure with its own reason tag replaced. */
  function WithReason(r: Result, reason: FailureReason): (w: Result)
    requires r.Failure?
    ensures w.Failure? && w.reason == Some(reason) && w.causes == r.causes && w.message == r.message
    ensures HasReason(w, reason)
  {
    r.(reason := Some(reason))
  }

  /** Ties a failure to the scenario it came from; success is unchanged. */
  function UpdateScenario(r: Result, scenarioName: string): (w: Result)
    ensures r.Success? ==> w == r
    ensures r.Failure? ==> w == r.(scenario := Some(scenarioName))
  {
    if r.Failure? then r.(scenario := Some(scenarioName)) else r
  }

  // ---- mismatch wording ----

  /** The wording strategies for mismatch messages, one per comparison context. */
  datatype MismatchMessages =
    | DefaultMismatchMessages
    | ContractAndStubMismatchMessages
    | ContractAndRowValueMismatch
    | ContractAndResponseMismatch
    | NewAndOldContractRequestMismatches
    | NewAndOldContractResponseMismatches

  function MismatchMessage(mm: MismatchMessages, expected: string, actual: string): string {
    match mm
    case DefaultMismatchMessages => "Expected " + expected + ", actual was " + actual
    case ContractAndStubMismatchMessages => "Contract expected " + expected + " but stub contained " + actual
    case ContractAndRowValueMismatch => "Contract expected " + expected + " but found value " + actual
    case ContractAndResponseMismatch => "Contract expected " + expected + " but response contained " + actual
    case NewAndOldContractRequestMismatches => "This is " + expected + " in the new contract, " + actual + " in the old contract"
    case NewAndOldContractResponseMismatches => "This is " + actual + " in the new contract response but " + expected + " in the old contract"
  }

  function ExpectedKeyWasMissing(mm: MismatchMessages, keyLabel: string, keyName: string): string {
    match mm
    case DefaultMismatchMessages => "Expected " + Lower(keyLabel) + " named " + keyName + " was missing"
    case ContractAndStubMismatchMessages => CapitalizeFirst(Lower(keyLabel)) + " named " + keyName + " in the contract was not found in the stub"
    case ContractAndRowValueMismatch => CapitalizeFirst(Lower(keyLabel)) + " named " + keyName + " in the contract was not found in the row value"
    case ContractAndResponseMismatch => CapitalizeFirst(Lower(keyLabel)) + " named " + keyName + " in the contract was not found in the response"
    case NewAndOldContractRequestMismatches => "New contract expects " + Lower(keyLabel) + " named \"" + keyName + "\" in the request but it is missing from the old contract"
    case NewAndOldContractResponseMismatches => "The old contract expects " + Lower(keyLabel) + " named \"" + keyName + "\" but it is missing in the new contract"
  }

  /** A failure whose message compares an expected description with an actual one. */
  function MismatchResult(mm: MismatchMessages, expected: string, actual: string): (r: Result)
    ensures r.Failure? && r.message == MismatchMessage(mm, expected, actual) && r.reason.None?
  {
    Fail(MismatchMessage(mm, expected, actual))
  }

  /**
   * How the old/new request comparison describes an actual value: a null
   * value as "nullable", an absent one as "null", anything else by its
   * type word.
   */
  function NullOrValue(actual: Option<Value>): (r: string)
    ensures actual == Some(NullValue) <==> r == "nullable"
    ensures actual.None? ==> r == "null"
    ensures actual.Some? && !actual.value.NullValue? ==> r == DisplayableType(actual.value) && r != "null"
  {
    match actual
    case None => "null"
    case Some(NullValue) => "nullable"
    case Some(v) => DisplayableType(v)
  }

  /** A value of the wrong kind or shape; only the old/new request wording describes it by type. */
  function ValueMismatchFailure(mm: MismatchMessages, expected: string, actual: Value): (r: Result)
    ensures r.Failure? && r.reason.None?
    ensures mm == NewAndOldContractRequestMismatches ==> r.message == MismatchMessage(mm, expected, NullOrValue(Some(actual)))
    ensures mm != NewAndOldContractRequestMismatches ==> r.message == MismatchMessage(mm, expected, ValueError(actual))
  {
    if mm == NewAndOldContractRequestMismatches then MismatchResult(mm, expected, NullOrValue(Some(actual)))
    else MismatchResult(mm, expected, ValueError(actual))
  }

  // ---- thrown errors ----

  /** The errors the engine throws instead of returning a result. */
  datatype Exception =
    | ContractException(errorMessage: string, isCycle: bool)
    | EmptyContract
    | StackOverflowError
    | NoSuchElementException(message: string)
    | OtherThrowable(localizedMessage: string)

  /** Either a value, or the error that was thrown while computing it. */
  datatype Outcome<+T> = Ok(value: T) | Thrown(error: Exception) {
    predicate IsFailure() {
      Thrown?
    }

    function PropagateFailure<U>(): Outcome<U>
      requires Thrown?
    {
      Thrown(error)
    }

    function Extract(): T
      requires Ok?
    {
      value
    }
  }

  /**
   * Outcomes computed one after another, as a Kotlin `map` computes them:
   * the values in order when every outcome has one, otherwise the error of
   * the first that threw.
   */
  function AllOk<T>(os: seq<Outcome<T>>): (r: Outcome<seq<T>>)
    ensures r.Ok? <==> forall i :: 0 <= i < |os| ==> os[i].Ok?
    ensures r.Ok? ==> |r.value| == |os| && forall i :: 0 <= i < |os| ==> r.value[i] == os[i].value
    ensures r.Thrown? ==> exists i :: 0 <= i < |os| && os[i] == Thrown(r.error) && forall k :: 0 <= k < i ==> os[k].Ok?
  {
    if |os| == 0 then Ok([])
    else
      match os[0]
      case Thrown(e) => Thrown(e)
      case Ok(v) =>
        match AllOk(os[1..])
        case Thrown(e) =>
          var i :| 0 <= i < |os[1..]| && os[1..][i] == Thrown(e) && forall k :: 0 <= k < i ==> os[1..][k].Ok?;
          assert os[i + 1] == Thrown(e);
          assert forall k :: 0 <= k < i + 1 ==> os[k].Ok? by {
            forall k | 0 <= k < i + 1 ensures os[k].Ok? {
              if k > 0 { assert os[k] == os[1..][k - 1]; }
            }
          }
          Thrown(e)
        case Ok(rest) =>
          assert forall i :: 1 <= i < |os| ==> os[i] == os[1..][i - 1];
          Ok([v] + rest)
  }

  /** The failure a contract error converts to. */
  function ContractFailure(message: string): (r: Result)
    ensures r.Failure? && r.message == message
  {
    Fail(message)
  }

  /** What `random()` throws on an empty collection. */
  const EmptyCollection: Exception := NoSuchElementException("Collection is empty.")

  /** What `first()` throws on an empty list. */
  const EmptyList: Exception := NoSuchElementException("List is empty.")

  /** What `getValue` throws for a key the map does not hold. */
  function MissingKey(key: string): Exception {
    NoSuchElementException("Key " + key + " is missing in the map.")
  }

  /**
   * The message of a thrown error as the engine reports it, interpolated
   * into a template: a stack overflow carries no message, which renders as
   * "null".
   */
  function ExceptionMessage(e: Exception): (m: string)
    ensures e.StackOverflowError? ==> m == "null"
    ensures e.NoSuchElementException? ==> m == e.message
    ensures e.ContractException? ==> m == e.errorMessage
  {
    match e
    case ContractException(m, _) => m
    case EmptyContract => "The contract had no operations"
    case StackOverflowError => "null"
    case NoSuchElementException(m) => m
    case OtherThrowable(m) => m
  }
}

=== FILE: scenarios.dfy ===
/**
 * A scenario: one operation of a contract with the facts (server state)
 * it expects, its example rows, and whether it is a negative scenario
 * that expects the server to refuse the request with a 4xx status
 * (section 15.5 of RFC 9110). Matching the request and response bodies
 * themselves lies outside this module: their results come in as
 * parameters, and this module decides how the scenario combines them.
 */
module Scenarios {
  import opened Wrappers
  import opened Strings
  import opened Values
  import opened Results
  import opened Patterns
  import opened Resolvers
  import opened Choices
  import AssocLists
  import Parsing
  import Matching
  import Generation
  import Headers

  datatype HttpRequestPattern = HttpRequestPattern(httpMethod: string, path: string, headersPattern: Headers.HeadersPattern)

  datatype HttpResponsePattern = HttpResponsePattern(status: int, headersPattern: Headers.HeadersPattern)

  datatype HttpRequest = HttpRequest(httpMethod: string, path: string, headers: seq<(string, string)>, body: Value)

  datatype HttpResponse = HttpResponse(status: int, headers: seq<(string, string)>, body: Value)

  /** One example row: column values by column name, and the variables the run supplies. */
  datatype Row = Row(fields: seq<(string, string)>, variables: seq<(string, string)>)

  datatype Examples = Examples(rows: seq<Row>)

  datatype Scenario = Scenario(
    name: string,
    httpRequestPattern: HttpRequestPattern,
    httpResponsePattern: HttpResponsePattern,
    expectedFacts: seq<(string, Value)>,
    examples: seq<Examples>,
    patterns: map<string, Pattern>,
    fixtures: seq<(string, Value)>,
    ignoreFailure: bool,
    bindings: seq<(string, string)>,
    isNegative: bool)

  /** A named type written in parentheses, such as "(number)" or "(Person)". */
  predicate IsPatternToken(s: string) {
    StartsWith(s, "(") && EndsWith(s, ")")
  }

  predicate IsTokenValue(v: Value) {
    v.StringValue? && IsPatternToken(v.stringValue)
  }

  /** The names of a fact map. */
  function KeySet(m: seq<(string, Value)>): (r: set<string>)
    ensures forall k :: k in r <==> AssocLists.HasKey(m, k)
  {
    set i | 0 <= i < |m| :: m[i].0
  }

  /** The resolver a scenario matches with: the given facts, the scenario's named types, and `mm` for messages. */
  function ScenarioResolver(s: Scenario, facts: seq<(string, Value)>, mm: MismatchMessages): (r: Resolver)
    ensures r.newPatterns == s.patterns && r.factStore == facts && r.mismatchMessages == mm && !r.mockMode
  {
    NewResolver(facts, false, s.patterns).(mismatchMessages := mm)
  }

  // ---- server state ----

  /** Whether `actual`, read by `p` from its literal text, matches `p`. */
  function ReadsAndMatches(fuel: nat, p: Pattern, actual: Value, r: Resolver): (o: Outcome<bool>)
    ensures o == Ok(true) <==>
      Parsing.Parse(fuel, p, ToStringLiteral(actual), r).Ok? &&
      Matching.Matches(fuel, p, Parsing.Parse(fuel, p, ToStringLiteral(actual), r).value, r) == Ok(Success)
    ensures o.Thrown? <==>
      Parsing.Parse(fuel, p, ToStringLiteral(actual), r).Thrown? ||
      Matching.Matches(fuel, p, Parsing.Parse(fuel, p, ToStringLiteral(actual), r).value, r).Thrown?
  {
    var v :- Parsing.Parse(fuel, p, ToStringLiteral(actual), r);
    var res :- Matching.Matches(fuel, p, v, r);
    Ok(res.Success?)
  }

  /**
   * One expected fact against the actual one. True on either side is a
   * wildcard; a type token must read and match the actual value, an
   * exception (but not a stack overflow) counting as no match; otherwise
   * the literals must be equal. An unknown type name is an error.
   */
  function FactMatches(fuel: nat, expected: Value, actual: Value, r: Resolver): (o: Outcome<bool>)
    ensures actual == True || expected == True ==> o == Ok(true)
    ensures actual != True && expected != True && !IsTokenValue(expected) ==>
      o == Ok(ToStringLiteral(expected) == ToStringLiteral(actual))
    ensures actual != True && expected != True && IsTokenValue(expected) ==>
      (o.Thrown? <==>
        (GetPattern(r, expected.stringValue).Thrown? ||
         ReadsAndMatches(fuel, GetPattern(r, expected.stringValue).value, actual, r) == Thrown(StackOverflowError)))
  {
    if actual == True || expected == True then Ok(true)
    else if IsTokenValue(expected) then
      var p :- GetPattern(r, expected.stringValue);
      match ReadsAndMatches(fuel, p, actual, r)
      case Ok(b) => Ok(b)
      case Thrown(StackOverflowError) => Thrown(StackOverflowError)
      case Thrown(_) => Ok(false)
    else Ok(ToStringLiteral(expected) == ToStringLiteral(actual))
  }

  /** Every expected fact from index `i` on matches its actual counterpart; the first mismatch stops the walk. */
  function AllFactsMatch(fuel: nat, expected: seq<(string, Value)>, actual: seq<(string, Value)>, r: Resolver, i: nat): (o: Outcome<bool>)
    requires i <= |expected|
    requires forall j :: 0 <= j < |expected| ==> AssocLists.HasKey(actual, expected[j].0)
    ensures o == Ok(true) <==>
      forall j :: i <= j < |expected| ==> FactMatches(fuel, expected[j].1, AssocLists.Get(actual, expected[j].0).value, r) == Ok(true)
    decreases |expected| - i
  {
    if i == |expected| then Ok(true)
    else
      var b :- FactMatches(fuel, expected[i].1, AssocLists.Get(actual, expected[i].0).value, r);
      if !b then Ok(false) else AllFactsMatch(fuel, expected, actual, r, i + 1)
  }

  /**
   * The server state a scenario expects against the actual one: the same
   * fact names, and every fact matching.
   */
  function ServerStateMatches(fuel: nat, expected: seq<(string, Value)>, actual: seq<(string, Value)>, r: Resolver): (o: Outcome<bool>)
    ensures KeySet(expected) != KeySet(actual) ==> o == Ok(false)
    ensures o == Ok(true) <==>
      (KeySet(expected) == KeySet(actual) &&
       forall j :: 0 <= j < |expected| ==> FactMatches(fuel, expected[j].1, AssocLists.Get(actual, expected[j].0).value, r) == Ok(true))
  {
    if KeySet(expected) != KeySet(actual) then Ok(false)
    else
      assert forall j :: 0 <= j < |expected| ==> AssocLists.HasKey(actual, expected[j].0) by {
        forall j | 0 <= j < |expected| ensures AssocLists.HasKey(actual, expected[j].0) {
          assert expected[j].0 in KeySet(expected);
        }
      }
      AllFactsMatch(fuel, expected, actual, r, 0)
  }

  /** An actual state whose every fact is True matches any expected state with the same names. */
  lemma {:induction false} TrueMatchesAnyFact(fuel: nat, expected: seq<(string, Value)>, actual: seq<(string, Value)>, r: Resolver)
    requires KeySet(expected) == KeySet(actual)
    requires forall j :: 0 <= j < |actual| ==> actual[j].1 == True
    ensures ServerStateMatches(fuel, expected, actual, r) == Ok(true)
  {
    forall j | 0 <= j < |expected|
      ensures FactMatches(fuel, expected[j].1, AssocLists.Get(actual, expected[j].0).value, r) == Ok(true)
    {
      assert expected[j].0 in KeySet(actual);
      var v := AssocLists.Get(actual, expected[j].0).value;
      var i :| 0 <= i < |actual| && actual[i] == (expected[j].0, v);
    }
  }

  /** A state with an extra or a missing fact never matches, whatever the values. */
  lemma DifferentFactNamesNeverMatch(fuel: nat, expected: seq<(string, Value)>, actual: seq<(string, Value)>, r: Resolver, k: string)
    requires AssocLists.HasKey(actual, k) && !AssocLists.HasKey(expected, k)
    ensures ServerStateMatches(fuel, expected, actual, r) == Ok(false)
  {
    assert k in KeySet(actual);
  }

  // ---- matching ----

  /**
   * A request against the scenario: when the facts do not match, the
   * "Facts mismatch" failure at FACTS, whatever the request; otherwise
   * the request's own result (`requestResult`, from matching the request
   * pattern), tied to this scenario.
   */
  function MatchesRequest(fuel: nat, s: Scenario, serverState: seq<(string, Value)>, mm: MismatchMessages,
                          requestResult: Outcome<Result>): (o: Outcome<Result>)
    ensures ServerStateMatches(fuel, s.expectedFacts, serverState, ScenarioResolver(s, serverState, mm)) == Ok(false) ==>
      o == Ok(Failure("Facts mismatch", [], "FACTS", None, Some(s.name)))
    ensures ServerStateMatches(fuel, s.expectedFacts, serverState, ScenarioResolver(s, serverState, mm)) == Ok(true) ==>
      (o.Ok? <==> requestResult.Ok?)
    ensures ServerStateMatches(fuel, s.expectedFacts, serverState, ScenarioResolver(s, serverState, mm)) == Ok(true) &&
            requestResult.Ok? ==>
              (o.value.Success? <==> requestResult.value.Success?) && (o.value.Failure? ==> o.value.scenario == Some(s.name))
  {
    var r := ScenarioResolver(s, serverState, mm);
    var factsMatch :- ServerStateMatches(fuel, s.expectedFacts, serverState, r);
    if !factsMatch then Ok(Failure("Facts mismatch", [], "FACTS", None, Some(s.name)))
    else
      var result :- requestResult;
      Ok(UpdateScenario(result, s.name))
  }

  /** When the facts disagree the request is never looked at: any two request results give the same answer. */
  lemma FactsMismatchSkipsRequest(fuel: nat, s: Scenario, serverState: seq<(string, Value)>, mm: MismatchMessages,
                                  one: Outcome<Result>, another: Outcome<Result>)
    requires ServerStateMatches(fuel, s.expectedFacts, serverState, ScenarioResolver(s, serverState, mm)) == Ok(false)
    ensures MatchesRequest(fuel, s, serverState, mm, one) == MatchesRequest(fuel, s, serverState, mm, another)
    ensures MatchesRequest(fuel, s, serverState, mm, one).value.breadCrumb == "FACTS"
  {
  }

  predicate Is4xx(status: int) {
    400 <= status <= 499
  }

  /**
   * A response against the scenario. A negative scenario accepts exactly
   * the 4xx statuses and looks at nothing else; otherwise the response's
   * own result counts, and an exception while matching becomes a failure.
   */
  function MatchesResponse(s: Scenario, response: HttpResponse, responseResult: Outcome<Result>): (r: Result)
    ensures s.isNegative ==> (r.Success? <==> Is4xx(response.status))
    ensures s.isNegative && r.Failure? ==>
      r.breadCrumb == "RESPONSE.STATUS" && r.scenario == Some(s.name) &&
      r.message == "Expected 4xx status, but received " + IntToString(response.status)
    ensures !s.isNegative && responseResult.Ok? ==> (r.Success? <==> responseResult.value.Success?)
    ensures !s.isNegative && responseResult.Ok? && r.Failure? ==> r.scenario == Some(s.name)
    ensures !s.isNegative && responseResult.Thrown? ==>
      r == Fail("Exception: " + ExceptionMessage(responseResult.error))
  {
    if s.isNegative then
      if Is4xx(response.status) then Success
      else Failure("Expected 4xx status, but received " + IntToString(response.status), [], "RESPONSE.STATUS", None, Some(s.name))
    else
      match responseResult
      case Ok(result) => UpdateScenario(result, s.name)
      case Thrown(e) => Fail("Exception: " + ExceptionMessage(e))
  }

  /** A negative scenario ignores what the response says: only its status decides. */
  lemma NegativeScenarioIgnoresBody(s: Scenario, response: HttpResponse, one: Outcome<Result>, another: Outcome<Result>)
    requires s.isNegative
    ensures MatchesResponse(s, response, one) == MatchesResponse(s, response, another)
  {
  }

  // ---- combining facts ----

  function CouldNotMatchStateMessage(key: string, expected: Value, actual: Value): string {
    "Couldn't match state values. Expected " + ToStringLiteral(expected) + " in key " + key +
    ", actual value is " + ToStringLiteral(actual)
  }

  /**
   * Whether fact `key` is kept when the expected and actual facts are
   * combined. Both values are read first, so a key missing from either
   * side throws. Equal values are kept; an expected type token keeps the
   * actual value when it reads and matches, any exception there being
   * re-thrown as a contract error; any other difference drops the key.
   */
  function KeepsFact(fuel: nat, key: string, expected: seq<(string, Value)>, actual: seq<(string, Value)>, r: Resolver): (o: Outcome<bool>)
    ensures !AssocLists.HasKey(expected, key) || !AssocLists.HasKey(actual, key) ==> o == Thrown(MissingKey(key))
    ensures o.Ok? ==> AssocLists.HasKey(expected, key) && AssocLists.HasKey(actual, key)
    ensures AssocLists.HasKey(expected, key) && AssocLists.Get(expected, key) == AssocLists.Get(actual, key) ==> o == Ok(true)
    ensures AssocLists.HasKey(expected, key) && AssocLists.HasKey(actual, key) &&
            AssocLists.Get(expected, key) != AssocLists.Get(actual, key) && !IsTokenValue(AssocLists.Get(expected, key).value) ==>
              o == Ok(false)
  {
    if !AssocLists.HasKey(expected, key) || !AssocLists.HasKey(actual, key) then Thrown(MissingKey(key))
    else
      var e := AssocLists.Get(expected, key).value;
      var a := AssocLists.Get(actual, key).value;
      if e == a then Ok(true)
      else if IsTokenValue(e) then
        var p :- GetPattern(r, e.stringValue);
        match ReadsAndMatches(fuel, p, a, r)
        case Ok(b) => Ok(b)
        case Thrown(_) => Thrown(ContractException(CouldNotMatchStateMessage(key, e, a), false))
      else Ok(false)
  }

  /** The kept facts among `keys[i..]`, each with its actual value; the first key that throws stops the walk. */
  function CombineFrom(fuel: nat, keys: seq<string>, i: nat, expected: seq<(string, Value)>, actual: seq<(string, Value)>,
                       r: Resolver): (o: Outcome<map<string, Value>>)
    requires i <= |keys|
    ensures o.Ok? ==> forall j :: i <= j < |keys| ==> KeepsFact(fuel, keys[j], expected, actual, r).Ok?
    ensures (exists j :: i <= j < |keys| && KeepsFact(fuel, keys[j], expected, actual, r).Thrown?) ==> o.Thrown?
    ensures o.Ok? ==> forall k :: k in o.value <==> k in keys[i..] && KeepsFact(fuel, k, expected, actual, r) == Ok(true)
    ensures o.Ok? ==> forall k :: k in o.value ==> AssocLists.HasKey(actual, k) && o.value[k] == AssocLists.Get(actual, k).value
    decreases |keys| - i
  {
    if i == |keys| then Ok(map[])
    else
      var keep :- KeepsFact(fuel, keys[i], expected, actual, r);
      var rest :- CombineFrom(fuel, keys, i + 1, expected, actual, r);
      SuffixMembers(keys, i);
      if keep then Ok(rest[keys[i] := AssocLists.Get(actual, keys[i]).value]) else Ok(rest)
  }

  /** The keys from `i` on are key `i` and those after it. */
  lemma SuffixMembers(keys: seq<string>, i: nat)
    requires i < |keys|
    ensures forall k :: k in keys[i..] <==> k == keys[i] || k in keys[i + 1..]
  {
    assert keys[i..] == [keys[i]] + keys[i + 1..];
  }

  /**
   * The facts a response is generated with: the expected and actual facts
   * combined key by key. Any key present on one side only throws, so only
   * states with the same fact names combine.
   */
  function CombineFacts(fuel: nat, expected: seq<(string, Value)>, actual: seq<(string, Value)>, r: Resolver): (o: Outcome<map<string, Value>>)
    ensures KeySet(expected) != KeySet(actual) ==> o.Thrown?
    ensures o.Ok? ==> KeySet(expected) == KeySet(actual)
    ensures o.Ok? ==> forall k :: k in o.value <==> AssocLists.HasKey(expected, k) && KeepsFact(fuel, k, expected, actual, r) == Ok(true)
    ensures o.Ok? ==> forall k :: k in o.value ==> AssocLists.HasKey(actual, k) && o.value[k] == AssocLists.Get(actual, k).value
  {
    var keys := AssocLists.Keys(expected) + AssocLists.Keys(actual);
    var o := CombineFrom(fuel, keys, 0, expected, actual, r);
    assert keys[0..] == keys;
    assert forall k :: k in keys <==> AssocLists.HasKey(expected, k) || AssocLists.HasKey(actual, k) by {
      forall k ensures k in keys <==> AssocLists.HasKey(expected, k) || AssocLists.HasKey(actual, k) {
        KeysHaveKey(expected, k);
        KeysHaveKey(actual, k);
      }
    }
    assert KeySet(expected) != KeySet(actual) ==> o.Thrown? by {
      if KeySet(expected) != KeySet(actual) {
        var k :| (k in KeySet(expected)) != (k in KeySet(actual));
        var j :| 0 <= j < |keys| && keys[j] == k;
        assert KeepsFact(fuel, keys[j], expected, actual, r).Thrown?;
      }
    }
    o
  }

  lemma KeysHaveKey(m: seq<(string, Value)>, k: string)
    ensures k in AssocLists.Keys(m) <==> AssocLists.HasKey(m, k)
  {
    var keys := AssocLists.Keys(m);
    if k in keys {
      var i :| 0 <= i < |keys| && keys[i] == k;
    }
    if AssocLists.HasKey(m, k) {
      var i :| 0 <= i < |m| && m[i].0 == k;
      assert keys[i] == k;
    }
  }

  /** A fact both sides agree on survives the combination with its value. */
  lemma AgreedFactKept(fuel: nat, expected: seq<(string, Value)>, actual: seq<(string, Value)>, r: Resolver, k: string, v: Value)
    requires AssocLists.Get(expected, k) == Some(v) && AssocLists.Get(actual, k) == Some(v)
    ensures CombineFacts(fuel, expected, actual, r).Ok? ==>
      k in CombineFacts(fuel, expected, actual, r).value && CombineFacts(fuel, expected, actual, r).value[k] == v
  {
  }

  /** A fact whose literal values differ, with no type token on the expected side, is dropped. */
  lemma DifferingLiteralDropped(fuel: nat, expected: seq<(string, Value)>, actual: seq<(string, Value)>, r: Resolver, k: string)
    requires AssocLists.HasKey(expected, k) && AssocLists.HasKey(actual, k)
    requires AssocLists.Get(expected, k) != AssocLists.Get(actual, k) && !IsTokenValue(AssocLists.Get(expected, k).value)
    ensures CombineFacts(fuel, expected, actual, r).Ok? ==> k !in CombineFacts(fuel, expected, actual, r).value
  {
  }

  // ---- deriving scenarios from examples ----

  /** How many rows the examples hold together. */
  function RowCount(examples: seq<Examples>): nat {
    if |examples| == 0 then 0 else |examples[0].rows| + RowCount(examples[1..])
  }

  /** The rows of the examples, each carrying the run's variables, in order. */
  function FlattenRows(examples: seq<Examples>, variables: seq<(string, string)>): (r: seq<Row>)
    ensures |r| == RowCount(examples)
    ensures forall x :: x in r ==> x.variables == variables
    ensures forall i, j :: 0 <= i < |examples| && 0 <= j < |examples[i].rows| ==>
      examples[i].rows[j].(variables := variables) in r
    ensures forall x :: x in r ==> exists i, j :: (0 <= i < |examples| && 0 <= j < |examples[i].rows| &&
      x == examples[i].rows[j].(variables := variables))
  {
    FlatRowsMembers(examples, variables);
    FlatRows(examples, variables)
  }

  /** The first example's rows carrying the variables, then the rest's. */
  function FlatRows(examples: seq<Examples>, variables: seq<(string, string)>): (r: seq<Row>)
    ensures |r| == RowCount(examples)
  {
    if |examples| == 0 then []
    else
      seq(|examples[0].rows|, j requires 0 <= j < |examples[0].rows| => examples[0].rows[j].(variables := variables)) +
      FlatRows(examples[1..], variables)
  }

  /** The flat rows are exactly the examples' rows, each carrying the variables. */
  lemma {:induction false} FlatRowsMembers(examples: seq<Examples>, variables: seq<(string, string)>)
    ensures forall x :: x in FlatRows(examples, variables) ==> x.variables == variables
    ensures forall i, j :: 0 <= i < |examples| && 0 <= j < |examples[i].rows| ==>
      examples[i].rows[j].(variables := variables) in FlatRows(examples, variables)
    ensures forall x :: x in FlatRows(examples, variables) ==> exists i, j :: (0 <= i < |examples| && 0 <= j < |examples[i].rows| &&
      x == examples[i].rows[j].(variables := variables))
  {
    if |examples| > 0 {
      var first := seq(|examples[0].rows|, j requires 0 <= j < |examples[0].rows| => examples[0].rows[j].(variables := variables));
      var rest := FlatRows(examples[1..], variables);
      FlatRowsMembers(examples[1..], variables);
      assert FlatRows(examples, variables) == first + rest;
      forall i, j | 0 <= i < |examples| && 0 <= j < |examples[i].rows|
        ensures examples[i].rows[j].(variables := variables) in first + rest
      {
        if i == 0 {
          assert first[j] == examples[i].rows[j].(variables := variables);
        } else {
          assert examples[i] == examples[1..][i - 1];
          assert examples[i].rows[j].(variables := variables) in rest;
        }
      }
      forall x | x in first + rest
        ensures exists i, j :: (0 <= i < |examples| && 0 <= j < |examples[i].rows| &&
          x == examples[i].rows[j].(variables := variables))
      {
        if x in first {
          var j :| 0 <= j < |first| && first[j] == x;
          assert x == examples[0].rows[j].(variables := variables);
        } else {
          var i, j :| 0 <= i < |examples[1..]| && 0 <= j < |examples[1..][i].rows| &&
            x == examples[1..][i].rows[j].(variables := variables);
          assert examples[1..][i] == examples[i + 1];
        }
      }
    }
  }

  /**
   * Row `j` of example `i` sits in the flattened rows right after the rows
   * of the examples before it: the examples' rows keep their order.
   */
  lemma FlattenRowsInOrder(examples: seq<Examples>, variables: seq<(string, string)>, i: nat, j: nat)
    requires i < |examples| && j < |examples[i].rows|
    ensures RowCount(examples[..i]) + j < |FlattenRows(examples, variables)|
    ensures FlattenRows(examples, variables)[RowCount(examples[..i]) + j] == examples[i].rows[j].(variables := variables)
  {
    FlatRowsInOrder(examples, variables, i, j);
  }

  /** The position of row `j` of example `i` among the flat rows. */
  lemma {:induction false} FlatRowsInOrder(examples: seq<Examples>, variables: seq<(string, string)>, i: nat, j: nat)
    requires i < |examples| && j < |examples[i].rows|
    ensures RowCount(examples[..i]) + j < |FlatRows(examples, variables)|
    ensures FlatRows(examples, variables)[RowCount(examples[..i]) + j] == examples[i].rows[j].(variables := variables)
    decreases i
  {
    var r := FlatRows(examples, variables);
    var first := seq(|examples[0].rows|, k requires 0 <= k < |examples[0].rows| => examples[0].rows[k].(variables := variables));
    var tail := FlatRows(examples[1..], variables);
    assert r == first + tail;
    if i == 0 {
      assert examples[..0] == [];
      assert r[j] == first[j];
    } else {
      FlatRowsInOrder(examples[1..], variables, i - 1, j);
      RowCountOfPrefix(examples, i);
      var at := RowCount(examples[1..][..i - 1]) + j;
      assert r[|first| + at] == tail[at];
      assert examples[1..][i - 1] == examples[i];
    }
  }

  /** The rows before example `i` are the first example's and then those before it in the rest. */
  lemma RowCountOfPrefix(examples: seq<Examples>, i: nat)
    requires 0 < i <= |examples|
    ensures RowCount(examples[..i]) == |examples[0].rows| + RowCount(examples[1..][..i - 1])
  {
    assert examples[..i][1..] == examples[1..][..i - 1];
  }

  /** The rows a scenario is expanded from: with no examples at all, one empty row. */
  function ExampleRows(examples: seq<Examples>, variables: seq<(string, string)>): (r: seq<Row>)
    ensures |examples| == 0 ==> r == [Row([], [])]
    ensures |examples| > 0 ==> forall x :: x in r ==> x.variables == variables
    ensures forall i, j :: 0 <= i < |examples| && 0 <= j < |examples[i].rows| ==>
      examples[i].rows[j].(variables := variables) in r
    ensures |examples| > 0 ==> forall x :: x in r ==> exists i, j :: (0 <= i < |examples| && 0 <= j < |examples[i].rows| &&
      x == examples[i].rows[j].(variables := variables))
  {
    if |examples| == 0 then [Row([], [])] else FlattenRows(examples, variables)
  }

  /**
   * One fact of a new scenario. A row column named like the fact wins: a
   * fixture of that name, a value generated from a type token, or the
   * column's text. Without such a column a type token is generated and
   * any other value is kept.
   */
  function FactFor(fuel: nat, row: Row, key: string, value: Value, fixtures: seq<(string, Value)>, r: Resolver,
                   choices: ChoiceTree): (o: Outcome<Value>)
    ensures !AssocLists.HasKey(row.fields, key) && !IsTokenValue(value) ==> o == Ok(value)
    ensures AssocLists.HasKey(row.fields, key) && AssocLists.HasKey(fixtures, AssocLists.Get(row.fields, key).value) ==>
      o == Ok(AssocLists.Get(fixtures, AssocLists.Get(row.fields, key).value).value)
    ensures AssocLists.HasKey(row.fields, key) && !AssocLists.HasKey(fixtures, AssocLists.Get(row.fields, key).value) &&
            !IsPatternToken(AssocLists.Get(row.fields, key).value) ==>
              o == Ok(StringValue(AssocLists.Get(row.fields, key).value))
    ensures AssocLists.HasKey(row.fields, key) && !AssocLists.HasKey(fixtures, AssocLists.Get(row.fields, key).value) &&
            IsPatternToken(AssocLists.Get(row.fields, key).value) ==>
              o == if AssocLists.Get(row.fields, key).value in r.newPatterns
                   then Generation.Generate(fuel, r.newPatterns[AssocLists.Get(row.fields, key).value], r, choices)
                   else Thrown(ContractException("Type " + AssocLists.Get(row.fields, key).value + " does not exist", false))
    ensures !AssocLists.HasKey(row.fields, key) && IsTokenValue(value) ==>
              o == if value.stringValue in r.newPatterns then Generation.Generate(fuel, r.newPatterns[value.stringValue], r, choices)
                   else Thrown(ContractException("Type " + value.stringValue + " does not exist", false))
  {
    match AssocLists.Get(row.fields, key)
    case Some(fieldValue) =>
      (match AssocLists.Get(fixtures, fieldValue)
       case Some(fixture) => Ok(fixture)
       case None =>
         if IsPatternToken(fieldValue) then
           var p :- GetPattern(r, fieldValue);
           Generation.Generate(fuel, p, r, choices)
         else Ok(StringValue(fieldValue)))
    case None =>
      if IsTokenValue(value) then
        var p :- GetPattern(r, value.stringValue);
        Generation.Generate(fuel, p, r, choices)
      else Ok(value)
  }

  const FactGenerationFailed: Exception := ContractException("Scenario fact generation failed", false)

  /** The expected facts of a scenario built from `row`: the same names in the same order, fact i generated from branch i; any failure is one contract error. */
  function NewExpectedServerState(fuel: nat, row: Row, facts: seq<(string, Value)>, fixtures: seq<(string, Value)>,
                                  r: Resolver, choices: ChoiceTree): (o: Outcome<seq<(string, Value)>>)
    ensures o.Thrown? <==> exists i :: 0 <= i < |facts| && FactFor(fuel, row, facts[i].0, facts[i].1, fixtures, r, Branch(choices, i)).Thrown?
    ensures o.Thrown? ==> o.error == FactGenerationFailed
    ensures o.Ok? ==> |o.value| == |facts|
    ensures o.Ok? ==> forall i :: 0 <= i < |facts| ==>
      o.value[i] == (facts[i].0, FactFor(fuel, row, facts[i].0, facts[i].1, fixtures, r, Branch(choices, i)).value)
    decreases |facts|
  {
    if |facts| == 0 then Ok([])
    else
      match FactFor(fuel, row, facts[0].0, facts[0].1, fixtures, r, Branch(choices, 0))
      case Thrown(_) => Thrown(FactGenerationFailed)
      case Ok(v) =>
        var rest :- NewExpectedServerState(fuel, row, facts[1..], fixtures, r, Rest(choices));
        Shifted(facts, choices);
        Ok([(facts[0].0, v)] + rest)
  }

  /** With an empty row and no type tokens, the expected facts carry over unchanged. */
  lemma {:induction false} EmptyRowKeepsFacts(fuel: nat, facts: seq<(string, Value)>, fixtures: seq<(string, Value)>,
                                              r: Resolver, choices: ChoiceTree)
    requires forall i :: 0 <= i < |facts| ==> !IsTokenValue(facts[i].1)
    ensures NewExpectedServerState(fuel, Row([], []), facts, fixtures, r, choices) == Ok(facts)
    decreases |facts|
  {
    if |facts| > 0 {
      assert !AssocLists.HasKey(Row([], []).fields, facts[0].0);
      assert FactFor(fuel, Row([], []), facts[0].0, facts[0].1, fixtures, r, Branch(choices, 0)) == Ok(facts[0].1);
      EmptyRowKeepsFacts(fuel, facts[1..], fixtures, r, Rest(choices));
      assert NewExpectedServerState(fuel, Row([], []), facts, fixtures, r, choices) == Ok([(facts[0].0, facts[0].1)] + facts[1..]);
      assert [facts[0]] + facts[1..] == facts;
    }
  }

  /** The resolver a row's facts are generated with: the scenario's own, reporting row-value mismatches. */
  function RowResolver(s: Scenario): Resolver {
    ScenarioResolver(s, s.expectedFacts, ContractAndRowValueMismatch)
  }

  /**
   * The scenarios one row gives: the new expected facts, then one
   * scenario per request pattern that `requestsFor` derives from the row
   * (negative variants for a negative scenario), every other field kept.
   */
  function NewBasedOnRow(fuel: nat, s: Scenario, row: Row, requestsFor: (Row, bool) -> Outcome<seq<HttpRequestPattern>>,
                         choices: ChoiceTree): (o: Outcome<seq<Scenario>>)
    ensures NewExpectedServerState(fuel, row, s.expectedFacts, s.fixtures, RowResolver(s), choices).Thrown? ==>
      o == Thrown(FactGenerationFailed)
    ensures (NewExpectedServerState(fuel, row, s.expectedFacts, s.fixtures, RowResolver(s), choices).Ok? &&
            requestsFor(row, s.isNegative).Thrown?) ==> o == Thrown(requestsFor(row, s.isNegative).error)
    ensures o.Ok? ==> requestsFor(row, s.isNegative).Ok?
    ensures o.Ok? ==> |o.value| == |requestsFor(row, s.isNegative).value|
    ensures o.Ok? ==> forall i :: 0 <= i < |o.value| ==>
      o.value[i].(httpRequestPattern := s.httpRequestPattern, expectedFacts := s.expectedFacts) == s
    ensures o.Ok? ==> forall i :: 0 <= i < |o.value| ==> o.value[i].httpRequestPattern == requestsFor(row, s.isNegative).value[i]
    ensures o.Ok? ==> forall i :: 0 <= i < |o.value| ==>
      o.value[i].expectedFacts == NewExpectedServerState(fuel, row, s.expectedFacts, s.fixtures, RowResolver(s), choices).value
  {
    var facts :- NewExpectedServerState(fuel, row, s.expectedFacts, s.fixtures, RowResolver(s), choices);
    var requests :- requestsFor(row, s.isNegative);
    Ok(seq(|requests|, i requires 0 <= i < |requests| => s.(httpRequestPattern := requests[i], expectedFacts := facts)))
  }

  /** `x` is one of the scenarios that `row` expands into. */
  predicate ExpandsTo(fuel: nat, s: Scenario, row: Row, requestsFor: (Row, bool) -> Outcome<seq<HttpRequestPattern>>,
                      choices: ChoiceTree, x: Scenario) {
    NewBasedOnRow(fuel, s, row, requestsFor, choices).Ok? && x in NewBasedOnRow(fuel, s, row, requestsFor, choices).value
  }

  /**
   * Every row expanded in turn (`flatMap`), row i from branch i: it
   * succeeds iff every row does, the first row that fails gives the
   * error, and the scenarios are exactly those of the rows' expansions.
   */
  function NewBasedOnRows(fuel: nat, s: Scenario, rows: seq<Row>, requestsFor: (Row, bool) -> Outcome<seq<HttpRequestPattern>>,
                          choices: ChoiceTree): (o: Outcome<seq<Scenario>>)
    ensures o.Ok? <==> forall i :: 0 <= i < |rows| ==> NewBasedOnRow(fuel, s, rows[i], requestsFor, Branch(choices, i)).Ok?
    ensures o.Thrown? ==> exists i :: (0 <= i < |rows| && NewBasedOnRow(fuel, s, rows[i], requestsFor, Branch(choices, i)) == Thrown(o.error) &&
      forall k :: 0 <= k < i ==> NewBasedOnRow(fuel, s, rows[k], requestsFor, Branch(choices, k)).Ok?)
    ensures o.Ok? ==> forall x :: x in o.value <==>
      exists i :: 0 <= i < |rows| && ExpandsTo(fuel, s, rows[i], requestsFor, Branch(choices, i), x)
    ensures o.Ok? ==> forall x :: x in o.value ==> x.(httpRequestPattern := s.httpRequestPattern, expectedFacts := s.expectedFacts) == s
    ensures |rows| == 1 ==> o == NewBasedOnRow(fuel, s, rows[0], requestsFor, Branch(choices, 0))
  {
    if |rows| == 0 then Ok([])
    else
      match NewBasedOnRow(fuel, s, rows[0], requestsFor, Branch(choices, 0))
      case Thrown(e) => Thrown(e)
      case Ok(first) =>
        match NewBasedOnRows(fuel, s, rows[1..], requestsFor, Rest(choices))
        case Thrown(e) =>
          FirstFailureShifts(fuel, s, rows, requestsFor, choices, e);
          Thrown(e)
        case Ok(more) =>
          assert |rows| == 1 ==> NewBasedOnRows(fuel, s, rows[1..], requestsFor, Rest(choices)) == Ok([]);
          RowsStep(fuel, s, rows, requestsFor, choices, first, more);
          Ok(first + more)
  }

  /** When every row after the first expands, the properties of their expansion carry over to all the rows. */
  lemma RowsStep(fuel: nat, s: Scenario, rows: seq<Row>, requestsFor: (Row, bool) -> Outcome<seq<HttpRequestPattern>>,
                 choices: ChoiceTree, first: seq<Scenario>, more: seq<Scenario>)
    requires |rows| > 0 && NewBasedOnRow(fuel, s, rows[0], requestsFor, Branch(choices, 0)) == Ok(first)
    requires forall i :: 0 <= i < |rows[1..]| ==> NewBasedOnRow(fuel, s, rows[1..][i], requestsFor, Branch(Rest(choices), i)).Ok?
    requires forall x :: x in more <==>
      exists i :: 0 <= i < |rows[1..]| && ExpandsTo(fuel, s, rows[1..][i], requestsFor, Branch(Rest(choices), i), x)
    requires forall x :: x in more ==> x.(httpRequestPattern := s.httpRequestPattern, expectedFacts := s.expectedFacts) == s
    requires |rows| == 1 ==> more == []
    ensures forall i :: 0 <= i < |rows| ==> NewBasedOnRow(fuel, s, rows[i], requestsFor, Branch(choices, i)).Ok?
    ensures forall x :: x in first + more <==>
      exists i :: 0 <= i < |rows| && ExpandsTo(fuel, s, rows[i], requestsFor, Branch(choices, i), x)
    ensures forall x :: x in first + more ==> x.(httpRequestPattern := s.httpRequestPattern, expectedFacts := s.expectedFacts) == s
    ensures |rows| == 1 ==> first + more == first
  {
    AllExpandShifts(fuel, s, rows, requestsFor, choices);
    ExpansionShifts(fuel, s, rows, requestsFor, choices, first, more);
    if |rows| == 1 {
      assert first + [] == first;
    }
  }

  /** Every row expands iff the first one does and every row of the rest does, from the rest's branches. */
  lemma AllExpandShifts(fuel: nat, s: Scenario, rows: seq<Row>, requestsFor: (Row, bool) -> Outcome<seq<HttpRequestPattern>>,
                        choices: ChoiceTree)
    requires |rows| > 0
    ensures (forall i :: 0 <= i < |rows| ==> NewBasedOnRow(fuel, s, rows[i], requestsFor, Branch(choices, i)).Ok?) <==>
      NewBasedOnRow(fuel, s, rows[0], requestsFor, Branch(choices, 0)).Ok? &&
      forall i :: 0 <= i < |rows[1..]| ==> NewBasedOnRow(fuel, s, rows[1..][i], requestsFor, Branch(Rest(choices), i)).Ok?
  {
    Shifted(rows, choices);
  }

  /** A first failing row of the rest, after a row that expands, is a first failing row of all the rows. */
  lemma FirstFailureShifts(fuel: nat, s: Scenario, rows: seq<Row>, requestsFor: (Row, bool) -> Outcome<seq<HttpRequestPattern>>,
                           choices: ChoiceTree, e: Exception)
    requires |rows| > 0 && NewBasedOnRow(fuel, s, rows[0], requestsFor, Branch(choices, 0)).Ok?
    requires exists i :: (0 <= i < |rows[1..]| && NewBasedOnRow(fuel, s, rows[1..][i], requestsFor, Branch(Rest(choices), i)) == Thrown(e) &&
      forall k :: 0 <= k < i ==> NewBasedOnRow(fuel, s, rows[1..][k], requestsFor, Branch(Rest(choices), k)).Ok?)
    ensures exists i :: (0 <= i < |rows| && NewBasedOnRow(fuel, s, rows[i], requestsFor, Branch(choices, i)) == Thrown(e) &&
      forall k :: 0 <= k < i ==> NewBasedOnRow(fuel, s, rows[k], requestsFor, Branch(choices, k)).Ok?)
  {
    var i :| 0 <= i < |rows[1..]| && NewBasedOnRow(fuel, s, rows[1..][i], requestsFor, Branch(Rest(choices), i)) == Thrown(e) &&
      forall k :: 0 <= k < i ==> NewBasedOnRow(fuel, s, rows[1..][k], requestsFor, Branch(Rest(choices), k)).Ok?;
    RowShifted(fuel, s, rows, requestsFor, choices, i);
    forall k | 0 <= k < i + 1
      ensures NewBasedOnRow(fuel, s, rows[k], requestsFor, Branch(choices, k)).Ok?
    {
      if k > 0 {
        RowShifted(fuel, s, rows, requestsFor, choices, k - 1);
      }
    }
  }

  /** Row i of the rest from the rest's branch i expands as row i + 1 of all the rows from branch i + 1. */
  lemma RowShifted(fuel: nat, s: Scenario, rows: seq<Row>, requestsFor: (Row, bool) -> Outcome<seq<HttpRequestPattern>>,
                   choices: ChoiceTree, i: nat)
    requires i + 1 < |rows|
    ensures NewBasedOnRow(fuel, s, rows[1..][i], requestsFor, Branch(Rest(choices), i)) ==
            NewBasedOnRow(fuel, s, rows[i + 1], requestsFor, Branch(choices, i + 1))
  {
    assert rows[1..][i] == rows[i + 1] && Branch(Rest(choices), i) == Branch(choices, i + 1);
  }

  /** The first row's scenarios followed by those of the rest are the scenarios of all the rows. */
  lemma ExpansionShifts(fuel: nat, s: Scenario, rows: seq<Row>, requestsFor: (Row, bool) -> Outcome<seq<HttpRequestPattern>>,
                        choices: ChoiceTree, first: seq<Scenario>, rest: seq<Scenario>)
    requires |rows| > 0 && NewBasedOnRow(fuel, s, rows[0], requestsFor, Branch(choices, 0)) == Ok(first)
    requires forall x :: x in rest <==>
      exists i :: 0 <= i < |rows[1..]| && ExpandsTo(fuel, s, rows[1..][i], requestsFor, Branch(Rest(choices), i), x)
    ensures forall x :: x in first + rest <==>
      exists i :: 0 <= i < |rows| && ExpandsTo(fuel, s, rows[i], requestsFor, Branch(choices, i), x)
  {
    forall x | x in first + rest
      ensures exists i :: 0 <= i < |rows| && ExpandsTo(fuel, s, rows[i], requestsFor, Branch(choices, i), x)
    {
      ExpansionFromFirstOrRest(fuel, s, rows, requestsFor, choices, first, rest, x);
    }
    forall x, i | 0 <= i < |rows| && ExpandsTo(fuel, s, rows[i], requestsFor, Branch(choices, i), x)
      ensures x in first + rest
    {
      if i > 0 {
        ExpandsShifted(fuel, s, rows, requestsFor, choices, i - 1, x);
      }
    }
  }

  /** A scenario of the first row or of the rest is a scenario of some row, from that row's branch. */
  lemma ExpansionFromFirstOrRest(fuel: nat, s: Scenario, rows: seq<Row>, requestsFor: (Row, bool) -> Outcome<seq<HttpRequestPattern>>,
                                 choices: ChoiceTree, first: seq<Scenario>, rest: seq<Scenario>, x: Scenario)
    requires |rows| > 0 && NewBasedOnRow(fuel, s, rows[0], requestsFor, Branch(choices, 0)) == Ok(first)
    requires forall x :: x in rest <==>
      exists i :: 0 <= i < |rows[1..]| && ExpandsTo(fuel, s, rows[1..][i], requestsFor, Branch(Rest(choices), i), x)
    requires x in first + rest
    ensures exists i :: 0 <= i < |rows| && ExpandsTo(fuel, s, rows[i], requestsFor, Branch(choices, i), x)
  {
    if x in first {
      assert ExpandsTo(fuel, s, rows[0], requestsFor, Branch(choices, 0), x);
    } else {
      var i :| 0 <= i < |rows[1..]| && ExpandsTo(fuel, s, rows[1..][i], requestsFor, Branch(Rest(choices), i), x);
      ExpandsShifted(fuel, s, rows, requestsFor, choices, i, x);
    }
  }

  /** Row i of the rest from the rest's branch i is row i + 1 of all the rows from branch i + 1. */
  lemma ExpandsShifted(fuel: nat, s: Scenario, rows: seq<Row>, requestsFor: (Row, bool) -> Outcome<seq<HttpRequestPattern>>,
                       choices: ChoiceTree, i: nat, x: Scenario)
    requires i + 1 < |rows|
    ensures ExpandsTo(fuel, s, rows[1..][i], requestsFor, Branch(Rest(choices), i), x) <==>
            ExpandsTo(fuel, s, rows[i + 1], requestsFor, Branch(choices, i + 1), x)
  {
    assert rows[1..][i] == rows[i + 1] && Branch(Rest(choices), i) == Branch(choices, i + 1);
  }

  /** The source row j of example i is generated from: the branch at the row's place among all the examples' rows. */
  function ExampleRowSource(choices: ChoiceTree, examples: seq<Examples>, i: nat, j: nat): ChoiceTree
    requires i <= |examples|
  {
    Branch(choices, RowCount(examples[..i]) + j)
  }

  /**
   * The test scenarios of a scenario: each example row, with the
   * variables set, expanded in turn from its own source, or, with no
   * examples, one empty row. The result succeeds iff every row expands,
   * and then holds exactly the rows' expansions, each of which keeps the
   * name, response and negativity of the original.
   */
  function GenerateTestScenarios(fuel: nat, s: Scenario, variables: seq<(string, string)>,
                                 requestsFor: (Row, bool) -> Outcome<seq<HttpRequestPattern>>, choices: ChoiceTree): (o: Outcome<seq<Scenario>>)
    ensures |s.examples| == 0 ==> o == NewBasedOnRow(fuel, s, Row([], []), requestsFor, Branch(choices, 0))
    ensures |s.examples| > 0 ==> (o.Ok? <==> forall i, j :: 0 <= i < |s.examples| && 0 <= j < |s.examples[i].rows| ==>
      NewBasedOnRow(fuel, s, s.examples[i].rows[j].(variables := variables), requestsFor,
                    ExampleRowSource(choices, s.examples, i, j)).Ok?)
    ensures |s.examples| > 0 && o.Thrown? ==> exists i, j :: (0 <= i < |s.examples| && 0 <= j < |s.examples[i].rows| &&
      NewBasedOnRow(fuel, s, s.examples[i].rows[j].(variables := variables), requestsFor,
                    ExampleRowSource(choices, s.examples, i, j)) == Thrown(o.error))
    ensures |s.examples| > 0 && o.Ok? ==> forall x :: x in o.value <==>
      exists i, j :: 0 <= i < |s.examples| && 0 <= j < |s.examples[i].rows| &&
        ExpandsTo(fuel, s, s.examples[i].rows[j].(variables := variables), requestsFor, ExampleRowSource(choices, s.examples, i, j), x)
    ensures o.Ok? ==> forall x :: x in o.value ==>
      x.name == s.name && x.httpResponsePattern == s.httpResponsePattern && x.isNegative == s.isNegative
  {
    var rows := ExampleRows(s.examples, variables);
    var o := NewBasedOnRows(fuel, s, rows, requestsFor, choices);
    KeepsScenarioFields(s, o);
    if |s.examples| == 0 then o
    else
      ExpansionOfExampleRows(fuel, s, variables, rows, requestsFor, choices);
      o
  }

  /** Scenarios equal to `s` up to request and facts keep its name, response and negativity. */
  lemma KeepsScenarioFields(s: Scenario, o: Outcome<seq<Scenario>>)
    requires o.Ok? ==> forall x :: x in o.value ==> x.(httpRequestPattern := s.httpRequestPattern, expectedFacts := s.expectedFacts) == s
    ensures o.Ok? ==> forall x :: x in o.value ==>
      x.name == s.name && x.httpResponsePattern == s.httpResponsePattern && x.isNegative == s.isNegative
  {
    if o.Ok? {
      forall x | x in o.value
        ensures x.name == s.name && x.httpResponsePattern == s.httpResponsePattern && x.isNegative == s.isNegative
      {
        assert x.(httpRequestPattern := s.httpRequestPattern, expectedFacts := s.expectedFacts) == s;
      }
    }
  }

  /** The row-level facts of GenerateTestScenarios, read off the flattened example rows. */
  lemma ExpansionOfExampleRows(fuel: nat, s: Scenario, variables: seq<(string, string)>, rows: seq<Row>,
                               requestsFor: (Row, bool) -> Outcome<seq<HttpRequestPattern>>, choices: ChoiceTree)
    requires |s.examples| > 0 && rows == ExampleRows(s.examples, variables)
    ensures NewBasedOnRows(fuel, s, rows, requestsFor, choices).Ok? <==>
      forall i, j :: 0 <= i < |s.examples| && 0 <= j < |s.examples[i].rows| ==>
        NewBasedOnRow(fuel, s, s.examples[i].rows[j].(variables := variables), requestsFor,
                      ExampleRowSource(choices, s.examples, i, j)).Ok?
    ensures NewBasedOnRows(fuel, s, rows, requestsFor, choices).Thrown? ==>
      exists i, j :: (0 <= i < |s.examples| && 0 <= j < |s.examples[i].rows| &&
        NewBasedOnRow(fuel, s, s.examples[i].rows[j].(variables := variables), requestsFor,
                      ExampleRowSource(choices, s.examples, i, j)) ==
        Thrown(NewBasedOnRows(fuel, s, rows, requestsFor, choices).error))
    ensures NewBasedOnRows(fuel, s, rows, requestsFor, choices).Ok? ==>
      forall x :: x in NewBasedOnRows(fuel, s, rows, requestsFor, choices).value <==>
        exists i, j :: (0 <= i < |s.examples| && 0 <= j < |s.examples[i].rows| &&
          ExpandsTo(fuel, s, s.examples[i].rows[j].(variables := variables), requestsFor, ExampleRowSource(choices, s.examples, i, j), x))
  {
    ExampleRowsExpand(fuel, s, variables, rows, requestsFor, choices);
    if NewBasedOnRows(fuel, s, rows, requestsFor, choices).Ok? {
      ExampleRowsScenarios(fuel, s, variables, rows, requestsFor, choices);
    }
  }

  /** The flattened rows all expand iff every example row does from its own source; a failure is some example row's. */
  lemma ExampleRowsExpand(fuel: nat, s: Scenario, variables: seq<(string, string)>, rows: seq<Row>,
                          requestsFor: (Row, bool) -> Outcome<seq<HttpRequestPattern>>, choices: ChoiceTree)
    requires |s.examples| > 0 && rows == ExampleRows(s.examples, variables)
    ensures NewBasedOnRows(fuel, s, rows, requestsFor, choices).Ok? <==>
      forall i, j :: 0 <= i < |s.examples| && 0 <= j < |s.examples[i].rows| ==>
        NewBasedOnRow(fuel, s, s.examples[i].rows[j].(variables := variables), requestsFor,
                      ExampleRowSource(choices, s.examples, i, j)).Ok?
    ensures NewBasedOnRows(fuel, s, rows, requestsFor, choices).Thrown? ==>
      exists i, j :: (0 <= i < |s.examples| && 0 <= j < |s.examples[i].rows| &&
        NewBasedOnRow(fuel, s, s.examples[i].rows[j].(variables := variables), requestsFor,
                      ExampleRowSource(choices, s.examples, i, j)) ==
        Thrown(NewBasedOnRows(fuel, s, rows, requestsFor, choices).error))
  {
    var o := NewBasedOnRows(fuel, s, rows, requestsFor, choices);
    if o.Thrown? {
      var k :| 0 <= k < |rows| && NewBasedOnRow(fuel, s, rows[k], requestsFor, Branch(choices, k)) == Thrown(o.error);
      var i, j := ExampleRowAt(s.examples, variables, rows, k);
      SourceAt(choices, s.examples, i, j, k);
    } else {
      forall i, j | 0 <= i < |s.examples| && 0 <= j < |s.examples[i].rows|
        ensures NewBasedOnRow(fuel, s, s.examples[i].rows[j].(variables := variables), requestsFor,
                              ExampleRowSource(choices, s.examples, i, j)).Ok?
      {
        var k := ExampleRowPlace(s.examples, variables, rows, i, j);
        SourceAt(choices, s.examples, i, j, k);
        RowExpands(fuel, s, rows, requestsFor, choices, k);
      }
    }
  }

  /** When the flattened rows expand, the scenarios are exactly those of the example rows, each from its own source. */
  lemma ExampleRowsScenarios(fuel: nat, s: Scenario, variables: seq<(string, string)>, rows: seq<Row>,
                             requestsFor: (Row, bool) -> Outcome<seq<HttpRequestPattern>>, choices: ChoiceTree)
    requires |s.examples| > 0 && rows == ExampleRows(s.examples, variables)
    requires NewBasedOnRows(fuel, s, rows, requestsFor, choices).Ok?
    ensures forall x :: x in NewBasedOnRows(fuel, s, rows, requestsFor, choices).value <==>
      exists i, j :: (0 <= i < |s.examples| && 0 <= j < |s.examples[i].rows| &&
        ExpandsTo(fuel, s, s.examples[i].rows[j].(variables := variables), requestsFor, ExampleRowSource(choices, s.examples, i, j), x))
  {
    forall x | x in NewBasedOnRows(fuel, s, rows, requestsFor, choices).value
      ensures exists i, j :: (0 <= i < |s.examples| && 0 <= j < |s.examples[i].rows| &&
        ExpandsTo(fuel, s, s.examples[i].rows[j].(variables := variables), requestsFor, ExampleRowSource(choices, s.examples, i, j), x))
    {
      ScenarioFromExampleRow(fuel, s, variables, rows, requestsFor, choices, x);
    }
    forall x, i, j | 0 <= i < |s.examples| && 0 <= j < |s.examples[i].rows| &&
        ExpandsTo(fuel, s, s.examples[i].rows[j].(variables := variables), requestsFor, ExampleRowSource(choices, s.examples, i, j), x)
      ensures x in NewBasedOnRows(fuel, s, rows, requestsFor, choices).value
    {
      ExampleRowScenario(fuel, s, variables, rows, requestsFor, choices, x, i, j);
    }
  }

  /** A scenario of the flattened rows' expansion comes from some example row, expanded from its own source. */
  lemma ScenarioFromExampleRow(fuel: nat, s: Scenario, variables: seq<(string, string)>, rows: seq<Row>,
                               requestsFor: (Row, bool) -> Outcome<seq<HttpRequestPattern>>, choices: ChoiceTree, x: Scenario)
    requires |s.examples| > 0 && rows == ExampleRows(s.examples, variables)
    requires NewBasedOnRows(fuel, s, rows, requestsFor, choices).Ok? && x in NewBasedOnRows(fuel, s, rows, requestsFor, choices).value
    ensures exists i, j :: (0 <= i < |s.examples| && 0 <= j < |s.examples[i].rows| &&
      ExpandsTo(fuel, s, s.examples[i].rows[j].(variables := variables), requestsFor, ExampleRowSource(choices, s.examples, i, j), x))
  {
    var k :| 0 <= k < |rows| && ExpandsTo(fuel, s, rows[k], requestsFor, Branch(choices, k), x);
    var i, j := ExampleRowAt(s.examples, variables, rows, k);
    SourceAt(choices, s.examples, i, j, k);
    assert ExpandsTo(fuel, s, s.examples[i].rows[j].(variables := variables), requestsFor, ExampleRowSource(choices, s.examples, i, j), x);
  }

  /** A scenario of an example row's expansion, from its own source, is among the flattened rows' scenarios. */
  lemma ExampleRowScenario(fuel: nat, s: Scenario, variables: seq<(string, string)>, rows: seq<Row>,
                           requestsFor: (Row, bool) -> Outcome<seq<HttpRequestPattern>>, choices: ChoiceTree, x: Scenario,
                           i: nat, j: nat)
    requires |s.examples| > 0 && rows == ExampleRows(s.examples, variables)
    requires NewBasedOnRows(fuel, s, rows, requestsFor, choices).Ok?
    requires i < |s.examples| && j < |s.examples[i].rows|
    requires ExpandsTo(fuel, s, s.examples[i].rows[j].(variables := variables), requestsFor, ExampleRowSource(choices, s.examples, i, j), x)
    ensures x in NewBasedOnRows(fuel, s, rows, requestsFor, choices).value
  {
    var k := ExampleRowPlace(s.examples, variables, rows, i, j);
    SourceAt(choices, s.examples, i, j, k);
    InExpansion(fuel, s, rows, requestsFor, choices, k, x);
  }

  /** Row j of example i sits at its place among the flattened rows. */
  lemma ExampleRowPlace(examples: seq<Examples>, variables: seq<(string, string)>, rows: seq<Row>, i: nat, j: nat) returns (k: nat)
    requires |examples| > 0 && rows == ExampleRows(examples, variables)
    requires i < |examples| && j < |examples[i].rows|
    ensures k == RowCount(examples[..i]) + j && k < |rows| && rows[k] == examples[i].rows[j].(variables := variables)
  {
    FlattenRowsInOrder(examples, variables, i, j);
    k := RowCount(examples[..i]) + j;
  }

  /** When the rows expand, row k expands from branch k. */
  lemma RowExpands(fuel: nat, s: Scenario, rows: seq<Row>, requestsFor: (Row, bool) -> Outcome<seq<HttpRequestPattern>>,
                   choices: ChoiceTree, k: nat)
    requires NewBasedOnRows(fuel, s, rows, requestsFor, choices).Ok? && k < |rows|
    ensures NewBasedOnRow(fuel, s, rows[k], requestsFor, Branch(choices, k)).Ok?
  {
  }

  /** A scenario that row k expands into, from branch k, is among the rows' scenarios. */
  lemma InExpansion(fuel: nat, s: Scenario, rows: seq<Row>, requestsFor: (Row, bool) -> Outcome<seq<HttpRequestPattern>>,
                    choices: ChoiceTree, k: nat, x: Scenario)
    requires NewBasedOnRows(fuel, s, rows, requestsFor, choices).Ok?
    requires k < |rows| && ExpandsTo(fuel, s, rows[k], requestsFor, Branch(choices, k), x)
    ensures x in NewBasedOnRows(fuel, s, rows, requestsFor, choices).value
  {
  }

  /** The source of row j of example i is the branch at the row's place `k`. */
  lemma SourceAt(choices: ChoiceTree, examples: seq<Examples>, i: nat, j: nat, k: int)
    requires i <= |examples| && k == RowCount(examples[..i]) + j
    ensures ExampleRowSource(choices, examples, i, j) == Branch(choices, k)
  {
  }

  /** Each flattened row is row j of some example i, at the place ExampleRowSource reads. */
  lemma ExampleRowAt(examples: seq<Examples>, variables: seq<(string, string)>, rows: seq<Row>, k: nat) returns (i: nat, j: nat)
    requires |examples| > 0 && rows == ExampleRows(examples, variables) && k < |rows|
    ensures i < |examples| && j < |examples[i].rows| && k == RowCount(examples[..i]) + j
    ensures rows[k] == examples[i].rows[j].(variables := variables)
  {
    i, j := FlatPosition(examples, k);
    FlattenRowsInOrder(examples, variables, i, j);
  }

  /** Every place among all the examples' rows is row j of some example i. */
  lemma {:induction false} FlatPosition(examples: seq<Examples>, k: nat) returns (i: nat, j: nat)
    requires k < RowCount(examples)
    ensures i < |examples| && j < |examples[i].rows| && k == RowCount(examples[..i]) + j
    decreases |examples|
  {
    if k < |examples[0].rows| {
      i, j := 0, k;
      assert examples[..0] == [];
    } else {
      var i', j' := FlatPosition(examples[1..], k - |examples[0].rows|);
      i, j := i' + 1, j';
      RowCountOfPrefix(examples, i);
      assert examples[1..][i'] == examples[i];
    }
  }

  // ---- stubs ----

  /**
   * A stub (request and response) against the scenario. A failing request
   * with a status other than the scenario's is reported alone, tagged as
   * such; otherwise the request and response failures, if any, are
   * combined. Errors raised while matching propagate.
   */
  function MatchesMock(s: Scenario, requestResult: Outcome<Result>, response: HttpResponse,
                       responseResult: Outcome<Result>): (o: Outcome<Result>)
    ensures requestResult.Thrown? ==> o.Thrown?
    ensures requestResult.Ok? && requestResult.value.Failure? && response.status != s.httpResponsePattern.status ==>
      o == Ok(Failure("", [UpdateScenario(requestResult.value, s.name)], "", Some(RequestMismatchButStatusAlsoWrong), None))
    ensures requestResult.Ok? && !(requestResult.value.Failure? && response.status != s.httpResponsePattern.status) ==>
      (o.Ok? <==> responseResult.Ok?)
    ensures requestResult.Ok? && !(requestResult.value.Failure? && response.status != s.httpResponsePattern.status) &&
            responseResult.Ok? ==>
              (o.value.Success? <==> requestResult.value.Success? && responseResult.value.Success?)
    ensures o.Ok? && o.value.Failure? && o.value.reason != Some(RequestMismatchButStatusAlsoWrong) ==>
      forall c :: c in o.value.causes ==> c.Failure?
  {
    var requestMatch :- requestResult;
    var request := UpdateScenario(requestMatch, s.name);
    if request.Failure? && response.status != s.httpResponsePattern.status then
      Ok(Failure("", [request], "", Some(RequestMismatchButStatusAlsoWrong), None))
    else
      var responseMatch :- responseResult;
      var response := if request.Failure? then UpdateScenario(responseMatch, s.name) else responseMatch;
      var failures := Failures([request, response]);
      assert [request, response][0] == request && [request, response][1] == response;
      Ok(ResultFromFailures(failures))
  }

  // ---- scenario variants ----

  const NegativePrefix: string := "-ve: "

  /** The negative variant: the name prefixed, marked negative, everything else the same (the suggestions are not used). */
  function NegativeBasedOn(s: Scenario, suggestions: seq<Scenario>): (r: Scenario)
    ensures r.isNegative
    ensures StartsWith(r.name, NegativePrefix) && RemovePrefix(r.name, NegativePrefix) == s.name
    ensures r.(name := s.name, isNegative := s.isNegative) == s
  {
    s.(name := NegativePrefix + s.name, isNegative := true)
  }

  /** The first suggestion with the scenario's name, if any. */
  function FindByName(suggestions: seq<Scenario>, name: string): (r: Option<Scenario>)
    ensures r.None? <==> forall i :: 0 <= i < |suggestions| ==> suggestions[i].name != name
    ensures r.Some? ==> r.value.name == name
    ensures r.Some? ==>
      exists i :: 0 <= i < |suggestions| && suggestions[i] == r.value && forall j :: 0 <= j < i ==> suggestions[j].name != name
  {
    if |suggestions| == 0 then None
    else if suggestions[0].name == name then Some(suggestions[0])
    else
      var r := FindByName(suggestions[1..], name);
      assert forall j :: 1 <= j < |suggestions| ==> suggestions[j] == suggestions[1..][j - 1];
      assert r.Some? ==>
        exists i :: 0 <= i < |suggestions| && suggestions[i] == r.value && forall j :: 0 <= j < i ==> suggestions[j].name != name by {
        if r.Some? {
          var i :| 0 <= i < |suggestions[1..]| && suggestions[1..][i] == r.value &&
            forall j :: 0 <= j < i ==> suggestions[1..][j].name != name;
          assert suggestions[i + 1] == r.value;
        }
      }
      r
  }

  /**
   * The scenario with the examples of the suggestion of the same name;
   * without one, the scenario itself. Nothing but the examples changes.
   */
  function NewBasedOnSuggestions(s: Scenario, suggestions: seq<Scenario>): (r: Scenario)
    ensures r.(examples := s.examples) == s
    ensures FindByName(suggestions, s.name).Some? ==> r.examples == FindByName(suggestions, s.name).value.examples
    ensures FindByName(suggestions, s.name).None? ==> r == s
  {
    var chosen := FindByName(suggestions, s.name).GetOr(s);
    s.(examples := chosen.examples)
  }

  // ---- running a test ----

  /** The response header through which a stub reports its own verdict. */
  const ResultHeader: string := "X-Specmatic-Result"

  /**
   * Running a test: the generated request (an error there propagates),
   * then the response the system under test gave. A response that says
   * "failure" in the result header fails with its body; otherwise the
   * response is matched. An error while calling becomes a failure tied to
   * the scenario, worded by `causeMessage` (the source's
   * `exceptionCauseMessage`).
   */
  function ExecuteTest(s: Scenario, request: Outcome<HttpRequest>, response: Outcome<HttpResponse>,
                       responseResult: Outcome<Result>, causeMessage: Exception -> string): (o: Outcome<Result>)
    ensures request.Thrown? <==> o.Thrown?
    ensures request.Ok? && response.Thrown? ==>
      o == Ok(Failure(causeMessage(response.error), [], "", None, Some(s.name)))
    ensures request.Ok? && response.Ok? && AssocLists.Get(response.value.headers, ResultHeader) == Some("failure") ==>
      o == Ok(Failure(ToStringLiteral(response.value.body), [], "", None, Some(s.name)))
    ensures request.Ok? && response.Ok? && AssocLists.Get(response.value.headers, ResultHeader) != Some("failure") ==>
      o == Ok(MatchesResponse(s, response.value, responseResult))
  {
    var _ :- request;
    match response
    case Thrown(e) => Ok(UpdateScenario(Fail(causeMessage(e)), s.name))
    case Ok(received) =>
      if AssocLists.Get(received.headers, ResultHeader).GetOr("success") == "failure" then
        Ok(UpdateScenario(Fail(ToStringLiteral(received.body)), s.name))
      else Ok(MatchesResponse(s, received, responseResult))
  }
}

=== FILE: strategies.dfy ===
/** The resolver strategies switched on by configuration flags. */
module Strategies {
  import opened Wrappers
  import opened Resolvers

  datatype ResolverStrategies = ResolverStrategies(
    defaultExampleResolver: DefaultExampleResolver,
    generation: GenerationStrategies,
    unexpectedKeyCheck: Option<UnexpectedKeyCheck>)

  /** No default examples, no generative tests, no unexpected-key override. */
  const DefaultStrategies: ResolverStrategies := ResolverStrategies(DoNotUseDefaultExample, NonGenerativeTests, None)

  /**
   * Applies the strategies to a resolver. Without an unexpected-key check
   * only the example and generation strategies change. With one, the copy
   * is taken from the ORIGINAL resolver, so only the unexpected-key check
   * changes and the example and generation strategies are not applied.
   */
  function Update(s: ResolverStrategies, r: Resolver): (u: Resolver)
    ensures s.unexpectedKeyCheck.None? ==>
      u == r.(defaultExampleResolver := s.defaultExampleResolver, generation := s.generation)
    ensures s.unexpectedKeyCheck.Some? ==>
      u.findKeyErrorCheck.unexpectedKeyCheck == s.unexpectedKeyCheck.value &&
      u.findKeyErrorCheck.patternKeyCheck == r.findKeyErrorCheck.patternKeyCheck &&
      u.findKeyErrorCheck.overrideUnexpectedKeyCheck == r.findKeyErrorCheck.overrideUnexpectedKeyCheck &&
      u.defaultExampleResolver == r.defaultExampleResolver && u.generation == r.generation &&
      u == r.(findKeyErrorCheck := u.findKeyErrorCheck)
  {
    var withStrategies := r.(defaultExampleResolver := s.defaultExampleResolver, generation := s.generation);
    match s.unexpectedKeyCheck
    case Some(check) =>
      var updatedKeyCheck := r.findKeyErrorCheck.(unexpectedKeyCheck := check);
      r.(findKeyErrorCheck := updatedKeyCheck)
    case None => withStrategies
  }

  /** Each flag selects its own strategy, independently of the other two. */
  function StrategiesFromFlags(schemaExampleDefault: bool, generativeTesting: bool, extendableSchema: bool): (s: ResolverStrategies)
    ensures s.defaultExampleResolver == (if schemaExampleDefault then UseDefaultExample else DoNotUseDefaultExample)
    ensures s.generation == (if generativeTesting then GenerativeTestsEnabled else NonGenerativeTests)
    ensures s.unexpectedKeyCheck == (if extendableSchema then Some(IgnoreUnexpectedKeys) else None)
  {
    ResolverStrategies(
      if schemaExampleDefault then UseDefaultExample else DoNotUseDefaultExample,
      if generativeTesting then GenerativeTestsEnabled else NonGenerativeTests,
      if extendableSchema then Some(IgnoreUnexpectedKeys) else None)
  }

  /** With every flag off the flags give exactly the default strategies. */
  lemma FlagsOffAreDefault()
    ensures StrategiesFromFlags(false, false, false) == DefaultStrategies
  {
  }

  /**
   * Applying the default strategies resets the example and generation
   * strategies and leaves the rest of the resolver as it was.
   */
  lemma DefaultUpdateKeepsKeyCheck(r: Resolver)
    ensures Update(DefaultStrategies, r).findKeyErrorCheck == r.findKeyErrorCheck
    ensures Update(DefaultStrategies, r).defaultExampleResolver == DoNotUseDefaultExample
    ensures Update(DefaultStrategies, r).generation == NonGenerativeTests
  {
  }

  /**
   * With the extendable-schema flag on, the other two flags have no effect
   * on the updated resolver's example and generation strategies.
   */
  lemma ExtendableSchemaDropsOtherFlags(r: Resolver, schemaExampleDefault: bool, generativeTesting: bool)
    ensures Update(StrategiesFromFlags(schemaExampleDefault, generativeTesting, true), r).defaultExampleResolver == r.defaultExampleResolver
    ensures Update(StrategiesFromFlags(schemaExampleDefault, generativeTesting, true), r).generation == r.generation
    ensures Update(StrategiesFromFlags(schemaExampleDefault, generativeTesting, true), r).findKeyErrorCheck.unexpectedKeyCheck == IgnoreUnexpectedKeys
  {
  }

  /**
   * The generative-testing flag is lost once the extendable-schema flag is
   * on: a non-generative resolver stays non-generative.
   */
  lemma GenerativeFlagLostWithExtendableSchema(r: Resolver)
    requires r.generation == NonGenerativeTests
    ensures StrategiesFromFlags(false, true, true).generation == GenerativeTestsEnabled
    ensures Update(StrategiesFromFlags(false, true, true), r).generation == NonGenerativeTests
  {
  }
}

=== FILE: strings.dfy ===
/**
 * The handful of Kotlin string operations the engine relies on: trimming,
 * blank tests, ASCII case folding, splitting on one separator, prefix and
 * suffix tests, and decimal rendering and parsing of integers.
 */
module Strings {
  import opened Wrappers

  /**
   * Whitespace as Kotlin's `trim()` and `isBlank()` see it on the JVM
   * (`Character.isWhitespace` or `Character.isSpaceChar`): the controls
   * U+0009–U+000D and U+001C–U+001F, and the space, line and paragraph
   * separators of Unicode.
   */
  predicate IsWhitespace(c: char) {
    var n := c as int;
    (9 <= n <= 13) || (28 <= n <= 32) || n == 0xA0 || n == 0x1680 || (0x2000 <= n <= 0x200A) ||
    n == 0x2028 || n == 0x2029 || n == 0x202F || n == 0x205F || n == 0x3000
  }

  /** True when every character is whitespace (so also for the empty string). */
  predicate IsBlank(s: string) {
    forall i :: 0 <= i < |s| ==> IsWhitespace(s[i])
  }

  function TrimStart(s: string): (r: string)
    ensures |r| <= |s| && r == s[|s| - |r|..]
    ensures |r| > 0 ==> !IsWhitespace(r[0])
    ensures forall i :: 0 <= i < |s| - |r| ==> IsWhitespace(s[i])
  {
    if |s| > 0 && IsWhitespace(s[0]) then TrimStart(s[1..]) else s
  }

  function TrimEnd(s: string): (r: string)
    ensures |r| <= |s| && r == s[..|r|]
    ensures |r| > 0 ==> !IsWhitespace(r[|r| - 1])
    ensures forall i :: |r| <= i < |s| ==> IsWhitespace(s[i])
  {
    if |s| > 0 && IsWhitespace(s[|s| - 1]) then TrimEnd(s[..|s| - 1]) else s
  }

  /** Kotlin's `trim()`: whitespace removed from both ends. */
  function Trim(s: string): (r: string)
    ensures |r| > 0 ==> !IsWhitespace(r[0]) && !IsWhitespace(r[|r| - 1])
    ensures r == "" <==> IsBlank(s)
  {
    var t := TrimStart(s);
    var r := TrimEnd(t);
    assert r == "" ==> IsBlank(s) by {
      if r == "" {
        assert t == "";
      }
    }
    r
  }

  /** A string that neither starts nor ends with whitespace is its own trim. */
  lemma TrimUntouched(s: string)
    requires |s| > 0 && !IsWhitespace(s[0]) && !IsWhitespace(s[|s| - 1])
    ensures Trim(s) == s
  {
  }

  /** Trimming text wrapped in a leading and a trailing newline gives the text back when its ends are not whitespace. */
  lemma TrimNewlines(x: string)
    requires |x| > 0 && !IsWhitespace(x[0]) && !IsWhitespace(x[|x| - 1])
    ensures Trim("\n" + x + "\n") == x
  {
    var s := "\n" + x + "\n";
    assert s[1..] == x + "\n";
    assert TrimStart(s) == x + "\n";
    assert (x + "\n")[..|x|] == x;
    assert TrimEnd(x + "\n") == TrimEnd(x);
  }

  /** Trimming text followed by a newline gives the text back when its ends are not whitespace. */
  lemma TrimTrailingNewline(x: string)
    requires |x| > 0 && !IsWhitespace(x[0]) && !IsWhitespace(x[|x| - 1])
    ensures Trim(x + "\n") == x
  {
    var s := x + "\n";
    assert TrimStart(s) == s;
    assert s[..|x|] == x;
    assert TrimEnd(s) == TrimEnd(x);
  }

  /**
   * Kotlin's `lines()`: the text cut at every line break, where "\r\n",
   * "\n" and a lone "\r" each end a line.
   */
  function Lines(s: string): (r: seq<string>)
    ensures |r| >= 1
    ensures forall i :: 0 <= i < |r| ==> '\n' !in r[i] && '\r' !in r[i]
    decreases |s|
  {
    if |s| == 0 then [""]
    else if s[0] == '\n' then [""] + Lines(s[1..])
    else if s[0] == '\r' then [""] + Lines(if |s| > 1 && s[1] == '\n' then s[2..] else s[1..])
    else
      var rest := Lines(s[1..]);
      [[s[0]] + rest[0]] + rest[1..]
  }

  /** The text with every "\r\n" and every lone "\r" written as "\n". */
  function UnixBreaks(s: string): string
    decreases |s|
  {
    if |s| == 0 then ""
    else if s[0] == '\r' then "\n" + UnixBreaks(if |s| > 1 && s[1] == '\n' then s[2..] else s[1..])
    else [s[0]] + UnixBreaks(s[1..])
  }

  /** Joining the lines with "\n" gives the text back with its line breaks written as "\n". */
  lemma {:induction false} JoinLines(s: string)
    ensures Join(Lines(s), "\n") == UnixBreaks(s)
    decreases |s|
  {
    if |s| == 0 {
    } else if s[0] == '\n' {
      JoinLines(s[1..]);
      JoinCons("", Lines(s[1..]), "\n");
    } else if s[0] == '\r' {
      var t := if |s| > 1 && s[1] == '\n' then s[2..] else s[1..];
      JoinLines(t);
      JoinCons("", Lines(t), "\n");
    } else {
      var rest := Lines(s[1..]);
      JoinLines(s[1..]);
      JoinCons([s[0]] + rest[0], rest[1..], "\n");
      JoinCons(rest[0], rest[1..], "\n");
      assert rest == [rest[0]] + rest[1..];
    }
  }

  /** Joining a first part onto the rest puts the separator between them, unless there is no rest. */
  lemma JoinCons(first: string, rest: seq<string>, sep: string)
    ensures Join([first] + rest, sep) == if |rest| == 0 then first else first + sep + Join(rest, sep)
  {
    assert ([first] + rest)[1..] == rest;
  }

  /** A line without a break, followed by a break and more text, is the first of the lines. */
  lemma {:induction false} LinesAfterFirst(first: string, brk: string, rest: string)
    requires '\n' !in first && '\r' !in first
    requires brk == "\n" || brk == "\r\n" || (brk == "\r" && (|rest| == 0 || rest[0] != '\n'))
    ensures Lines(first + brk + rest) == [first] + Lines(rest)
    decreases |first|
  {
    var s := first + brk + rest;
    if |first| == 0 {
      assert s == brk + rest;
      if brk == "\r\n" {
        assert s[2..] == rest;
      } else {
        assert s[1..] == rest;
      }
    } else {
      assert s[0] == first[0];
      assert s[1..] == first[1..] + brk + rest;
      LinesAfterFirst(first[1..], brk, rest);
      assert [first[0]] + first[1..] == first;
    }
  }

  /**
   * Kotlin's `prependIndent`: the text's lines (see `Lines`) each get the
   * indent in front, except a blank line, which becomes the indent when
   * shorter than it and is kept otherwise; the lines are joined with "\n".
   */
  function PrependIndent(s: string, indent: string): (r: string)
    ensures '\n' !in s && '\r' !in s ==> r == IndentLine(s, indent)
  {
    var lines := Lines(s);
    if '\n' !in s && '\r' !in s then
      LinesWithoutBreaks(s);
      Join(seq(|lines|, i requires 0 <= i < |lines| => IndentLine(lines[i], indent)), "\n")
    else
      Join(seq(|lines|, i requires 0 <= i < |lines| => IndentLine(lines[i], indent)), "\n")
  }

  /** Text without a line break is one line. */
  lemma {:induction false} LinesWithoutBreaks(s: string)
    requires '\n' !in s && '\r' !in s
    ensures Lines(s) == [s]
    decreases |s|
  {
    if |s| > 0 {
      LinesWithoutBreaks(s[1..]);
      assert [s[0]] + s[1..] == s;
    }
  }

  /**
   * Indenting text indents its first line and then the rest, line by line,
   * whichever of "\n", "\r\n" or a lone "\r" ends the first line; the
   * result always breaks lines with "\n".
   */
  lemma PrependIndentFirstLine(first: string, brk: string, rest: string, indent: string)
    requires '\n' !in first && '\r' !in first
    requires brk == "\n" || brk == "\r\n" || (brk == "\r" && (|rest| == 0 || rest[0] != '\n'))
    ensures PrependIndent(first + brk + rest, indent) == IndentLine(first, indent) + "\n" + PrependIndent(rest, indent)
  {
    LinesAfterFirst(first, brk, rest);
    var lines := Lines(first + brk + rest);
    var tail := Lines(rest);
    var indented := seq(|lines|, i requires 0 <= i < |lines| => IndentLine(lines[i], indent));
    var indentedTail := seq(|tail|, i requires 0 <= i < |tail| => IndentLine(tail[i], indent));
    assert indented == [IndentLine(first, indent)] + indentedTail;
    JoinCons(IndentLine(first, indent), indentedTail, "\n");
  }

  /** A "\r\n"-separated report is indented line by line and comes out with "\n" breaks. */
  lemma CrLfIndented()
    ensures PrependIndent("a\r\nb", "  ") == "  a\n  b"
  {
    PrependIndentFirstLine("a", "\r\n", "b", "  ");
    assert "a" + "\r\n" + "b" == "a\r\nb";
    assert !IsWhitespace('a') && !IsWhitespace('b');
    assert IndentLine("a", "  ") == "  a" && PrependIndent("b", "  ") == "  b";
  }

  function IndentLine(line: string, indent: string): (r: string)
    ensures !IsBlank(line) ==> r == indent + line
    ensures IsBlank(line) ==> r == (if |line| < |indent| then indent else line)
  {
    if IsBlank(line) then (if |line| < |indent| then indent else line) else indent + line
  }

  /** Trimming text that starts with a non-whitespace `prefix` keeps the prefix as long as some later character is not whitespace. */
  lemma TrimKeepsPrefix(prefix: string, rest: string, k: nat)
    requires |prefix| > 0 && !IsWhitespace(prefix[0])
    requires k < |rest| && !IsWhitespace(rest[k])
    ensures StartsWith(Trim(prefix + rest), prefix)
  {
    var s := prefix + rest;
    assert TrimStart(s) == s;
    var r := TrimEnd(s);
    assert s[|prefix| + k] == rest[k];
    assert |r| > |prefix| + k;
    assert r[..|prefix|] == s[..|prefix|] == prefix;
  }

  /** Trimming text that starts with a `prefix` whose ends are not whitespace keeps the whole prefix. */
  lemma TrimKeepsFirstLine(prefix: string, rest: string)
    requires |prefix| > 0 && !IsWhitespace(prefix[0]) && !IsWhitespace(prefix[|prefix| - 1])
    ensures StartsWith(Trim(prefix + rest), prefix)
  {
    var s := prefix + rest;
    assert TrimStart(s) == s;
    var r := TrimEnd(s);
    assert s[|prefix| - 1] == prefix[|prefix| - 1];
    assert |r| >= |prefix|;
    assert r[..|prefix|] == s[..|prefix|] == prefix;
  }

  function LowerChar(c: char): char {
    if 'A' <= c <= 'Z' then (c as int + 32) as char else c
  }

  /** Kotlin's `lowercase()`, restricted to ASCII letters. */
  function Lower(s: string): (r: string)
    ensures |r| == |s|
    ensures forall i {:trigger r[i]} :: 0 <= i < |s| ==> r[i] == LowerChar(s[i])
  {
    if |s| == 0 then "" else [LowerChar(s[0])] + Lower(s[1..])
  }

  /** Lowercasing works character by character, so it distributes over concatenation. */
  lemma {:induction false} LowerConcat(a: string, b: string)
    ensures Lower(a + b) == Lower(a) + Lower(b)
    decreases |a|
  {
    if |a| == 0 {
      assert a + b == b;
    } else {
      LowerConcat(a[1..], b);
      assert (a + b)[0] == a[0] && (a + b)[1..] == a[1..] + b;
      calc {
        Lower(a + b);
        [LowerChar(a[0])] + Lower(a[1..] + b);
        [LowerChar(a[0])] + (Lower(a[1..]) + Lower(b));
        ([LowerChar(a[0])] + Lower(a[1..])) + Lower(b);
        Lower(a) + Lower(b);
      }
    }
  }


  function UpperChar(c: char): char {
    if 'a' <= c <= 'z' then (c as int - 32) as char else c
  }

  /** The first character upper-cased, the rest untouched. */
  function CapitalizeFirst(s: string): (r: string)
    ensures |r| == |s|
    ensures |s| > 0 ==> r[0] == UpperChar(s[0]) && r[1..] == s[1..]
  {
    if |s| == 0 then "" else [UpperChar(s[0])] + s[1..]
  }

  /** Header-name comparison: equal once both are lowercased. */
  predicate EqualsIgnoreCase(a: string, b: string) {
    Lower(a) == Lower(b)
  }

  predicate StartsWith(s: string, prefix: string) {
    |prefix| <= |s| && s[..|prefix|] == prefix
  }

  predicate EndsWith(s: string, suffix: string) {
    |suffix| <= |s| && s[|s| - |suffix|..] == suffix
  }

  /** Kotlin's `removePrefix`: the string without `prefix` when it starts with it. */
  function RemovePrefix(s: string, prefix: string): (r: string)
    ensures StartsWith(s, prefix) ==> prefix + r == s
    ensures !StartsWith(s, prefix) ==> r == s
  {
    if StartsWith(s, prefix) then s[|prefix|..] else s
  }

  /** Kotlin's `removeSuffix`. */
  function RemoveSuffix(s: string, suffix: string): (r: string)
    ensures EndsWith(s, suffix) ==> r + suffix == s
    ensures !EndsWith(s, suffix) ==> r == s
  {
    if EndsWith(s, suffix) then s[..|s| - |suffix|] else s
  }

  /** Kotlin's `removeSurrounding(prefix, suffix)`: both ends go, or nothing does. */
  function RemoveSurrounding(s: string, prefix: string, suffix: string): (r: string)
    ensures |s| >= |prefix| + |suffix| && StartsWith(s, prefix) && EndsWith(s, suffix) ==> prefix + r + suffix == s
    ensures !(|s| >= |prefix| + |suffix| && StartsWith(s, prefix) && EndsWith(s, suffix)) ==> r == s
  {
    if |s| >= |prefix| + |suffix| && StartsWith(s, prefix) && EndsWith(s, suffix) then
      var r := s[|prefix|..|s| - |suffix|];
      assert prefix + r + suffix == s by {
        assert s == s[..|prefix|] + s[|prefix|..|s| - |suffix|] + s[|s| - |suffix|..];
      }
      r
    else s
  }

  /** Index of the first occurrence of `c`. */
  function IndexOf(s: string, c: char): (r: Option<nat>)
    ensures r.None? <==> c !in s
    ensures r.Some? ==> r.value < |s| && s[r.value] == c && c !in s[..r.value]
  {
    if |s| == 0 then None
    else if s[0] == c then Some(0)
    else
      match IndexOf(s[1..], c)
      case None => None
      case Some(i) => assert s[..i + 1] == [s[0]] + s[1..][..i]; Some(i + 1)
  }

  /** Concatenation of `parts` with `sep` between neighbours (Kotlin's `joinToString(sep)`). */
  function Join(parts: seq<string>, sep: string): string {
    if |parts| == 0 then ""
    else if |parts| == 1 then parts[0]
    else parts[0] + sep + Join(parts[1..], sep)
  }

  /** Kotlin's `split(sep)` on a one-character separator: never empty, keeps empty pieces. */
  function Split(s: string, sep: char): (r: seq<string>)
    ensures |r| >= 1
    ensures forall i :: 0 <= i < |r| ==> sep !in r[i]
    decreases |s|
  {
    match IndexOf(s, sep)
    case None => [s]
    case Some(i) => [s[..i]] + Split(s[i + 1..], sep)
  }

  /** Splitting and joining again with the same separator gives the input back. */
  lemma {:induction false} JoinSplit(s: string, sep: char)
    ensures Join(Split(s, sep), [sep]) == s
    decreases |s|
  {
    match IndexOf(s, sep)
    case None =>
    case Some(i) =>
      var rest := Split(s[i + 1..], sep);
      JoinSplit(s[i + 1..], sep);
      assert Split(s, sep) == [s[..i]] + rest;
      assert Join(Split(s, sep), [sep]) == s[..i] + [sep] + Join(rest, [sep]);
      assert s == s[..i] + [sep] + s[i + 1..];
  }

  /** Splitting at the first separator: the piece before it, then the split of the rest. */
  lemma SplitAtFirst(a: string, sep: char, b: string)
    requires sep !in a
    ensures Split(a + [sep] + b, sep) == [a] + Split(b, sep)
  {
    var s := a + [sep] + b;
    assert s[|a|] == sep;
    assert s[..|a|] == a && s[|a| + 1..] == b;
  }

  /** Splitting a string that holds no separator yields it alone. */
  lemma SplitWithoutSeparator(s: string, sep: char)
    requires sep !in s
    ensures Split(s, sep) == [s]
  {
  }

  // ---- decimal digits ----

  predicate IsDigit(c: char) {
    '0' <= c <= '9'
  }

  predicate AllDigits(s: string) {
    forall i :: 0 <= i < |s| ==> IsDigit(s[i])
  }

  function DigitChar(d: nat): (c: char)
    requires d < 10
    ensures IsDigit(c)
  {
    ('0' as int + d) as char
  }

  function DigitValue(c: char): (d: nat)
    requires IsDigit(c)
    ensures d < 10 && DigitChar(d) == c
  {
    c as int - '0' as int
  }

  /** Decimal rendering of a natural number, without leading zeros. */
  function NatToString(n: nat): (r: string)
    ensures |r| >= 1 && AllDigits(r)
    ensures |r| > 1 ==> r[0] != '0'
  {
    if n < 10 then [DigitChar(n)] else NatToString(n / 10) + [DigitChar(n % 10)]
  }

  /** Kotlin's `toString()` on an integer: a minus sign for negatives. */
  function IntToString(i: int): (r: string)
    ensures i >= 0 ==> r == NatToString(i)
    ensures i < 0 ==> r == "-" + NatToString(-i)
  {
    if i < 0 then "-" + NatToString(-i) else NatToString(i)
  }

  /** The value of a string of decimal digits, read left to right. */
  function DigitsToNat(s: string): nat
    requires AllDigits(s)
  {
    if |s| == 0 then 0 else DigitsToNat(s[..|s| - 1]) * 10 + DigitValue(s[|s| - 1])
  }

  lemma {:induction false} DigitsToNatPositive(s: string)
    requires AllDigits(s) && |s| >= 1 && s[0] != '0'
    ensures DigitsToNat(s) >= 1
    decreases |s|
  {
    if |s| > 1 {
      DigitsToNatPositive(s[..|s| - 1]);
    } else {
      assert DigitsToNat(s) == DigitsToNat(s[..0]) * 10 + DigitValue(s[0]);
      assert DigitChar(DigitValue(s[0])) == s[0];
    }
  }

  /** Rendering a number and reading it back gives the number. */
  lemma {:induction false} DigitsOfNatToString(n: nat)
    ensures DigitsToNat(NatToString(n)) == n
    decreases n
  {
    if n >= 10 {
      DigitsOfNatToString(n / 10);
      var s := NatToString(n);
      assert s[..|s| - 1] == NatToString(n / 10);
    }
  }

  /** Reading a digit string without a leading zero and rendering it again gives the string. */
  lemma {:induction false} NatToStringOfDigits(s: string)
    requires AllDigits(s) && |s| >= 1 && s[0] != '0'
    ensures NatToString(DigitsToNat(s)) == s
    decreases |s|
  {
    var init := s[..|s| - 1];
    var d := DigitValue(s[|s| - 1]);
    if |s| == 1 {
      assert DigitsToNat(s) == d;
      assert [DigitChar(d)] == s;
    } else {
      NatToStringOfDigits(init);
      DigitsToNatPositive(init);
      var n := DigitsToNat(s);
      assert n == DigitsToNat(init) * 10 + d;
      assert n / 10 == DigitsToNat(init) && n % 10 == d;
      assert NatToString(n) == init + [DigitChar(d)];
      assert s == init + [s[|s| - 1]];
    }
  }

  /** The number of decimal digits of a value built from `k` digits is at most `k`. */
  lemma {:induction false} DigitsToNatBound(s: string)
    requires AllDigits(s)
    ensures DigitsToNat(s) < Pow10(|s|)
    decreases |s|
  {
    if |s| > 0 {
      DigitsToNatBound(s[..|s| - 1]);
    }
  }

  /** A digit string with a nonzero leading digit is at least ten to the power of its length minus one. */
  lemma {:induction false} DigitsToNatLowerBound(s: string)
    requires AllDigits(s) && |s| >= 1 && s[0] != '0'
    ensures DigitsToNat(s) >= Pow10(|s| - 1)
    decreases |s|
  {
    if |s| == 1 {
      DigitsToNatPositive(s);
    } else {
      DigitsToNatLowerBound(s[..|s| - 1]);
    }
  }

  function Pow10(k: nat): (r: nat)
    ensures r >= 1
  {
    if k == 0 then 1 else 10 * Pow10(k - 1)
  }

  /**
   * Kotlin's `toInt()` without its 32-bit bound: an optional sign, '-' or
   * '+', followed by at least one decimal digit.
   */
  function ParseInt(s: string): (r: Option<int>)
    ensures r.Some? <==> (|s| > 0 && AllDigits(s)) || (|s| > 1 && (s[0] == '-' || s[0] == '+') && AllDigits(s[1..]))
    ensures r.Some? && |s| > 0 && s[0] != '-' && s[0] != '+' ==> AllDigits(s) && r.value == DigitsToNat(s)
    ensures r.Some? && s[0] == '+' ==> r.value == DigitsToNat(s[1..])
    ensures r.Some? && s[0] == '-' ==> r.value == 0 - DigitsToNat(s[1..]) as int
  {
    if |s| > 1 && s[0] == '-' && AllDigits(s[1..]) then Some(0 - DigitsToNat(s[1..]) as int)
    else if |s| > 1 && s[0] == '+' && AllDigits(s[1..]) then Some(DigitsToNat(s[1..]))
    else if |s| > 0 && AllDigits(s) then Some(DigitsToNat(s))
    else None
  }

  /** A '+' in front of an integer's digits does not change the integer read. */
  lemma PlusSignIgnored(n: nat)
    ensures ParseInt("+" + NatToString(n)) == Some(n)
  {
    var digits := NatToString(n);
    DigitsOfNatToString(n);
    assert ("+" + digits)[1..] == digits;
  }

  /** Every integer's rendering parses back to it. */
  lemma ParseIntToString(i: int)
    ensures ParseInt(IntToString(i)) == Some(i)
  {
    var s := IntToString(i);
    if i < 0 {
      var digits := NatToString(-i);
      assert s[0] == '-' && s[1..] == digits;
      DigitsOfNatToString(-i);
      assert ParseInt(s) == Some(0 - DigitsToNat(digits) as int);
    } else {
      DigitsOfNatToString(i);
      assert IsDigit(s[0]);
      assert ParseInt(s) == Some(DigitsToNat(s));
    }
  }
}

=== FILE: stub_cache.dfy ===
/**
 * The stateful stub's response cache: a list of JSON bodies, each filed
 * under the path it was created at, looked up by path and the value of
 * an id key. Adding is add-if-absent, deleting removes the entry a lookup
 * finds, updating is a delete followed by an add, and listing filters the
 * bodies of one path. The cache is modelled as an immutable sequence; the
 * lock that serialises the mutations plays no part.
 */
module StubCaches {
  import opened Wrappers
  import opened Values
  import opened AssocLists
  import opened Results
  import Strings
  import Scenarios

  const DefaultCacheResponseIdKey := "id"
  const RequestBodyKey := "requestBody"
  const ResponseBodyKey := "responseBody"
  const StatusCodeKey := "statusCode"
  const MethodKey := "method"
  const RequestHeadersKey := "requestHeaders"
  const ResponseHeadersKey := "responseHeaders"

  /** The message the cast of a request body that is not a JSON object fails with. */
  const RequestBodyNotAnObject := "Request body is not a JSON object"

  /** The members of a JSON object, in order. */
  type JsonObject = seq<(string, Value)>

  datatype CachedResponse = CachedResponse(path: string, responseBody: JsonObject)

  /** The cached entries in the order they were added. */
  type Cache = seq<CachedResponse>

  /**
   * The id of a body under `idKey`, a dot-separated path into nested
   * objects, as text; a body where the path leads nowhere has the empty id.
   * A key without dots is a plain top-level lookup.
   */
  function IdValueFor(idKey: string, body: JsonObject): (id: string)
    ensures FindFirstChildByPath(JSONObjectValue(body), idKey).None? ==> id == ""
    ensures FindFirstChildByPath(JSONObjectValue(body), idKey).Some? ==>
      id == ToStringLiteral(FindFirstChildByPath(JSONObjectValue(body), idKey).value)
    ensures '.' !in idKey && !HasKey(body, idKey) ==> id == ""
    ensures '.' !in idKey && HasKey(body, idKey) ==> id == ToStringLiteral(Get(body, idKey).value)
  {
    var id := match FindFirstChildByPath(JSONObjectValue(body), idKey)
      case Some(v) => ToStringLiteral(v)
      case None => "";
    if '.' in idKey then id else PathWithoutDotIsMember(JSONObjectValue(body), idKey); id
  }

  /** Entry `e` is the one filed under `path` with id `idValue`. */
  predicate IsEntryFor(e: CachedResponse, path: string, idKey: string, idValue: string) {
    e.path == path && IdValueFor(idKey, e.responseBody) == idValue
  }

  /** The position of the first entry at or after `i` filed under `path` with id `idValue`. */
  function FindIndexFrom(cache: Cache, path: string, idKey: string, idValue: string, i: nat): (r: Option<nat>)
    requires i <= |cache|
    ensures r.Some? ==> i <= r.value < |cache| && IsEntryFor(cache[r.value], path, idKey, idValue)
    ensures r.Some? ==> forall j :: i <= j < r.value ==> !IsEntryFor(cache[j], path, idKey, idValue)
    ensures r.None? <==> forall j :: i <= j < |cache| ==> !IsEntryFor(cache[j], path, idKey, idValue)
    decreases |cache| - i
  {
    if i == |cache| then None
    else if IsEntryFor(cache[i], path, idKey, idValue) then Some(i)
    else FindIndexFrom(cache, path, idKey, idValue, i + 1)
  }

  function FindIndex(cache: Cache, path: string, idKey: string, idValue: string): (r: Option<nat>)
    ensures r.Some? ==> r.value < |cache| && IsEntryFor(cache[r.value], path, idKey, idValue)
    ensures r.Some? ==> forall j :: 0 <= j < r.value ==> !IsEntryFor(cache[j], path, idKey, idValue)
    ensures r.None? <==> forall j :: 0 <= j < |cache| ==> !IsEntryFor(cache[j], path, idKey, idValue)
  {
    FindIndexFrom(cache, path, idKey, idValue, 0)
  }

  /**
   * The first entry filed under `path` whose body has id `idValue`, if
   * any: none exists exactly when no entry is filed so, and no earlier
   * entry is.
   */
  function FindResponseFor(cache: Cache, path: string, idKey: string, idValue: string): (r: Option<CachedResponse>)
    ensures r.Some? <==> exists j :: 0 <= j < |cache| && IsEntryFor(cache[j], path, idKey, idValue)
    ensures r.Some? ==> r.value in cache && r.value.path == path && IdValueFor(idKey, r.value.responseBody) == idValue
    ensures r.Some? ==> exists k :: (0 <= k < |cache| && cache[k] == r.value &&
      forall j :: 0 <= j < k ==> !IsEntryFor(cache[j], path, idKey, idValue))
  {
    match FindIndex(cache, path, idKey, idValue)
    case Some(k) => Some(cache[k])
    case None => None
  }

  /** Adds the body under `path` unless an entry with that path and id is already cached. */
  function AddResponse(cache: Cache, path: string, body: JsonObject, idKey: string, idValue: string): (r: Cache)
    ensures (exists j :: 0 <= j < |cache| && IsEntryFor(cache[j], path, idKey, idValue)) ==> r == cache
    ensures (forall j :: 0 <= j < |cache| ==> !IsEntryFor(cache[j], path, idKey, idValue)) ==>
      r == cache + [CachedResponse(path, body)]
  {
    if FindResponseFor(cache, path, idKey, idValue).None? then cache + [CachedResponse(path, body)] else cache
  }

  /** The position of the first element equal to `e`. */
  function FirstIndexOf(cache: Cache, e: CachedResponse): (k: nat)
    requires e in cache
    ensures k < |cache| && cache[k] == e && e !in cache[..k]
  {
    if cache[0] == e then 0
    else
      var k := FirstIndexOf(cache[1..], e);
      assert cache[..k + 1] == [cache[0]] + cache[1..][..k];
      k + 1
  }

  /** The list without the first element equal to `e`, as a list's `remove` does it. */
  function RemoveFirst(cache: Cache, e: CachedResponse): (r: Cache)
    ensures e !in cache ==> r == cache
    ensures e in cache ==> |r| == |cache| - 1
    ensures e in cache ==> exists k :: 0 <= k < |cache| && cache[k] == e && e !in cache[..k] && r == cache[..k] + cache[k + 1..]
  {
    if e in cache then
      var k := FirstIndexOf(cache, e);
      cache[..k] + cache[k + 1..]
    else cache
  }

  /**
   * Deletes the entry a lookup finds, and nothing else: the result is the
   * cache without the first entry filed under `path` with id `idValue`,
   * or the cache itself when there is none.
   */
  function DeleteResponse(cache: Cache, path: string, idKey: string, idValue: string): (r: Cache)
    ensures FindIndex(cache, path, idKey, idValue).None? ==> r == cache
    ensures FindIndex(cache, path, idKey, idValue).Some? ==>
      var k := FindIndex(cache, path, idKey, idValue).value;
      r == cache[..k] + cache[k + 1..]
  {
    match FindResponseFor(cache, path, idKey, idValue)
    case None => cache
    case Some(e) =>
      var k := FindIndex(cache, path, idKey, idValue).value;
      var r := RemoveFirst(cache, e);
      assert r == cache[..k] + cache[k + 1..] by {
        var k' :| 0 <= k' < |cache| && cache[k'] == e && e !in cache[..k'] && r == cache[..k'] + cache[k' + 1..];
        if k < k' {
          assert cache[..k'][k] == e;
        }
      }
      r
  }

  /** Replaces the entry filed under `path` with id `idValue` by the new body: a delete, then an add. */
  function UpdateResponse(cache: Cache, path: string, body: JsonObject, idKey: string, idValue: string): (r: Cache)
    ensures |r| <= |cache| + 1
    ensures forall e :: e in r && e != CachedResponse(path, body) ==> e in cache
  {
    AddResponse(DeleteResponse(cache, path, idKey, idValue), path, body, idKey, idValue)
  }

  /** Within a path, no two entries share an id under `idKey`. */
  ghost predicate UniqueIds(cache: Cache, idKey: string) {
    forall i, j :: 0 <= i < j < |cache| && cache[i].path == cache[j].path ==>
      IdValueFor(idKey, cache[i].responseBody) != IdValueFor(idKey, cache[j].responseBody)
  }

  /** Adding a body that carries the id it is added under keeps ids unique. */
  lemma AddKeepsIdsUnique(cache: Cache, path: string, body: JsonObject, idKey: string, idValue: string)
    requires UniqueIds(cache, idKey) && IdValueFor(idKey, body) == idValue
    ensures UniqueIds(AddResponse(cache, path, body, idKey, idValue), idKey)
  {
    var r := AddResponse(cache, path, body, idKey, idValue);
    if r != cache {
      forall i, j | 0 <= i < j < |r| && r[i].path == r[j].path
        ensures IdValueFor(idKey, r[i].responseBody) != IdValueFor(idKey, r[j].responseBody)
      {
        if j == |cache| {
          assert !IsEntryFor(cache[i], path, idKey, idValue);
        }
      }
    }
  }

  /** After an add of a body carrying the id, a lookup finds an entry, and the new one when none was cached before. */
  lemma AddThenFind(cache: Cache, path: string, body: JsonObject, idKey: string, idValue: string)
    requires IdValueFor(idKey, body) == idValue
    ensures FindResponseFor(AddResponse(cache, path, body, idKey, idValue), path, idKey, idValue).Some?
    ensures FindResponseFor(cache, path, idKey, idValue).None? ==>
      FindResponseFor(AddResponse(cache, path, body, idKey, idValue), path, idKey, idValue) == Some(CachedResponse(path, body))
    ensures FindResponseFor(cache, path, idKey, idValue).Some? ==>
      FindResponseFor(AddResponse(cache, path, body, idKey, idValue), path, idKey, idValue) == FindResponseFor(cache, path, idKey, idValue)
  {
    var r := AddResponse(cache, path, body, idKey, idValue);
    if FindResponseFor(cache, path, idKey, idValue).None? {
      assert IsEntryFor(r[|cache|], path, idKey, idValue);
      var k := FindIndex(r, path, idKey, idValue).value;
      assert k == |cache|;
    }
  }

  /** Adding the same body under the same path and id twice leaves one entry. */
  lemma AddIsIdempotent(cache: Cache, path: string, body: JsonObject, idKey: string, idValue: string)
    requires IdValueFor(idKey, body) == idValue
    ensures AddResponse(AddResponse(cache, path, body, idKey, idValue), path, body, idKey, idValue) ==
      AddResponse(cache, path, body, idKey, idValue)
  {
    AddThenFind(cache, path, body, idKey, idValue);
  }

  /** Deleting keeps ids unique, and when they are unique no entry for that path and id remains. */
  lemma DeleteRemovesTheEntry(cache: Cache, path: string, idKey: string, idValue: string)
    requires UniqueIds(cache, idKey)
    ensures UniqueIds(DeleteResponse(cache, path, idKey, idValue), idKey)
    ensures FindResponseFor(DeleteResponse(cache, path, idKey, idValue), path, idKey, idValue).None?
  {
    var r := DeleteResponse(cache, path, idKey, idValue);
    if FindIndex(cache, path, idKey, idValue).Some? {
      var k := FindIndex(cache, path, idKey, idValue).value;
      assert forall j :: 0 <= j < |r| ==> r[j] == cache[if j < k then j else j + 1];
      forall j | 0 <= j < |r|
        ensures !IsEntryFor(r[j], path, idKey, idValue)
      {
        var j' := if j < k then j else j + 1;
        assert r[j] == cache[j'];
      }
    }
  }

  /** Deleting leaves every entry other than the one removed where it was, in order. */
  lemma DeleteKeepsOthers(cache: Cache, path: string, idKey: string, idValue: string, e: CachedResponse)
    requires !IsEntryFor(e, path, idKey, idValue)
    ensures e in DeleteResponse(cache, path, idKey, idValue) <==> e in cache
  {
    var r := DeleteResponse(cache, path, idKey, idValue);
    if FindIndex(cache, path, idKey, idValue).Some? {
      var k := FindIndex(cache, path, idKey, idValue).value;
      if e in cache {
        var j :| 0 <= j < |cache| && cache[j] == e;
        assert j != k;
        assert r[if j < k then j else j - 1] == e;
      }
    }
  }

  /**
   * With unique ids, updating with a body that carries the id leaves the
   * new body as the entry a lookup finds, keeps ids unique, and keeps
   * every entry filed under another path or id.
   */
  lemma UpdateReplaces(cache: Cache, path: string, body: JsonObject, idKey: string, idValue: string)
    requires UniqueIds(cache, idKey) && IdValueFor(idKey, body) == idValue
    ensures FindResponseFor(UpdateResponse(cache, path, body, idKey, idValue), path, idKey, idValue) == Some(CachedResponse(path, body))
    ensures UniqueIds(UpdateResponse(cache, path, body, idKey, idValue), idKey)
    ensures forall e :: !IsEntryFor(e, path, idKey, idValue) ==>
      (e in UpdateResponse(cache, path, body, idKey, idValue) <==> e in cache)
  {
    var deleted := DeleteResponse(cache, path, idKey, idValue);
    DeleteRemovesTheEntry(cache, path, idKey, idValue);
    AddThenFind(deleted, path, body, idKey, idValue);
    AddKeepsIdsUnique(deleted, path, body, idKey, idValue);
    forall e | !IsEntryFor(e, path, idKey, idValue)
      ensures e in UpdateResponse(cache, path, body, idKey, idValue) <==> e in cache
    {
      DeleteKeepsOthers(cache, path, idKey, idValue, e);
    }
  }

  // ---- listing ----

  /** One filter entry holds: the body lacks its key, or the key's value reads as the filter's text. */
  predicate FilterEntryHolds(body: JsonObject, entry: (string, string)) {
    !HasKey(body, entry.0) || ToStringLiteral(Get(body, entry.0).value) == entry.1
  }

  /**
   * Whether a body passes the filter: every filter key the body has must
   * hold a value that reads as the filter's text; keys the body lacks are
   * ignored, so the empty filter passes everything.
   */
  function SatisfiesFilter(body: JsonObject, filter: seq<(string, string)>): (b: bool)
    ensures |filter| == 0 ==> b
    ensures b <==> forall i :: 0 <= i < |filter| && HasKey(body, filter[i].0) ==>
      ToStringLiteral(Get(body, filter[i].0).value) == filter[i].1
  {
    if |filter| == 0 then true
    else
      assert forall i :: 1 <= i < |filter| ==> filter[i] == filter[1..][i - 1];
      FilterEntryHolds(body, filter[0]) && SatisfiesFilter(body, filter[1..])
  }

  /** A filter key the body does not have changes nothing. */
  lemma AbsentFilterKeyIgnored(body: JsonObject, filter: seq<(string, string)>, key: string, text: string)
    requires !HasKey(body, key)
    ensures SatisfiesFilter(body, filter + [(key, text)]) == SatisfiesFilter(body, filter)
  {
    var extended := filter + [(key, text)];
    assert forall i :: 0 <= i < |filter| ==> extended[i] == filter[i];
  }

  /** A filter key the body has admits exactly the value whose literal is the filter's text. */
  lemma PresentFilterKeyMustMatch(body: JsonObject, key: string, text: string)
    requires HasKey(body, key)
    ensures SatisfiesFilter(body, [(key, text)]) <==> ToStringLiteral(Get(body, key).value) == text
  {
    assert [(key, text)][0] == (key, text);
  }

  /** The bodies under `path` that pass the filter, in cache order, each cut down by `select`. */
  function ResponseBodies(cache: Cache, path: string, filter: seq<(string, string)>,
                          select: JsonObject -> JsonObject): (r: seq<Value>)
    ensures |r| <= |cache|
    ensures forall x :: x in r <==> exists i :: (0 <= i < |cache| && cache[i].path == path &&
      SatisfiesFilter(cache[i].responseBody, filter) && x == JSONObjectValue(select(cache[i].responseBody)))
  {
    if |cache| == 0 then []
    else
      var last := cache[|cache| - 1];
      var init := ResponseBodies(cache[..|cache| - 1], path, filter, select);
      assert forall i :: 0 <= i < |cache| - 1 ==> cache[..|cache| - 1][i] == cache[i];
      init + (if last.path == path && SatisfiesFilter(last.responseBody, filter) then [JSONObjectValue(select(last.responseBody))] else [])
  }

  /** Listing keeps insertion order: an added entry is listed after every earlier one. */
  lemma ListingKeepsInsertionOrder(cache: Cache, e: CachedResponse, path: string, filter: seq<(string, string)>,
                                   select: JsonObject -> JsonObject)
    ensures ResponseBodies(cache + [e], path, filter, select) ==
      ResponseBodies(cache, path, filter, select) +
      (if e.path == path && SatisfiesFilter(e.responseBody, filter) then [JSONObjectValue(select(e.responseBody))] else [])
  {
    assert (cache + [e])[..|cache|] == cache;
  }

  /**
   * The bodies filed under `path` that pass the filter, each reduced to the
   * selected attributes; `removeKeysNotPresentIn` is the library's
   * attribute selection.
   */
  function FindAllResponsesFor(cache: Cache, path: string, attributeSelectionKeys: set<string>,
                               filter: seq<(string, string)>,
                               removeKeysNotPresentIn: (JsonObject, set<string>) -> JsonObject): (r: Value)
    ensures r.JSONArrayValue? && |r.list| <= |cache|
    ensures forall x :: x in r.list <==> exists i :: (0 <= i < |cache| && cache[i].path == path &&
      SatisfiesFilter(cache[i].responseBody, filter) &&
      x == JSONObjectValue(removeKeysNotPresentIn(cache[i].responseBody, attributeSelectionKeys)))
  {
    JSONArrayValue(ResponseBodies(cache, path, filter, body => removeKeysNotPresentIn(body, attributeSelectionKeys)))
  }

  // ---- accepted responses ----

  /** Headers as a list of name/value records, the shape they are serialised in. */
  function HeadersList(headers: seq<(string, string)>): (r: seq<seq<(string, string)>>)
    ensures |r| == |headers|
    ensures forall i :: 0 <= i < |r| ==> r[i] == [("name", headers[i].0), ("value", headers[i].1)]
  {
    seq(|headers|, i requires 0 <= i < |headers| => [("name", headers[i].0), ("value", headers[i].1)])
  }

  /**
   * The record an accepted request is cached as: the response's id, both
   * bodies, and the status, method and headers of the exchange.
   * `parsedValue` reads text as a value; `asString` serialises a header list.
   */
  function AcceptedRecord(finalResponseBody: JsonObject, response: Scenarios.HttpResponse, requestBody: JsonObject,
                          request: Scenarios.HttpRequest, parsedValue: string -> Value,
                          asString: seq<seq<(string, string)>> -> string): (w: JsonObject)
    ensures Keys(w) == [DefaultCacheResponseIdKey, RequestBodyKey, ResponseBodyKey, StatusCodeKey, MethodKey,
                        RequestHeadersKey, ResponseHeadersKey]
    ensures Get(w, DefaultCacheResponseIdKey) ==
      Some(FindFirstChildByPath(JSONObjectValue(finalResponseBody), DefaultCacheResponseIdKey).GetOr(EmptyString))
    ensures Get(w, RequestBodyKey) == Some(JSONObjectValue(requestBody))
    ensures Get(w, ResponseBodyKey) == Some(JSONObjectValue(finalResponseBody))
    ensures Get(w, StatusCodeKey) == Some(parsedValue(Strings.IntToString(response.status)))
  {
    var w := [(DefaultCacheResponseIdKey,
               FindFirstChildByPath(JSONObjectValue(finalResponseBody), DefaultCacheResponseIdKey).GetOr(EmptyString)),
              (RequestBodyKey, JSONObjectValue(requestBody)),
              (ResponseBodyKey, JSONObjectValue(finalResponseBody)),
              (StatusCodeKey, parsedValue(Strings.IntToString(response.status))),
              (MethodKey, parsedValue(request.httpMethod)),
              (RequestHeadersKey, parsedValue(asString(HeadersList(request.headers)))),
              (ResponseHeadersKey, parsedValue(asString(HeadersList(response.headers))))];
    KeysOfRecord(w);
    RecordKeysDiffer();
    var k0, k1, k2, k3 := w[0].0, w[1].0, w[2].0, w[3].0;
    assert k0 == DefaultCacheResponseIdKey && k1 == RequestBodyKey && k2 == ResponseBodyKey && k3 == StatusCodeKey;
    GetFirstOccurrence(w, 0);
    forall j | 0 <= j < 1 ensures w[j].0 != k1 { assert j == 0; }
    GetFirstOccurrence(w, 1);
    forall j | 0 <= j < 2 ensures w[j].0 != k2 { assert j == 0 || j == 1; }
    GetFirstOccurrence(w, 2);
    forall j | 0 <= j < 3 ensures w[j].0 != k3 { assert j == 0 || j == 1 || j == 2; }
    GetFirstOccurrence(w, 3);
    w
  }

  /** The first four record keys differ, as their lengths do. */
  lemma RecordKeysDiffer()
    ensures DefaultCacheResponseIdKey != RequestBodyKey && DefaultCacheResponseIdKey != ResponseBodyKey
    ensures DefaultCacheResponseIdKey != StatusCodeKey && RequestBodyKey != ResponseBodyKey
    ensures RequestBodyKey != StatusCodeKey && ResponseBodyKey != StatusCodeKey
  {
    assert |DefaultCacheResponseIdKey| == 2 && |RequestBodyKey| == 11;
    assert |ResponseBodyKey| == 12 && |StatusCodeKey| == 10;
  }

  /** The keys of a seven-entry record, position by position. */
  lemma KeysOfRecord<V>(w: seq<(string, V)>)
    requires |w| == 7
    ensures Keys(w) == [w[0].0, w[1].0, w[2].0, w[3].0, w[4].0, w[5].0, w[6].0]
  {
  }

  /**
   * Caches an accepted request: the request body must be a JSON object,
   * else the cast throws before anything is looked up; the record is added
   * only when nothing is filed under `path` with id `idValue`.
   */
  function AddAcceptedResponse(cache: Cache, path: string, finalResponseBody: JsonObject,
                               response: Scenarios.HttpResponse, request: Scenarios.HttpRequest,
                               idKey: string, idValue: string, parsedValue: string -> Value,
                               asString: seq<seq<(string, string)>> -> string): (o: Outcome<Cache>)
    ensures !request.body.JSONObjectValue? ==> o == Thrown(OtherThrowable(RequestBodyNotAnObject))
    ensures request.body.JSONObjectValue? ==> o.Ok?
    ensures o.Ok? && (exists j :: 0 <= j < |cache| && IsEntryFor(cache[j], path, idKey, idValue)) ==> o.value == cache
    ensures o.Ok? && (forall j :: 0 <= j < |cache| ==> !IsEntryFor(cache[j], path, idKey, idValue)) ==>
      o.value == cache + [CachedResponse(path, AcceptedRecord(finalResponseBody, response, request.body.jsonObject, request,
                                                              parsedValue, asString))]
  {
    if !request.body.JSONObjectValue? then Thrown(OtherThrowable(RequestBodyNotAnObject))
    else
      var record := AcceptedRecord(finalResponseBody, response, request.body.jsonObject, request, parsedValue, asString);
      Ok(AddResponse(cache, path, record, idKey, idValue))
  }

  /** The cached record carries the response's id: looking it up by "id" reads the same as the response body. */
  lemma AcceptedRecordKeepsId(finalResponseBody: JsonObject, response: Scenarios.HttpResponse, requestBody: JsonObject,
                              request: Scenarios.HttpRequest, parsedValue: string -> Value,
                              asString: seq<seq<(string, string)>> -> string)
    ensures IdValueFor(DefaultCacheResponseIdKey, AcceptedRecord(finalResponseBody, response, requestBody, request, parsedValue, asString)) ==
      IdValueFor(DefaultCacheResponseIdKey, finalResponseBody)
  {
    assert ToStringLiteral(EmptyString) == "";
    PathWithoutDotIsMember(JSONObjectValue(finalResponseBody), DefaultCacheResponseIdKey);
  }
}

=== FILE: stub_loading.dfy ===
/**
 * Loading stubs against contracts. Each stub is offered to the features in
 * order and goes to the first that accepts it; a stub no feature accepts
 * is an error in strict mode and is dropped otherwise. The accepted stubs
 * are grouped per feature in the order features first received one, and
 * the features that received none follow with an empty list. The error
 * text names the contracts a stub did not match, preferring the reports
 * that still have errors with all fluff removed.
 */
module StubLoading {
  import opened Wrappers
  import opened Strings
  import opened Results

  /** The extensions an OpenAPI specification file may have. */
  const OpenApiFileExtensions := ["yaml", "yml", "json"]

  /** Whether a path, trimmed, ends in one of the OpenAPI extensions. */
  predicate HasOpenApiFileExtension(contractPath: string)
    ensures HasOpenApiFileExtension(contractPath) ==> |Trim(contractPath)| >= 4 && '.' in Trim(contractPath)
  {
    ExtensionShape(Trim(contractPath));
    exists i :: 0 <= i < |OpenApiFileExtensions| && EndsWith(Trim(contractPath), "." + OpenApiFileExtensions[i])
  }

  /** Text ending in a dot and an OpenAPI extension has at least four characters, one of them a dot. */
  lemma ExtensionShape(t: string)
    ensures forall i :: 0 <= i < |OpenApiFileExtensions| && EndsWith(t, "." + OpenApiFileExtensions[i]) ==>
      |t| >= 4 && '.' in t
  {
    forall i | 0 <= i < |OpenApiFileExtensions| && EndsWith(t, "." + OpenApiFileExtensions[i])
      ensures |t| >= 4 && '.' in t
    {
      var suffix := "." + OpenApiFileExtensions[i];
      assert |OpenApiFileExtensions[i]| >= 3 by {
        assert i == 0 || i == 1 || i == 2;
      }
      assert t[|t| - |suffix|] == suffix[0] == '.';
    }
  }

  /** The extension test spelled out: ".yaml", ".yml" or ".json" at the end of the trimmed path. */
  lemma OpenApiExtensions(contractPath: string)
    ensures HasOpenApiFileExtension(contractPath) <==>
      (EndsWith(Trim(contractPath), ".yaml") || EndsWith(Trim(contractPath), ".yml") || EndsWith(Trim(contractPath), ".json"))
  {
    var t := Trim(contractPath);
    assert "." + OpenApiFileExtensions[0] == ".yaml";
    assert "." + OpenApiFileExtensions[1] == ".yml";
    assert "." + OpenApiFileExtensions[2] == ".json";
    if HasOpenApiFileExtension(contractPath) {
      var i :| 0 <= i < |OpenApiFileExtensions| && EndsWith(t, "." + OpenApiFileExtensions[i]);
      assert i == 0 || i == 1 || i == 2;
    }
  }

  /** Surrounding line breaks do not change whether a path names an OpenAPI file. */
  lemma ExtensionIgnoresNewlines(contractPath: string)
    requires |contractPath| > 0 && !IsWhitespace(contractPath[0]) && !IsWhitespace(contractPath[|contractPath| - 1])
    ensures HasOpenApiFileExtension("\n" + contractPath + "\n") <==> HasOpenApiFileExtension(contractPath)
  {
    TrimNewlines(contractPath);
    TrimUntouched(contractPath);
  }

  // ---- error reports ----

  /** How a feature answered a stub: it matched, or no scenario matched and these are the failures. */
  datatype StubMatch = Matched | NoMatchingScenario(failures: seq<Result>)

  /** The failures of one contract for one stub, with the stub's request described as not recognised. */
  datatype StubMatchExceptionReport = StubMatchExceptionReport(requestNotRecognized: string, failures: seq<Result>)

  datatype StubMatchErrorReport = StubMatchErrorReport(exceptionReport: StubMatchExceptionReport, contractFilePath: string)

  /** The answer of one feature: the feature when it matched, otherwise the error report. */
  datatype StubMatchResults<F> = StubMatchResults(feature: Option<F>, errorReport: Option<StubMatchErrorReport>)

  /** The report with the failures fluffy at `fluffLevel` removed. */
  function WithoutFluff(report: StubMatchErrorReport, fluffLevel: nat, isFluffy: (Result, nat) -> bool): (r: StubMatchErrorReport)
    ensures r.contractFilePath == report.contractFilePath
    ensures r.exceptionReport.requestNotRecognized == report.exceptionReport.requestNotRecognized
    ensures forall f :: f in r.exceptionReport.failures <==> f in report.exceptionReport.failures && !isFluffy(f, fluffLevel)
  {
    var failures := report.exceptionReport.failures;
    var kept := KeepNotFluffy(failures, fluffLevel, isFluffy);
    StubMatchErrorReport(StubMatchExceptionReport(report.exceptionReport.requestNotRecognized, kept), report.contractFilePath)
  }

  function KeepNotFluffy(failures: seq<Result>, fluffLevel: nat, isFluffy: (Result, nat) -> bool): (r: seq<Result>)
    ensures forall f :: f in r <==> f in failures && !isFluffy(f, fluffLevel)
  {
    if |failures| == 0 then []
    else
      assert forall f :: f in failures <==> f == failures[0] || f in failures[1..];
      (if isFluffy(failures[0], fluffLevel) then [] else [failures[0]]) + KeepNotFluffy(failures[1..], fluffLevel, isFluffy)
  }

  predicate HasErrors(report: StubMatchErrorReport) {
    |report.exceptionReport.failures| > 0
  }

  /** The error reports among the answers, in order. */
  function ReportsOf<F>(matchResults: seq<StubMatchResults<F>>): (r: seq<StubMatchErrorReport>)
    ensures forall x :: x in r <==> exists i :: 0 <= i < |matchResults| && matchResults[i].errorReport == Some(x)
  {
    if |matchResults| == 0 then []
    else
      var rest := ReportsOf(matchResults[1..]);
      var r := (if matchResults[0].errorReport.Some? then [matchResults[0].errorReport.value] else []) + rest;
      assert forall x :: x in r <==> exists i :: 0 <= i < |matchResults| && matchResults[i].errorReport == Some(x) by {
        forall x
          ensures x in r <==> exists i :: 0 <= i < |matchResults| && matchResults[i].errorReport == Some(x)
        {
          if x in rest {
            var i :| 0 <= i < |matchResults[1..]| && matchResults[1..][i].errorReport == Some(x);
            assert matchResults[i + 1] == matchResults[1..][i];
          }
          if exists i :: 0 <= i < |matchResults| && matchResults[i].errorReport == Some(x) {
            var i :| 0 <= i < |matchResults| && matchResults[i].errorReport == Some(x);
            if i > 0 {
              assert matchResults[1..][i - 1] == matchResults[i];
            }
          }
        }
      }
      r
  }

  /** `x` is one of the reports with fluff at `fluffLevel` removed. */
  ghost predicate FromLevel(x: StubMatchErrorReport, reports: seq<StubMatchErrorReport>, fluffLevel: nat, isFluffy: (Result, nat) -> bool) {
    exists j :: 0 <= j < |reports| && x == WithoutFluff(reports[j], fluffLevel, isFluffy)
  }

  /** The reports with fluff at `fluffLevel` removed, keeping those that still have errors, in order. */
  function ReportsAtLevel(reports: seq<StubMatchErrorReport>, fluffLevel: nat, isFluffy: (Result, nat) -> bool):
    (r: seq<StubMatchErrorReport>)
    ensures |r| <= |reports|
    ensures forall x :: x in r ==> HasErrors(x)
    ensures forall x :: x in r <==> HasErrors(x) && exists i :: 0 <= i < |reports| && x == WithoutFluff(reports[i], fluffLevel, isFluffy)
  {
    if |reports| == 0 then []
    else
      var first := WithoutFluff(reports[0], fluffLevel, isFluffy);
      var rest := ReportsAtLevel(reports[1..], fluffLevel, isFluffy);
      var r := (if HasErrors(first) then [first] else []) + rest;
      assert forall x :: x in r <==> HasErrors(x) && exists i :: 0 <= i < |reports| && x == WithoutFluff(reports[i], fluffLevel, isFluffy) by {
        forall x
          ensures x in r <==> HasErrors(x) && exists i :: 0 <= i < |reports| && x == WithoutFluff(reports[i], fluffLevel, isFluffy)
        {
          if x in rest {
            var i :| 0 <= i < |reports[1..]| && x == WithoutFluff(reports[1..][i], fluffLevel, isFluffy);
            assert reports[i + 1] == reports[1..][i];
          }
          if HasErrors(x) && exists i :: 0 <= i < |reports| && x == WithoutFluff(reports[i], fluffLevel, isFluffy) {
            var i :| 0 <= i < |reports| && x == WithoutFluff(reports[i], fluffLevel, isFluffy);
            if i > 0 {
              assert reports[1..][i - 1] == reports[i];
            }
          }
        }
      }
      r
  }

  /**
   * The reports an error message is made of: those that keep errors once
   * every fluffy failure (level 0) is removed, or, only when there are
   * none, those that keep errors at fluff level 1.
   */
  function ErrorReports<F>(matchResults: seq<StubMatchResults<F>>, isFluffy: (Result, nat) -> bool): (r: seq<StubMatchErrorReport>)
    ensures forall x :: x in r ==> HasErrors(x)
    ensures ReportsAtLevel(ReportsOf(matchResults), 0, isFluffy) != [] ==> r == ReportsAtLevel(ReportsOf(matchResults), 0, isFluffy)
    ensures ReportsAtLevel(ReportsOf(matchResults), 0, isFluffy) == [] ==> r == ReportsAtLevel(ReportsOf(matchResults), 1, isFluffy)
    ensures r != [] ==> exists i :: 0 <= i < |matchResults| && matchResults[i].errorReport.Some?
  {
    var reports := ReportsOf(matchResults);
    var r := if ReportsAtLevel(reports, 0, isFluffy) != [] then ReportsAtLevel(reports, 0, isFluffy) else ReportsAtLevel(reports, 1, isFluffy);
    assert r != [] ==> reports != [] by {
      if reports == [] {
        assert ReportsAtLevel(reports, 0, isFluffy) == [] && ReportsAtLevel(reports, 1, isFluffy) == [];
      }
    }
    assert reports != [] ==> reports[0] in reports;
    r
  }

  /** A report that has errors once all fluff is removed keeps the message at fluff level 0. */
  lemma LevelZeroPreferred<F>(matchResults: seq<StubMatchResults<F>>, isFluffy: (Result, nat) -> bool, i: nat, f: Result)
    requires i < |matchResults| && matchResults[i].errorReport.Some?
    requires f in matchResults[i].errorReport.value.exceptionReport.failures && !isFluffy(f, 0)
    ensures WithoutFluff(matchResults[i].errorReport.value, 0, isFluffy) in ErrorReports(matchResults, isFluffy)
    ensures forall x :: x in ErrorReports(matchResults, isFluffy) ==> FromLevel(x, ReportsOf(matchResults), 0, isFluffy)
  {
    var report := matchResults[i].errorReport.value;
    var reports := ReportsOf(matchResults);
    assert report in reports;
    var j :| 0 <= j < |reports| && reports[j] == report;
    var x := WithoutFluff(report, 0, isFluffy);
    assert f in x.exceptionReport.failures;
    assert HasErrors(x);
    var levelZero := ReportsAtLevel(reports, 0, isFluffy);
    assert x in levelZero;
    assert ErrorReports(matchResults, isFluffy) == levelZero;
    forall y | y in levelZero
      ensures FromLevel(y, reports, 0, isFluffy)
    {
    }
  }

  /** With every failure fluffy, nothing is kept. */
  lemma {:induction false} AllFluffy(failures: seq<Result>, fluffLevel: nat, isFluffy: (Result, nat) -> bool)
    requires forall f :: f in failures ==> isFluffy(f, fluffLevel)
    ensures KeepNotFluffy(failures, fluffLevel, isFluffy) == []
  {
    if |failures| > 0 {
      assert failures[0] in failures;
      AllFluffy(failures[1..], fluffLevel, isFluffy);
    }
  }

  /** When no report keeps an error at a level, no report is chosen at that level. */
  lemma {:induction false} NoneKeepErrors(reports: seq<StubMatchErrorReport>, fluffLevel: nat, isFluffy: (Result, nat) -> bool)
    requires forall j :: 0 <= j < |reports| ==> !HasErrors(WithoutFluff(reports[j], fluffLevel, isFluffy))
    ensures ReportsAtLevel(reports, fluffLevel, isFluffy) == []
  {
    if |reports| > 0 {
      NoneKeepErrors(reports[1..], fluffLevel, isFluffy);
    }
  }

  /** Level 1 is used only when no report keeps an error at level 0. */
  lemma LevelOneFallback<F>(matchResults: seq<StubMatchResults<F>>, isFluffy: (Result, nat) -> bool)
    requires forall i, f :: (0 <= i < |matchResults| && matchResults[i].errorReport.Some? &&
                             f in matchResults[i].errorReport.value.exceptionReport.failures) ==> isFluffy(f, 0)
    ensures ErrorReports(matchResults, isFluffy) == ReportsAtLevel(ReportsOf(matchResults), 1, isFluffy)
  {
    var reports := ReportsOf(matchResults);
    forall j | 0 <= j < |reports|
      ensures !HasErrors(WithoutFluff(reports[j], 0, isFluffy))
    {
      assert reports[j] in reports;
      var i :| 0 <= i < |matchResults| && matchResults[i].errorReport == Some(reports[j]);
      AllFluffy(reports[j].exceptionReport.failures, 0, isFluffy);
    }
    NoneKeepErrors(reports, 0, isFluffy);
  }

  // ---- the error message ----

  /** The message when no report is left: the stub matched no contract, then the request it sent. */
  function NoContractMatched<F>(matchResults: seq<StubMatchResults<F>>, stubFile: string, absent: string): (m: string)
    ensures |stubFile| > 0 && !IsWhitespace(stubFile[0]) ==> StartsWith(m, stubFile + " didn't match any of the contracts")
  {
    var request := if |matchResults| > 0 && matchResults[0].errorReport.Some?
                   then PrependIndent(matchResults[0].errorReport.value.exceptionReport.requestNotRecognized, "  ")
                   else absent;
    var line := stubFile + " didn't match any of the contracts";
    assert stubFile + " didn't match any of the contracts\n" + request == line + ("\n" + request);
    if |stubFile| > 0 && !IsWhitespace(stubFile[0]) then
      TrimKeepsFirstLine(line, "\n" + request);
      Trim(stubFile + " didn't match any of the contracts\n" + request)
    else Trim(stubFile + " didn't match any of the contracts\n" + request)
  }

  /** One paragraph per report: which contract the stub did not match, then the report indented. */
  function ReportParagraphs(reports: seq<StubMatchErrorReport>, stubFile: string, reportText: StubMatchExceptionReport -> string,
                            lineSeparator: string): (r: seq<string>)
    ensures |r| == |reports|
    ensures forall i :: 0 <= i < |r| ==> StartsWith(r[i], stubFile + " didn't match " + reports[i].contractFilePath + lineSeparator)
  {
    seq(|reports|, i requires 0 <= i < |reports| =>
      stubFile + " didn't match " + reports[i].contractFilePath + lineSeparator + PrependIndent(reportText(reports[i].exceptionReport), "  "))
  }

  /**
   * The error message for a stub, given how to print a missing request:
   * the paragraphs of the chosen reports separated by a blank line, or,
   * when no report is left or there were no features at all, the text
   * saying the stub matched no contract.
   */
  function MatchErrorMessage<F>(matchResults: seq<StubMatchResults<F>>, stubFile: string, isFluffy: (Result, nat) -> bool,
                                reportText: StubMatchExceptionReport -> string, lineSeparator: string, absent: string): (r: string)
    ensures ErrorReports(matchResults, isFluffy) == [] || matchResults == [] ==> r == NoContractMatched(matchResults, stubFile, absent)
    ensures ErrorReports(matchResults, isFluffy) != [] && matchResults != [] ==>
      r == Join(ReportParagraphs(ErrorReports(matchResults, isFluffy), stubFile, reportText, lineSeparator), lineSeparator + lineSeparator)
  {
    var errorReports := ErrorReports(matchResults, isFluffy);
    if errorReports == [] || matchResults == [] then NoContractMatched(matchResults, stubFile, absent)
    else Join(ReportParagraphs(errorReports, stubFile, reportText, lineSeparator), lineSeparator + lineSeparator)
  }

  /** The message as the code builds it: an absent request prints as "null". */
  function StubMatchErrorMessageAsWritten<F>(matchResults: seq<StubMatchResults<F>>, stubFile: string, isFluffy: (Result, nat) -> bool,
                                             reportText: StubMatchExceptionReport -> string, lineSeparator: string): (r: string)
    ensures matchResults == [] ==> r == NoContractMatched(matchResults, stubFile, "null")
  {
    MatchErrorMessage(matchResults, stubFile, isFluffy, reportText, lineSeparator, "null")
  }

  /** The message with an absent request left out. */
  function StubMatchErrorMessage<F>(matchResults: seq<StubMatchResults<F>>, stubFile: string, isFluffy: (Result, nat) -> bool,
                                    reportText: StubMatchExceptionReport -> string, lineSeparator: string): (r: string)
    ensures matchResults == [] ==> r == NoContractMatched(matchResults, stubFile, "")
    ensures ErrorReports(matchResults, isFluffy) != [] && matchResults != [] ==>
      StartsWith(r, stubFile + " didn't match " + ErrorReports(matchResults, isFluffy)[0].contractFilePath + lineSeparator)
  {
    var r := MatchErrorMessage(matchResults, stubFile, isFluffy, reportText, lineSeparator, "");
    var errorReports := ErrorReports(matchResults, isFluffy);
    if errorReports != [] && matchResults != [] then
      var paragraphs := ReportParagraphs(errorReports, stubFile, reportText, lineSeparator);
      JoinStartsWithFirst(paragraphs, lineSeparator + lineSeparator, stubFile + " didn't match " + errorReports[0].contractFilePath + lineSeparator);
      r
    else r
  }

  lemma JoinStartsWithFirst(parts: seq<string>, sep: string, prefix: string)
    requires |parts| > 0 && StartsWith(parts[0], prefix)
    ensures StartsWith(Join(parts, sep), prefix)
  {
    if |parts| > 1 {
      assert Join(parts, sep) == parts[0] + (sep + Join(parts[1..], sep));
    }
  }

  /**
   * With no features to match against, the code prints the absent request
   * as the word "null" on a line of its own.
   */
  lemma NoFeaturesPrintsNull(stubFile: string, isFluffy: (Result, nat) -> bool, reportText: StubMatchExceptionReport -> string,
                             lineSeparator: string)
    requires |stubFile| > 0 && !IsWhitespace(stubFile[0])
    ensures StubMatchErrorMessageAsWritten<int>([], stubFile, isFluffy, reportText, lineSeparator) ==
      stubFile + " didn't match any of the contracts\nnull"
  {
    var x := stubFile + " didn't match any of the contracts\nnull";
    assert x[0] == stubFile[0] && x[|x| - 1] == 'l';
    TrimUntouched(x);
  }

  /** Without the "null", the same message is the single sentence. */
  lemma NoFeaturesMessage(stubFile: string, isFluffy: (Result, nat) -> bool, reportText: StubMatchExceptionReport -> string,
                          lineSeparator: string)
    requires |stubFile| > 0 && !IsWhitespace(stubFile[0])
    ensures StubMatchErrorMessage<int>([], stubFile, isFluffy, reportText, lineSeparator) ==
      stubFile + " didn't match any of the contracts"
  {
    var x := stubFile + " didn't match any of the contracts";
    assert x[0] == stubFile[0] && x[|x| - 1] == 's';
    assert stubFile + " didn't match any of the contracts\n" + "" == x + "\n";
    TrimTrailingNewline(x);
  }

  /**
   * The corrected message differs from the source's only when there is no
   * contract: once the first contract has reported an error, both read the
   * same.
   */
  lemma MessagesAgreeWithContracts<F>(matchResults: seq<StubMatchResults<F>>, stubFile: string, isFluffy: (Result, nat) -> bool,
                                      reportText: StubMatchExceptionReport -> string, lineSeparator: string)
    requires |matchResults| > 0 && matchResults[0].errorReport.Some?
    ensures StubMatchErrorMessage(matchResults, stubFile, isFluffy, reportText, lineSeparator) ==
      StubMatchErrorMessageAsWritten(matchResults, stubFile, isFluffy, reportText, lineSeparator)
  {
  }

  /** A single report gives a single paragraph. */
  lemma SingleReportMessage<F>(matchResults: seq<StubMatchResults<F>>, stubFile: string, isFluffy: (Result, nat) -> bool,
                               reportText: StubMatchExceptionReport -> string, lineSeparator: string)
    requires |ErrorReports(matchResults, isFluffy)| == 1
    ensures StubMatchErrorMessage(matchResults, stubFile, isFluffy, reportText, lineSeparator) ==
      stubFile + " didn't match " + ErrorReports(matchResults, isFluffy)[0].contractFilePath + lineSeparator +
      PrependIndent(reportText(ErrorReports(matchResults, isFluffy)[0].exceptionReport), "  ")
  {
  }

  // ---- assigning stubs to features ----

  /** What each feature answers for a stub, in feature order. */
  function MatchResultsFor<F, S>(features: seq<(string, F)>, stub: S, stubMatch: (F, S) -> StubMatch, notRecognized: S -> string):
    (r: seq<StubMatchResults<F>>)
    ensures |r| == |features|
    ensures forall i :: 0 <= i < |r| ==> (r[i].feature.Some? <==> stubMatch(features[i].1, stub).Matched?)
    ensures forall i :: 0 <= i < |r| && r[i].feature.Some? ==> r[i].feature.value == features[i].1 && r[i].errorReport.None?
    ensures forall i :: 0 <= i < |r| && r[i].feature.None? ==>
      r[i].errorReport == Some(StubMatchErrorReport(
        StubMatchExceptionReport(notRecognized(stub), stubMatch(features[i].1, stub).failures), features[i].0))
  {
    seq(|features|, i requires 0 <= i < |features| =>
      match stubMatch(features[i].1, stub)
      case Matched => StubMatchResults(Some(features[i].1), None)
      case NoMatchingScenario(failures) =>
        StubMatchResults(None, Some(StubMatchErrorReport(StubMatchExceptionReport(notRecognized(stub), failures), features[i].0))))
  }

  /** The first feature that answered with a match. */
  function FirstFeature<F(==)>(matchResults: seq<StubMatchResults<F>>): (r: Option<F>)
    ensures r.None? <==> forall i :: 0 <= i < |matchResults| ==> matchResults[i].feature.None?
    ensures r.Some? ==> exists i :: (0 <= i < |matchResults| && matchResults[i].feature == r &&
      forall j :: 0 <= j < i ==> matchResults[j].feature.None?)
  {
    if |matchResults| == 0 then None
    else if matchResults[0].feature.Some? then matchResults[0].feature
    else
      var r := FirstFeature(matchResults[1..]);
      assert forall i :: 1 <= i < |matchResults| ==> matchResults[i] == matchResults[1..][i - 1];
      assert r.Some? ==> exists i :: (0 <= i < |matchResults| && matchResults[i].feature == r &&
        forall j :: 0 <= j < i ==> matchResults[j].feature.None?) by {
        if r.Some? {
          var i :| 0 <= i < |matchResults[1..]| && matchResults[1..][i].feature == r &&
                   forall j :: 0 <= j < i ==> matchResults[1..][j].feature.None?;
          assert matchResults[i + 1].feature == r;
        }
      }
      r
  }

  /** `f` is the first feature, in order, that accepts `stub`. */
  ghost predicate IsFirstAccepting<F, S>(features: seq<(string, F)>, stub: S, f: F, stubMatch: (F, S) -> StubMatch) {
    exists i :: 0 <= i < |features| && features[i].1 == f && stubMatch(features[i].1, stub).Matched? &&
      forall j :: 0 <= j < i ==> !stubMatch(features[j].1, stub).Matched?
  }

  predicate Accepted<F, S>(features: seq<(string, F)>, stub: S, stubMatch: (F, S) -> StubMatch) {
    exists i :: 0 <= i < |features| && stubMatch(features[i].1, stub).Matched?
  }

  /** The feature a stub is assigned to, if any accepts it. */
  function AssignedFeature<F(==), S>(features: seq<(string, F)>, stub: S, stubMatch: (F, S) -> StubMatch, notRecognized: S -> string):
    (r: Option<F>)
    ensures r.None? <==> !Accepted(features, stub, stubMatch)
    ensures r.Some? ==> IsFirstAccepting(features, stub, r.value, stubMatch)
  {
    var results := MatchResultsFor(features, stub, stubMatch, notRecognized);
    var r := FirstFeature(results);
    assert r.Some? ==> IsFirstAccepting(features, stub, r.value, stubMatch) by {
      if r.Some? {
        var i :| 0 <= i < |results| && results[i].feature == r && forall j :: 0 <= j < i ==> results[j].feature.None?;
        assert features[i].1 == r.value && stubMatch(features[i].1, stub).Matched?;
      }
    }
    r
  }

  /** The position of the first stub that no feature accepts. */
  function FirstUnaccepted<F(==), S>(features: seq<(string, F)>, stubData: seq<(string, S)>, stubMatch: (F, S) -> StubMatch):
    (r: Option<nat>)
    ensures r.Some? ==> r.value < |stubData| && !Accepted(features, stubData[r.value].1, stubMatch)
    ensures r.Some? ==> forall k :: 0 <= k < r.value ==> Accepted(features, stubData[k].1, stubMatch)
    ensures r.None? <==> forall j :: 0 <= j < |stubData| ==> Accepted(features, stubData[j].1, stubMatch)
  {
    if |stubData| == 0 then None
    else if !Accepted(features, stubData[0].1, stubMatch) then Some(0)
    else
      assert forall j :: 1 <= j < |stubData| ==> stubData[j] == stubData[1..][j - 1];
      match FirstUnaccepted(features, stubData[1..], stubMatch)
      case None => None
      case Some(i) => Some(i + 1)
  }

  /** The error strict mode ends loading with: the stub's match error message, indented. */
  function StrictModeError<F, S>(features: seq<(string, F)>, stubData: (string, S), stubMatch: (F, S) -> StubMatch,
                                 notRecognized: S -> string, isFluffy: (Result, nat) -> bool,
                                 reportText: StubMatchExceptionReport -> string, lineSeparator: string): Exception {
    var results := MatchResultsFor(features, stubData.1, stubMatch, notRecognized);
    OtherThrowable(PrependIndent(StubMatchErrorMessage(results, stubData.0, isFluffy, reportText, lineSeparator), "  "))
  }

  /**
   * The (feature, stub) pairs in stub order, each stub with the first
   * feature that accepts it; in strict mode the first stub no feature
   * accepts ends the loading with its error message, indented.
   */
  function AssignStubs<F(==), S>(features: seq<(string, F)>, stubData: seq<(string, S)>, strictMode: bool,
                             stubMatch: (F, S) -> StubMatch, notRecognized: S -> string, isFluffy: (Result, nat) -> bool,
                             reportText: StubMatchExceptionReport -> string, lineSeparator: string): (o: Outcome<seq<(F, S)>>)
    ensures !strictMode ==> o.Ok?
    ensures o.Ok? <==> !strictMode || forall j :: 0 <= j < |stubData| ==> Accepted(features, stubData[j].1, stubMatch)
    ensures o.Ok? ==> o.value == AcceptedPairs(features, stubData, stubMatch)
    ensures o.Thrown? ==> FirstUnaccepted(features, stubData, stubMatch).Some?
    ensures o.Thrown? ==>
      o.error == StrictModeError(features, stubData[FirstUnaccepted(features, stubData, stubMatch).value], stubMatch,
                                 notRecognized, isFluffy, reportText, lineSeparator)
  {
    if |stubData| == 0 then Ok([])
    else
      var (stubFile, stub) := stubData[0];
      var feature := AssignedFeature(features, stub, stubMatch, notRecognized);
      if feature.None? && strictMode then
        Thrown(StrictModeError(features, stubData[0], stubMatch, notRecognized, isFluffy, reportText, lineSeparator))
      else
        var rest := AssignStubs(features, stubData[1..], strictMode, stubMatch, notRecognized, isFluffy, reportText, lineSeparator);
        assert (forall j :: 0 <= j < |stubData| ==> Accepted(features, stubData[j].1, stubMatch)) <==>
               Accepted(features, stub, stubMatch) && forall j :: 0 <= j < |stubData[1..]| ==> Accepted(features, stubData[1..][j].1, stubMatch) by {
          assert forall j :: 0 <= j < |stubData[1..]| ==> stubData[1..][j] == stubData[j + 1];
          if forall j :: 0 <= j < |stubData[1..]| ==> Accepted(features, stubData[1..][j].1, stubMatch) {
            forall j | 1 <= j < |stubData|
              ensures Accepted(features, stubData[j].1, stubMatch)
            {
              assert stubData[j] == stubData[1..][j - 1];
            }
          }
        }
        if rest.Thrown? then
          var j := FirstUnaccepted(features, stubData[1..], stubMatch).value;
          assert stubData[1..][j] == stubData[j + 1];
          rest
        else if feature.Some? then Ok([(feature.value, stub)] + rest.value)
        else rest
  }

  /** Every stub that some feature accepts, paired with the first such feature, in stub order. */
  function AcceptedPairs<F, S>(features: seq<(string, F)>, stubData: seq<(string, S)>, stubMatch: (F, S) -> StubMatch):
    (r: seq<(F, S)>)
    ensures |r| <= |stubData|
    ensures forall p :: p in r ==> IsFirstAccepting(features, p.1, p.0, stubMatch)
    ensures (forall j :: 0 <= j < |stubData| ==> Accepted(features, stubData[j].1, stubMatch)) ==> |r| == |stubData|
  {
    if |stubData| == 0 then []
    else
      var stub := stubData[0].1;
      var rest := AcceptedPairs(features, stubData[1..], stubMatch);
      assert (forall j :: 0 <= j < |stubData| ==> Accepted(features, stubData[j].1, stubMatch)) ==>
             forall j :: 0 <= j < |stubData[1..]| ==> Accepted(features, stubData[1..][j].1, stubMatch) by {
        assert forall j :: 0 <= j < |stubData[1..]| ==> stubData[1..][j] == stubData[j + 1];
      }
      if Accepted(features, stub, stubMatch) then
        var i := FirstAcceptingIndex(features, stub, stubMatch);
        [(features[i].1, stub)] + rest
      else
        rest
  }

  function FirstAcceptingIndex<F, S>(features: seq<(string, F)>, stub: S, stubMatch: (F, S) -> StubMatch): (i: nat)
    requires Accepted(features, stub, stubMatch)
    ensures i < |features| && stubMatch(features[i].1, stub).Matched?
    ensures forall j :: 0 <= j < i ==> !stubMatch(features[j].1, stub).Matched?
  {
    if stubMatch(features[0].1, stub).Matched? then 0
    else
      assert Accepted(features[1..], stub, stubMatch) by {
        var k :| 0 <= k < |features| && stubMatch(features[k].1, stub).Matched?;
        assert features[1..][k - 1] == features[k];
      }
      var i := FirstAcceptingIndex(features[1..], stub, stubMatch);
      assert forall j :: 1 <= j < i + 1 ==> features[j] == features[1..][j - 1];
      i + 1
  }

  /** A stub no feature accepts is dropped: the pairs are those of the other stubs. */
  lemma {:induction false} UnacceptedStubDropped<F, S>(features: seq<(string, F)>, stubData: seq<(string, S)>, extra: (string, S),
                                                      stubMatch: (F, S) -> StubMatch)
    requires !Accepted(features, extra.1, stubMatch)
    ensures AcceptedPairs(features, stubData + [extra], stubMatch) == AcceptedPairs(features, stubData, stubMatch)
  {
    if |stubData| == 0 {
      assert ([extra])[1..] == [];
    } else {
      assert (stubData + [extra])[1..] == stubData[1..] + [extra];
      UnacceptedStubDropped(features, stubData[1..], extra, stubMatch);
    }
  }

  // ---- grouping ----

  /** The features that received a stub, each once, in the order of their first stub. */
  function DistinctFeatures<F(==, !new), S>(pairs: seq<(F, S)>): (r: seq<F>)
    ensures forall f :: f in r <==> exists k :: 0 <= k < |pairs| && pairs[k].0 == f
    ensures forall a, b :: 0 <= a < b < |r| ==> r[a] != r[b]
  {
    if |pairs| == 0 then []
    else
      var previous := DistinctFeatures(pairs[..|pairs| - 1]);
      var f := pairs[|pairs| - 1].0;
      assert forall k :: 0 <= k < |pairs| - 1 ==> pairs[..|pairs| - 1][k] == pairs[k];
      if f in previous then previous else previous + [f]
  }

  /** The stubs assigned to `f`, in order. */
  function StubsFor<F(==, !new), S>(pairs: seq<(F, S)>, f: F): (r: seq<S>)
    ensures |r| <= |pairs|
    ensures (forall k :: 0 <= k < |pairs| ==> pairs[k].0 != f) ==> r == []
  {
    if |pairs| == 0 then []
    else
      var previous := StubsFor(pairs[..|pairs| - 1], f);
      assert forall k :: 0 <= k < |pairs| - 1 ==> pairs[..|pairs| - 1][k] == pairs[k];
      previous + (if pairs[|pairs| - 1].0 == f then [pairs[|pairs| - 1].1] else [])
  }

  /** The index of the group for `f`, if there is one. */
  function GroupIndex<F(==, !new), S>(groups: seq<(F, seq<S>)>, f: F): (r: Option<nat>)
    ensures r.None? <==> forall i :: 0 <= i < |groups| ==> groups[i].0 != f
    ensures r.Some? ==> r.value < |groups| && groups[r.value].0 == f
  {
    if |groups| == 0 then None
    else if groups[0].0 == f then Some(0)
    else
      var r := GroupIndex(groups[1..], f);
      assert forall i :: 1 <= i < |groups| ==> groups[i] == groups[1..][i - 1];
      if r.Some? then Some(r.value + 1) else None
  }

  /** Adds one assigned stub: to the end of its feature's group, or as a new group at the end. */
  function GroupStep<F(==, !new), S>(groups: seq<(F, seq<S>)>, pair: (F, S)): (r: seq<(F, seq<S>)>)
    ensures TotalStubs(r) == TotalStubs(groups) + 1
  {
    match GroupIndex(groups, pair.0)
    case Some(i) =>
      TotalAfterAppend(groups, i, pair.1);
      groups[i := (pair.0, groups[i].1 + [pair.1])]
    case None =>
      TotalSnoc(groups, (pair.0, [pair.1]));
      groups + [(pair.0, [pair.1])]
  }

  /** The assigned stubs grouped by feature, one stub at a time. */
  function GroupByFeature<F(==, !new), S>(pairs: seq<(F, S)>): (r: seq<(F, seq<S>)>)
    ensures TotalStubs(r) == |pairs|
  {
    if |pairs| == 0 then [] else GroupStep(GroupByFeature(pairs[..|pairs| - 1]), pairs[|pairs| - 1])
  }

  /** The number of stubs over all groups. */
  function TotalStubs<F, S>(groups: seq<(F, seq<S>)>): nat {
    if |groups| == 0 then 0 else |groups[0].1| + TotalStubs(groups[1..])
  }

  lemma {:induction false} TotalSnoc<F, S>(groups: seq<(F, seq<S>)>, g: (F, seq<S>))
    ensures TotalStubs(groups + [g]) == TotalStubs(groups) + |g.1|
  {
    if |groups| > 0 {
      assert (groups + [g])[1..] == groups[1..] + [g];
      TotalSnoc(groups[1..], g);
    }
  }

  lemma {:induction false} TotalAfterAppend<F, S>(groups: seq<(F, seq<S>)>, i: nat, s: S)
    requires i < |groups|
    ensures TotalStubs(groups[i := (groups[i].0, groups[i].1 + [s])]) == TotalStubs(groups) + 1
  {
    var updated := groups[i := (groups[i].0, groups[i].1 + [s])];
    if i == 0 {
      assert updated[1..] == groups[1..];
    } else {
      assert updated[1..] == groups[1..][i - 1 := (groups[i].0, groups[i].1 + [s])];
      TotalAfterAppend(groups[1..], i - 1, s);
    }
  }

  /** The grouping as a whole: one group per feature that received a stub, holding its stubs in order. */
  ghost predicate IsGrouping<F(!new), S>(groups: seq<(F, seq<S>)>, pairs: seq<(F, S)>) {
    var features := DistinctFeatures(pairs);
    |groups| == |features| && forall i :: 0 <= i < |groups| ==> groups[i] == (features[i], StubsFor(pairs, features[i]))
  }

  /**
   * Grouping one stub at a time yields, for every feature in the order it
   * first received a stub, exactly the stubs assigned to it in stub order.
   */
  lemma {:induction false} GroupingByFeature<F(!new), S>(pairs: seq<(F, S)>)
    ensures IsGrouping(GroupByFeature(pairs), pairs)
  {
    if |pairs| > 0 {
      var previous := pairs[..|pairs| - 1];
      var (f, s) := pairs[|pairs| - 1];
      GroupingByFeature(previous);
      var groups := GroupByFeature(previous);
      var features := DistinctFeatures(previous);
      assert forall g :: StubsFor(pairs, g) == StubsFor(previous, g) + (if g == f then [s] else []);
      match GroupIndex(groups, f)
      case Some(i) =>
        assert features[i] == f;
        assert f in features;
        assert DistinctFeatures(pairs) == features;
        var next := groups[i := (f, groups[i].1 + [s])];
        forall k | 0 <= k < |next|
          ensures next[k] == (features[k], StubsFor(pairs, features[k]))
        {
          if k != i {
            assert features[k] != f;
            assert StubsFor(pairs, features[k]) == StubsFor(previous, features[k]);
          } else {
            assert StubsFor(pairs, f) == StubsFor(previous, f) + [s];
          }
        }
      case None =>
        assert f !in features;
        assert forall k :: 0 <= k < |previous| ==> previous[k].0 != f;
        assert StubsFor(previous, f) == [];
        assert DistinctFeatures(pairs) == features + [f];
        var next := groups + [(f, [s])];
        forall k | 0 <= k < |next|
          ensures next[k] == ((features + [f])[k], StubsFor(pairs, (features + [f])[k]))
        {
          if k < |groups| {
            assert features[k] != f;
            assert (features + [f])[k] == features[k];
            assert StubsFor(pairs, features[k]) == StubsFor(previous, features[k]);
            assert next[k] == groups[k];
          } else {
            assert (features + [f])[k] == f;
            assert StubsFor(pairs, f) == [s];
          }
        }
    }
  }

  /** The features listed without stubs: those, in feature order, that received none. */
  function MissingFeatures<F(==, !new)>(features: seq<F>, stubbed: seq<F>): (r: seq<F>)
    ensures forall f :: f in r <==> f in features && f !in stubbed
  {
    if |features| == 0 then []
    else
      assert forall f :: f in features <==> f == features[0] || f in features[1..];
      (if features[0] in stubbed then [] else [features[0]]) + MissingFeatures(features[1..], stubbed)
  }

  function FeaturesOf<F>(features: seq<(string, F)>): (r: seq<F>)
    ensures |r| == |features| && forall i :: 0 <= i < |r| ==> r[i] == features[i].1
  {
    seq(|features|, i requires 0 <= i < |features| => features[i].1)
  }

  /**
   * The features with the stubs they accept: the groups of accepted stubs
   * first, then every feature that received none with an empty list. An
   * unaccepted stub throws in strict mode and is dropped otherwise.
   */
  function LoadContractStubs<F(==, !new), S>(features: seq<(string, F)>, stubData: seq<(string, S)>, strictMode: bool,
                                       stubMatch: (F, S) -> StubMatch, notRecognized: S -> string, isFluffy: (Result, nat) -> bool,
                                       reportText: StubMatchExceptionReport -> string, lineSeparator: string):
    (o: Outcome<seq<(F, seq<S>)>>)
    ensures !strictMode ==> o.Ok?
    ensures o.Ok? <==> !strictMode || forall j :: 0 <= j < |stubData| ==> Accepted(features, stubData[j].1, stubMatch)
    ensures o.Thrown? ==> FirstUnaccepted(features, stubData, stubMatch).Some?
    ensures o.Thrown? ==>
      o.error == StrictModeError(features, stubData[FirstUnaccepted(features, stubData, stubMatch).value], stubMatch,
                                 notRecognized, isFluffy, reportText, lineSeparator)
    ensures o.Ok? ==> IsLayout(o.value, features, AcceptedPairs(features, stubData, stubMatch))
    ensures o.Ok? ==> forall i :: 0 <= i < |features| ==> exists k :: 0 <= k < |o.value| && o.value[k].0 == features[i].1
    ensures o.Ok? ==> TotalStubs(o.value) == |AcceptedPairs(features, stubData, stubMatch)|
    ensures o.Ok? ==> forall k, s :: 0 <= k < |o.value| && s in o.value[k].1 ==> IsFirstAccepting(features, s, o.value[k].0, stubMatch)
  {
    var pairs :- AssignStubs(features, stubData, strictMode, stubMatch, notRecognized, isFluffy, reportText, lineSeparator);
    var groups := GroupByFeature(pairs);
    GroupingByFeature(pairs);
    var stubbed := DistinctFeatures(pairs);
    var missing := MissingFeatures(FeaturesOf(features), stubbed);
    var r := groups + seq(|missing|, i requires 0 <= i < |missing| => (missing[i], []));
    LoadedGroupsCover(features, pairs, groups, missing, r);
    LoadedTotal(groups, missing, r);
    LoadedStubsAccepted(features, pairs, groups, missing, r, stubMatch);
    assert r[..|groups|] == groups;
    Ok(r)
  }

  /**
   * The shape of the loaded list: the groups of the assigned stubs first,
   * then each feature that received none, in feature order, with no stubs.
   */
  ghost predicate IsLayout<F(!new), S>(loaded: seq<(F, seq<S>)>, features: seq<(string, F)>, pairs: seq<(F, S)>) {
    var stubbed := DistinctFeatures(pairs);
    var missing := MissingFeatures(FeaturesOf(features), stubbed);
    |loaded| == |stubbed| + |missing| && IsGrouping(loaded[..|stubbed|], pairs) &&
    forall i :: 0 <= i < |missing| ==> loaded[|stubbed| + i] == (missing[i], [])
  }

  lemma LoadedGroupsCover<F(!new), S>(features: seq<(string, F)>, pairs: seq<(F, S)>, groups: seq<(F, seq<S>)>, missing: seq<F>,
                                    r: seq<(F, seq<S>)>)
    requires IsGrouping(groups, pairs)
    requires missing == MissingFeatures(FeaturesOf(features), DistinctFeatures(pairs))
    requires r == groups + seq(|missing|, i requires 0 <= i < |missing| => (missing[i], []))
    ensures forall i :: 0 <= i < |features| ==> exists k :: 0 <= k < |r| && r[k].0 == features[i].1
  {
    var stubbed := DistinctFeatures(pairs);
    forall i | 0 <= i < |features|
      ensures exists k :: 0 <= k < |r| && r[k].0 == features[i].1
    {
      var f := features[i].1;
      assert FeaturesOf(features)[i] == f;
      if f in stubbed {
        var k :| 0 <= k < |stubbed| && stubbed[k] == f;
        assert r[k] == groups[k];
      } else {
        assert f in missing;
        var k :| 0 <= k < |missing| && missing[k] == f;
        assert r[|groups| + k].0 == f;
      }
    }
  }

  lemma LoadedTotal<F, S>(groups: seq<(F, seq<S>)>, missing: seq<F>, r: seq<(F, seq<S>)>)
    requires r == groups + seq(|missing|, i requires 0 <= i < |missing| => (missing[i], []))
    ensures TotalStubs(r) == TotalStubs(groups)
  {
    var empties: seq<(F, seq<S>)> := seq(|missing|, i requires 0 <= i < |missing| => (missing[i], []));
    TotalEmpties(empties);
    TotalConcat(groups, empties);
  }

  lemma {:induction false} TotalEmpties<F, S>(empties: seq<(F, seq<S>)>)
    requires forall i :: 0 <= i < |empties| ==> empties[i].1 == []
    ensures TotalStubs(empties) == 0
  {
    if |empties| > 0 {
      TotalEmpties(empties[1..]);
    }
  }

  lemma {:induction false} TotalConcat<F, S>(a: seq<(F, seq<S>)>, b: seq<(F, seq<S>)>)
    ensures TotalStubs(a + b) == TotalStubs(a) + TotalStubs(b)
  {
    if |a| > 0 {
      assert (a + b)[0] == a[0];
      assert (a + b)[1..] == a[1..] + b;
      TotalConcat(a[1..], b);
    } else {
      assert a + b == b;
    }
  }

  lemma LoadedStubsAccepted<F(!new), S>(features: seq<(string, F)>, pairs: seq<(F, S)>, groups: seq<(F, seq<S>)>, missing: seq<F>,
                                      r: seq<(F, seq<S>)>, stubMatch: (F, S) -> StubMatch)
    requires forall p :: p in pairs ==> IsFirstAccepting(features, p.1, p.0, stubMatch)
    requires IsGrouping(groups, pairs)
    requires r == groups + seq(|missing|, i requires 0 <= i < |missing| => (missing[i], []))
    ensures forall k, s :: 0 <= k < |r| && s in r[k].1 ==> IsFirstAccepting(features, s, r[k].0, stubMatch)
  {
    forall k, s | 0 <= k < |r| && s in r[k].1
      ensures IsFirstAccepting(features, s, r[k].0, stubMatch)
    {
      if k < |groups| {
        var f := DistinctFeatures(pairs)[k];
        assert r[k] == (f, StubsFor(pairs, f));
        StubsForComeFromPairs(pairs, f, s);
      }
    }
  }

  lemma {:induction false} StubsForComeFromPairs<F(!new), S>(pairs: seq<(F, S)>, f: F, s: S)
    requires s in StubsFor(pairs, f)
    ensures (f, s) in pairs
  {
    var previous := pairs[..|pairs| - 1];
    if s in StubsFor(previous, f) {
      StubsForComeFromPairs(previous, f, s);
      assert (f, s) in previous;
    } else {
      assert pairs[|pairs| - 1] == (f, s);
    }
  }
}

=== FILE: values.dfy ===
/**
 * Runtime values: the JSON-like data that patterns match and generate.
 * Numbers are integers; fractional numbers are not part of this model.
 */
module Values {
  import opened Wrappers
  import opened Strings
  import AssocLists

  datatype Value =
    | NullValue
    | BooleanValue(booleanValue: bool)
    | NumberValue(number: int)
    | StringValue(stringValue: string)
    | JSONObjectValue(jsonObject: seq<(string, Value)>)
    | JSONArrayValue(list: seq<Value>)

  /** The empty string value the engine substitutes for an absent one. */
  const EmptyString: Value := StringValue("")

  /** The fact value that acts as a wildcard in server-state matching. */
  const True: Value := BooleanValue(true)

  predicate IsScalar(v: Value) {
    !v.JSONObjectValue? && !v.JSONArrayValue?
  }

  /**
   * The literal text of a value: scalars render as their plain text, and
   * compound values as compact JSON (string members quoted, no escaping).
   */
  function ToStringLiteral(v: Value): string
    decreases v, 1
  {
    match v
    case NullValue => "null"
    case BooleanValue(b) => if b then "true" else "false"
    case NumberValue(n) => IntToString(n)
    case StringValue(s) => s
    case JSONObjectValue(_) => "{" + MembersJson(v, 0) + "}"
    case JSONArrayValue(_) => "[" + ItemsJson(v, 0) + "]"
  }

  /** A value as it appears nested inside JSON. */
  function ToJson(v: Value): string
    decreases v, 2
  {
    if v.StringValue? then "\"" + v.stringValue + "\"" else ToStringLiteral(v)
  }

  function MembersJson(v: Value, i: nat): string
    requires v.JSONObjectValue? && i <= |v.jsonObject|
    decreases v, 0, |v.jsonObject| - i
  {
    if i == |v.jsonObject| then ""
    else
      (if i > 0 then "," else "") + "\"" + v.jsonObject[i].0 + "\":" + ToJson(v.jsonObject[i].1) + MembersJson(v, i + 1)
  }

  function ItemsJson(v: Value, i: nat): string
    requires v.JSONArrayValue? && i <= |v.list|
    decreases v, 0, |v.list| - i
  {
    if i == |v.list| then ""
    else (if i > 0 then "," else "") + ToJson(v.list[i]) + ItemsJson(v, i + 1)
  }

  /** The literal of a number is its decimal text, which reads back as the same number. */
  lemma NumberLiteralRoundTrip(n: int)
    ensures ParseInt(ToStringLiteral(NumberValue(n))) == Some(n)
    ensures |ToStringLiteral(NumberValue(n))| >= 1
  {
    ParseIntToString(n);
  }

  /** The type word used when a value is described in a mismatch message. */
  function DisplayableType(v: Value): string {
    match v
    case NullValue => "null"
    case BooleanValue(_) => "boolean"
    case NumberValue(_) => "number"
    case StringValue(_) => "string"
    case JSONObjectValue(_) => "json object"
    case JSONArrayValue(_) => "json array"
  }

  /** How a value is shown in messages: strings quoted, everything else as its literal. */
  function DisplayableValue(v: Value): (r: string)
    ensures v.StringValue? ==> r == "\"" + v.stringValue + "\""
    ensures !v.StringValue? ==> r == ToStringLiteral(v)
  {
    ToJson(v)
  }

  /** How an actual value is described in a mismatch message. */
  function ValueError(v: Value): string {
    DisplayableValue(v)
  }

  /** A top-level member of a JSON object value, or nothing for other values. */
  function Member(v: Value, key: string): (r: Option<Value>)
    ensures !v.JSONObjectValue? ==> r.None?
    ensures v.JSONObjectValue? ==> r == AssocLists.Get(v.jsonObject, key)
  {
    if v.JSONObjectValue? then AssocLists.Get(v.jsonObject, key) else None
  }

  /** Descends through nested objects one key at a time. */
  function FindByKeys(v: Value, keys: seq<string>): (r: Option<Value>)
    ensures |keys| == 0 ==> r == Some(v)
    ensures |keys| > 0 && Member(v, keys[0]).None? ==> r.None?
    decreases |keys|
  {
    if |keys| == 0 then Some(v)
    else
      match Member(v, keys[0])
      case None => None
      case Some(child) => FindByKeys(child, keys[1..])
  }

  /** `findFirstChildByPath`: a dot-separated path of object keys. */
  function FindFirstChildByPath(v: Value, path: string): Option<Value> {
    FindByKeys(v, Split(path, '.'))
  }

  /** A path without dots is a plain top-level lookup. */
  lemma {:induction false} PathWithoutDotIsMember(v: Value, key: string)
    requires '.' !in key
    ensures FindFirstChildByPath(v, key) == Member(v, key)
  {
    SplitWithoutSeparator(key, '.');
    assert Split(key, '.') == [key];
    match Member(v, key)
    case None =>
    case Some(child) =>
      assert FindByKeys(v, [key]) == FindByKeys(child, []);
  }

  /** A dotted path reaches a value nested two objects deep. */
  lemma {:induction false} NestedPathLookup(v: Value, outer: string, inner: string, child: Value)
    requires '.' !in outer && '.' !in inner
    requires Member(v, outer) == Some(child)
    ensures FindFirstChildByPath(v, outer + "." + inner) == Member(child, inner)
  {
    var path := outer + "." + inner;
    assert path[..|outer|] == outer;
    assert IndexOf(path, '.') == Some(|outer|) by {
      assert path[|outer|] == '.';
      assert path[..|outer|] == outer;
    }
    assert path[|outer| + 1..] == inner;
    SplitWithoutSeparator(inner, '.');
    assert Split(path, '.') == [outer, inner];
    assert FindByKeys(v, [outer, inner]) == FindByKeys(child, [inner]);
    assert [outer, inner][1..] == [inner];
    assert FindByKeys(child, [inner]) == Member(child, inner) by {
      match Member(child, inner)
      case None =>
      case Some(c) => assert FindByKeys(child, [inner]) == FindByKeys(c, []);
    }
  }
}

=== FILE: wrappers.dfy ===
/** Optional values, for the places where the source uses a nullable reference. */
module Wrappers {

  datatype Option<+T> = None | Some(value: T) {

    /** The value, or `default` when there is none (Kotlin's `?:`). */
    function GetOr(default: T): T {
      match this
      case Some(v) => v
      case None => default
    }
  }
}
